=== FILE: README.md ===
# libopenql core in Dafny

A model of the core of libopenql, a C library that simulates a quantum
computer on a classical one.  A quantum register (`ql_qreg`) is a sparse
vector of basis states.  Each entry is a 64-bit word (`MAX_UNSIGNED`) with a
complex amplitude.  The register also carries an open-addressing hash table
from state to entry index.  On this register the library defines:

- the table (hash, lookup, insertion, rebuild);
- the register life cycle: creation, copy, scratch bits, the tensor product
  of two registers, and the sum of two registers;
- conversion to and from a column matrix, plus the small dense-matrix
  routines it uses (product, adjoint, memory accounting);
- the classical gates (X, CNOT, Toffoli, multi-controlled X, swaps) and the
  phase gates;
- the general one- and two-qubit gates `U1` and `U2`, which apply a 2x2 or
  4x4 matrix, grow the register with missing partner states, and prune
  entries whose probability falls below a limit;
- measurement of the whole register, measurement of one qubit with
  collapse, and `bmeasure_bit`;
- the mixed-state density operator: creation, the reduced operator after
  tracing out one qubit, deletion;
- the decoherence step every gate ends with;
- the three-copy error-correcting code (encode, decode, periodic refresh,
  encoded X, CNOT and Toffoli);
- the quantum Fourier transform and its inverse, as gate sequences.

Modelling choices:

- A state word is `Word = seq<bool>` of length 64, least significant bit
  first (module Bits).
- Amplitudes are exact complex numbers over `real` (module Complex).
- A hash table is a `seq<nat>`: 0 is an empty slot and `i + 1` points at
  entry `i`.
- Registers are immutable values.  An operation returns the new register,
  and an operation that fails returns `Result.Fail` with the library's error
  code (module Errors).
- Randomness (`ql_frand`, the Gaussian draws) is a parameter.  So are
  `euler_formula`, the square-root normaliser and `pi`.
- Where the C code does something its authors evidently did not mean, the
  model keeps that code as written (members named `...AsWritten`).  It also
  gives the corrected definition, and proves the corrected one.  Each such
  case is a row under "## Findings".

Modules follow the source files: Errors (`ql_error.c`), HashIndex
(`ql_qreg.h`), Register, Collapse, VectorAdd and Conversion (`ql_qreg.c`),
Matrix (`ql_matrix.c`), Gates, Unitary, UnitaryTwo, UnitaryTwoMix and
UnitaryTwoOp (`ql_qop.c`), UnitaryFindings (worked inputs for `U1`),
Measure (`ql_measure.c`), Density (`ql_density.c`), Decoherence
(`ql_decoherence.c`), Qec (`ql_qec.c`) and Qft (`ql_qft.c`).  Bits, Arith,
Complex and Wrappers are support modules.

## Model

| member | source | states |
|---|---|---|
| Errors.Message | src/ql_error.c:21-31 | each known code has its own message; the "unknown error code" text is returned exactly for codes outside the library's list |
| Errors.MessagesDistinct | src/ql_error.c:22-29 | two different known codes never share a message |
| Errors.InstallHandler | src/ql_error.c:33-39 | a non-null handler is installed; a null one leaves the registry as it was; the currently installed handler is returned either way |
| Errors.Raise | src/ql_error.c:41-51 | the code reaches the installed handler exactly when one is installed; otherwise the call aborts |
| Errors.RaiseAfterInstalls | src/ql_error.c:33-51 | after any run of install calls, raising aborts with the code's message if every call passed null, and otherwise delivers the code to the last non-null handler |
| Errors.InstallAllLast | src/ql_error.c:33-39 | after a run of install calls the registry holds the last non-null handler, or is unchanged if there was none |
| HashIndex.Hash64 | include/openql/ql_qreg.h:68-75 | the home slot of a key is below `2^width` for every width from 1 to 32 |
| HashIndex.Int32Of | include/openql/ql_qreg.h:79 | converting a state to the `int` result keeps it within the 32-bit range and congruent to the state modulo `2^32` |
| HashIndex.Probe | include/openql/ql_qreg.h:82-89 | a probe that answers an index answers one whose entry holds the key; a probe that never stops has seen only occupied slots |
| HashIndex.ProbeSpinsFull | include/openql/ql_qreg.h:82-89 | the lookup loop can only run forever on a table with no empty slot |
| HashIndex.GetState | include/openql/ql_qreg.h:77-90 | without a table the key itself is returned, cut to `int`; with a table, an index holds the key, and an endless search means the table is full |
| HashIndex.Scan | include/openql/ql_qreg.h:94-106 | the insertion scan ends on an empty slot or fails with the hash-full code |
| HashIndex.ScanIsFirstEmpty | include/openql/ql_qreg.h:94-106 | the scan, with its single wrap to slot 0, finds the first empty slot in cyclic order from the home slot, and fails exactly when there is none |
| HashIndex.FirstEmptyFull | include/openql/ql_qreg.h:96-104 | a full turn of the table from any slot finds no empty slot exactly when the table is full |
| HashIndex.AddHash | include/openql/ql_qreg.h:92-108 | insertion fails, with the hash-full code, exactly when the table is full; otherwise it writes `pos + 1` into the first empty slot in probe order from the key's home, and changes nothing else |
| HashIndex.CountUsedFill | include/openql/ql_qreg.h:107 | filling an empty slot raises the number of used slots by one |
| HashIndex.ProbeFindsInserted | include/openql/ql_qreg.h:82-107 | after an entry is inserted at the first empty slot from some start, a lookup of its state from that start finds it (the other entries hold other states) |
| HashIndex.InsertFromCorrect | include/openql/ql_qreg.h:116-118 | inserting pairwise distinct states one after another never fails, and leaves a table where every inserted state is found from its home slot |
| HashIndex.ReconstructHash | include/openql/ql_qreg.h:110-119 | a register without a table is left alone; a rebuilt table keeps its size |
| HashIndex.ReconstructCorrect | include/openql/ql_qreg.h:110-119 | for distinct states that fit the table, the rebuild succeeds, uses exactly `size` slots, `get_state` returns `k` for the `k`-th state, and a state not in the register is reported absent |
| HashIndex.Bitmask | include/openql/ql_qreg.h:121-132 | the mask is below `2^width` and its bit `i` is the state's bit `bits[i]` |
| Register.EmptyTable | src/ql_qreg.c:87 | a fresh table has `2^hashw` slots, all empty |
| Register.New | src/ql_qreg.c:70-98 | a new register has one entry, the initial state with amplitude 1, width `width`, table width `width + 2`, and an all-empty table |
| Register.NewNotIndexed | src/ql_qreg.c:70-98 | the new register's table does not yet index its one state; after a rebuild it is found at index 0 |
| Register.Alloc | src/ql_qreg.c:100-118 | an allocated register has `siz` zero amplitudes, no states, no table and table width 0 |
| Register.AndStateAlloc | src/ql_qreg.c:120-139 | as `Alloc`, but with `siz` states, all 0 |
| Register.Copy | src/ql_qreg.c:174-202 | the copy has the same width, states and amplitudes; it shares the table when there is none, and otherwise gets a fresh empty table of the same size |
| Register.CopyReconstruct | src/ql_qreg.c:174-202 | rebuilding the copy's table gives the same table as rebuilding the original's |
| Register.AddScratch | src/ql_qreg.c:204-211 | adding `bits` scratch qubits widens the register and shifts every state left by `bits`; amplitudes and table stay |
| Register.AddScratchInverse | src/ql_qreg.c:204-211 | when no state loses a bit to the shift, shifting back right recovers every state and the new low bits are clear |
| Register.Kronecker | src/ql_qreg.c:236-266 | the product register has the summed width, table width `width + 2`, `size1 * size2` entries and an empty table |
| Register.KroneckerAt | src/ql_qreg.c:256-264 | entry `i * size2 + j` holds state `s1[i] << w2 | s2[j]` with amplitude `a1[i] * a2[j]` |
| Register.KroneckerEntry | src/ql_qreg.c:256-264 | every product entry comes from exactly one pair `(i, j)` |
| Register.JoinInjective | src/ql_qreg.c:261 | when the halves fit their widths, joining two states is injective |
| Register.KroneckerDistinct | src/ql_qreg.c:236-266 | the product of two registers with distinct, fitting states has distinct states |
| Collapse.Kept | src/ql_qreg.c:273-279 | the entries whose bit `pos` matches the outcome, in increasing order, all of them |
| Collapse.Weigh | src/ql_qreg.c:271-279 | the counting loop yields the number of matching entries and the sum of their probabilities |
| Collapse.KeptAmplitudes | src/ql_qreg.c:309 | the collapsed amplitudes are the matching entries' amplitudes, each scaled by the normaliser of their total probability |
| Collapse.CollapseAsWritten | src/ql_qreg.c:268-315 | as written, the result has width one less and shares the table, the amplitudes are right, and every state is 0 |
| Collapse.Collapse | src/ql_qreg.c:268-315 | the corrected collapse: width one less, shared table, the scaled matching amplitudes |
| Collapse.CollapseKeeps | src/ql_qreg.c:294-309 | entry `t` of the corrected result is the `t`-th matching state with bit `pos` deleted |
| Collapse.CollapseInverse | src/ql_qreg.c:294-308 | inserting the outcome bit back at `pos` into each collapsed state gives the original matching state |
| Collapse.CollapseDistinct | src/ql_qreg.c:294-308 | the corrected collapse keeps the states distinct |
| Collapse.CollapseAsWrittenRepeats | src/ql_qreg.c:294-308 | as written, two or more matching entries give a register with a repeated state |
| Collapse.CollapseExample | src/ql_qreg.c:294-308 | states 0 and 2 collapsed on bit 0 to 0 give states 0, 0 as written and 0, 1 corrected |
| VectorAdd.Missing | src/ql_qreg.c:415-419 | the entries of the second register whose states the first lacks, in increasing order, all of them |
| VectorAdd.AddMatching | src/ql_qreg.c:440-449 | a state the second register lacks keeps its amplitude |
| VectorAdd.AddMatchingOnce | src/ql_qreg.c:441-443 | a state the second register holds once gets that entry's amplitude added |
| VectorAdd.RebuiltLookup | src/ql_qreg.c:413 | after the rebuild, a lookup in the first register answers the entry holding the state, or absent |
| VectorAdd.CountMissing | src/ql_qreg.c:412-420 | the counting loop's `addsize` is the number of missing states |
| VectorAdd.MergeOne | src/ql_qreg.c:440-449 | one step of the merge loop keeps the merge invariant: matched amplitudes added, missing states appended in order |
| VectorAdd.VectorAddInPlace | src/ql_qreg.c:408-452 | the result holds the first register's states, then the missing ones in order; each amplitude is the sum of the two registers' amplitudes for that state |
| VectorAdd.VectorAddDense | src/ql_qreg.c:435-438 | without states in the second register, amplitudes are added position by position and nothing else changes |
| VectorAdd.VectorAddDistinct | src/ql_qreg.c:440-449 | the merged register's states are distinct when both inputs' are |
| VectorAdd.VectorAddCopy | src/ql_qreg.c:361-406 | the copying sum holds the in-place sum's states and amplitudes (the first register's states, then the missing ones in order, each amplitude the sum for its state) under a fresh empty table; the first register keeps its entries and ends with its table rebuilt |
| Conversion.NonZero | src/ql_qreg.c:39-41 | the rows with a non-zero entry, in increasing order, all of them |
| Conversion.Matrix2Qreg | src/ql_qreg.c:34-68 | conversion fails, with the single-column code, exactly when the matrix is not one column; otherwise the register has one entry per non-zero row, with that row number as state and its value as amplitude |
| Conversion.ScatterLast | src/ql_qreg.c:28-30 | when several entries write the same row, the last one wins |
| Conversion.Qreg2Matrix | src/ql_qreg.c:26-32 | the column has `2^width` rows, each entry's amplitude at the row of its state, zero elsewhere |
| Conversion.Matrix2QregRows | src/ql_qreg.c:34-68 | for a `2^width`-row column, every state fits the width and is its row number |
| Conversion.MatrixRoundTrip | src/ql_qreg.c:26-68 | a `2^width`-row column converted to a register and back is the same column |
| Conversion.QregRoundTrip | src/ql_qreg.c:26-68 | a register with states in increasing order and no zero amplitude, converted to a column and back, is the same register up to its fresh table |
| Conversion.ScatterNonZero | src/ql_qreg.c:26-41 | scattering increasing states with non-zero amplitudes gives a column whose non-zero rows are exactly those states |
| Matrix.New | src/ql_matrix.c:32-45 | a new matrix has the given shape and every entry 0 |
| Matrix.MMult | src/ql_matrix.c:86-97 | the product fails, with the size code, exactly when the inner dimensions differ; otherwise entry `(i, j)` is the sum over `k` of `A(k, j) * B(i, k)` |
| Matrix.MMultIdentity | src/ql_matrix.c:86-97 | the identity times `B` is `B` |
| Matrix.SwapConj | src/ql_matrix.c:104-106 | one step of the adjoint loop sets `(i, j)` and `(j, i)` to each other's conjugates and leaves every other entry alone |
| Matrix.AdjointCorrect | src/ql_matrix.c:99-110 | off the diagonal of the leading square, entry `(x, y)` becomes the conjugate of the old `(y, x)`; the diagonal and the rows below the square are kept |
| Matrix.AdjointInvolution | src/ql_matrix.c:99-110 | applying the adjoint twice restores the matrix |
| Matrix.AdjointKeepsDiagonal | src/ql_matrix.c:102-103 | the 1x1 matrix `[i]` comes back as `[i]`, where the conjugate transpose is `[-i]` |
| Matrix.ConjugateTranspose | src/ql_matrix.c:99-110 | the intended adjoint: entry `(x, y)` is the conjugate of `(y, x)`, shape transposed |
| Matrix.ConjugateTransposeInvolution | src/ql_matrix.c:99-110 | the conjugate transpose of the conjugate transpose is the matrix |
| Matrix.AdjointOffDiagonal | src/ql_matrix.c:102-108 | on a square matrix the library's adjoint agrees with the conjugate transpose everywhere off the diagonal |
| Matrix.Memsize | src/ql_matrix.c:23-30 | the running total moves by the change, the high-water mark never falls and equals the total whenever it rises, and the result is the total modulo `2^64` |
| Matrix.MemsizeHighWater | src/ql_matrix.c:23-30 | after a run of changes the total is the sum of the changes, the mark is at least every prefix total, and it stays put if no prefix rises above it |
| Gates.X | src/ql_qop.c:89-99 | every state has its target bit flipped; amplitudes, width and table stay |
| Gates.CX | src/ql_qop.c:27-38 | every state whose control bit is set has its target bit flipped |
| Gates.CCX | src/ql_qop.c:40-54 | every state whose two control bits are set has its target bit flipped |
| Gates.ControlledX | src/ql_qop.c:56-87 | each state is rewritten by the multi-controlled flip |
| Gates.ControlledXFlipsIffAllSet | src/ql_qop.c:75-81 | a state's target bit flips exactly when all its control bits are set; otherwise the state is unchanged |
| Gates.ControlledXNone | src/ql_qop.c:56-87 | with no controls the gate is `X` |
| Gates.ControlledXFew | src/ql_qop.c:27-87 | with one control it is `CX`, with two it is `CCX` |
| Gates.XInvolution | src/ql_qop.c:89-99 | `X` twice restores the register |
| Gates.CXInvolution | src/ql_qop.c:27-38 | `CX` twice restores the register when control and target differ |
| Gates.CCXInvolution | src/ql_qop.c:40-54 | `CCX` twice restores the register when the target is neither control |
| Gates.ControlledXInvolution | src/ql_qop.c:56-87 | the multi-controlled X twice restores the register when the target is not a control |
| Gates.Y | src/ql_qop.c:101-115 | states are flipped as by `X`; each amplitude is multiplied by `i` if the flipped bit is now set, by `-i` if it is now clear |
| Gates.YInvolution | src/ql_qop.c:101-115 | `Y` twice restores the register |
| Gates.Z | src/ql_qop.c:117-128 | amplitudes of states with the target set are negated; states stay |
| Gates.ZInvolution | src/ql_qop.c:117-128 | `Z` twice restores the register |
| Gates.RZ | src/ql_qop.c:422-434 | given `zinv` with `z * zinv == 1`: set target, amplitude times `z`; clear target, amplitude divided by `z`, so that multiplying the new amplitude by `z` gives the old one back |
| Gates.RZInverse | src/ql_qop.c:422-434 | `RZ` with the factors swapped undoes `RZ` when `z * zinv == 1` |
| Gates.PScale | src/ql_qop.c:436-447 | every amplitude is multiplied by the same factor |
| Gates.PKick | src/ql_qop.c:449-462 | amplitudes of states with the target set are multiplied by the factor |
| Gates.ControlledPhase | src/ql_qop.c:464-531 | amplitudes of states with both bits set are multiplied by the factor; the rest stay |
| Gates.CP | src/ql_qop.c:464-479 | states with control and target set get the phase `euler(pi / 2^(control - target))`; the rest stay |
| Gates.CPInv | src/ql_qop.c:481-496 | the same with the opposite angle |
| Gates.CPInvUndoesCP | src/ql_qop.c:464-496 | `CP_inv` after `CP` restores the register when the two phases multiply to 1 |
| Gates.CPKick | src/ql_qop.c:498-512 | states with both bits set get the factor; the rest stay |
| Gates.CPShift | src/ql_qop.c:514-531 | given `zinv` with `z * zinv == 1`: with the control set, a set target gets `z` and a clear one is divided by `z` (the new amplitude times `z` is the old one); with the control clear, nothing changes |
| Gates.SwapBlocks | src/ql_qop.c:130-145 | bits `b` and `b + width` are exchanged for every `b < width`; bits from `2 * width` up are kept |
| Gates.SwapWordIsSwapBlocks | src/ql_qop.c:132-142 | the arithmetic of the C loop (patterns cut out, shifted and put back) is that exchange |
| Gates.Swap | src/ql_qop.c:130-145 | every state has its two width-blocks exchanged; amplitudes and table stay |
| Gates.SwapInvolution | src/ql_qop.c:130-145 | `SWAP` twice restores the register |
| Gates.CSwapRoundSwaps | src/ql_qop.c:148-152 | the three Toffoli calls of one round exchange bits `a` and `b` when the control is set, and change nothing otherwise |
| Gates.CSwap | src/ql_qop.c:147-154 | every state is rewritten by the rounds of controlled exchanges |
| Gates.CSwapExchanges | src/ql_qop.c:147-154 | with the control outside both blocks, the gate exchanges the blocks of states whose control is set, leaves the others alone, and twice restores the register |
| Gates.Counter | src/ql_qop.c:533-541 | an increment of 0 reads the counter without changing it |
| Gates.CounterRunSum | src/ql_qop.c:533-541 | after a run of non-negative increments the counter has grown by their sum; after a negative one it restarts from 0 |
| Unitary.Partners | src/ql_qop.c:164 | each state's partner is the state with the target bit flipped |
| Unitary.LookupsPaired | src/ql_qop.c:163-167 | with a correct table, each lookup answers the index of the partner, or absent when the register lacks it |
| Unitary.Start | src/ql_qop.c:169-182 | the grown arrays keep the old entries and add `addsize` zero entries with state 0 |
| Unitary.Run | src/ql_qop.c:192-232 | the sweep keeps the arrays' length and never rewrites an old entry's state |
| Unitary.GrownExact | src/ql_qop.c:215-226 | the entries that get a new partner appended are exactly those with no partner whose gate entry moves amplitude to it, in order |
| Unitary.SweepMeaning | src/ql_qop.c:192-232 | with the corrected sweep, every used entry's amplitude is the matrix applied to the pair (state, partner) of old amplitudes, the used states are distinct, and every state with a non-zero result is among them |
| Unitary.SurvivorsExact | src/ql_qop.c:239-247 | the kept entries are exactly those with probability at or above the limit, in order |
| Unitary.Prune | src/ql_qop.c:237-253 | the pruned arrays are the kept entries in order, and `decsize` is the number dropped |
| Unitary.Compact | src/ql_qop.c:239-247 | the in-place loop moves every kept entry down to its place in order |
| Unitary.Limit | src/ql_qop.c:191 | the pruning limit is `epsilon / 2^width`, positive and at most `epsilon` |
| Unitary.Rebuilt | src/ql_qop.c:160-161 | the rebuilt table answers every state's index and is never full |
| Unitary.PartnerLookups | src/ql_qop.c:163-167 | the lookups the gate makes are paired with the partners |
| Unitary.SweepOf | src/ql_qop.c:159-232 | the swept arrays have `size + addsize` entries, `addsize` being the number of missing partners |
| Unitary.U1Of | src/ql_qop.c:156-269 | the gate fails, with the size code, exactly when the matrix is not 2x2; otherwise it returns the pruned sweep with the width and table kept |
| Unitary.U1AsWritten | src/ql_qop.c:156-269 | as written (the `break`, the `int` variables), with the same error behaviour |
| Unitary.U1 | src/ql_qop.c:156-269 | the corrected gate, with the same error behaviour |
| Unitary.PruneMeaning | src/ql_qop.c:239-253 | pruning a sweep that computes `f` keeps exactly the entries whose `f` value is at or above the limit |
| Unitary.PruneComplete | src/ql_qop.c:239-253 | every state whose value is at or above the limit survives the pruning |
| Unitary.SweepPrune | src/ql_qop.c:192-253 | the pruned corrected sweep holds distinct states, each with the matrix applied to its old pair of amplitudes |
| Unitary.U1Correct | src/ql_qop.c:156-269 | for a 2x2 matrix the corrected gate returns distinct states; each amplitude is the matrix applied to the old pair and at or above the limit; and every state whose new amplitude is at or above the limit is present |
| UnitaryTwo.GroupPatternsAsWritten | src/ql_qop.c:321-329 | as written, `base[j]` holds the group member whose pattern is `j` with its two bits exchanged exactly when the group is entered at a state whose two target bits agree; entered at a state with `target1` set and `target2` clear, `base[0]` holds the member with both target bits set |
| UnitaryTwo.Find | src/ql_qop.c:323-329 | a lookup answers an index exactly when the register holds the state, and that index holds it |
| UnitaryTwo.ClaimedDistinct | src/ql_qop.c:331-336 | the states a group claims for new slots are distinct |
| UnitaryTwo.MissCounts | src/ql_qop.c:280-288 | for each entry, the number of its three group partners the register lacks |
| UnitaryTwo.AskedIsAddSize | src/ql_qop.c:280-336 | the slots the walk asks for add up to the corrected `addsize` |
| UnitaryTwo.ClaimBound | src/ql_qop.c:280-336 | the slots the walk fills never exceed the corrected `addsize` |
| UnitaryTwo.OverflowAsWritten | src/ql_qop.c:280-288 | as written, a one-entry register gets `addsize` 2 while the walk fills 3 slots |
| UnitaryTwo.SlotsFresh | src/ql_qop.c:331-336 | the states of the new slots are distinct and none is in the register |
| UnitaryTwoMix.MixAt | src/ql_qop.c:340-346 | after the mixing loop, entry `base[k]` holds row `k` of the matrix applied to the saved group amplitudes, and every other entry is unchanged |
| UnitaryTwoMix.WalkOfMeaning | src/ql_qop.c:316-349 | the corrected walk gives each state of the register and of the new slots the 4x4 matrix applied to its group's old amplitudes |
| UnitaryTwoMix.WalkAmpsAll | src/ql_qop.c:316-349 | at every step of the walk, the entries already visited hold their mixed amplitudes |
| UnitaryTwoMix.PlacedDistinct | src/ql_qop.c:331-336 | the four `base` positions of a group are distinct |
| UnitaryTwoOp.GrownAsWritten | src/ql_qop.c:280-349 | as written, the grown arrays have `size + addsize` entries and every new slot keeps state 0 |
| UnitaryTwoOp.GrownIntended | src/ql_qop.c:280-349 | with the corrected count, the grown arrays have `size + addsize` entries |
| UnitaryTwoOp.U2Of | src/ql_qop.c:271-380 | the gate fails, with the size code, exactly when the matrix is not 4x4; otherwise the table is rebuilt and the register is the pruned walk |
| UnitaryTwoOp.U2AsWritten | src/ql_qop.c:271-380 | as written, with the same error behaviour |
| UnitaryTwoOp.U2 | src/ql_qop.c:271-380 | the corrected gate, with the same error behaviour |
| UnitaryTwoOp.U2Correct | src/ql_qop.c:271-380 | for a 4x4 matrix the corrected gate returns distinct states; each amplitude is the matrix applied to its group's old amplitudes and at or above the limit; every such state is present |
| UnitaryTwoOp.U2Shape | src/ql_qop.c:350-371 | the corrected result is the grown walk with the entries below the limit removed |
| UnitaryTwoOp.U2AsWrittenRepeats | src/ql_qop.c:299-336 | as written, when two new slots survive the pruning, the result holds state 0 twice |
| UnitaryFindings.BreakFreezes | src/ql_qop.c:215-217 | as written, once the `break` fires, the sweep stops and no later entry is touched |
| UnitaryFindings.BreakAsWritten | src/ql_qop.c:192-232 | as written, the phase flip on bit 0 of the register {0, 3} leaves state 3 at amplitude 1 |
| UnitaryFindings.BreakIntended | src/ql_qop.c:192-232 | corrected, state 3 gets amplitude -1 |
| UnitaryFindings.TruncateAsWritten | src/ql_qop.c:196-207 | as written, NOT on bit 0 of {0, 1} with amplitudes 1/2 drops state 0, because `int tnot` truncates 1/2 to 0 |
| UnitaryFindings.TruncateIntended | src/ql_qop.c:196-207 | corrected, state 0 keeps amplitude 1/2 |
| UnitaryFindings.HighAsWritten | src/ql_qop.c:195 | as written, the phase flip on bit 32 of state `2^32` leaves amplitude 1, because `int iset` loses bit 32 |
| UnitaryFindings.HighIntended | src/ql_qop.c:195-208 | corrected, the amplitude becomes -1 |
| UnitaryFindings.U1OfPrunes | src/ql_qop.c:156-269 | the gate's result is the sweep pruned at the limit, for either variant |
| UnitaryFindings.AsWrittenDropsFirst | src/ql_qop.c:239-253 | as written, when the swept first entry falls below the limit and no other entry holds its state, the result lacks that state |
| UnitaryFindings.IntendedGives | src/ql_qop.c:156-269 | corrected, a state whose new amplitude reaches the limit is in the result with that amplitude |
| Measure.Measure | src/ql_measure.c:32-39 | the result is the state of the first entry at which the running probability reaches `r`, or all ones when no entry does; for `r` within the total it is a state of the register |
| Measure.Outcome | src/ql_measure.c:41-54 | the outcome is 1 exactly when `r` exceeds the probability of bit `pos` being clear |
| Measure.ShareOut | src/ql_measure.c:44-49 | the clear and set probabilities add up to the register's total |
| Measure.DeleteHash | src/ql_qreg.c:162-172 | freeing leaves the caller's struct with its size, width and table, and no arrays |
| Measure.BMeasureAsWritten | src/ql_measure.c:41-59 | as written, the caller gets the outcome and a register whose arrays were freed; the collapsed register is lost |
| Measure.BMeasureLosesCollapse | src/ql_measure.c:55-57 | as written, when some entry disagrees with the outcome, the caller's freed register reports more entries than the collapse kept |
| Measure.BMeasure | src/ql_measure.c:41-59 | corrected, the caller gets the collapsed register: width one less, the matching states with the bit removed, amplitudes scaled |
| Measure.Copied | src/ql_measure.c:111-117 | the entries copied out are exactly those matching the outcome with a non-zero amplitude, in order |
| Measure.CopiedFit | src/ql_measure.c:79-117 | the copied entries never outnumber the counted ones |
| Measure.BitOutput | src/ql_measure.c:97-117 | the output has the counted size, the input's width and table, and the copied entries at the front with scaled amplitudes |
| Measure.BMeasureBitAsWritten | src/ql_measure.c:61-121 | as written, the output is sized by the count of matching entries, so an entry that was already zero leaves a zero slot at the end |
| Measure.BMeasureBit | src/ql_measure.c:61-121 | corrected, every output state has bit `pos` equal to the outcome, and the output states are exactly the matching states with non-zero amplitude |
| Measure.BitOutputStates | src/ql_measure.c:111-117 | the output states are the copied states, in order |
| Measure.BitOutputNonZero | src/ql_measure.c:111-117 | with a non-zero normaliser, no output amplitude is zero |
| Measure.BitAgree | src/ql_measure.c:61-121 | when no matching entry was zero already, the as-written and corrected outputs agree |
| Measure.BitAsWrittenPads | src/ql_measure.c:97-117 | when some matching entry was already zero, the as-written output has a padding entry |
| Measure.CopiedFewer | src/ql_measure.c:79-117 | an already-zero matching entry makes the copy strictly shorter than the count |
| Density.Emptied | src/ql_density.c:41-45 | a register moved into the operator is left with size and width 0, no arrays and no table |
| Density.NewOp | src/ql_density.c:25-60 | the operator holds `num` probabilities and registers; every register but the first takes the first's table; the moved-from registers are emptied |
| Density.Qreg2Density | src/ql_density.c:62-65 | a register becomes the operator with one register at probability 1 |
| Density.ClearProbs | src/ql_density.c:80-86 | for each register, the probability that bit `pos` is clear |
| Density.SplitProbs | src/ql_density.c:88-89 | probability `k` splits into `p * p0` and, at `num + k`, `p * (1 - p0)` |
| Density.SplitRegs | src/ql_density.c:90-91 | register `k` is replaced by its intended collapse to 0 and, at `num + k`, its intended collapse to 1 |
| Density.ReducedOp | src/ql_density.c:67-97 | the intended partial trace: tracing out `pos` doubles the count, splits each probability and collapses each register both ways with the intended collapse |
| Density.ReducedValid | src/ql_density.c:67-97 | the reduced operator is well formed |
| Density.ReducedPair | src/ql_density.c:88-89 | the two halves of a split probability add up to the original |
| Density.ReducedBranches | src/ql_density.c:88-91 | each branch pairs its probability share with its intended collapse |
| Density.SplitRegsAsWritten | src/ql_density.c:90-91 | as written, branch `k` is the as-written collapse of branch `k` on 0 and branch `num + k` that on 1 |
| Density.ReducedOpAsWritten | src/ql_density.c:67-97 | as written, the partial trace has the doubled count, the split probabilities and the as-written collapses as branches |
| Density.ReducedAsWrittenZero | src/ql_density.c:90-91 | as written, every state of every branch is 0; the probabilities and each branch's width, amplitudes and table equal those of the intended partial trace |
| Density.ReducedAsWrittenRepeats | src/ql_density.c:90-91 | as written, a branch with two distinct entries on the clear side of bit `pos` repeats the state 0, where the intended branch keeps its states distinct |
| Density.ReducedShares | src/ql_density.c:90-91 | every register of the reduced operator still uses the first register's table |
| Density.ReducedTotal | src/ql_density.c:67-97 | tracing out a qubit keeps the total probability |
| Density.ReducedSetShare | src/ql_density.c:80-89 | for a normalised register the second half is `p` times the probability that the bit is set |
| Density.DeleteOp | src/ql_density.c:129-141 | deletion releases the shared table once, then each register's arrays |
| Density.DeleteOnce | src/ql_density.c:129-141 | when all registers share the first's table, that table is released exactly once |
| Decoherence.SetDecoherence | src/ql_decoherence.c:33-40 | noise is on exactly when the new strength is non-zero; 0 turns it off and keeps the old strength |
| Decoherence.SetAllReach | src/ql_decoherence.c:33-40 | noise is only ever on with a non-zero strength, and a final 0 turns it off |
| Decoherence.OffKeepsStrength | src/ql_decoherence.c:29-40 | after setting `l` and then 0, noise is off and the reported strength is still `l` |
| Decoherence.SaveRestore | src/ql_qec.c:123-128 | the save-and-restore pattern around the encoded gates (read the strength, set 0, set it back) restores the setting exactly when noise is on for a non-zero strength and off for strength 0 |
| Decoherence.AngleFlip | src/ql_decoherence.c:69-77 | flipping bit `k` below the width moves a state's angle by twice `n_k` |
| Decoherence.AngleExtremes | src/ql_decoherence.c:69-77 | the all-clear state's angle is minus the all-set state's |
| Decoherence.Decohere | src/ql_decoherence.c:42-84 | the gate counter goes up by one; with noise off the register is untouched; with noise on each amplitude is multiplied by the phase of its state's angle and nothing else changes |
| Decoherence.DecoherePhases | src/ql_decoherence.c:69-79 | two states that differ in bit `k` get phases whose angles differ by twice `n_k` |
| Qec.SetStatus | src/ql_qec.c:26-29 | the code type and width are set; the rest of the state is kept |
| Qec.GetStatus | src/ql_qec.c:31-34 | exactly the non-null out-parameters receive the type and the width |
| Qec.GetAfterSet | src/ql_qec.c:26-34 | reading after setting gives back what was set |
| Qec.Restored | src/ql_qec.c:37-42 | after the save and restore around an encoding, noise is on exactly when the saved strength is non-zero |
| Qec.RestoredIdempotent | src/ql_qec.c:37-42 | restoring twice is restoring once |
| Qec.Third | src/ql_qec.c:67 | C division by 3, truncating toward zero |
| Qec.EncodeAsWritten | src/ql_qec.c:36-59 | as written, the width triples and the status becomes (1, width); noise is restored only when the register has a qubit, and left off otherwise |
| Qec.Encode | src/ql_qec.c:36-59 | corrected, noise is always restored |
| Qec.DecodeAsWritten | src/ql_qec.c:61-94 | as written, the decode faults exactly when `width / 3 >= 1` and the register has an entry; otherwise the status becomes (0, 0), the width is unchanged, and noise is restored only when `width / 3 >= 1` |
| Qec.DecodeMeasuresAsWritten | src/ql_qec.c:86-88 | the measurement loop as written, built on `ql_bmeasure` as written: it faults exactly when it runs on a register with an entry, because the second measurement dereferences the null state pointer that `ql_qreg_delete_hash` left; a loop that does not run leaves the register, and an empty register ends with the freed fields |
| Qec.Decode | src/ql_qec.c:61-94 | corrected, noise is always restored and each measurement narrows the register, so a width `3w` comes back as `w` |
| Qec.InitialCounting | src/ql_qec.c:97-98 | the initial counter and frequency are consistent |
| Qec.Counter | src/ql_qec.c:96-115 | a positive increment adds, a negative one resets, and a positive frequency replaces the old one; when the count reaches the frequency it resets and the register is decoded and re-encoded |
| Qec.CounterRestores | src/ql_qec.c:109-113 | corrected, a refresh of an encoded register of width `3w` gives back width `3w` |
| Qec.CounterAsWritten | src/ql_qec.c:96-115 | as written, a tick faults exactly when it reaches the round and the decode faults; a completed round re-encodes the undecoded register, tripling its width; without a round it agrees with the intended counter |
| Qec.CounterAsWrittenFaults | src/ql_qec.c:109-113 | as written, a round on an encoded register of width `3w` (`w >= 1`) with an entry faults, where the intended round gives back width `3w` and status (1, w) |
| Qec.NoiseLeftOff | src/ql_qec.c:40-43 | with a non-zero strength, decoding fewer than 3 qubits (which completes) or encoding none leaves noise off as written, while the corrected versions turn it back on |
| Qec.FlipCopies | src/ql_qec.c:126-129 | bit `j` flips exactly when it is hit an odd number of times by the three copies of the target |
| Qec.QecX | src/ql_qec.c:117-135 | the encoded X flips the three copies of the target, keeps the code type, restores noise and ticks the intended counter |
| Qec.QecXPlain | src/ql_qec.c:117-135 | on an unencoded register it is plain `X` |
| Qec.QecXTwice | src/ql_qec.c:117-135 | applying it twice restores the states |
| Qec.QecCX | src/ql_qec.c:137-153 | the encoded CNOT applies `CX` to each of the three copies and ticks the intended counter |
| Qec.CXCopiesBits | src/ql_qec.c:144-147 | with disjoint copies, each target copy flips exactly when its control copy is set |
| Qec.QecCXPlain | src/ql_qec.c:137-153 | on an unencoded register it is plain `CX` |
| Qec.CCXWordAsWritten | src/ql_qec.c:155-174 | as written, when both control parities are odd the state is XORed with the sum of the three copy bits, which carries when copies coincide |
| Qec.CCXWord | src/ql_qec.c:155-174 | corrected, the mask is the union of the copy bits |
| Qec.QecCCX | src/ql_qec.c:155-178 | the encoded Toffoli rewrites each state by the corrected word function and ticks the intended counter |
| Qec.QecCCXPlain | src/ql_qec.c:155-178 | on an unencoded register it is plain `CCX` |
| Qec.CCXWordInvolution | src/ql_qec.c:155-174 | with the target's copies disjoint from the controls', the corrected word function twice restores the state |
| Qec.QecCCXInvolution | src/ql_qec.c:155-178 | the encoded Toffoli twice restores the states |
| Qec.SumMaskPlain | src/ql_qec.c:156-158 | on an unencoded register the as-written mask sets bits `t` and `t + 1` |
| Qec.CCXAsWrittenFlipsNext | src/ql_qec.c:156-172 | on an unencoded register the as-written Toffoli also flips bit `t + 1`; the corrected one does not |
| Qft.DownCP | src/ql_qft.c:21-23 | row `i` of the transform emits `CP(j, i)` for `j` from the top down to `i + 1` |
| Qft.UpCPInv | src/ql_qft.c:31-33 | row `i` of the inverse emits `CP_inv(j, i)` for `j` from `i + 1` up |
| Qft.Inverse | src/ql_qft.c:19-35 | the inverse circuit is the gates in reverse order, each inverted |
| Qft.InverseInverse | src/ql_qft.c:19-35 | inverting twice gives the circuit back |
| Qft.RowsInverse | src/ql_qft.c:19-35 | the rows of the transform, inverted, are the rows of the inverse transform |
| Qft.QftInvIsInverse | src/ql_qft.c:19-35 | the inverse transform is the transform's gates in reverse order with `CP` replaced by `CP_inv`, and the other way round |
| Qft.CountInverse | src/ql_qft.c:19-35 | inverting a circuit keeps its Hadamard and phase counts |
| Qft.RowsCount | src/ql_qft.c:19-26 | the first `n` rows hold `n` Hadamards and `n * (2w - n - 1) / 2` phases |
| Qft.QftCounts | src/ql_qft.c:19-35 | both transforms on `width` qubits apply `width` Hadamards and `width * (width - 1) / 2` controlled phases |
| Qft.RowsOrdered | src/ql_qft.c:19-26 | every gate of the rows stays below the width, with control above target |
| Qft.QftOrdered | src/ql_qft.c:19-35 | both transforms keep every gate below the width, with control above target, so the shift `control - target` that `CP` takes is positive |

## Left out

- Matrix.MMult, Conversion.Matrix2Qreg, Unitary.U1Of, UnitaryTwoOp.U2Of, HashIndex.AddHash: when an error handler is installed and returns, the C code carries on past `ql_error` (multiplying mismatched matrices, or scanning past the end of the table). The model stops at the error and returns `Fail`; the continuation is undefined behaviour in C and is not modelled.
- Unitary.U1Of: requires a register with a table (`hashw != 0`). The source also runs without a table (ql_qop.c:160, 238), where `get_state` returns the flipped state itself as an index; that path reads outside the arrays and is not modelled.
- Unitary.U1Of: the warning printed to stderr for an overfull table (ql_qop.c:263-266) is output only and is left out.
- UnitaryTwoOp.U2Of: requires a register with a table. The source clears and rebuilds `reg->hash` without checking that one exists (ql_qop.c:273-278).
- Gates.Swap: requires `2 * width <= 31`. The source accepts any width, but builds `pat1` and `pat2` in `int`, which truncates for wider blocks (ql_qop.c:131-140); that truncation is not modelled.
- Gates.CP, Gates.CPInv: require `target <= control`. For `target > control` the source shifts `1 <<` by a negative amount, which is undefined in C.
- Unitary.Limit: the limit is computed in `float` (ql_qop.c:191, 317); the model uses the exact real `epsilon / 2^width`. `U2` divides by 1000000 where `U1` multiplies by `epsilon`, which is 0.000001, so one definition serves both. The rounding of the `float` is not modelled.
- Collapse.KeptAmplitudes, Measure.BitOutput: the factor `1 / (float) sqrt(d)` (ql_qreg.c:309, ql_measure.c:114) is a function parameter `norm`. Floating point rounding is not modelled.
- Gates.X: like every gate except `SWAP`, the source gate ends with `ql_decoherence`. Module Decoherence models that step on its own (Decoherence.Decohere), and the gate functions give only the gate's own effect.
- Matrix.Memsize: the counter itself is modelled. The calls that feed it from every allocation and free (`ql_matrix_memsize` throughout) are not, because they only do memory accounting.
- Register.New, Register.Kronecker, Conversion.Matrix2Qreg: require a width of at most 28. The table then has `2^(width + 2) <= 2^30` slots, so `1 << hashw` fits in an `int`. Wider registers overflow that shift in C.
- Matrix.Adjoint: requires `cols <= rows`. For a wider matrix the source loop reads entries beyond the array.
- Density.NewOp: requires `num >= 1`, because the source writes `prob[0]` and `reg[0]` unconditionally (ql_density.c:36-45). It also requires every register to carry its state array, and the first register's table to match its table width, since the other registers take over that table.
- VectorAdd.VectorAddInPlace: requires the first register to carry a table. The mixed cases (only the second register has a table, or neither register has one but the second has states) index through `get_state` without a table and are not modelled. VectorAdd.VectorAddDense covers the case where neither has a table and the second has no states.
- Conversion.Matrix2Qreg: requires `width >= 0`. A negative width makes the shift `1 << (width + 2)` undefined.
- Conversion.Qreg2Matrix: requires `FitsRows`, which excludes three inputs that `ql_qreg2matrix` (ql_qreg.c:26-32) takes without a check, each undefined behaviour in C. A register with entries and no state array dereferences a null pointer. A width above 30 overflows the `int` shift `1 << reg.width`. A state of `2^width` or more writes `m->t[reg.state[i]]` past the end of the column.
- Register.AddScratch: a register with entries but no state array comes back only widened. In C, `ql_qreg_addscratch` (ql_qreg.c:207-208) dereferences the null `reg->state` for such a register; that fault is not modelled.
- Qec.Encode, Qec.Decode: only the bookkeeping (status, width, noise setting) is modelled. The gates they apply (Hadamards and CNOTs on the copies) and the syndrome measurements are left out: the model of those gates is in Gates, and the random measurement outcomes would be parameters without further content.
- Decoherence.Decohere: the Gaussian draws (Box-Muller on `ql_frand`, ql_decoherence.c:57-67) are supplied as the vector `nrands`.
- Measure.Measure, Measure.Outcome: `ql_frand` is the parameter `r`.
- `ql_qreg_mvmult`, `ql_qreg_scalar`, `ql_qreg_normalize`, the dot products, `ql_qreg_matrix`, `ql_density_matrix` and `ql_purity` are not part of this model. They are plain floating-point loops over the arrays.
- The matrix gates `H`, `hadamards`, `rX` and `rY` are not modelled separately. Each builds a 2x2 matrix of floats and calls `U1`, which Unitary models for any matrix.
- The print functions (`ql_matrix_print`, `ql_qreg_print*`, `ql_density_print_matrix`) are output only.
- `ql_qreg_delete`, `ql_qreg_destroy_hash` and `ql_matrix_delete` free memory; only the freeing that changes what a caller sees (Measure.DeleteHash, Density.DeleteOp) is modelled.
- Failed allocations (`QL_ENOMEM`) are not modelled: every allocation succeeds. Memory leaks, such as the first copy in `ql_vectoradd` (ql_qreg.c:363, 368) and the dangling table that `ql_bmeasure_bit` shares with the freed register, are also left out.
- OpenMP parallel loops are modelled as sequential loops.
- Density.SplitRegs, Density.ReducedOp, Density.ReducedBranches: the branches are built with the intended collapse. The source's collapse as written sets every state to 0; that version is Density.ReducedOpAsWritten, and the Findings row for src/ql_density.c:90-91 records the difference.
- Qec.QecX, Qec.QecCX, Qec.QecCCX: the refresh round they tick is the intended counter (Qec.Counter), not the library's `ql_qec_counter` as written, which faults in the round on any register with an entry (Qec.CounterAsWritten). Qec.QecCCX also uses the corrected mask (Qec.CCXWord) in place of the as-written sum (Qec.CCXWordAsWritten).
- Gates.X, Collapse.Collapse: `ql_decoherence`, which every gate calls, and `ql_state_collapse`, which `ql_bmeasure` (ql_measure.c:55) and `ql_density_reduced_op` (ql_density.c:90-91) call, are only declared (include/openql/ql_decoherence.h:27, include/openql/ql_qreg.h:54). The model identifies them with the defined functions `ql_decohernce` (ql_decoherence.c:42) and `ql_qreg_state_collapse` (ql_qreg.c:268).
- Gates.RZ, Gates.CPShift: the division by `z` is multiplication by a supplied inverse `zinv` with `z * zinv == 1`. Every `z` the source divides by is `euler_formula` of an angle, of modulus 1, so it has that inverse.

## Findings

| source | as written | input that shows it | evidently intended | confidence | as-written member | corrected member |
|---|---|---|---|---|---|---|
| src/ql_qreg.c:294-308 | the loops declare new `rpat` and `lpat` in their `for` headers, so the masks are built in the shadowing variables and the outer ones stay 0; every collapsed state is 0 | states 0 and 2 collapsed on bit 0 to value 0 give states 0, 0 | each kept state with bit `pos` removed and the higher bits shifted down | high, not executed | Collapse.CollapseAsWrittenRepeats | Collapse.CollapseInverse |
| src/ql_density.c:90-91 | the partial trace builds its branches with the collapse of ql_qreg.c:294-308, so every state of every branch is 0 | one branch with states 0 and 2 traced out on bit 0: branch 0 holds states 0, 0 | each branch holds its kept states with bit `pos` removed (0, 1 here) | high, not executed | Density.ReducedAsWrittenRepeats | Density.ReducedBranches |
| src/ql_qop.c:215-217 | when a state has no partner and the matrix moves no amplitude to it, the loop `break`s, so the sweep stops and later entries keep their old amplitudes | phase flip (diag 1, -1) on bit 0 of states {0, 3}, amplitudes 1, 1: state 3 stays at 1 | skip appending a partner and go on with the next entry | high, not executed | UnitaryFindings.BreakAsWritten | UnitaryFindings.BreakIntended |
| src/ql_qop.c:196-200 | the partner's complex amplitude is stored in `int tnot`, which keeps only the integer part of the real part | NOT gate on bit 0 of states {0, 1}, amplitudes 1/2, 1/2: state 0 gets 0 and is pruned | a complex `tnot` | high, not executed | UnitaryFindings.TruncateAsWritten | UnitaryFindings.TruncateIntended |
| src/ql_qop.c:195 | the target bit is stored in `int iset`, which loses bits from 32 up | phase flip on bit 32 of the single state `2^32`, amplitude 1: the amplitude stays 1 | a test of the 64-bit word | high, not executed | UnitaryFindings.HighAsWritten | UnitaryFindings.HighIntended |
| src/ql_qop.c:280-288 | `addsize` counts the missing single-bit partners only, not the partner with both bits flipped, but the walk appends a slot for every missing group member | a one-entry register: `addsize` is 2, the walk fills 3 slots and writes past the arrays | count all three partners per entry | high, not executed | UnitaryTwo.OverflowAsWritten | UnitaryTwo.ClaimBound |
| src/ql_qop.c:332-334 | the line giving a new slot its state is commented out, so every new slot keeps state 0 | a one-entry register under a mixing 4x4 matrix: two new slots survive, both with state 0 | the slot gets the missing group member's state | high, not executed | UnitaryTwoOp.U2AsWrittenRepeats | UnitaryTwoOp.U2Correct |
| src/ql_qop.c:321-329 | `b` has `target1` as its low bit, but `base[b ^ 1]` looks up the state with `target2` flipped and `base[b ^ 2]` the one with `target1` flipped; a group entered where the two target bits agree has its two middle patterns exchanged, and one entered where they differ has patterns 0 and 3 exchanged | an entry with bit `target1` set and `target2` clear: `base[0]`, meant for both bits clear, holds the member with both bits set | `base[b ^ 1]` flips `target1`, `base[b ^ 2]` flips `target2` | medium, not executed | UnitaryTwo.GroupPatternsAsWritten | UnitaryTwoMix.WalkOfMeaning |
| src/ql_measure.c:55-57 | the collapsed register is assigned to the local variable `reg`, so the caller keeps the freed original | any register with an entry that disagrees with the outcome: the caller sees the old size and no arrays | `*reg = *out` | high, not executed | Measure.BMeasureLosesCollapse | Measure.BMeasure |
| src/ql_measure.c:97-117 | the output is sized by the count of matching entries, but only non-zero ones are copied, so an already-zero matching entry leaves a zero slot with state 0 at the end | a matching entry with amplitude 0 | size the output by the copied entries | medium, not executed | Measure.BitAsWrittenPads | Measure.BMeasureBit |
| src/ql_matrix.c:102-108 | the loop conjugates only the off-diagonal pairs, so the diagonal is not conjugated | the 1x1 matrix `[i]` comes back as `[i]` | the conjugate transpose, `[-i]` | medium, not executed | Matrix.AdjointKeepsDiagonal | Matrix.ConjugateTransposeInvolution |
| src/ql_qec.c:40-43, 71-74 | the saved noise strength is restored inside the loop, at its last step, so a loop with no step leaves noise off | strength 0.1, decoding a register of width 2 or encoding one of width 0: noise stays off | restore after the loop | medium, not executed | Qec.NoiseLeftOff | Qec.Decode |
| src/ql_qec.c:86-88, 109-113 | the first `ql_bmeasure` of the decode frees the caller's state and amplitude arrays, sets both pointers to null and keeps the size (ql_measure.c:56, ql_qreg.c:162-171); the second reads `reg->state[i]` (ql_measure.c:45-46), so the refresh round never reaches its encode | an encoded register of width 3 with one entry reaching the refresh frequency: the second measurement dereferences the null state pointer that `ql_qreg_delete_hash` left | the decode narrows the register and the refresh gives back width 3 | high, not executed | Qec.CounterAsWrittenFaults | Qec.CounterRestores |
| src/ql_qec.c:156-158 | the mask is the arithmetic sum of the three copy bits, which carries into the next bit when the copies coincide | Toffoli on an unencoded register (width 0) with both controls set: bits `t` and `t + 1` flip | the union of the copy bits, flipping only `t` | medium, not executed | Qec.CCXAsWrittenFlipsNext | Qec.CCXWordInvolution |

=== FILE: arith.dfy ===
/** Row-major index arithmetic shared by the matrix layout
    (`M(m, x, y) = t[x + y * cols]`) and the Kronecker product's entry
    numbering (`i * size2 + j`). */
module Arith {

  lemma MulMonotone(a: nat, b: nat, c: nat)
    requires a <= b
    ensures a * c <= b * c
  {
  }

  /** A position `x + y * n` with `x < n`, `y < m` lies inside an `n * m` block. */
  lemma {:induction false} FlatBound(x: nat, y: nat, n: nat, m: nat)
    requires x < n && y < m
    ensures 0 <= y * n && x + y * n < n * m
  {
    MulMonotone(0, y, n);
    MulMonotone(y + 1, m, n);
    assert (y + 1) * n == y * n + n;
    assert m * n == n * m;
  }

  /** `x + y * n` determines `x` and `y` when `x < n`. */
  lemma {:induction false} FlatSplit(x: nat, y: nat, n: nat)
    requires x < n
    ensures (x + y * n) / n == y && (x + y * n) % n == x
  {
    var k := x + y * n;
    var q, r := k / n, k % n;
    assert k == q * n + r;
    if q < y {
      MulMonotone(q + 1, y, n);
    } else if q > y {
      MulMonotone(y + 1, q, n);
    }
  }

  lemma FlatInjective(x1: nat, y1: nat, x2: nat, y2: nat, n: nat)
    requires x1 < n && x2 < n
    ensures x1 + y1 * n == x2 + y2 * n <==> x1 == x2 && y1 == y2
  {
    FlatSplit(x1, y1, n);
    FlatSplit(x2, y2, n);
  }

  /** Every position of an `n * m` block is `x + y * n` for its own column and row. */
  lemma FlatCover(k: nat, n: nat, m: nat)
    requires k < n * m
    ensures n > 0 && k % n < n && k / n < m && k == k % n + (k / n) * n
  {
    if k / n >= m {
      MulMonotone(m, k / n, n);
    }
  }

  /** `a < b * c` bounds the quotient `a / b` by `c`. */
  lemma DivBound(a: nat, b: nat, c: nat)
    requires b > 0 && a < b * c
    ensures a / b < c
  {
    if a / b >= c {
      MulMonotone(c, a / b, b);
    }
  }

  /** The quotient of naturals is a natural. */
  lemma DivNonNegative(a: nat, b: nat)
    requires b > 0
    ensures a / b >= 0
  {
  }

  lemma Distribute(a: nat, b: nat, c: nat)
    ensures (a + b) * c == a * c + b * c && c * (a + b) == c * a + c * b
  {
  }
}

=== FILE: bits.dfy ===
/** Basis-state bit patterns.

    The library stores a basis state as a `MAX_UNSIGNED`, a 64-bit unsigned
    integer in which bit k is the value of qubit k.  Here such a word is the
    sequence of its 64 bits, least significant first, so that `s & (1 << k)`
    is `s[k]`, `s ^ (1 << k)` is an update of one element, and a shift drops
    the bits that leave the word exactly as the 64-bit shift does.  `Value`
    gives the unsigned number the bits spell; it is used where the library
    hashes a state or uses it as an index.
 */
module Bits {

  const WordSize := 64

  type Word = s: seq<bool> | |s| == WordSize witness seq(WordSize, _ => false)

  function Pow2(n: nat): (p: nat)
    ensures p >= 1
  {
    if n == 0 then 1 else 2 * Pow2(n - 1)
  }

  lemma {:induction false} Pow2Add(a: nat, b: nat)
    ensures Pow2(a + b) == Pow2(a) * Pow2(b)
  {
    if a > 0 {
      Pow2Add(a - 1, b);
    }
  }

  lemma {:induction false} Pow2Monotone(a: nat, b: nat)
    requires a <= b
    ensures Pow2(a) <= Pow2(b)
  {
    if a < b {
      Pow2Monotone(a, b - 1);
    }
  }

  /** The all-zero word, `(MAX_UNSIGNED) 0`. */
  function ZeroWord(): (z: Word)
    ensures forall i | 0 <= i < WordSize :: !z[i]
  {
    seq(WordSize, _ => false)
  }

  /** The all-ones word, `(MAX_UNSIGNED) -1`. */
  function AllOnes(): (z: Word)
    ensures forall i | 0 <= i < WordSize :: z[i]
  {
    seq(WordSize, _ => true)
  }

  /** `s ^ ((MAX_UNSIGNED) 1 << k)`. */
  function Flip(s: Word, k: nat): (r: Word)
    requires k < WordSize
    ensures r[k] == !s[k]
    ensures forall i | 0 <= i < WordSize && i != k :: r[i] == s[i]
  {
    s[k := !s[k]]
  }

  /** The unsigned number spelt by `bits`, least significant bit first. */
  function Value(bits: seq<bool>): nat
  {
    if |bits| == 0 then 0 else (if bits[0] then 1 else 0) + 2 * Value(bits[1..])
  }

  /** The lowest `len` bits of `n`, least significant first. */
  function FromNat(n: nat, len: nat): (bits: seq<bool>)
    ensures |bits| == len
  {
    if len == 0 then [] else [n % 2 == 1] + FromNat(n / 2, len - 1)
  }

  /** A word converted from a non-negative C integer, `(MAX_UNSIGNED) n`. */
  function WordOf(n: nat): Word
  {
    FromNat(n, WordSize)
  }

  lemma {:induction false} ValueBound(bits: seq<bool>)
    ensures Value(bits) < Pow2(|bits|)
  {
    if |bits| > 0 {
      ValueBound(bits[1..]);
    }
  }

  lemma {:induction false} ValueOfFromNat(n: nat, len: nat)
    requires n < Pow2(len)
    ensures Value(FromNat(n, len)) == n
  {
    if len > 0 {
      var bits := FromNat(n, len);
      assert bits[1..] == FromNat(n / 2, len - 1);
      ValueOfFromNat(n / 2, len - 1);
    }
  }

  lemma {:induction false} FromNatOfValue(bits: seq<bool>)
    ensures FromNat(Value(bits), |bits|) == bits
  {
    if |bits| > 0 {
      FromNatOfValue(bits[1..]);
      assert Value(bits) / 2 == Value(bits[1..]);
    }
  }

  /** Appending a bit at the most significant end adds its weight. */
  lemma {:induction false} ValueAppend(bits: seq<bool>, b: bool)
    ensures Value(bits + [b]) == Value(bits) + (if b then Pow2(|bits|) else 0)
  {
    if |bits| > 0 {
      ValueAppend(bits[1..], b);
      assert (bits + [b])[1..] == bits[1..] + [b];
    }
  }

  /** Distinct bit sequences of one length spell distinct numbers. */
  lemma ValueInjective(a: seq<bool>, b: seq<bool>)
    requires |a| == |b| && Value(a) == Value(b)
    ensures a == b
  {
    FromNatOfValue(a);
    FromNatOfValue(b);
  }

  /** `s < 2^w`: no bit at position `w` or above is set. */
  ghost predicate Fits(s: Word, w: nat)
  {
    forall i | w <= i < WordSize :: !s[i]
  }

  lemma {:induction false} ValueOfZeros(bits: seq<bool>)
    requires forall i | 0 <= i < |bits| :: !bits[i]
    ensures Value(bits) == 0
  {
    if |bits| > 0 {
      ValueOfZeros(bits[1..]);
    }
  }

  lemma {:induction false} ValueSplit(bits: seq<bool>, w: nat)
    requires w <= |bits|
    ensures Value(bits) == Value(bits[..w]) + Pow2(w) * Value(bits[w..])
  {
    if w > 0 {
      var rest := bits[1..];
      ValueSplit(rest, w - 1);
      assert rest[..w - 1] == bits[..w][1..];
      assert rest[w - 1..] == bits[w..];
      var b := if bits[0] then 1 else 0;
      var lo, p, hi := Value(rest[..w - 1]), Pow2(w - 1), Value(bits[w..]);
      assert Value(bits[..w]) == b + 2 * lo;
      DoubleSplit(b, lo, p, hi);
    }
  }

  /** `2^32`, spelt out. */
  lemma Pow2Of32()
    ensures Pow2(32) == 0x1_0000_0000
  {
    assert Pow2(2) == 4;
    Pow2Add(2, 2);
    Pow2Add(4, 4);
    Pow2Add(8, 8);
    Pow2Add(16, 16);
  }

  /** The step of `ValueSplit`: doubling `lo + p * hi` below a low bit. */
  lemma DoubleSplit(b: int, lo: int, p: int, hi: int)
    ensures b + 2 * (lo + p * hi) == (b + 2 * lo) + (2 * p) * hi
  {
  }

  /** A word that fits in `w` bits is a number below `2^w`. */
  lemma FitsValue(s: Word, w: nat)
    requires w <= WordSize && Fits(s, w)
    ensures Value(s) == Value(s[..w]) < Pow2(w)
  {
    ValueOfZeros(s[w..]);
    ValueSplit(s, w);
    ValueBound(s[..w]);
  }

  /** Bitwise operators on equally long bit sequences. */
  function And(a: seq<bool>, b: seq<bool>): (r: seq<bool>)
    requires |a| == |b|
    ensures |r| == |a| && forall i | 0 <= i < |a| :: r[i] == (a[i] && b[i])
  {
    seq(|a|, i requires 0 <= i < |a| => a[i] && b[i])
  }

  function Or(a: seq<bool>, b: seq<bool>): (r: seq<bool>)
    requires |a| == |b|
    ensures |r| == |a| && forall i | 0 <= i < |a| :: r[i] == (a[i] || b[i])
  {
    seq(|a|, i requires 0 <= i < |a| => a[i] || b[i])
  }

  function Xor(a: seq<bool>, b: seq<bool>): (r: seq<bool>)
    requires |a| == |b|
    ensures |r| == |a| && forall i | 0 <= i < |a| :: r[i] == (a[i] != b[i])
  {
    seq(|a|, i requires 0 <= i < |a| => a[i] != b[i])
  }

  /** `s << b` on a 64-bit word: bits shifted past position 63 are lost. */
  function Shl(s: Word, b: nat): (r: Word)
    requires b < WordSize
    ensures forall i | 0 <= i < WordSize :: r[i] == (i >= b && s[i - b])
  {
    seq(WordSize, i requires 0 <= i < WordSize => i >= b && s[i - b])
  }

  /** `s >> b` on a 64-bit unsigned word: zeros enter at the top. */
  function Shr(s: Word, b: nat): (r: Word)
    requires b < WordSize
    ensures forall i | 0 <= i < WordSize :: r[i] == (i + b < WordSize && s[i + b])
  {
    seq(WordSize, i requires 0 <= i < WordSize => i + b < WordSize && s[i + b])
  }

  /** The word whose set bits are exactly the positions in `[lo, hi)`. */
  function RangeMask(lo: nat, hi: nat): (m: Word)
    ensures forall i | 0 <= i < WordSize :: m[i] == (lo <= i < hi)
  {
    seq(WordSize, i => lo <= i < hi)
  }

  /** The intended bit deletion `((s & high) >> 1) | (s & low)`, where `low`
      holds the bits below `pos` and `high` the bits above it: bits above
      `pos` move down one place and bit 63 becomes 0. */
  function DeleteBit(s: Word, pos: nat): (r: Word)
    requires pos < WordSize
    ensures forall i | 0 <= i < pos :: r[i] == s[i]
    ensures forall i | pos <= i < WordSize - 1 :: r[i] == s[i + 1]
    ensures !r[WordSize - 1]
  {
    Or(Shr(And(s, RangeMask(pos + 1, WordSize)), 1), And(s, RangeMask(0, pos)))
  }

  /** Reference inverse of `DeleteBit`: open a gap at `pos` and put `b` in it. */
  function InsertBit(t: Word, pos: nat, b: bool): Word
    requires pos < WordSize
  {
    seq(WordSize, i requires 0 <= i < WordSize => if i < pos then t[i] else if i == pos then b else t[i - 1])
  }

  lemma InsertDelete(s: Word, pos: nat)
    requires pos < WordSize
    ensures InsertBit(DeleteBit(s, pos), pos, s[pos]) == s
  {
  }

  lemma DeleteInsert(t: Word, pos: nat, b: bool)
    requires pos < WordSize && !t[WordSize - 1]
    ensures DeleteBit(InsertBit(t, pos, b), pos) == t
  {
  }

  /** Two words that agree at `pos` differ after the deletion iff they differed before. */
  lemma DeleteBitInjective(a: Word, b: Word, pos: nat)
    requires pos < WordSize && a[pos] == b[pos]
    ensures DeleteBit(a, pos) == DeleteBit(b, pos) <==> a == b
  {
    if DeleteBit(a, pos) == DeleteBit(b, pos) {
      InsertDelete(a, pos);
      InsertDelete(b, pos);
    }
  }
}

=== FILE: collapse.dfy ===
/** Projection of a register onto one value of one qubit
    (`ql_qreg_state_collapse`, src/ql_qreg.c).

    The library keeps the entries whose bit `pos` equals `value`, in their
    original order, renormalises their amplitudes by `1 / sqrt(d)` where `d`
    is their total probability, and removes qubit `pos` from every kept
    state.  The removal is written with two loops whose headers declare
    fresh `lpat` and `rpat`; these shadow the masks the removal reads
    afterwards, so the masks stay 0 and every output state is 0.  The model
    gives the function as written (`CollapseAsWritten`) and the intended one
    (`Collapse`), which the rest of the model uses.  The factor
    `1 / (float) sqrt(d)` is a parameter `norm` applied to `d`.
 */
module Collapse {
  import opened Wrappers
  import opened Bits
  import opened Complex
  import opened Register

  /** The selection test: bit `pos` of `s` is set exactly when `value` is non-zero. */
  predicate Matches(s: Word, pos: nat, value: int)
    requires pos < WordSize
  {
    s[pos] == (value != 0)
  }

  /** The positions of the kept entries: exactly the matching ones, in
      increasing order. */
  function Kept(states: seq<Word>, pos: nat, value: int): (ks: seq<nat>)
    requires pos < WordSize
    ensures forall t | 0 <= t < |ks| :: ks[t] < |states| && Matches(states[ks[t]], pos, value)
    ensures forall t, u | 0 <= t < u < |ks| :: ks[t] < ks[u]
    ensures forall i | 0 <= i < |states| && Matches(states[i], pos, value) :: i in ks
    decreases |states|
  {
    if |states| == 0 then []
    else
      var n := |states| - 1;
      Kept(states[..n], pos, value) + (if Matches(states[n], pos, value) then [n] else [])
  }

  /** Extending the scanned prefix by one entry adds its position when it matches. */
  lemma KeptStep(states: seq<Word>, i: nat, pos: nat, value: int)
    requires i < |states| && pos < WordSize
    ensures Kept(states[..i + 1], pos, value)
      == Kept(states[..i], pos, value) + (if Matches(states[i], pos, value) then [i] else [])
  {
    assert states[..i + 1][..i] == states[..i];
  }

  /** Picking one more position adds its probability to the running sum. */
  lemma SumProbPickStep(amps: seq<Complex>, ks: seq<nat>, i: nat)
    requires i < |amps| && forall t | 0 <= t < |ks| :: ks[t] < |amps|
    ensures SumProb(Pick(amps, ks + [i])) == SumProb(Pick(amps, ks)) + Prob(amps[i])
  {
    var ps := Pick(amps, ks + [i]);
    assert ps[..|ps| - 1] == Pick(amps, ks);
  }

  /** The first loop: the number of matching entries and their probability
      `d`, summed in storage order. */
  method Weigh(reg: Qreg, pos: nat, value: int) returns (size: nat, d: real)
    requires WellFormed(reg) && reg.state.Some? && pos < WordSize
    ensures size == |Kept(reg.state.value, pos, value)|
    ensures d == SumProb(Pick(reg.amplitude, Kept(reg.state.value, pos, value)))
  {
    var states := reg.state.value;
    size, d := 0, 0.0;
    var i := 0;
    while i < |states|
      invariant 0 <= i <= |states|
      invariant size == |Kept(states[..i], pos, value)|
      invariant d == SumProb(Pick(reg.amplitude, Kept(states[..i], pos, value)))
    {
      KeptStep(states, i, pos, value);
      var ks := Kept(states[..i], pos, value);
      if Matches(states[i], pos, value) {
        assert Kept(states[..i + 1], pos, value) == ks + [i];
        SumProbPickStep(reg.amplitude, ks, i);
        d := d + Prob(reg.amplitude[i]);
        size := size + 1;
      } else {
        assert Kept(states[..i + 1], pos, value) == ks;
      }
      i := i + 1;
    }
    assert states[..|states|] == states;
  }

  /** The renormalised amplitudes of the kept entries. */
  function KeptAmplitudes(reg: Qreg, pos: nat, value: int, norm: real -> real): (amps: seq<Complex>)
    requires WellFormed(reg) && reg.state.Some? && pos < WordSize
    ensures var ks := Kept(reg.state.value, pos, value);
      |amps| == |ks| && forall t | 0 <= t < |ks| :: amps[t] == Scale(reg.amplitude[ks[t]], norm(SumProb(Pick(reg.amplitude, ks))))
  {
    var ks := Kept(reg.state.value, pos, value);
    var f := norm(SumProb(Pick(reg.amplitude, ks)));
    seq(|ks|, t requires 0 <= t < |ks| => Scale(reg.amplitude[ks[t]], f))
  }

  /** `ql_qreg_state_collapse` as written: the kept entries in order, one
      qubit fewer, the input's table shared, and every state 0. */
  function CollapseAsWritten(reg: Qreg, pos: nat, value: int, norm: real -> real): (out: Qreg)
    requires WellFormed(reg) && reg.state.Some? && pos < WordSize
    ensures WellFormed(out) && out.width == reg.width - 1
    ensures out.hashw == reg.hashw && out.hash == reg.hash
    ensures out.amplitude == KeptAmplitudes(reg, pos, value, norm)
    ensures out.state.Some? && forall t | 0 <= t < |out.state.value| :: out.state.value[t] == ZeroWord()
  {
    var amps := KeptAmplitudes(reg, pos, value, norm);
    Qreg(reg.width - 1, reg.hashw, amps, Some(seq(|amps|, _ => ZeroWord())), reg.hash)
  }

  /** The collapse as intended: each kept state loses bit `pos`. */
  function Collapse(reg: Qreg, pos: nat, value: int, norm: real -> real): (out: Qreg)
    requires WellFormed(reg) && reg.state.Some? && pos < WordSize
    ensures WellFormed(out) && out.width == reg.width - 1
    ensures out.hashw == reg.hashw && out.hash == reg.hash
    ensures out.amplitude == KeptAmplitudes(reg, pos, value, norm)
    ensures out.state.Some? && |out.state.value| == out.Size()
  {
    var ks := Kept(reg.state.value, pos, value);
    var states := seq(|ks|, t requires 0 <= t < |ks| => DeleteBit(reg.state.value[ks[t]], pos));
    Qreg(reg.width - 1, reg.hashw, KeptAmplitudes(reg, pos, value, norm), Some(states), reg.hash)
  }

  /** Both versions keep exactly the entries whose bit `pos` equals `value`:
      output entry `t` comes from input entry `ks[t]`, the positions `ks`
      increase, and every matching entry has one.  In the intended version
      entry `t` holds that input state with bit `pos` deleted. */
  lemma CollapseKeeps(reg: Qreg, pos: nat, value: int, norm: real -> real)
    requires WellFormed(reg) && reg.state.Some? && pos < WordSize
    ensures var ks := Kept(reg.state.value, pos, value); var out := Collapse(reg, pos, value, norm);
      out.Size() == |ks| == CollapseAsWritten(reg, pos, value, norm).Size()
      && (forall t | 0 <= t < |ks| :: ks[t] < reg.Size() && reg.state.value[ks[t]][pos] == (value != 0))
      && (forall t, u | 0 <= t < u < |ks| :: ks[t] < ks[u])
      && (forall i | 0 <= i < reg.Size() :: i in ks <==> reg.state.value[i][pos] == (value != 0))
      && (forall t | 0 <= t < |ks| :: out.state.value[t] == DeleteBit(reg.state.value[ks[t]], pos))
  {
  }

  /** Putting bit `pos` back gives the kept input state, so the intended
      collapse loses no information about the kept entries. */
  lemma CollapseInverse(reg: Qreg, pos: nat, value: int, norm: real -> real)
    requires WellFormed(reg) && reg.state.Some? && pos < WordSize
    ensures var ks := Kept(reg.state.value, pos, value); var out := Collapse(reg, pos, value, norm);
      forall t | 0 <= t < |ks| :: InsertBit(out.state.value[t], pos, value != 0) == reg.state.value[ks[t]]
  {
    var ks := Kept(reg.state.value, pos, value);
    var out := Collapse(reg, pos, value, norm);
    forall t | 0 <= t < |ks|
      ensures InsertBit(out.state.value[t], pos, value != 0) == reg.state.value[ks[t]]
    {
      InsertDelete(reg.state.value[ks[t]], pos);
    }
  }

  /** The intended collapse of a register without repeated states has no
      repeated states. */
  lemma CollapseDistinct(reg: Qreg, pos: nat, value: int, norm: real -> real)
    requires WellFormed(reg) && reg.state.Some? && pos < WordSize
    requires Distinct(reg.state.value)
    ensures Distinct(Collapse(reg, pos, value, norm).state.value)
  {
    var ks := Kept(reg.state.value, pos, value);
    var st := Collapse(reg, pos, value, norm).state.value;
    forall t, u | 0 <= t < u < |st|
      ensures st[t] != st[u]
    {
      DeleteBitInjective(reg.state.value[ks[t]], reg.state.value[ks[u]], pos);
    }
  }

  /** As written, any two kept entries end up with the same state 0, so the
      output repeats a state even when the input has none repeated. */
  lemma CollapseAsWrittenRepeats(reg: Qreg, pos: nat, value: int, norm: real -> real)
    requires WellFormed(reg) && reg.state.Some? && pos < WordSize
    requires |Kept(reg.state.value, pos, value)| >= 2
    ensures !Distinct(CollapseAsWritten(reg, pos, value, norm).state.value)
  {
    var st := CollapseAsWritten(reg, pos, value, norm).state.value;
    assert st[0] == st[1];
  }

  /** Bit 1 alone: the state 2. */
  function Two(): (s: Word)
    ensures s[1] && forall i | 0 <= i < WordSize && i != 1 :: !s[i]
  {
    seq(WordSize, i => i == 1)
  }

  lemma {:induction false} ExampleKept()
    ensures Kept([ZeroWord(), Two()], 0, 0) == [0, 1]
  {
    assert [ZeroWord(), Two()][..1] == [ZeroWord()];
    assert [ZeroWord()][..0] == [];
  }

  /** The smallest case: states 0 and 2 collapsed on qubit 0 being 0 should
      become 0 and 1; as written both become 0. */
  lemma CollapseExample(norm: real -> real)
    ensures var reg := Qreg(2, 0, [One, One], Some([ZeroWord(), Two()]), None);
      var bad := CollapseAsWritten(reg, 0, 0, norm).state.value;
      var good := Collapse(reg, 0, 0, norm).state.value;
      |bad| == |good| == 2 && bad[0] == bad[1] && good[0] == ZeroWord() && good[1] == Flip(ZeroWord(), 0)
  {
    var reg := Qreg(2, 0, [One, One], Some([ZeroWord(), Two()]), None);
    ExampleKept();
    var good := Collapse(reg, 0, 0, norm).state.value;
    assert good[1] == DeleteBit(Two(), 0);
  }
}

=== FILE: complex.dfy ===
/** Amplitudes.

    The library's `COMPLEX_FLOAT` is a single-precision complex number.  The
    model uses exact complex numbers over the reals, so sums and products are
    exact and `cprob(a)` (`re*re + im*im`, src/ql_utils.c) is an exact real.
    Rounding is not modelled.
 */
module Complex {

  datatype Complex = Complex(re: real, im: real)

  const Zero := Complex(0.0, 0.0)
  const One := Complex(1.0, 0.0)

  function Add(a: Complex, b: Complex): Complex
  {
    Complex(a.re + b.re, a.im + b.im)
  }

  function Mul(a: Complex, b: Complex): Complex
  {
    Complex(a.re * b.re - a.im * b.im, a.re * b.im + a.im * b.re)
  }

  function Conj(a: Complex): Complex
  {
    Complex(a.re, -a.im)
  }

  /** Multiplication by a real factor. */
  function Scale(a: Complex, r: real): Complex
  {
    Complex(a.re * r, a.im * r)
  }

  /** `cprob(a)`: the squared magnitude. */
  function Prob(a: Complex): (p: real)
    ensures p >= 0.0
    ensures a == Zero ==> p == 0.0
  {
    a.re * a.re + a.im * a.im
  }

  /** Sum of the squared magnitudes, accumulated left to right as the library's loops do. */
  function SumProb(amps: seq<Complex>): (s: real)
    ensures s >= 0.0
  {
    if |amps| == 0 then 0.0 else SumProb(amps[..|amps| - 1]) + Prob(amps[|amps| - 1])
  }

  lemma ConjInvolution(a: Complex)
    ensures Conj(Conj(a)) == a
  {
  }

  lemma MulOne(a: Complex)
    ensures Mul(a, One) == a && Mul(One, a) == a
  {
  }

  lemma MulZero(a: Complex)
    ensures Mul(a, Zero) == Zero && Mul(Zero, a) == Zero
  {
  }

  lemma AddZero(a: Complex)
    ensures Add(a, Zero) == a && Add(Zero, a) == a
  {
  }

  lemma MulAssoc(a: Complex, b: Complex, c: Complex)
    ensures Mul(Mul(a, b), c) == Mul(a, Mul(b, c))
  {
  }

  lemma MulCommute(a: Complex, b: Complex)
    ensures Mul(a, b) == Mul(b, a)
  {
  }

  /** Multiplying by `zinv` is dividing by `z` when `z * zinv = 1`:
      multiplying by `z` afterwards gives the factor back. */
  lemma DivideUndone(a: Complex, z: Complex, zinv: Complex)
    requires Mul(z, zinv) == One
    ensures Mul(Mul(a, zinv), z) == a
  {
    MulAssoc(a, zinv, z);
    MulCommute(zinv, z);
    MulOne(a);
  }
}

=== FILE: conversion.dfy ===
/** Conversion between a register and a dense column vector
    (`ql_qreg2matrix` and `ql_matrix2qreg`, src/ql_qreg.c).

    A column vector of `2^width` rows holds the amplitude of basis state `i`
    in row `i`.  Turning it into a register keeps the non-zero rows in
    increasing order; turning a register into a vector writes each
    amplitude into the row its state names, later entries overwriting
    earlier ones.
 */
module Conversion {
  import opened Wrappers
  import opened Bits
  import opened Complex
  import opened Register
  import Matrix
  import Errors

  /** The positions of the non-zero entries of `t`, in increasing order. */
  function NonZero(t: seq<Complex>): (ks: seq<nat>)
    ensures forall k | 0 <= k < |ks| :: ks[k] < |t| && t[ks[k]] != Zero
    ensures forall k, l | 0 <= k < l < |ks| :: ks[k] < ks[l]
    ensures forall i | 0 <= i < |t| && t[i] != Zero :: i in ks
    decreases |t|
  {
    if |t| == 0 then []
    else
      var n := |t| - 1;
      NonZero(t[..n]) + (if t[n] != Zero then [n] else [])
  }

  /** `ql_matrix2qreg(m, width)`: a matrix with more than one column is
      refused; otherwise the register holds one entry per non-zero row, the
      state being the row number, and an empty table of `2^(width + 2)`
      slots. */
  function Matrix2Qreg(m: Matrix.Matrix, width: int): (r: Result<Qreg>)
    requires Matrix.Valid(m) && 0 <= width <= 28
    ensures r.Fail? <==> m.cols != 1
    ensures r.Fail? ==> r.code == Errors.ColumnMatrixExpected
    ensures r.Ok? ==> var ks := NonZero(m.t);
      WellFormed(r.value) && r.value.width == width && r.value.hashw == width + 2
      && r.value.hash == Some(EmptyTable(width + 2))
      && r.value.state.Some? && |r.value.state.value| == |ks|
      && (forall k | 0 <= k < |ks| :: r.value.state.value[k] == WordOf(ks[k]) && r.value.amplitude[k] == m.t[ks[k]])
  {
    if m.cols != 1 then Fail(Errors.ColumnMatrixExpected)
    else
      var ks := NonZero(m.t);
      var states := seq(|ks|, k requires 0 <= k < |ks| => WordOf(ks[k]));
      Ok(Qreg(width, width + 2, Pick(m.t, ks), Some(states), Some(EmptyTable(width + 2))))
  }

  /** The writes `t[state[i]] = amplitude[i]` for every `i` in order. */
  function Scatter(t: seq<Complex>, states: seq<Word>, amps: seq<Complex>): (r: seq<Complex>)
    requires |states| == |amps| && forall i | 0 <= i < |states| :: Value(states[i]) < |t|
    ensures |r| == |t|
    decreases |states|
  {
    if |states| == 0 then t
    else
      var n := |states| - 1;
      Scatter(t, states[..n], amps[..n])[Value(states[n]) := amps[n]]
  }

  /** A row of a scattered zero column that is not zero is named by a state. */
  lemma ScatterRowNamed(zero: seq<Complex>, states: seq<Word>, amps: seq<Complex>, v: nat)
    requires |states| == |amps| && forall i | 0 <= i < |states| :: Value(states[i]) < |zero|
    requires v < |zero| && zero[v] == Zero && Scatter(zero, states, amps)[v] != Zero
    ensures exists i | 0 <= i < |states| :: Value(states[i]) == v
  {
    if forall i | 0 <= i < |states| :: Value(states[i]) != v {
      ScatterUntouched(zero, states, amps, v);
    }
  }

  /** A row no state names keeps its old entry. */
  lemma {:induction false} ScatterUntouched(t: seq<Complex>, states: seq<Word>, amps: seq<Complex>, v: nat)
    requires |states| == |amps| && forall i | 0 <= i < |states| :: Value(states[i]) < |t|
    requires v < |t| && forall i | 0 <= i < |states| :: Value(states[i]) != v
    ensures Scatter(t, states, amps)[v] == t[v]
    decreases |states|
  {
    if |states| > 0 {
      var n := |states| - 1;
      ScatterUntouched(t, states[..n], amps[..n], v);
    }
  }

  /** The row of entry `i` holds its amplitude when no later entry names the same row. */
  lemma {:induction false} ScatterLast(t: seq<Complex>, states: seq<Word>, amps: seq<Complex>, i: nat)
    requires |states| == |amps| && forall k | 0 <= k < |states| :: Value(states[k]) < |t|
    requires i < |states| && forall k | i < k < |states| :: Value(states[k]) != Value(states[i])
    ensures Scatter(t, states, amps)[Value(states[i])] == amps[i]
    decreases |states|
  {
    var n := |states| - 1;
    if i < n {
      ScatterLast(t, states[..n], amps[..n], i);
    }
  }

  /** A register whose every state is a row of a `2^width` vector. */
  ghost predicate FitsRows(reg: Qreg)
  {
    WellFormed(reg) && reg.state.Some? && 0 <= reg.width <= 30
    && forall i | 0 <= i < |reg.state.value| :: Value(reg.state.value[i]) < Pow2(reg.width)
  }

  /** `ql_qreg2matrix(reg)`: a zero column of `2^width` rows with each
      amplitude written at the row of its state. */
  function Qreg2Matrix(reg: Qreg): (m: Matrix.Matrix)
    requires FitsRows(reg)
    ensures Matrix.Valid(m) && m.cols == 1 && m.rows == Pow2(reg.width)
    ensures m.t == Scatter(ZeroColumn(Pow2(reg.width)), reg.state.value, reg.amplitude)
  {
    var zero := Matrix.New(1, Pow2(reg.width));
    NewColumnZero(Pow2(reg.width));
    Matrix.Matrix(1, Pow2(reg.width), Scatter(zero.t, reg.state.value, reg.amplitude))
  }

  /** A column of `n` zeros. */
  function ZeroColumn(n: nat): (t: seq<Complex>)
    ensures |t| == n && forall y | 0 <= y < n :: t[y] == Zero
  {
    seq(n, _ => Zero)
  }

  /** The new `1 x n` matrix is the zero column. */
  lemma NewColumnZero(n: nat)
    ensures Matrix.New(1, n).t == ZeroColumn(n)
  {
    var z := Matrix.New(1, n);
    forall y | 0 <= y < n
      ensures z.t[y] == Zero
    {
      assert Matrix.At(z, 0, y) == Zero;
    }
  }

  /** The register made from a column of `2^width` rows names each kept
      row by its number, and every state is a row of the column. */
  lemma Matrix2QregRows(m: Matrix.Matrix, width: int)
    requires Matrix.Valid(m) && m.cols == 1 && 0 <= width <= 28 && m.rows == Pow2(width)
    ensures Matrix2Qreg(m, width).Ok?
    ensures var reg := Matrix2Qreg(m, width).value; var ks := NonZero(m.t);
      FitsRows(reg) && forall k | 0 <= k < |ks| :: Value(reg.state.value[k]) == ks[k]
  {
    var reg := Matrix2Qreg(m, width).value;
    var ks := NonZero(m.t);
    assert |m.t| == m.rows;
    ColumnRows(m.t, width);
    forall k | 0 <= k < |ks|
      ensures Value(reg.state.value[k]) == ks[k] < Pow2(width)
    {
      assert reg.state.value[k] == WordOf(ks[k]);
    }
  }

  /** The non-zero rows of a column of `2^width` rows are spelt exactly by their words. */
  lemma ColumnRows(t: seq<Complex>, width: nat)
    requires width <= 28 && |t| == Pow2(width)
    ensures forall k | 0 <= k < |NonZero(t)| :: Value(WordOf(NonZero(t)[k])) == NonZero(t)[k] < Pow2(width)
  {
    Pow2Monotone(width, WordSize);
    RowNumbers(NonZero(t), Pow2(width));
  }

  /** Row numbers below `2^64` are spelt exactly by their words. */
  lemma RowNumbers(ks: seq<nat>, bound: nat)
    requires bound <= Pow2(WordSize) && forall k | 0 <= k < |ks| :: ks[k] < bound
    ensures forall k | 0 <= k < |ks| :: Value(WordOf(ks[k])) == ks[k] < bound
  {
    forall k | 0 <= k < |ks|
      ensures Value(WordOf(ks[k])) == ks[k]
    {
      ValueOfFromNat(ks[k], WordSize);
    }
  }

  /** A column vector of `2^width` rows survives the trip through a register. */
  lemma MatrixRoundTrip(m: Matrix.Matrix, width: int)
    requires Matrix.Valid(m) && m.cols == 1 && 0 <= width <= 28 && m.rows == Pow2(width)
    ensures Matrix2Qreg(m, width).Ok?
    ensures var reg := Matrix2Qreg(m, width).value; FitsRows(reg) && Qreg2Matrix(reg) == m
  {
    Matrix2QregRows(m, width);
    var reg := Matrix2Qreg(m, width).value;
    var q := Qreg2Matrix(reg);
    assert q.t == m.t by {
      assert |m.t| == m.rows;
      ColumnBack(m.t, reg.state.value, reg.amplitude);
    }
    assert q.cols == m.cols && q.rows == m.rows;
  }

  /** Writing the non-zero entries of `t` back at the rows their states
      name rebuilds `t`. */
  lemma ColumnBack(t: seq<Complex>, states: seq<Word>, amps: seq<Complex>)
    requires |states| == |amps| == |NonZero(t)|
    requires forall k | 0 <= k < |states| :: Value(states[k]) == NonZero(t)[k] && amps[k] == t[NonZero(t)[k]]
    ensures Scatter(ZeroColumn(|t|), states, amps) == t
  {
    var ks := NonZero(t);
    var zero := ZeroColumn(|t|);
    var r := Scatter(zero, states, amps);
    forall v | 0 <= v < |t|
      ensures r[v] == t[v]
    {
      if t[v] != Zero {
        var k :| 0 <= k < |ks| && ks[k] == v;
        ScatterLast(zero, states, amps, k);
      } else {
        ScatterUntouched(zero, states, amps, v);
      }
    }
  }

  lemma FirstIn(s: seq<nat>)
    ensures |s| == 0 || s[0] in s
  {
  }

  /** Two strictly increasing sequences with the same elements are equal. */
  lemma {:induction false} IncreasingUnique(a: seq<nat>, b: seq<nat>)
    requires forall k, l | 0 <= k < l < |a| :: a[k] < a[l]
    requires forall k, l | 0 <= k < l < |b| :: b[k] < b[l]
    requires forall x :: x in a <==> x in b
    ensures a == b
    decreases |a|
  {
    FirstIn(a);
    FirstIn(b);
    if |a| > 0 && |b| > 0 {
      assert a[0] == b[0] by {
        assert a[0] in b && b[0] in a;
      }
      forall x
        ensures x in a[1..] <==> x in b[1..]
      {
        if x in a[1..] {
          assert x in b && x != b[0];
        }
        if x in b[1..] {
          assert x in a && x != a[0];
        }
      }
      IncreasingUnique(a[1..], b[1..]);
    }
  }

  /** A register whose states increase and whose amplitudes are all non-zero
      comes back unchanged (up to a fresh table) from the trip through a
      column vector: the vector's non-zero rows are its states, in order. */
  lemma QregRoundTrip(reg: Qreg)
    requires FitsRows(reg) && reg.width <= 28
    requires forall k, l | 0 <= k < l < |reg.state.value| :: Value(reg.state.value[k]) < Value(reg.state.value[l])
    requires forall k | 0 <= k < |reg.amplitude| :: reg.amplitude[k] != Zero
    ensures Matrix2Qreg(Qreg2Matrix(reg), reg.width)
      == Ok(Qreg(reg.width, reg.width + 2, reg.amplitude, reg.state, Some(EmptyTable(reg.width + 2))))
  {
    var m := Qreg2Matrix(reg);
    var st := reg.state.value;
    ScatterNonZero(Pow2(reg.width), st, reg.amplitude);
    var ks := NonZero(m.t);
    var r := Matrix2Qreg(m, reg.width).value;
    forall k | 0 <= k < |st|
      ensures r.state.value[k] == st[k] && r.amplitude[k] == reg.amplitude[k]
    {
      assert ks[k] == Value(st[k]);
      FromNatOfValue(st[k]);
    }
    assert r.state.value == st;
    assert r.amplitude == reg.amplitude;
  }

  /** Scattering distinct increasing rows with non-zero amplitudes into a
      zero column: the column's non-zero rows are exactly those rows, in
      order, each holding its amplitude. */
  lemma ScatterNonZero(n: nat, st: seq<Word>, amps: seq<Complex>)
    requires |st| == |amps| && forall k | 0 <= k < |st| :: Value(st[k]) < n
    requires forall k, l | 0 <= k < l < |st| :: Value(st[k]) < Value(st[l])
    requires forall k | 0 <= k < |amps| :: amps[k] != Zero
    ensures |NonZero(Scatter(ZeroColumn(n), st, amps))| == |st|
    ensures forall k | 0 <= k < |st| ::
      NonZero(Scatter(ZeroColumn(n), st, amps))[k] == Value(st[k]) && Scatter(ZeroColumn(n), st, amps)[Value(st[k])] == amps[k]
  {
    var ks := NonZero(Scatter(ZeroColumn(n), st, amps));
    var vs := Values(st);
    ScatterKeeps(n, st, amps);
    ScatterSameRows(n, st, amps);
    IncreasingUnique(ks, vs);
  }

  /** The numbers of the states, in order. */
  function Values(st: seq<Word>): (vs: seq<nat>)
    ensures |vs| == |st| && forall k | 0 <= k < |st| :: vs[k] == Value(st[k])
  {
    seq(|st|, k requires 0 <= k < |st| => Value(st[k]))
  }

  /** Each state's row holds its amplitude when the rows increase. */
  lemma ScatterKeeps(n: nat, st: seq<Word>, amps: seq<Complex>)
    requires |st| == |amps| && forall k | 0 <= k < |st| :: Value(st[k]) < n
    requires forall k, l | 0 <= k < l < |st| :: Value(st[k]) < Value(st[l])
    ensures forall k | 0 <= k < |st| :: Scatter(ZeroColumn(n), st, amps)[Value(st[k])] == amps[k]
  {
    forall k | 0 <= k < |st|
      ensures Scatter(ZeroColumn(n), st, amps)[Value(st[k])] == amps[k]
    {
      ScatterLast(ZeroColumn(n), st, amps, k);
    }
  }

  /** The non-zero rows are exactly the rows the states name. */
  lemma ScatterSameRows(n: nat, st: seq<Word>, amps: seq<Complex>)
    requires |st| == |amps| && forall k | 0 <= k < |st| :: Value(st[k]) < n
    requires forall k | 0 <= k < |amps| :: amps[k] != Zero
    requires forall k | 0 <= k < |st| :: Scatter(ZeroColumn(n), st, amps)[Value(st[k])] == amps[k]
    ensures forall x :: x in NonZero(Scatter(ZeroColumn(n), st, amps)) <==> x in Values(st)
  {
    var t := Scatter(ZeroColumn(n), st, amps);
    var ks, vs := NonZero(t), Values(st);
    forall x | x in vs
      ensures x in ks
    {
      var k :| 0 <= k < |vs| && vs[k] == x;
      assert t[x] != Zero;
    }
    forall x | x in ks
      ensures x in vs
    {
      ScatterRowNamed(ZeroColumn(n), st, amps, x);
      var i :| 0 <= i < |st| && Value(st[i]) == x;
      assert vs[i] == x;
    }
  }

}

=== FILE: decoherence.dfy ===
/** The decoherence switch and step (src/ql_decoherence.c).

    Two statics hold the setting: whether noise is on and its strength
    `lambda`.  `ql_set_decoherence(l)` turns noise on with `lambda = l` for
    a non-zero `l`, and turns it off for `l = 0` without touching `lambda`,
    so `ql_get_decoherence` still reports the old strength.  The step every
    gate ends with, `ql_decoherence` (spelt `ql_decohernce` in the source),
    counts one gate and, when noise is on, multiplies each amplitude by
    `euler_formula(angle)`, the angle adding `n_j` for every set bit `j`
    below the width and subtracting it for every clear one.  The Gaussian
    draws `n_j` come from `rand()`; here they are a supplied vector, and
    `euler_formula` is a function parameter.
 */
module Decoherence {
  import opened Bits
  import opened Complex
  import opened Register
  import Gates

  /** `quantum_status` (as a flag) and `quantum_lambda`. */
  datatype Noise = Noise(enabled: bool, lambda: real)

  /** Both statics start at 0. */
  const Initial: Noise := Noise(false, 0.0)

  /** `ql_get_decoherence()`. */
  function GetDecoherence(n: Noise): real
  {
    n.lambda
  }

  /** `ql_set_decoherence(l)`: a non-zero `l` turns noise on with that
      strength; 0 turns it off and leaves the strength as it was. */
  function SetDecoherence(n: Noise, l: real): (m: Noise)
    ensures m.enabled <==> l != 0.0
    ensures l != 0.0 ==> GetDecoherence(m) == l
    ensures l == 0.0 ==> GetDecoherence(m) == GetDecoherence(n)
  {
    if l != 0.0 then Noise(true, l) else n.(enabled := false)
  }

  /** The setting after a run of `ql_set_decoherence` calls. */
  function SetAll(n: Noise, ls: seq<real>): Noise
    decreases |ls|
  {
    if |ls| == 0 then n else SetAll(SetDecoherence(n, ls[0]), ls[1..])
  }

  /** From the initial setting, noise is only ever on with a non-zero
      strength, but it can be off with a non-zero strength: after `l` and
      then 0, `get` still reports `l`. */
  lemma {:induction false} SetAllReach(n: Noise, ls: seq<real>)
    requires n.enabled ==> n.lambda != 0.0
    ensures var m := SetAll(n, ls); m.enabled ==> m.lambda != 0.0
    ensures |ls| > 0 && ls[|ls| - 1] == 0.0 ==> !SetAll(n, ls).enabled
    decreases |ls|
  {
    if |ls| > 0 {
      SetAllReach(SetDecoherence(n, ls[0]), ls[1..]);
      if |ls| == 1 {
        assert SetAll(n, ls) == SetAll(SetDecoherence(n, ls[0]), []);
      } else {
        assert ls[1..][|ls[1..]| - 1] == ls[|ls| - 1];
      }
    }
  }

  /** Turning noise off after setting a strength keeps that strength. */
  lemma OffKeepsStrength(l: real)
    requires l != 0.0
    ensures var m := SetAll(Initial, [l, 0.0]); !m.enabled && GetDecoherence(m) == l
  {
    var on := SetDecoherence(Initial, l);
    assert [l, 0.0][1..] == [0.0];
    assert SetAll(Initial, [l, 0.0]) == SetAll(on, [0.0]);
    assert [0.0][1..] == [];
    assert SetAll(on, [0.0]) == SetAll(SetDecoherence(on, 0.0), []);
  }

  /** The save and restore the encoded gates of src/ql_qec.c wrap around
      their inner gates: read the strength, set 0, set the strength read.
      It gives back the setting exactly when noise was on or the strength
      was 0, so a switched-off noise with a non-zero strength comes back
      switched on. */
  lemma SaveRestore(n: Noise)
    ensures SetDecoherence(SetDecoherence(n, 0.0), GetDecoherence(n)) == n <==> (n.enabled <==> n.lambda != 0.0)
  {
  }

  /** The phase angle of one state: `+n_j` for every set bit `j < width`,
      `-n_j` for every clear one. */
  function Angle(s: Word, nrands: seq<real>, width: nat): real
    requires width <= |nrands| && width <= WordSize
  {
    if width == 0 then 0.0
    else Angle(s, nrands, width - 1) + (if s[width - 1] then nrands[width - 1] else -nrands[width - 1])
  }

  /** Flipping bit `k` below the width moves the angle by twice `n_k`:
      up when the bit becomes set, down when it becomes clear. */
  lemma {:induction false} AngleFlip(s: Word, nrands: seq<real>, width: nat, k: nat)
    requires width <= |nrands| && width <= WordSize && k < WordSize
    ensures Angle(Flip(s, k), nrands, width)
      == Angle(s, nrands, width) + (if k < width then (if s[k] then -2.0 * nrands[k] else 2.0 * nrands[k]) else 0.0)
  {
    if width > 0 {
      AngleFlip(s, nrands, width - 1, k);
    }
  }

  /** The state with every bit clear gets the opposite angle of the state
      with every bit set. */
  lemma {:induction false} AngleExtremes(nrands: seq<real>, width: nat)
    requires width <= |nrands| && width <= WordSize
    ensures Angle(ZeroWord(), nrands, width) == -Angle(AllOnes(), nrands, width)
  {
    if width > 0 {
      AngleExtremes(nrands, width - 1);
    }
  }

  /** The result of one decoherence step: the gate counter and the register. */
  datatype Step = Step(counter: int, reg: Qreg)

  /** `ql_decoherence(reg)` with the gate counter at `counter`, the draws
      `nrands` and `euler` for `euler_formula`.  The counter goes up by one;
      with noise off the register is untouched; with noise on the states,
      size, width and table stay and each amplitude is multiplied by the
      phase of its state's angle. */
  function Decohere(n: Noise, counter: int, reg: Qreg, nrands: seq<real>, euler: real -> Complex): (r: Step)
    requires WellFormed(reg)
    requires n.enabled ==> reg.state.Some? && 0 <= reg.width <= WordSize && |nrands| == reg.width
    ensures r.counter == counter + 1
    ensures !n.enabled ==> r.reg == reg
    ensures n.enabled ==> WellFormed(r.reg) && r.reg == reg.(amplitude := r.reg.amplitude) && r.reg.Size() == reg.Size()
    ensures n.enabled ==> forall i | 0 <= i < reg.Size() ::
      r.reg.amplitude[i] == Mul(reg.amplitude[i], euler(Angle(reg.state.value[i], nrands, reg.width)))
  {
    var c := Gates.Counter(counter, 1);
    if !n.enabled then Step(c, reg)
    else
      var st := reg.state.value;
      Step(c, reg.(amplitude := seq(reg.Size(), i requires 0 <= i < reg.Size() =>
        Mul(reg.amplitude[i], euler(Angle(st[i], nrands, reg.width))))))
  }

  /** With noise on, two entries whose states differ only in bit `k` below
      the width get phases whose angles differ by twice `n_k`. */
  lemma DecoherePhases(n: Noise, counter: int, reg: Qreg, nrands: seq<real>, euler: real -> Complex, i: nat, j: nat, k: nat)
    requires WellFormed(reg) && n.enabled && reg.state.Some? && 0 <= reg.width <= WordSize && |nrands| == reg.width
    requires i < reg.Size() && j < reg.Size() && k < reg.width
    requires reg.state.value[j] == Flip(reg.state.value[i], k) && !reg.state.value[i][k]
    ensures var r := Decohere(n, counter, reg, nrands, euler);
      r.reg.amplitude[i] == Mul(reg.amplitude[i], euler(Angle(reg.state.value[i], nrands, reg.width)))
      && r.reg.amplitude[j] == Mul(reg.amplitude[j], euler(Angle(reg.state.value[i], nrands, reg.width) + 2.0 * nrands[k]))
  {
    AngleFlip(reg.state.value[i], nrands, reg.width, k);
  }
}

=== FILE: density.dfy ===
/** Density operators as ensembles of registers (src/ql_density.c).

    A density operator holds `num` registers with a probability each.  The
    registers of one operator share a single hash table: `ql_density_new_op`
    gives every branch the table and table width of branch 0, the partial
    trace `ql_density_reduced_op` splits each branch into its collapses on
    0 and on 1, which keep the table, and `ql_density_delete_op` frees the
    table once, through branch 0, before freeing each branch's arrays.
    Tables are values here, so sharing one table is stated as every branch
    holding the same table as branch 0.  The probabilities are `float`s in
    the source and exact reals here, and `norm` stands for
    `1 / (float) sqrt(d)`.  The collapse the partial trace calls is
    `ql_qreg_state_collapse` (module Collapse).  `ReducedOpAsWritten` uses
    that collapse as written, which sets every state to 0; `ReducedOp` uses
    the intended collapse, and the lemmas about the partial trace are about
    it.
 */
module Density {
  import opened Wrappers
  import opened Bits
  import opened Complex
  import opened Register
  import opened Collapse
  import Measure

  /** `ql_density_op`: `num` branches with their probabilities. */
  datatype DensityOp = DensityOp(num: int, prob: seq<real>, reg: seq<Qreg>)

  /** The arrays agree with `num` and every branch is a register with states. */
  predicate Valid(rho: DensityOp)
  {
    && rho.num >= 1 && |rho.prob| == rho.num && |rho.reg| == rho.num
    && forall k | 0 <= k < rho.num :: WellFormed(rho.reg[k]) && rho.reg[k].state.Some?
  }

  /** Every branch uses branch 0's table and table width. */
  predicate Shares(rho: DensityOp)
    requires |rho.reg| >= 1
  {
    forall k | 0 <= k < |rho.reg| :: rho.reg[k].hash == rho.reg[0].hash && rho.reg[k].hashw == rho.reg[0].hashw
  }

  /** What `ql_density_new_op` leaves in a source register: size and width
      0 and no arrays or table; the table width is not reset. */
  function Emptied(r: Qreg): (e: Qreg)
    ensures e.Size() == 0 && e.width == 0 && e.state.None? && e.hash.None? && e.hashw == r.hashw
  {
    Qreg(0, r.hashw, [], None, None)
  }

  /** The new operator and the caller's source registers afterwards. */
  datatype Moved = Moved(rho: DensityOp, sources: seq<Qreg>)

  /** `ql_density_new_op(reg, num, prob)`: branch `i` takes over register
      `i` with probability `prob[i]`, every branch gets branch 0's table,
      and the first `num` source registers are emptied. */
  function NewOp(regs: seq<Qreg>, num: int, prob: seq<real>): (m: Moved)
    requires 1 <= num <= |regs| && num <= |prob|
    requires forall k | 0 <= k < num :: regs[k].state.Some? && |regs[k].state.value| == regs[k].Size()
    requires regs[0].hashw != 0 ==> regs[0].hashw <= 30 && regs[0].hash.Some? && |regs[0].hash.value| == Pow2(regs[0].hashw)
    ensures Valid(m.rho) && Shares(m.rho)
    ensures m.rho.num == num && m.rho.prob == prob[..num]
    ensures m.rho.reg[0] == regs[0]
    ensures forall k | 0 <= k < num ::
      m.rho.reg[k] == regs[k].(hash := regs[0].hash, hashw := regs[0].hashw)
    ensures |m.sources| == |regs|
    ensures forall k | 0 <= k < num :: m.sources[k] == Emptied(regs[k])
    ensures forall k | num <= k < |regs| :: m.sources[k] == regs[k]
  {
    var branches := seq(num, k requires 0 <= k < num => regs[k].(hash := regs[0].hash, hashw := regs[0].hashw));
    assert branches[0] == regs[0];
    forall k | 0 <= k < num
      ensures WellFormed(branches[k]) && branches[k].state.Some?
    {
      var b := regs[k].(hash := regs[0].hash, hashw := regs[0].hashw);
      assert branches[k] == b;
      assert b.Size() == regs[k].Size() && b.state == regs[k].state;
    }
    var sources := seq(|regs|, k requires 0 <= k < |regs| => if k < num then Emptied(regs[k]) else regs[k]);
    Moved(DensityOp(num, prob[..num], branches), sources)
  }

  /** `ql_qreg2density_op(reg)`: one branch, the register, with probability 1. */
  function Qreg2Density(reg: Qreg): (m: Moved)
    requires WellFormed(reg) && reg.state.Some?
    ensures Valid(m.rho) && m.rho == DensityOp(1, [1.0], [reg])
    ensures m.sources == [Emptied(reg)]
  {
    var m := NewOp([reg], 1, [1.0]);
    assert m.rho.reg == [reg];
    m
  }

  /** `p0` of every branch: the probability of its entries with bit `pos`
      clear. */
  function ClearProbs(rho: DensityOp, pos: nat): (qs: seq<real>)
    requires Valid(rho) && pos < WordSize
    ensures |qs| == rho.num && forall k | 0 <= k < rho.num :: qs[k] == Measure.ClearProb(rho.reg[k], pos)
  {
    seq(rho.num, k requires 0 <= k < rho.num => Measure.ClearProb(rho.reg[k], pos))
  }

  /** The collapses of every branch on `value`. */
  function Collapses(rho: DensityOp, pos: nat, value: int, norm: real -> real): (cs: seq<Qreg>)
    requires Valid(rho) && pos < WordSize
    ensures |cs| == rho.num
    ensures forall k | 0 <= k < rho.num :: cs[k] == Collapse.Collapse(rho.reg[k], pos, value, norm)
  {
    seq(rho.num, k requires 0 <= k < rho.num => Collapse.Collapse(rho.reg[k], pos, value, norm))
  }

  /** The probabilities of the partial trace: branch `k` with probability
      `p_k` splits into `p_k * q_k` at `k` and `p_k * (1 - q_k)` at
      `|ps| + k`. */
  function SplitProbs(ps: seq<real>, qs: seq<real>): (ws: seq<real>)
    requires |ps| == |qs|
    ensures |ws| == 2 * |ps|
    ensures forall k | 0 <= k < |ps| :: ws[k] == ps[k] * qs[k]
    ensures forall k | |ps| <= k < 2 * |ps| :: ws[k] == ps[k - |ps|] * (1.0 - qs[k - |ps|])
  {
    var n := |ps|;
    seq(2 * n, k requires 0 <= k < 2 * n => if k < n then ps[k] * qs[k] else ps[k - n] * (1.0 - qs[k - n]))
  }

  /** The branches of the partial trace: the collapses of every branch on 0,
      then the collapses of every branch on 1. */
  function SplitRegs(rho: DensityOp, pos: nat, norm: real -> real): (rs: seq<Qreg>)
    requires Valid(rho) && pos < WordSize
    ensures |rs| == 2 * rho.num
    ensures forall k | 0 <= k < rho.num :: rs[k] == Collapse.Collapse(rho.reg[k], pos, 0, norm)
    ensures forall k | rho.num <= k < 2 * rho.num :: rs[k] == Collapse.Collapse(rho.reg[k - rho.num], pos, 1, norm)
    ensures forall j | 0 <= j < 2 * rho.num :: WellFormed(rs[j]) && rs[j].state.Some?
  {
    var n := rho.num;
    seq(2 * n, k requires 0 <= k < 2 * n =>
      if k < n then Collapse.Collapse(rho.reg[k], pos, 0, norm) else Collapse.Collapse(rho.reg[k - n], pos, 1, norm))
  }

  /** `ql_density_reduced_op(rho, pos)`: twice as many branches, the first
      `num` being the collapses on 0 and the next `num` the collapses on 1,
      each with its share of the branch's probability.  What this means is
      stated by `ReducedPair`, `ReducedBranches`, `ReducedShares` and
      `ReducedTotal` below. */
  function ReducedOp(rho: DensityOp, pos: nat, norm: real -> real): (out: DensityOp)
    requires Valid(rho) && pos < WordSize
    ensures out.num == 2 * rho.num
    ensures out.prob == SplitProbs(rho.prob, ClearProbs(rho, pos))
    ensures out.reg == SplitRegs(rho, pos, norm)
  {
    DensityOp(2 * rho.num, SplitProbs(rho.prob, ClearProbs(rho, pos)), SplitRegs(rho, pos, norm))
  }

  /** The partial trace is again a density operator. */
  lemma ReducedValid(rho: DensityOp, pos: nat, norm: real -> real)
    requires Valid(rho) && pos < WordSize
    ensures Valid(ReducedOp(rho, pos, norm))
  {
  }

  /** The two halves of the partial trace. */
  lemma ReducedParts(rho: DensityOp, pos: nat, norm: real -> real)
    requires Valid(rho) && pos < WordSize
    ensures ReducedOp(rho, pos, norm).prob == SplitProbs(rho.prob, ClearProbs(rho, pos))
    ensures ReducedOp(rho, pos, norm).reg == SplitRegs(rho, pos, norm)
  {
  }

  /** The two shares made from probability `k`. */
  lemma SplitAt(ps: seq<real>, qs: seq<real>, k: nat, n: nat)
    requires |ps| == |qs| && k < |ps| && n == |ps| + k
    ensures SplitProbs(ps, qs)[k] == ps[k] * qs[k]
    ensures SplitProbs(ps, qs)[n] == ps[k] * (1.0 - qs[k])
    ensures SplitProbs(ps, qs)[k] + SplitProbs(ps, qs)[n] == ps[k]
  {
    assert n - |ps| == k;
  }

  /** Branch `k` of the operator keeps the share `p * p0` of its
      probability `p`, `p0 = ClearProbs(rho, pos)[k]` being the probability
      of its entries with bit `pos` clear. */
  lemma ReducedProbs(rho: DensityOp, pos: nat, norm: real -> real, k: nat)
    requires Valid(rho) && pos < WordSize && k < rho.num
    ensures var out := ReducedOp(rho, pos, norm); out.prob[k] == rho.prob[k] * ClearProbs(rho, pos)[k]
  {
    ReducedFirst(rho, pos, norm, k);
    ProductAt(rho.prob, ClearProbs(rho, pos), SplitProbs(rho.prob, ClearProbs(rho, pos)), k);
  }

  /** Branch `k` of the operator has the first share of branch `k`. */
  lemma ReducedFirst(rho: DensityOp, pos: nat, norm: real -> real, k: nat)
    requires Valid(rho) && pos < WordSize && k < rho.num
    ensures ReducedOp(rho, pos, norm).prob[k] == SplitProbs(rho.prob, ClearProbs(rho, pos))[k]
  {
  }

  /** The first half of the split holds the products. */
  lemma ProductAt(ps: seq<real>, qs: seq<real>, ws: seq<real>, k: nat)
    requires |ps| == |qs| && k < |ps| && ws == SplitProbs(ps, qs)
    ensures ws[k] == ps[k] * qs[k]
  {
  }

  /** Branches `k` and `num + k` share out the probability of branch `k`. */
  lemma ReducedPair(rho: DensityOp, pos: nat, norm: real -> real, k: nat)
    requires Valid(rho) && pos < WordSize && k < rho.num
    ensures var out := ReducedOp(rho, pos, norm); out.prob[k] + out.prob[rho.num + k] == rho.prob[k]
  {
    var out := ReducedOp(rho, pos, norm);
    var qs := ClearProbs(rho, pos);
    ShareAt(out.prob, rho.prob, qs, k, rho.num + k);
  }

  /** `SplitAt` for a sequence known to be the split. */
  lemma ShareAt(ws: seq<real>, ps: seq<real>, qs: seq<real>, k: nat, n: nat)
    requires |ps| == |qs| && k < |ps| && n == |ps| + k && ws == SplitProbs(ps, qs)
    ensures ws[k] == ps[k] * qs[k] && ws[k] + ws[n] == ps[k]
  {
    SplitAt(ps, qs, k, n);
  }

  /** Branch `k` of the operator becomes its collapse on 0 and branch
      `num + k` its collapse on 1. */
  lemma ReducedBranches(rho: DensityOp, pos: nat, norm: real -> real, k: nat)
    requires Valid(rho) && pos < WordSize && k < rho.num
    ensures var out := ReducedOp(rho, pos, norm);
      && out.reg[k] == Collapse.Collapse(rho.reg[k], pos, 0, norm)
      && out.reg[rho.num + k] == Collapse.Collapse(rho.reg[k], pos, 1, norm)
  {
    ReducedParts(rho, pos, norm);
    assert rho.num + k - rho.num == k;
  }

  /** The branches of the partial trace built with the collapse as
      written: the same kept entries and amplitudes, but every state 0. */
  function SplitRegsAsWritten(rho: DensityOp, pos: nat, norm: real -> real): (rs: seq<Qreg>)
    requires Valid(rho) && pos < WordSize
    ensures |rs| == 2 * rho.num
    ensures forall k | 0 <= k < rho.num :: rs[k] == Collapse.CollapseAsWritten(rho.reg[k], pos, 0, norm)
    ensures forall k | rho.num <= k < 2 * rho.num :: rs[k] == Collapse.CollapseAsWritten(rho.reg[k - rho.num], pos, 1, norm)
  {
    var n := rho.num;
    seq(2 * n, k requires 0 <= k < 2 * n =>
      if k < n then Collapse.CollapseAsWritten(rho.reg[k], pos, 0, norm) else Collapse.CollapseAsWritten(rho.reg[k - n], pos, 1, norm))
  }

  /** `ql_density_reduced_op(rho, pos)` as written: the probabilities of
      the partial trace, with branches from the collapse as written. */
  function ReducedOpAsWritten(rho: DensityOp, pos: nat, norm: real -> real): (out: DensityOp)
    requires Valid(rho) && pos < WordSize
    ensures out.num == 2 * rho.num
    ensures out.prob == SplitProbs(rho.prob, ClearProbs(rho, pos))
    ensures out.reg == SplitRegsAsWritten(rho, pos, norm)
  {
    DensityOp(2 * rho.num, SplitProbs(rho.prob, ClearProbs(rho, pos)), SplitRegsAsWritten(rho, pos, norm))
  }

  /** As written, every state of every branch of the partial trace is 0.
      The probabilities, and each branch's width, amplitudes and table,
      are those of the intended partial trace; only the states differ. */
  lemma ReducedAsWrittenZero(rho: DensityOp, pos: nat, norm: real -> real)
    requires Valid(rho) && pos < WordSize
    ensures var w := ReducedOpAsWritten(rho, pos, norm); var out := ReducedOp(rho, pos, norm);
      && w.num == out.num && w.prob == out.prob && |w.reg| == |out.reg| == w.num
      && (forall j | 0 <= j < w.num :: w.reg[j] == out.reg[j].(state := w.reg[j].state))
      && (forall j | 0 <= j < w.num :: w.reg[j].state.Some?)
      && (forall j, t | 0 <= j < w.num && 0 <= t < |w.reg[j].state.value| :: w.reg[j].state.value[t] == ZeroWord())
  {
    var w := ReducedOpAsWritten(rho, pos, norm);
    var out := ReducedOp(rho, pos, norm);
    forall j | 0 <= j < w.num
      ensures w.reg[j] == out.reg[j].(state := w.reg[j].state)
    {
      if j >= rho.num {
        assert j - rho.num < rho.num;
      }
    }
  }

  /** As written, a branch whose register has two entries on the same side
      of bit `pos` repeats the state 0 after the partial trace, where the
      intended branch keeps the states distinct. */
  lemma ReducedAsWrittenRepeats(rho: DensityOp, pos: nat, norm: real -> real, k: nat)
    requires Valid(rho) && pos < WordSize && k < rho.num
    requires |Kept(rho.reg[k].state.value, pos, 0)| >= 2
    requires Distinct(rho.reg[k].state.value)
    ensures !Distinct(ReducedOpAsWritten(rho, pos, norm).reg[k].state.value)
    ensures Distinct(ReducedOp(rho, pos, norm).reg[k].state.value)
  {
    CollapseAsWrittenRepeats(rho.reg[k], pos, 0, norm);
    CollapseDistinct(rho.reg[k], pos, 0, norm);
    ReducedBranches(rho, pos, norm, k);
  }

  /** Branch `j` of the partial trace comes from branch `j` or `j - num`:
      one qubit fewer and the same table. */
  lemma SplitRegAt(rho: DensityOp, pos: nat, norm: real -> real, j: nat, src: nat)
    requires Valid(rho) && pos < WordSize && j < 2 * rho.num
    requires src == if j < rho.num then j else j - rho.num
    ensures var r := SplitRegs(rho, pos, norm)[j];
      r.width == rho.reg[src].width - 1 && r.hash == rho.reg[src].hash && r.hashw == rho.reg[src].hashw
  {
  }

  /** Each branch of the partial trace has one qubit fewer than the branch
      it came from, and the shared table stays shared. */
  lemma ReducedShares(rho: DensityOp, pos: nat, norm: real -> real)
    requires Valid(rho) && pos < WordSize && Shares(rho)
    ensures var out := ReducedOp(rho, pos, norm);
      && Shares(out) && out.reg[0].hash == rho.reg[0].hash && out.reg[0].hashw == rho.reg[0].hashw
      && forall k | 0 <= k < rho.num ::
           out.reg[k].width == rho.reg[k].width - 1 && out.reg[rho.num + k].width == rho.reg[k].width - 1
  {
    var out := ReducedOp(rho, pos, norm);
    ReducedParts(rho, pos, norm);
    forall j | 0 <= j < |out.reg|
      ensures out.reg[j].hash == rho.reg[0].hash && out.reg[j].hashw == rho.reg[0].hashw
    {
      SplitRegAt(rho, pos, norm, j, if j < rho.num then j else j - rho.num);
    }
    forall k | 0 <= k < rho.num
      ensures out.reg[k].width == rho.reg[k].width - 1 && out.reg[rho.num + k].width == rho.reg[k].width - 1
    {
      SplitRegAt(rho, pos, norm, k, k);
      SplitRegAt(rho, pos, norm, rho.num + k, k);
    }
  }

  /** The sum of a sequence of probabilities. */
  function Total(ps: seq<real>): real
  {
    if |ps| == 0 then 0.0 else Total(ps[..|ps| - 1]) + ps[|ps| - 1]
  }

  /** The sum of a concatenation is the sum of the sums. */
  lemma {:induction false} TotalAppend(a: seq<real>, b: seq<real>)
    ensures Total(a + b) == Total(a) + Total(b)
    decreases |b|
  {
    if |b| > 0 {
      var n := |b| - 1;
      assert (a + b)[..|a + b| - 1] == a + b[..n];
      TotalAppend(a, b[..n]);
    } else {
      assert a + b == a;
    }
  }

  /** Splitting every probability `p_k` into `p_k * q_k` and
      `p_k * (1 - q_k)` keeps the sum of each prefix. */
  lemma {:induction false} SplitTotal(ps: seq<real>, qs: seq<real>, lo: seq<real>, hi: seq<real>)
    requires |ps| == |qs| == |lo| == |hi|
    requires forall k | 0 <= k < |ps| :: lo[k] == ps[k] * qs[k] && hi[k] == ps[k] * (1.0 - qs[k])
    ensures Total(lo) + Total(hi) == Total(ps)
    decreases |ps|
  {
    if |ps| > 0 {
      var n := |ps| - 1;
      SplitTotal(ps[..n], qs[..n], lo[..n], hi[..n]);
      assert lo[n] + hi[n] == ps[n] by {
        assert ps[n] * qs[n] + ps[n] * (1.0 - qs[n]) == ps[n];
      }
    }
  }

  /** Splitting keeps the total probability. */
  lemma SplitProbsTotal(ps: seq<real>, qs: seq<real>)
    requires |ps| == |qs|
    ensures Total(SplitProbs(ps, qs)) == Total(ps)
  {
    var n := |ps|;
    var ws := SplitProbs(ps, qs);
    assert ws == ws[..n] + ws[n..];
    TotalAppend(ws[..n], ws[n..]);
    SplitHalves(ws, ps, qs);
    SplitTotal(ps, qs, ws[..n], ws[n..]);
  }

  /** The first half of the split holds the shares `p_k * q_k`, the second
      the shares `p_k * (1 - q_k)`. */
  lemma SplitHalves(ws: seq<real>, ps: seq<real>, qs: seq<real>)
    requires |ps| == |qs| && ws == SplitProbs(ps, qs)
    ensures forall k | 0 <= k < |ps| :: ws[..|ps|][k] == ps[k] * qs[k] && ws[|ps|..][k] == ps[k] * (1.0 - qs[k])
  {
    forall k | 0 <= k < |ps|
      ensures ws[..|ps|][k] == ps[k] * qs[k] && ws[|ps|..][k] == ps[k] * (1.0 - qs[k])
    {
      SplitAt(ps, qs, k, |ps| + k);
    }
  }

  /** The partial trace keeps the total probability of the ensemble. */
  lemma ReducedTotal(rho: DensityOp, pos: nat, norm: real -> real)
    requires Valid(rho) && pos < WordSize
    ensures Total(ReducedOp(rho, pos, norm).prob) == Total(rho.prob)
  {
    SplitProbsTotal(rho.prob, ClearProbs(rho, pos));
  }

  /** Equal factors give equal products. */
  lemma ScaleEqual(p: real, a: real, b: real)
    requires a == b
    ensures p * a == p * b
  {
  }

  /** A share `p * (1 - c)` is `p * s` when `c` and `s` add up to 1. */
  lemma Complement(w: real, p: real, c: real, s: real)
    requires w == p * (1.0 - c) && c + s == 1.0
    ensures w == p * s
  {
    assert 1.0 - c == s;
  }

  /** The share `p_k * (1 - q_k)` at `|ps| + k` is `p_k * s` when `q_k`
      and `s` add up to 1. */
  lemma SplitShare(ps: seq<real>, qs: seq<real>, k: nat, n: nat, s: real)
    requires |ps| == |qs| && k < |ps| && n == |ps| + k && qs[k] + s == 1.0
    ensures SplitProbs(ps, qs)[n] == ps[k] * s
  {
    assert n - |ps| == k;
    Complement(SplitProbs(ps, qs)[n], ps[k], qs[k], s);
  }

  /** For a normalised branch, `p0` and the probability `s` of its entries
      with bit `pos` set add up to 1. */
  lemma ClearSetSum(rho: DensityOp, pos: nat, k: nat, s: real)
    requires Valid(rho) && pos < WordSize && k < rho.num
    requires SumProb(rho.reg[k].amplitude) == 1.0 && s == Measure.SetProb(rho.reg[k], pos)
    ensures ClearProbs(rho, pos)[k] + s == 1.0
  {
    Measure.ShareOut(rho.reg[k], pos);
  }

  /** Branch `num + k` gets `p * s` when `p0` and `s` add up to 1. */
  lemma ReducedComplement(rho: DensityOp, pos: nat, norm: real -> real, k: nat, s: real)
    requires Valid(rho) && pos < WordSize && k < rho.num
    requires ClearProbs(rho, pos)[k] + s == 1.0
    ensures ReducedOp(rho, pos, norm).prob[rho.num + k] == rho.prob[k] * s
  {
    SplitShare(rho.prob, ClearProbs(rho, pos), k, rho.num + k, s);
    ReducedParts(rho, pos, norm);
  }

  /** When a branch is normalised, the probability given to its collapse on
      1 is its own probability times `s`, the probability of its entries
      with bit `pos` set. */
  lemma ReducedSetShare(rho: DensityOp, pos: nat, norm: real -> real, k: nat, s: real)
    requires Valid(rho) && pos < WordSize && k < rho.num
    requires SumProb(rho.reg[k].amplitude) == 1.0 && s == Measure.SetProb(rho.reg[k], pos)
    ensures ReducedOp(rho, pos, norm).prob[rho.num + k] == rho.prob[k] * s
  {
    ClearSetSum(rho, pos, k, s);
    ReducedComplement(rho, pos, norm, k, s);
  }

  /** One release of memory by `ql_density_delete_op`. */
  datatype Release = Table(branch: nat) | Arrays(branch: nat)

  /** What `ql_density_delete_op` releases, in order, and the count it
      leaves in the operator (its `prob` and `reg` fields are cleared). */
  datatype Deleted = Deleted(num: int, released: seq<Release>)

  /** `ql_density_delete_op(rho)`: the table of branch 0 once, then the
      arrays of every branch; `num` is left as it was. */
  function DeleteOp(rho: DensityOp): (d: Deleted)
    requires Valid(rho)
    ensures d.num == rho.num && |d.released| == rho.num + 1
    ensures forall t | 0 <= t < |d.released| :: d.released[t].Table? <==> t == 0
    ensures d.released[0] == Table(0)
    ensures forall k | 0 <= k < rho.num :: d.released[k + 1] == Arrays(k)
  {
    Deleted(rho.num, [Table(0)] + seq(rho.num, k requires 0 <= k < rho.num => Arrays(k)))
  }

  /** With a shared table, deleting an operator releases every branch's
      table exactly once and every branch's arrays exactly once. */
  lemma DeleteOnce(rho: DensityOp)
    requires Valid(rho) && Shares(rho)
    ensures var d := DeleteOp(rho);
      forall k | 0 <= k < rho.num ::
        && rho.reg[k].hash == rho.reg[d.released[0].branch].hash
        && |set t | 0 <= t < |d.released| && d.released[t] == Arrays(k)| == 1
  {
    var d := DeleteOp(rho);
    forall k | 0 <= k < rho.num
      ensures |set t | 0 <= t < |d.released| && d.released[t] == Arrays(k)| == 1
    {
      var s := set t | 0 <= t < |d.released| && d.released[t] == Arrays(k);
      assert d.released[k + 1] == Arrays(k);
      assert s == {k + 1};
    }
  }
}

=== FILE: errors.dfy ===
/** Error codes, their messages and the process-wide error hook (src/ql_error.c).

    The hook is a value of type `Registry<H>`, where `H` stands for the
    handler functions a program may install.
 */
module Errors {
  import opened Wrappers

  const Success := 0
  const NoMemory := 2
  const MatrixTooLarge := 3
  const MatrixSize := 4
  const HashFull := 5
  const ColumnMatrixExpected := 65536

  const UnknownMessage := "unknown error code"

  /** The codes of the enum in include/openql/ql_error.h. */
  const KnownCodes: set<int> := {Success, NoMemory, MatrixTooLarge, MatrixSize, HashFull, ColumnMatrixExpected}

  /** `ql_error_string`. */
  function Message(code: int): (msg: string)
    ensures msg == UnknownMessage <==> code !in KnownCodes
  {
    if code == Success then "success"
    else if code == NoMemory then "malloc failed"
    else if code == MatrixTooLarge then "matrix too large"
    else if code == MatrixSize then "wrong matrix size"
    else if code == ColumnMatrixExpected then "single-column matrix expected"
    else if code == HashFull then "hash table full"
    else UnknownMessage
  }

  /** Distinct known codes are reported with distinct messages. */
  lemma MessagesDistinct(c1: int, c2: int)
    requires c1 in KnownCodes && c2 in KnownCodes && c1 != c2
    ensures Message(c1) != Message(c2)
  {
  }

  /** The static `errfunc` of `ql_error_handler`: the last installed handler, if any. */
  datatype Registry<H> = Registry(installed: Option<H>)

  function InitialRegistry<H>(): Registry<H>
  {
    Registry(None)
  }

  /** `ql_error_handler(f)`: a non-null `f` replaces the handler; the result
      is the handler installed after the call. */
  function InstallHandler<H>(reg: Registry<H>, f: Option<H>): (res: (Registry<H>, Option<H>))
    ensures f.Some? ==> res.0.installed == f
    ensures f.None? ==> res.0 == reg
    ensures res.1 == res.0.installed
  {
    if f.Some? then (Registry(f), f) else (reg, reg.installed)
  }

  /** What `ql_error(code)` does: call the handler, or print the message and abort. */
  datatype Signal<H> = Delivered(handler: H, code: int) | Abort(message: string)

  function Raise<H>(reg: Registry<H>, code: int): (s: Signal<H>)
    ensures s.Delivered? <==> reg.installed.Some?
    ensures s.Delivered? ==> s.code == code
  {
    match InstallHandler(reg, None).1
    case Some(h) => Delivered(h, code)
    case None => Abort(Message(code))
  }

  /** Installing handlers `fs` in turn and then raising `code` reaches the
      last non-null one, and aborts with the code's message when none was
      installed. */
  function InstallAll<H>(reg: Registry<H>, fs: seq<Option<H>>): Registry<H>
    decreases |fs|
  {
    if |fs| == 0 then reg else InstallAll(InstallHandler(reg, fs[0]).0, fs[1..])
  }

  ghost predicate NoneInstalled<H>(fs: seq<Option<H>>)
  {
    forall i | 0 <= i < |fs| :: fs[i].None?
  }

  lemma {:induction false} RaiseAfterInstalls<H>(fs: seq<Option<H>>, code: int)
    ensures NoneInstalled(fs) ==> Raise(InstallAll(InitialRegistry<H>(), fs), code) == Abort(Message(code))
    ensures forall i | 0 <= i < |fs| && fs[i].Some? && NoneInstalled(fs[i + 1..]) ::
      Raise(InstallAll(InitialRegistry<H>(), fs), code) == Delivered(fs[i].value, code)
  {
    InstallAllLast(InitialRegistry<H>(), fs);
  }

  lemma {:induction false} InstallAllLast<H>(reg: Registry<H>, fs: seq<Option<H>>)
    ensures NoneInstalled(fs) ==> InstallAll(reg, fs) == reg
    ensures forall i | 0 <= i < |fs| && fs[i].Some? && NoneInstalled(fs[i + 1..]) ::
      InstallAll(reg, fs).installed == fs[i]
    decreases |fs|
  {
    if |fs| > 0 {
      var next := InstallHandler(reg, fs[0]).0;
      InstallAllLast(next, fs[1..]);
      forall i | 0 <= i < |fs| && fs[i].Some? && NoneInstalled(fs[i + 1..])
        ensures InstallAll(reg, fs).installed == fs[i]
      {
        if i > 0 {
          assert fs[1..][i - 1] == fs[i];
          assert fs[1..][i - 1 + 1..] == fs[i + 1..];
        } else {
          assert forall j | 0 <= j < |fs[1..]| :: fs[1..][j] == fs[1..][j];
          assert NoneInstalled(fs[1..]);
        }
      }
      if NoneInstalled(fs) {
        assert NoneInstalled(fs[1..]) by {
          forall j | 0 <= j < |fs[1..]| ensures fs[1..][j].None? {
            assert fs[1..][j] == fs[j + 1];
          }
        }
      }
    }
  }
}

=== FILE: gates.dfy ===
/** The gates of src/ql_qop.c that rewrite basis states, and the phase gates.

    Bit-flip gates change the state of each entry and nothing else; phase
    gates multiply the amplitude of each entry by a factor chosen from the
    bits of its state and never touch the states.  Every gate here except
    `SWAP` (and `CSWAP`, which gets it from its `CCX` calls) ends with a
    call of the decoherence step (`ql_decoherence`), which module
    Decoherence models on its own; the functions here are the gates' own
    effect.  Factors computed with `euler_formula` are supplied as values
    or as a function parameter `euler`, and so is `pi`.
 */
module Gates {
  import opened Wrappers
  import opened Arith
  import opened Bits
  import opened Complex
  import opened Register

  /** `CX` on one state: the target flips when the control bit is set. */
  function CXWord(s: Word, control: nat, target: nat): Word
    requires control < WordSize && target < WordSize
  {
    if s[control] then Flip(s, target) else s
  }

  /** `CCX` on one state: the target flips when both control bits are set. */
  function CCXWord(s: Word, control1: nat, control2: nat, target: nat): Word
    requires control1 < WordSize && control2 < WordSize && target < WordSize
  {
    if s[control1] && s[control2] then Flip(s, target) else s
  }

  /** The inner loop of `ql_qop_controlled_X`: starting at `j`, step over the
      controls whose bit is set and stop at the first one that is clear (or
      at the end of the list). */
  function ScanControls(s: Word, controls: seq<nat>, j: nat): (stop: nat)
    requires j <= |controls| && forall k | 0 <= k < |controls| :: controls[k] < WordSize
    ensures j <= stop <= |controls|
    decreases |controls| - j
  {
    if j < |controls| && s[controls[j]] then ScanControls(s, controls, j + 1) else j
  }

  /** The scan runs to the end exactly when every remaining control bit is set. */
  lemma {:induction false} ScanAllSet(s: Word, controls: seq<nat>, j: nat)
    requires j <= |controls| && forall k | 0 <= k < |controls| :: controls[k] < WordSize
    ensures ScanControls(s, controls, j) == |controls| <==> forall k | j <= k < |controls| :: s[controls[k]]
    decreases |controls| - j
  {
    if j < |controls| && s[controls[j]] {
      ScanAllSet(s, controls, j + 1);
    }
  }

  /** `controlled_X` on one state: the target flips when the scan reaches the
      end of the control list. */
  function ControlledXWord(s: Word, controls: seq<nat>, target: nat): Word
    requires target < WordSize && forall k | 0 <= k < |controls| :: controls[k] < WordSize
  {
    if ScanControls(s, controls, 0) == |controls| then Flip(s, target) else s
  }

  /** `ql_qop_X(reg, target)`: every state has its target bit flipped. */
  function X(reg: Qreg, target: nat): (r: Qreg)
    requires WellFormed(reg) && reg.state.Some? && target < WordSize
    ensures WellFormed(r) && r == reg.(state := r.state) && r.state.Some?
    ensures |r.state.value| == reg.Size()
    ensures forall i | 0 <= i < reg.Size() :: r.state.value[i] == Flip(reg.state.value[i], target)
  {
    var st := reg.state.value;
    reg.(state := Some(seq(|st|, i requires 0 <= i < |st| => Flip(st[i], target))))
  }

  /** `ql_qop_CX(reg, control, target)`. */
  function CX(reg: Qreg, control: nat, target: nat): (r: Qreg)
    requires WellFormed(reg) && reg.state.Some? && control < WordSize && target < WordSize
    ensures WellFormed(r) && r == reg.(state := r.state) && r.state.Some?
    ensures |r.state.value| == reg.Size()
    ensures forall i | 0 <= i < reg.Size() :: r.state.value[i] == CXWord(reg.state.value[i], control, target)
  {
    var st := reg.state.value;
    reg.(state := Some(seq(|st|, i requires 0 <= i < |st| => CXWord(st[i], control, target))))
  }

  /** `ql_qop_CCX(reg, control1, control2, target)`. */
  function CCX(reg: Qreg, control1: nat, control2: nat, target: nat): (r: Qreg)
    requires WellFormed(reg) && reg.state.Some?
    requires control1 < WordSize && control2 < WordSize && target < WordSize
    ensures WellFormed(r) && r == reg.(state := r.state) && r.state.Some?
    ensures |r.state.value| == reg.Size()
    ensures forall i | 0 <= i < reg.Size() :: r.state.value[i] == CCXWord(reg.state.value[i], control1, control2, target)
  {
    var st := reg.state.value;
    reg.(state := Some(seq(|st|, i requires 0 <= i < |st| => CCXWord(st[i], control1, control2, target))))
  }

  /** `ql_qop_controlled_X(controls, reg, ...)` with the variable argument
      list given as the sequence of control positions. */
  function ControlledX(reg: Qreg, controls: seq<nat>, target: nat): (r: Qreg)
    requires WellFormed(reg) && reg.state.Some? && target < WordSize
    requires forall k | 0 <= k < |controls| :: controls[k] < WordSize
    ensures WellFormed(r) && r == reg.(state := r.state) && r.state.Some?
    ensures |r.state.value| == reg.Size()
    ensures forall i | 0 <= i < reg.Size() :: r.state.value[i] == ControlledXWord(reg.state.value[i], controls, target)
  {
    var st := reg.state.value;
    reg.(state := Some(seq(|st|, i requires 0 <= i < |st| => ControlledXWord(st[i], controls, target))))
  }

  /** The multi-controlled X flips the target of a state exactly when every
      listed control bit of it is set, and leaves the state alone otherwise. */
  lemma ControlledXFlipsIffAllSet(reg: Qreg, controls: seq<nat>, target: nat)
    requires WellFormed(reg) && reg.state.Some? && target < WordSize
    requires forall k | 0 <= k < |controls| :: controls[k] < WordSize
    ensures var r := ControlledX(reg, controls, target);
      forall i | 0 <= i < reg.Size() ::
        r.state.value[i] == (if forall k | 0 <= k < |controls| :: reg.state.value[i][controls[k]]
                             then Flip(reg.state.value[i], target) else reg.state.value[i])
  {
    forall i | 0 <= i < reg.Size() {
      ScanAllSet(reg.state.value[i], controls, 0);
    }
  }

  /** With no controls the multi-controlled X is X. */
  lemma ControlledXNone(reg: Qreg, target: nat)
    requires WellFormed(reg) && reg.state.Some? && target < WordSize
    ensures ControlledX(reg, [], target) == X(reg, target)
  {
    assert ControlledX(reg, [], target).state.value == X(reg, target).state.value;
  }

  /** With one control it is CX, and with two it is CCX. */
  lemma ControlledXFew(reg: Qreg, c1: nat, c2: nat, target: nat)
    requires WellFormed(reg) && reg.state.Some? && c1 < WordSize && c2 < WordSize && target < WordSize
    ensures ControlledX(reg, [c1], target) == CX(reg, c1, target)
    ensures ControlledX(reg, [c1, c2], target) == CCX(reg, c1, c2, target)
  {
    var st := reg.state.value;
    forall i | 0 <= i < |st|
      ensures ControlledXWord(st[i], [c1], target) == CXWord(st[i], c1, target)
      ensures ControlledXWord(st[i], [c1, c2], target) == CCXWord(st[i], c1, c2, target)
    {
      ScanAllSet(st[i], [c1], 0);
      ScanAllSet(st[i], [c1, c2], 0);
    }
    assert ControlledX(reg, [c1], target).state.value == CX(reg, c1, target).state.value;
    assert ControlledX(reg, [c1, c2], target).state.value == CCX(reg, c1, c2, target).state.value;
  }

  /** Flipping one bit twice restores the word. */
  lemma FlipTwice(s: Word, k: nat)
    requires k < WordSize
    ensures Flip(Flip(s, k), k) == s
  {
    assert forall b | 0 <= b < WordSize :: Flip(Flip(s, k), k)[b] == s[b];
  }

  /** X undoes itself. */
  lemma XInvolution(reg: Qreg, target: nat)
    requires WellFormed(reg) && reg.state.Some? && target < WordSize
    ensures X(X(reg, target), target) == reg
  {
    var st := reg.state.value;
    forall i | 0 <= i < |st|
      ensures X(X(reg, target), target).state.value[i] == st[i]
    {
      FlipTwice(st[i], target);
    }
    assert X(X(reg, target), target).state.value == st;
  }

  /** CX undoes itself when the target is not its control. */
  lemma CXInvolution(reg: Qreg, control: nat, target: nat)
    requires WellFormed(reg) && reg.state.Some? && control < WordSize && target < WordSize
    requires control != target
    ensures CX(CX(reg, control, target), control, target) == reg
  {
    var st := reg.state.value;
    forall i | 0 <= i < |st|
      ensures CX(CX(reg, control, target), control, target).state.value[i] == st[i]
    {
      FlipTwice(st[i], target);
    }
    assert CX(CX(reg, control, target), control, target).state.value == st;
  }

  /** CCX undoes itself when the target is neither control. */
  lemma CCXInvolution(reg: Qreg, control1: nat, control2: nat, target: nat)
    requires WellFormed(reg) && reg.state.Some?
    requires control1 < WordSize && control2 < WordSize && target < WordSize
    requires control1 != target && control2 != target
    ensures CCX(CCX(reg, control1, control2, target), control1, control2, target) == reg
  {
    var st := reg.state.value;
    forall i | 0 <= i < |st|
      ensures CCX(CCX(reg, control1, control2, target), control1, control2, target).state.value[i] == st[i]
    {
      FlipTwice(st[i], target);
    }
    assert CCX(CCX(reg, control1, control2, target), control1, control2, target).state.value == st;
  }

  /** The multi-controlled X undoes itself when the target is not a control. */
  lemma ControlledXInvolution(reg: Qreg, controls: seq<nat>, target: nat)
    requires WellFormed(reg) && reg.state.Some? && target < WordSize
    requires forall k | 0 <= k < |controls| :: controls[k] < WordSize && controls[k] != target
    ensures ControlledX(ControlledX(reg, controls, target), controls, target) == reg
  {
    var st := reg.state.value;
    forall i | 0 <= i < |st|
      ensures ControlledXWord(ControlledXWord(st[i], controls, target), controls, target) == st[i]
    {
      var once := ControlledXWord(st[i], controls, target);
      ScanAllSet(st[i], controls, 0);
      ScanAllSet(once, controls, 0);
      assert (forall k | 0 <= k < |controls| :: once[controls[k]]) <==> (forall k | 0 <= k < |controls| :: st[i][controls[k]]);
      FlipTwice(st[i], target);
    }
    assert ControlledX(ControlledX(reg, controls, target), controls, target).state.value == st;
  }

  /** The factors of `Y`: `i` when the new target bit is set, `-i` otherwise. */
  const Imaginary := Complex(0.0, 1.0)
  const MinusImaginary := Complex(0.0, -1.0)
  const MinusOne := Complex(-1.0, 0.0)

  /** `ql_qop_Y(reg, target)`: the target bit flips and the amplitude is
      multiplied by `i` when the bit is now set and by `-i` when it is now
      clear. */
  function Y(reg: Qreg, target: nat): (r: Qreg)
    requires WellFormed(reg) && reg.state.Some? && target < WordSize
    ensures WellFormed(r) && r.width == reg.width && r.hashw == reg.hashw && r.hash == reg.hash
    ensures r.state.Some? && r.state.value == X(reg, target).state.value && r.Size() == reg.Size()
    ensures forall i | 0 <= i < reg.Size() ::
      r.amplitude[i] == Mul(reg.amplitude[i], if reg.state.value[i][target] then MinusImaginary else Imaginary)
  {
    var st := reg.state.value;
    var flipped := seq(|st|, i requires 0 <= i < |st| => Flip(st[i], target));
    var amps := seq(|st|, i requires 0 <= i < |st| =>
      Mul(reg.amplitude[i], if flipped[i][target] then Imaginary else MinusImaginary));
    reg.(state := Some(flipped), amplitude := amps)
  }

  /** Y undoes itself: the two factors multiply to 1. */
  lemma YInvolution(reg: Qreg, target: nat)
    requires WellFormed(reg) && reg.state.Some? && target < WordSize
    ensures Y(Y(reg, target), target) == reg
  {
    var st := reg.state.value;
    var r := Y(Y(reg, target), target);
    forall i | 0 <= i < |st|
      ensures r.state.value[i] == st[i]
    {
      FlipTwice(st[i], target);
    }
    assert r.state.value == st;
    assert r.amplitude == reg.amplitude;
  }

  /** Multiplies amplitude `i` by `factor(state[i])` where that is `Some`; the
      states are not touched. */
  function Rephase(reg: Qreg, factors: seq<Option<Complex>>): (r: Qreg)
    requires WellFormed(reg) && reg.state.Some? && |factors| == reg.Size()
    ensures WellFormed(r) && r.state == reg.state && r.width == reg.width
    ensures r.hashw == reg.hashw && r.hash == reg.hash && r.Size() == reg.Size()
    ensures forall i | 0 <= i < reg.Size() ::
      r.amplitude[i] == (if factors[i].Some? then Mul(reg.amplitude[i], factors[i].value) else reg.amplitude[i])
  {
    var amps := seq(reg.Size(), i requires 0 <= i < reg.Size() =>
      if factors[i].Some? then Mul(reg.amplitude[i], factors[i].value) else reg.amplitude[i]);
    reg.(amplitude := amps)
  }

  /** The factor `z` when `c` holds, and none otherwise. */
  function When(c: bool, z: Complex): Option<Complex>
  {
    if c then Some(z) else None
  }

  /** `ql_qop_Z(reg, target)`: amplitudes of states with the target bit set
      change sign; states are unchanged. */
  function Z(reg: Qreg, target: nat): (r: Qreg)
    requires WellFormed(reg) && reg.state.Some? && target < WordSize
    ensures WellFormed(r) && r.state == reg.state && r.Size() == reg.Size()
    ensures r.width == reg.width && r.hashw == reg.hashw && r.hash == reg.hash
    ensures forall i | 0 <= i < reg.Size() ::
      r.amplitude[i] == (if reg.state.value[i][target] then Mul(reg.amplitude[i], MinusOne) else reg.amplitude[i])
  {
    var st := reg.state.value;
    Rephase(reg, seq(|st|, i requires 0 <= i < |st| => When(st[i][target], MinusOne)))
  }

  /** Z undoes itself. */
  lemma ZInvolution(reg: Qreg, target: nat)
    requires WellFormed(reg) && reg.state.Some? && target < WordSize
    ensures Z(Z(reg, target), target) == reg
  {
    assert Z(Z(reg, target), target).amplitude == reg.amplitude;
  }

  /** `ql_qop_rZ(reg, target, gamma)` with `z = euler_formula(gamma / 2)`:
      amplitudes with the target bit set are multiplied by `z`, the others
      divided by it, which is multiplication by the inverse `zinv` of `z`
      (a phase, never 0).  Multiplying a divided amplitude by `z` gives the
      old one back. */
  function RZ(reg: Qreg, target: nat, z: Complex, zinv: Complex): (r: Qreg)
    requires WellFormed(reg) && reg.state.Some? && target < WordSize
    requires Mul(z, zinv) == One
    ensures WellFormed(r) && r.state == reg.state && r.Size() == reg.Size()
    ensures r.width == reg.width && r.hashw == reg.hashw && r.hash == reg.hash
    ensures forall i | 0 <= i < reg.Size() ::
      r.amplitude[i] == Mul(reg.amplitude[i], if reg.state.value[i][target] then z else zinv)
    ensures forall i | 0 <= i < reg.Size() && !reg.state.value[i][target] ::
      Mul(r.amplitude[i], z) == reg.amplitude[i]
  {
    var st := reg.state.value;
    var r := Rephase(reg, seq(|st|, i requires 0 <= i < |st| => Some(if st[i][target] then z else zinv)));
    assert forall i | 0 <= i < reg.Size() && !st[i][target] :: Mul(r.amplitude[i], z) == reg.amplitude[i] by {
      forall i | 0 <= i < reg.Size() && !st[i][target]
        ensures Mul(r.amplitude[i], z) == reg.amplitude[i]
      {
        DivideUndone(reg.amplitude[i], z, zinv);
      }
    }
    r
  }

  /** `ql_qop_P_scale(reg, target, gamma)`: every amplitude is multiplied by
      `z = euler_formula(gamma)`; the target is not consulted. */
  function PScale(reg: Qreg, target: int, z: Complex): (r: Qreg)
    requires WellFormed(reg) && reg.state.Some?
    ensures WellFormed(r) && r.state == reg.state && r.Size() == reg.Size()
    ensures r.width == reg.width && r.hashw == reg.hashw && r.hash == reg.hash
    ensures forall i | 0 <= i < reg.Size() :: r.amplitude[i] == Mul(reg.amplitude[i], z)
  {
    Rephase(reg, seq(reg.Size(), _ => Some(z)))
  }

  /** `ql_qop_P_kick(reg, target, gamma)`: amplitudes of states with the
      target bit set are multiplied by `z = euler_formula(gamma)`. */
  function PKick(reg: Qreg, target: nat, z: Complex): (r: Qreg)
    requires WellFormed(reg) && reg.state.Some? && target < WordSize
    ensures WellFormed(r) && r.state == reg.state && r.Size() == reg.Size()
    ensures r.width == reg.width && r.hashw == reg.hashw && r.hash == reg.hash
    ensures forall i | 0 <= i < reg.Size() ::
      r.amplitude[i] == (if reg.state.value[i][target] then Mul(reg.amplitude[i], z) else reg.amplitude[i])
  {
    var st := reg.state.value;
    Rephase(reg, seq(|st|, i requires 0 <= i < |st| => When(st[i][target], z)))
  }

  /** The controlled phase shared by `CP`, `CP_inv` and `CP_kick`: amplitudes
      of states with both bits set are multiplied by `z`. */
  function ControlledPhase(reg: Qreg, control: nat, target: nat, z: Complex): (r: Qreg)
    requires WellFormed(reg) && reg.state.Some? && control < WordSize && target < WordSize
    ensures WellFormed(r) && r.state == reg.state && r.Size() == reg.Size()
    ensures r.width == reg.width && r.hashw == reg.hashw && r.hash == reg.hash
    ensures forall i | 0 <= i < reg.Size() ::
      r.amplitude[i] == (if reg.state.value[i][control] && reg.state.value[i][target]
                         then Mul(reg.amplitude[i], z) else reg.amplitude[i])
  {
    var st := reg.state.value;
    Rephase(reg, seq(|st|, i requires 0 <= i < |st| => When(st[i][control] && st[i][target], z)))
  }

  /** The angle `pi / 2^(control - target)` of `CP`; the shift needs
      `0 <= control - target < 64`. */
  function CPAngle(control: nat, target: nat, pi: real): real
    requires target <= control && control - target < WordSize
  {
    pi / (Pow2(control - target) as real)
  }

  /** `ql_qop_CP(reg, control, target)`: the controlled phase by
      `euler_formula(pi / 2^(control - target))`. */
  function CP(reg: Qreg, control: nat, target: nat, euler: real -> Complex, pi: real): (r: Qreg)
    requires WellFormed(reg) && reg.state.Some? && control < WordSize && target <= control
    ensures WellFormed(r) && r.state == reg.state && r.Size() == reg.Size()
    ensures r.width == reg.width && r.hashw == reg.hashw && r.hash == reg.hash
    ensures forall i | 0 <= i < reg.Size() && !(reg.state.value[i][control] && reg.state.value[i][target]) ::
      r.amplitude[i] == reg.amplitude[i]
    ensures forall i | 0 <= i < reg.Size() && reg.state.value[i][control] && reg.state.value[i][target] ::
      r.amplitude[i] == Mul(reg.amplitude[i], euler(CPAngle(control, target, pi)))
  {
    ControlledPhase(reg, control, target, euler(CPAngle(control, target, pi)))
  }

  /** `ql_qop_CP_inv(reg, control, target)`: the same with the angle negated. */
  function CPInv(reg: Qreg, control: nat, target: nat, euler: real -> Complex, pi: real): (r: Qreg)
    requires WellFormed(reg) && reg.state.Some? && control < WordSize && target <= control
    ensures WellFormed(r) && r.state == reg.state && r.Size() == reg.Size()
    ensures r.width == reg.width && r.hashw == reg.hashw && r.hash == reg.hash
    ensures forall i | 0 <= i < reg.Size() && !(reg.state.value[i][control] && reg.state.value[i][target]) ::
      r.amplitude[i] == reg.amplitude[i]
    ensures forall i | 0 <= i < reg.Size() && reg.state.value[i][control] && reg.state.value[i][target] ::
      r.amplitude[i] == Mul(reg.amplitude[i], euler(-CPAngle(control, target, pi)))
  {
    ControlledPhase(reg, control, target, euler(-CPAngle(control, target, pi)))
  }

  /** `CP_inv` undoes `CP` whenever the two phase factors multiply to 1. */
  lemma CPInvUndoesCP(reg: Qreg, control: nat, target: nat, euler: real -> Complex, pi: real)
    requires WellFormed(reg) && reg.state.Some? && control < WordSize && target <= control
    requires Mul(euler(CPAngle(control, target, pi)), euler(-CPAngle(control, target, pi))) == One
    ensures CPInv(CP(reg, control, target, euler, pi), control, target, euler, pi) == reg
  {
    var z, zinv := euler(CPAngle(control, target, pi)), euler(-CPAngle(control, target, pi));
    var r := CPInv(CP(reg, control, target, euler, pi), control, target, euler, pi);
    forall i | 0 <= i < reg.Size()
      ensures r.amplitude[i] == reg.amplitude[i]
    {
      MulAssoc(reg.amplitude[i], z, zinv);
      MulOne(reg.amplitude[i]);
    }
    assert r.amplitude == reg.amplitude;
  }

  /** `ql_qop_CP_kick(reg, control, target, gamma)`: the controlled phase by
      `z = euler_formula(gamma)`. */
  function CPKick(reg: Qreg, control: nat, target: nat, z: Complex): (r: Qreg)
    requires WellFormed(reg) && reg.state.Some? && control < WordSize && target < WordSize
    ensures WellFormed(r) && r.state == reg.state && r.Size() == reg.Size()
    ensures r.width == reg.width && r.hashw == reg.hashw && r.hash == reg.hash
    ensures forall i | 0 <= i < reg.Size() ::
      r.amplitude[i] == (if reg.state.value[i][control] && reg.state.value[i][target]
                         then Mul(reg.amplitude[i], z) else reg.amplitude[i])
  {
    ControlledPhase(reg, control, target, z)
  }

  /** `ql_qop_CP_shift(reg, control, target, gamma)` with
      `z = euler_formula(gamma / 2)`: where the control bit is set, the
      amplitude is multiplied by `z` when the target bit is set and divided
      by `z` (multiplied by its inverse `zinv`) when it is clear. */
  function CPShift(reg: Qreg, control: nat, target: nat, z: Complex, zinv: Complex): (r: Qreg)
    requires WellFormed(reg) && reg.state.Some? && control < WordSize && target < WordSize
    requires Mul(z, zinv) == One
    ensures WellFormed(r) && r.state == reg.state && r.Size() == reg.Size()
    ensures r.width == reg.width && r.hashw == reg.hashw && r.hash == reg.hash
    ensures forall i | 0 <= i < reg.Size() ::
      r.amplitude[i] == (if !reg.state.value[i][control] then reg.amplitude[i]
                         else Mul(reg.amplitude[i], if reg.state.value[i][target] then z else zinv))
    ensures forall i | 0 <= i < reg.Size() && reg.state.value[i][control] && !reg.state.value[i][target] ::
      Mul(r.amplitude[i], z) == reg.amplitude[i]
  {
    var st := reg.state.value;
    var r := Rephase(reg, seq(|st|, i requires 0 <= i < |st| => When(st[i][control], if st[i][target] then z else zinv)));
    assert forall i | 0 <= i < reg.Size() && st[i][control] && !st[i][target] :: Mul(r.amplitude[i], z) == reg.amplitude[i] by {
      forall i | 0 <= i < reg.Size() && st[i][control] && !st[i][target]
        ensures Mul(r.amplitude[i], z) == reg.amplitude[i]
      {
        DivideUndone(reg.amplitude[i], z, zinv);
      }
    }
    r
  }

  /** `rZ` by `z` followed by `rZ` by `zinv` is the identity when `z * zinv = 1`. */
  lemma RZInverse(reg: Qreg, target: nat, z: Complex, zinv: Complex)
    requires WellFormed(reg) && reg.state.Some? && target < WordSize
    requires Mul(z, zinv) == One
    ensures RZ(RZ(reg, target, z, zinv), target, zinv, z) == reg
  {
    var r := RZ(RZ(reg, target, z, zinv), target, zinv, z);
    forall i | 0 <= i < reg.Size()
      ensures r.amplitude[i] == reg.amplitude[i]
    {
      MulAssoc(reg.amplitude[i], z, zinv);
      MulAssoc(reg.amplitude[i], zinv, z);
      MulCommute(z, zinv);
      MulOne(reg.amplitude[i]);
    }
    assert r.amplitude == reg.amplitude;
  }

  // ---------------------------------------------------------------------
  // SWAP and CSWAP

  /** The block exchange `SWAP` is meant to perform: bits `[0, width)` and
      `[width, 2 * width)` trade places and higher bits stay. */
  function SwapBlocks(s: Word, width: nat): (r: Word)
    requires 2 * width <= WordSize
    ensures forall b | 0 <= b < width :: r[b] == s[b + width] && r[b + width] == s[b]
    ensures forall b | 2 * width <= b < WordSize :: r[b] == s[b]
  {
    seq(WordSize, b requires 0 <= b < WordSize =>
      if b < width then s[b + width] else if b < 2 * width then s[b - width] else s[b])
  }

  /** `pat2` of `ql_qop_SWAP`: the sum of `s & (1 << (width + j))` for `j < n`. */
  function HighPattern(s: Word, width: nat, n: nat): nat
    requires width + n <= WordSize
  {
    if n == 0 then 0 else HighPattern(s, width, n - 1) + (if s[width + n - 1] then Pow2(width + n - 1) else 0)
  }

  /** The sum is the value of bits `[width, width + n)`, shifted by `width`. */
  lemma {:induction false} HighPatternValue(s: Word, width: nat, n: nat)
    requires width + n <= WordSize
    ensures HighPattern(s, width, n) == Value(s[width..width + n]) * Pow2(width)
  {
    if n > 0 {
      HighPatternValue(s, width, n - 1);
      var pre := s[width..width + n - 1];
      var b := s[width + n - 1];
      assert s[width..width + n] == pre + [b];
      ValueAppend(pre, b);
      var bit: nat := if b then Pow2(n - 1) else 0;
      assert Value(s[width..width + n]) == Value(pre) + bit;
      Distribute(Value(pre), bit, Pow2(width));
      Pow2Add(n - 1, width);
    }
  }

  /** `ql_qop_SWAP` on one state, as the library computes it:
      `pat1 = s % 2^width`, `pat2` the bits `[width, 2 * width)` in place,
      and `s - (pat1 + pat2) + (pat1 << width) + (pat2 >> width)` modulo
      `2^64`.  `pat1` and `pat2` are `int`s, so `2 * width <= 31`. */
  function SwapWord(s: Word, width: nat): Word
    requires 2 * width <= 31
  {
    var v := Value(s);
    var pat1 := v % Pow2(width);
    var pat2 := HighPattern(s, width, width);
    WordOf((v - (pat1 + pat2) + pat1 * Pow2(width) + pat2 / Pow2(width)) % Pow2(WordSize))
  }

  /** A word's value from its low `width` bits, the next `width` bits and the rest. */
  lemma ThreeBlocks(s: seq<bool>, width: nat)
    requires 2 * width <= |s|
    ensures Value(s) == Value(s[..width]) + Pow2(width) * (Value(s[width..2 * width]) + Pow2(width) * Value(s[2 * width..]))
  {
    var mid, hi := s[width..2 * width], s[2 * width..];
    assert Value(s[width..]) == Value(mid) + Pow2(width) * Value(hi) by {
      ValueSplit(s[width..], width);
      assert s[width..][..width] == mid;
      assert s[width..][width..] == hi;
    }
    ValueSplit(s, width);
  }

  /** The exchanged word's value puts the middle block at the bottom. */
  lemma SwapBlocksValue(s: Word, width: nat)
    requires 2 * width <= WordSize
    ensures var p := Pow2(width);
      Value(SwapBlocks(s, width)) == Value(s[width..2 * width]) + p * (Value(s[..width]) + p * Value(s[2 * width..]))
  {
    var t := SwapBlocks(s, width);
    SwapBlocksSlices(s, width);
    ThreeBlocks(t, width);
    var a, b, c := Value(t[..width]), Value(t[width..2 * width]), Value(t[2 * width..]);
    assert a == Value(s[width..2 * width]) && b == Value(s[..width]) && c == Value(s[2 * width..]);
  }

  /** The exchanged word, block by block. */
  lemma SwapBlocksSlices(s: Word, width: nat)
    requires 2 * width <= WordSize
    ensures var t := SwapBlocks(s, width);
      t[..width] == s[width..2 * width] && t[width..2 * width] == s[..width] && t[2 * width..] == s[2 * width..]
  {
    var t := SwapBlocks(s, width);
    assert t[..width] == s[width..2 * width];
    assert t[width..2 * width] == s[..width];
    assert t[2 * width..] == s[2 * width..];
  }

  /** The integer steps of `ql_qop_SWAP` on a value `v` made of blocks `lo`,
      `mid` and `hi` of `p` values each give the value `tv` with `lo` and
      `mid` exchanged. */
  lemma SwapArith(lo: nat, mid: nat, hi: nat, p: nat, v: nat, tv: nat)
    requires 0 < p && lo < p
    requires v == lo + p * (mid + p * hi) && tv == mid + p * (lo + p * hi)
    ensures v % p == lo && (mid * p) / p == mid
    ensures v - (v % p + mid * p) + (v % p) * p + (mid * p) / p == tv
  {
    assert v == lo + (mid + p * hi) * p;
    FlatSplit(lo, mid + p * hi, p);
    FlatSplit(0, mid, p);
    Distribute(mid, p * hi, p);
    Distribute(lo, p * hi, p);
  }

  /** Before the final reduction, the integer steps of `ql_qop_SWAP` give
      the value of the exchanged word. */
  lemma SwapWordValue(s: Word, width: nat)
    requires 2 * width <= 31
    ensures var v, p := Value(s), Pow2(width);
      var pat1, pat2 := v % p, HighPattern(s, width, width);
      v - (pat1 + pat2) + pat1 * p + pat2 / p == Value(SwapBlocks(s, width))
  {
    var p := Pow2(width);
    ThreeBlocks(s, width);
    SwapBlocksValue(s, width);
    ValueBound(s[..width]);
    HighPatternValue(s, width, width);
    assert width + width == 2 * width;
    SwapArith(Value(s[..width]), Value(s[width..2 * width]), Value(s[2 * width..]), p, Value(s), Value(SwapBlocks(s, width)));
  }

  /** The arithmetic of `ql_qop_SWAP` exchanges the two blocks. */
  lemma SwapWordIsSwapBlocks(s: Word, width: nat)
    requires 2 * width <= 31
    ensures SwapWord(s, width) == SwapBlocks(s, width)
  {
    var t := SwapBlocks(s, width);
    var v, p := Value(s), Pow2(width);
    var x := v - (v % p + HighPattern(s, width, width)) + (v % p) * p + HighPattern(s, width, width) / p;
    assert x == Value(t) by {
      SwapWordValue(s, width);
    }
    assert x % Pow2(WordSize) == Value(t) by {
      ValueBound(t);
      FlatSplit(Value(t), 0, Pow2(WordSize));
    }
    FromNatOfValue(t);
  }

  /** `ql_qop_SWAP(reg, width)`: every state goes through `SwapWord`; this
      gate does not call the decoherence step. */
  function Swap(reg: Qreg, width: nat): (r: Qreg)
    requires WellFormed(reg) && reg.state.Some? && 2 * width <= 31
    ensures WellFormed(r) && r == reg.(state := r.state) && r.state.Some?
    ensures |r.state.value| == reg.Size()
    ensures forall i | 0 <= i < reg.Size() :: r.state.value[i] == SwapBlocks(reg.state.value[i], width)
  {
    var st := reg.state.value;
    var out := seq(|st|, i requires 0 <= i < |st| => SwapWord(st[i], width));
    forall i | 0 <= i < |st|
      ensures out[i] == SwapBlocks(st[i], width)
    {
      SwapWordIsSwapBlocks(st[i], width);
    }
    reg.(state := Some(out))
  }

  /** SWAP undoes itself. */
  lemma SwapInvolution(reg: Qreg, width: nat)
    requires WellFormed(reg) && reg.state.Some? && 2 * width <= 31
    ensures Swap(Swap(reg, width), width) == reg
  {
    var st := reg.state.value;
    forall i | 0 <= i < |st|
      ensures Swap(Swap(reg, width), width).state.value[i] == st[i]
    {
      var t := SwapBlocks(SwapBlocks(st[i], width), width);
      assert forall b | 0 <= b < WordSize :: t[b] == st[i][b];
    }
    assert Swap(Swap(reg, width), width).state.value == st;
  }

  /** The three Toffoli gates of one `CSWAP` round on one state. */
  function CSwapRoundWord(s: Word, control: nat, a: nat, b: nat): Word
    requires control < WordSize && a < WordSize && b < WordSize
  {
    CCXWord(CCXWord(CCXWord(s, control, a, b), control, b, a), control, a, b)
  }

  /** One round exchanges bits `a` and `b` when the control bit is set and
      is the identity otherwise, provided the control is neither bit. */
  lemma CSwapRoundSwaps(s: Word, control: nat, a: nat, b: nat)
    requires control < WordSize && a < WordSize && b < WordSize
    requires control != a && control != b && a != b
    ensures var r := CSwapRoundWord(s, control, a, b);
      r == (if s[control] then s[a := s[b]][b := s[a]] else s)
  {
  }

  /** The first `n` rounds of `ql_qop_CSWAP(reg, control, width)` on one
      state: round `i` exchanges bits `width + i` and `2 * width + i + 2`. */
  function CSwapRounds(s: Word, control: nat, width: nat, n: nat): Word
    requires control < WordSize && n <= width && 3 * width + 2 <= WordSize
  {
    if n == 0 then s
    else CSwapRoundWord(CSwapRounds(s, control, width, n - 1), control, width + n - 1, 2 * width + n + 1)
  }

  /** The control position is outside both exchanged blocks. */
  predicate ControlOutside(control: nat, width: nat)
  {
    !(width <= control < 2 * width) && !(2 * width + 2 <= control < 3 * width + 2)
  }

  /** The exchange `CSWAP` performs on a state whose control bit is set:
      bits `[width, 2 * width)` trade places with `[2 * width + 2, 3 * width + 2)`. */
  function ExchangeBlocks(s: Word, width: nat, n: nat): (r: Word)
    requires n <= width && 3 * width + 2 <= WordSize
  {
    seq(WordSize, k requires 0 <= k < WordSize =>
      if width <= k < width + n then s[k + width + 2]
      else if 2 * width + 2 <= k < 2 * width + 2 + n then s[k - width - 2]
      else s[k])
  }

  lemma {:induction false} CSwapRoundsExchange(s: Word, control: nat, width: nat, n: nat)
    requires control < WordSize && n <= width && 3 * width + 2 <= WordSize
    requires ControlOutside(control, width)
    ensures CSwapRounds(s, control, width, n) == if s[control] then ExchangeBlocks(s, width, n) else s
  {
    if n > 0 {
      CSwapRoundsExchange(s, control, width, n - 1);
      RoundStep(CSwapRounds(s, control, width, n - 1), s, control, width, n);
    }
  }

  /** Round `n` turns the exchange of the first `n - 1` pairs into the
      exchange of `n` pairs, or keeps a word whose control bit is clear. */
  lemma RoundStep(prev: Word, s: Word, control: nat, width: nat, n: nat)
    requires control < WordSize && 0 < n <= width && 3 * width + 2 <= WordSize
    requires ControlOutside(control, width)
    requires prev == if s[control] then ExchangeBlocks(s, width, n - 1) else s
    ensures CSwapRoundWord(prev, control, width + n - 1, 2 * width + n + 1)
      == if s[control] then ExchangeBlocks(s, width, n) else s
  {
    var a, b := width + n - 1, 2 * width + n + 1;
    CSwapRoundSwaps(prev, control, a, b);
    if s[control] {
      ExchangeKeepsControl(s, width, n - 1, control);
      ExchangeGrow(s, width, n);
    }
  }

  /** The exchange leaves a control outside both blocks alone. */
  lemma ExchangeKeepsControl(s: Word, width: nat, n: nat, control: nat)
    requires n <= width && 3 * width + 2 <= WordSize && control < WordSize && ControlOutside(control, width)
    ensures ExchangeBlocks(s, width, n)[control] == s[control]
  {
  }

  /** Round `n` of the exchange swaps the next pair of bits. */
  lemma ExchangeGrow(s: Word, width: nat, n: nat)
    requires 0 < n <= width && 3 * width + 2 <= WordSize
    ensures var e, a, b := ExchangeBlocks(s, width, n - 1), width + n - 1, 2 * width + n + 1;
      e[a := e[b]][b := e[a]] == ExchangeBlocks(s, width, n)
  {
    var e, a, b := ExchangeBlocks(s, width, n - 1), width + n - 1, 2 * width + n + 1;
    var r := ExchangeBlocks(s, width, n);
    assert forall k | 0 <= k < WordSize :: e[a := e[b]][b := e[a]][k] == r[k];
  }

  /** `ql_qop_CSWAP(reg, control, width)`: `width` rounds of three Toffoli
      gates, each round applied to the whole register. */
  function CSwap(reg: Qreg, control: nat, width: nat): (r: Qreg)
    requires WellFormed(reg) && reg.state.Some? && control < WordSize && 3 * width + 2 <= WordSize
    ensures WellFormed(r) && r == reg.(state := r.state) && r.state.Some?
    ensures |r.state.value| == reg.Size()
    ensures forall i | 0 <= i < reg.Size() :: r.state.value[i] == CSwapRounds(reg.state.value[i], control, width, width)
  {
    CSwapFrom(reg, control, width, width)
  }

  /** The register after the first `n` rounds, each round three `CCX` calls. */
  function CSwapFrom(reg: Qreg, control: nat, width: nat, n: nat): (r: Qreg)
    requires WellFormed(reg) && reg.state.Some? && control < WordSize && n <= width && 3 * width + 2 <= WordSize
    ensures WellFormed(r) && r == reg.(state := r.state) && r.state.Some?
    ensures |r.state.value| == reg.Size()
    ensures forall i | 0 <= i < reg.Size() :: r.state.value[i] == CSwapRounds(reg.state.value[i], control, width, n)
  {
    if n == 0 then reg
    else
      var prev := CSwapFrom(reg, control, width, n - 1);
      var a, b := width + n - 1, 2 * width + n + 1;
      CCX(CCX(CCX(prev, control, a, b), control, b, a), control, a, b)
  }

  /** Exchanging the blocks twice restores the word, and the exchange keeps
      every bit outside the blocks. */
  lemma ExchangeTwice(s: Word, width: nat, control: nat)
    requires 3 * width + 2 <= WordSize && control < WordSize && ControlOutside(control, width)
    ensures ExchangeBlocks(ExchangeBlocks(s, width, width), width, width) == s
    ensures ExchangeBlocks(s, width, width)[control] == s[control]
  {
    var twice := ExchangeBlocks(ExchangeBlocks(s, width, width), width, width);
    assert forall k | 0 <= k < WordSize :: twice[k] == s[k];
  }

  /** On one state, the `CSWAP` rounds undo themselves. */
  lemma CSwapRoundsTwice(s: Word, control: nat, width: nat)
    requires control < WordSize && 3 * width + 2 <= WordSize && ControlOutside(control, width)
    ensures CSwapRounds(CSwapRounds(s, control, width, width), control, width, width) == s
  {
    var once := CSwapRounds(s, control, width, width);
    CSwapRoundsExchange(s, control, width, width);
    ExchangeTwice(s, width, control);
    CSwapRoundsExchange(once, control, width, width);
  }

  /** With the control outside both blocks, CSWAP exchanges the blocks of
      exactly the states whose control bit is set, and CSWAP undoes itself. */
  lemma CSwapExchanges(reg: Qreg, control: nat, width: nat)
    requires WellFormed(reg) && reg.state.Some? && control < WordSize && 3 * width + 2 <= WordSize
    requires ControlOutside(control, width)
    ensures var r := CSwap(reg, control, width);
      forall i | 0 <= i < reg.Size() ::
        r.state.value[i] == if reg.state.value[i][control] then ExchangeBlocks(reg.state.value[i], width, width) else reg.state.value[i]
    ensures CSwap(CSwap(reg, control, width), control, width) == reg
  {
    var st := reg.state.value;
    var r := CSwap(reg, control, width);
    forall i | 0 <= i < |st|
      ensures r.state.value[i] == if st[i][control] then ExchangeBlocks(st[i], width, width) else st[i]
      ensures CSwapRounds(r.state.value[i], control, width, width) == st[i]
    {
      CSwapRoundsExchange(st[i], control, width, width);
      CSwapRoundsTwice(st[i], control, width);
    }
    assert CSwap(r, control, width).state.value == st;
  }

  // ---------------------------------------------------------------------
  // The gate counter

  /** `ql_qop_counter(inc)` on the stored count `counter`: a positive `inc`
      is added, a negative one resets the count to 0, and 0 only reads it;
      the new count is also the result. */
  function Counter(counter: int, inc: int): (next: int)
    ensures inc == 0 ==> next == counter
  {
    if inc > 0 then counter + inc else if inc < 0 then 0 else counter
  }

  /** The count after a run of calls, starting from `counter`. */
  function CounterRun(counter: int, incs: seq<int>): int
    decreases |incs|
  {
    if |incs| == 0 then counter else CounterRun(Counter(counter, incs[0]), incs[1..])
  }

  /** The sum of the positive increments. */
  function SumPositive(incs: seq<int>): nat
    decreases |incs|
  {
    if |incs| == 0 then 0 else (if incs[0] > 0 then incs[0] else 0) + SumPositive(incs[1..])
  }

  /** Without a reset, the count grows by the sum of the positive increments;
      after a reset it counts only the increments that follow the last
      negative one. */
  lemma {:induction false} CounterRunSum(counter: int, incs: seq<int>)
    ensures (forall k | 0 <= k < |incs| :: incs[k] >= 0) ==> CounterRun(counter, incs) == counter + SumPositive(incs)
    ensures forall k | 0 <= k < |incs| && incs[k] < 0 && (forall l | k < l < |incs| :: incs[l] >= 0) ::
      CounterRun(counter, incs) == SumPositive(incs[k + 1..])
    decreases |incs|
  {
    if |incs| > 0 {
      CounterRunSum(Counter(counter, incs[0]), incs[1..]);
      forall k | 0 <= k < |incs| && incs[k] < 0 && (forall l | k < l < |incs| :: incs[l] >= 0)
        ensures CounterRun(counter, incs) == SumPositive(incs[k + 1..])
      {
        if k > 0 {
          assert incs[1..][k - 1] == incs[k];
          assert incs[1..][k..] == incs[k + 1..];
        } else {
          assert incs[1..] == incs[k + 1..];
          CounterRunSum(0, incs[1..]);
        }
      }
    }
  }
}

=== FILE: hash_index.dfy ===
/** The open-addressing hash index of a register (include/openql/ql_qreg.h).

    A table of `2^hashw` slots maps basis states to their position in the
    register: slot value 0 means empty and `k + 1` means position `k`.
    Collisions are resolved by linear probing that wraps from the last slot
    to slot 0.
 */
module HashIndex {
  import opened Wrappers
  import opened Bits
  import opened Arith
  import Errors

  const HashMultiplier := 0x9e370001

  /** `ql_qreg_hash64(key, width)`: fold the two 32-bit halves together with
      xor, multiply modulo 2^32 and keep the top `width` bits. */
  function Hash64(key: Word, width: nat): (h: nat)
    requires 1 <= width <= 32
    ensures h < Pow2(width)
  {
    var k32 := Value(Xor(key[..32], key[32..]));
    var product := (k32 * HashMultiplier) % Two32;
    TopBits(product, width);
    product / Pow2(32 - width)
  }

  /** The top `width` bits of a 32-bit number are below `2^width`. */
  lemma TopBits(product: nat, width: nat)
    requires 1 <= width <= 32 && product < Two32
    ensures 0 <= product / Pow2(32 - width) < Pow2(width)
  {
    Pow2Of32();
    DivNonNegative(product, Pow2(32 - width));
    Pow2Add(32 - width, width);
    DivBound(product, Pow2(32 - width), Pow2(width));
  }

  const Two31 := 0x8000_0000
  const Two32 := 0x1_0000_0000

  /** The conversion of a `MAX_UNSIGNED` to a 32-bit `int`: the low 32 bits
      read in two's complement. */
  function Int32Of(v: nat): (r: int)
    ensures -Two31 <= r < Two31
    ensures (v - r) % Two32 == 0
  {
    var low := v % Two32;
    if low >= Two31 then low - Two32 else low
  }

  /** The probe step: `i++`, wrapping to 0 at the end of the table. */
  function Next(n: nat, i: nat): (j: nat)
    requires i < n
    ensures j < n
  {
    if i + 1 == n then 0 else i + 1
  }

  /** The slot reached after `d` probe steps from slot `i`. */
  function Walk(n: nat, i: nat, d: nat): (j: nat)
    requires i < n
    ensures j < n
    decreases d
  {
    if d == 0 then i else Walk(n, Next(n, i), d - 1)
  }

  lemma ModAddN(k: nat, n: nat)
    requires n > 0
    ensures (k + n) % n == k % n
  {
    FlatCover(k, n, k / n + 1);
    FlatSplit(k % n, k / n + 1, n);
  }

  /** Probing is cyclic: `d` steps from `i` land on `(i + d) mod n`. */
  lemma {:induction false} WalkMod(n: nat, i: nat, d: nat)
    requires i < n
    ensures Walk(n, i, d) == (i + d) % n
    decreases d
  {
    if d == 0 {
      FlatSplit(i, 0, n);
    } else {
      WalkMod(n, Next(n, i), d - 1);
      if i + 1 == n {
        ModAddN(d - 1, n);
      }
    }
  }

  lemma {:induction false} WalkAdd(n: nat, i: nat, a: nat, b: nat)
    requires i < n
    ensures Walk(n, i, a + b) == Walk(n, Walk(n, i, a), b)
    decreases a
  {
    if a > 0 {
      WalkAdd(n, Next(n, i), a - 1, b);
    }
  }

  /** The number of probe steps from `h` to `s`. */
  function Dist(n: nat, h: nat, s: nat): (d: nat)
    requires h < n && s < n
    ensures d < n && Walk(n, h, d) == s
  {
    var d := if s >= h then s - h else s + n - h;
    DistWalk(n, h, s, d);
    d
  }

  lemma DistWalk(n: nat, h: nat, s: nat, d: nat)
    requires h < n && s < n && d == if s >= h then s - h else s + n - h
    ensures Walk(n, h, d) == s
  {
    WalkMod(n, h, d);
    FlatSplit(s, 0, n);
    if s < h {
      ModAddN(s, n);
    }
  }

  /** A probe sequence of `n` steps from any slot visits every slot. */
  lemma WalkCovers(table: seq<nat>, h: nat)
    requires h < |table|
    requires forall e | 0 <= e < |table| :: table[Walk(|table|, h, e)] != 0
    ensures forall s | 0 <= s < |table| :: table[s] != 0
  {
    forall s | 0 <= s < |table|
      ensures table[s] != 0
    {
      var d := Dist(|table|, h, s);
    }
  }

  lemma ProbeSpinsFull(table: seq<nat>, states: seq<Word>, a: Word, h: nat)
    requires h < |table| && EntriesIn(table, |states|)
    ensures Probe(table, states, a, h, |table|).Spins? ==> Full(table)
  {
    if Probe(table, states, a, h, |table|).Spins? {
      WalkCovers(table, h);
    }
  }

  /** Table entries are 0 or point at one of the first `n` positions. */
  predicate EntriesIn(table: seq<nat>, n: nat)
  {
    forall s | 0 <= s < |table| :: table[s] <= n
  }

  predicate Full(table: seq<nat>)
  {
    forall s | 0 <= s < |table| :: table[s] != 0
  }

  /** What a lookup yields: a position, "not present" (-1), or a probe loop
      that never ends because every slot is taken and none holds the key. */
  datatype Lookup = Index(i: int) | Absent | Spins

  /** The probe loop of `ql_qreg_get_state` from slot `i`, limited to `steps`
      slots; after `|table|` slots without a match or an empty slot the C
      loop would revisit the same slots forever. */
  function Probe(table: seq<nat>, states: seq<Word>, a: Word, i: nat, steps: nat): (r: Lookup)
    requires i < |table| && EntriesIn(table, |states|)
    ensures r.Index? ==> 0 <= r.i < |states| && states[r.i] == a && r.i + 1 in table
    ensures r.Spins? ==> forall e | 0 <= e < steps :: table[Walk(|table|, i, e)] != 0
    decreases steps
  {
    if steps == 0 then Spins
    else if table[i] == 0 then Absent
    else if states[table[i] - 1] == a then Index(table[i] - 1)
    else Probe(table, states, a, Next(|table|, i), steps - 1)
  }

  /** `ql_qreg_get_state(reg, a)`. */
  function GetState(hashw: nat, table: seq<nat>, states: seq<Word>, a: Word): (r: Lookup)
    requires hashw != 0 ==> hashw <= 30 && |table| == Pow2(hashw) && EntriesIn(table, |states|)
    ensures hashw == 0 ==> r == Index(Int32Of(Value(a)))
    ensures hashw != 0 && r.Index? ==> 0 <= r.i < |states| && states[r.i] == a && r.i + 1 in table
    ensures hashw != 0 && r.Spins? ==> Full(table)
  {
    if hashw == 0 then Index(Int32Of(Value(a)))
    else
      var h := Hash64(a, hashw);
      ProbeSpinsFull(table, states, a, h);
      Probe(table, states, a, h, |table|)
  }

  /** The insertion loop of `ql_qreg_add_hash` from slot `i`: run to the end
      of the table, start over once from slot 0 (`mark`), and report a full
      table on reaching the end a second time. */
  function Scan(table: seq<nat>, i: nat, mark: bool): (r: Result<nat>)
    requires i < |table|
    ensures r.Ok? ==> r.value < |table| && table[r.value] == 0
    ensures r.Fail? ==> r.code == Errors.HashFull
    decreases if mark then 0 else 1, |table| - i
  {
    if table[i] == 0 then Ok(i)
    else if i + 1 == |table| then (if mark then Fail(Errors.HashFull) else Scan(table, 0, true))
    else Scan(table, i + 1, mark)
  }

  /** Reference search: the number of probe steps from `i` to the first empty
      slot, looking at no more than `steps` slots. */
  function FirstEmpty(table: seq<nat>, i: nat, steps: nat): (d: Option<nat>)
    requires i < |table|
    ensures d.Some? ==> d.value < steps && table[Walk(|table|, i, d.value)] == 0
    decreases steps
  {
    if steps == 0 then None
    else if table[i] == 0 then Some(0)
    else match FirstEmpty(table, Next(|table|, i), steps - 1)
      case None => None
      case Some(d) => Some(d + 1)
  }

  /** Every slot the search passes before it stops is taken. */
  lemma {:induction false} FirstEmptyPasses(table: seq<nat>, i: nat, steps: nat)
    requires i < |table|
    ensures FirstEmpty(table, i, steps).Some? ==>
      forall e | 0 <= e < FirstEmpty(table, i, steps).value :: table[Walk(|table|, i, e)] != 0
    ensures FirstEmpty(table, i, steps).None? ==> forall e | 0 <= e < steps :: table[Walk(|table|, i, e)] != 0
    decreases steps
  {
    if steps > 0 && table[i] != 0 {
      FirstEmptyPasses(table, Next(|table|, i), steps - 1);
      forall e | 0 < e < steps
        ensures Walk(|table|, i, e) == Walk(|table|, Next(|table|, i), e - 1)
      {
      }
    }
  }

  /** A whole-table search fails exactly on a full table. */
  lemma FirstEmptyFull(table: seq<nat>, h: nat)
    requires h < |table|
    ensures FirstEmpty(table, h, |table|).None? <==> Full(table)
  {
    if FirstEmpty(table, h, |table|).None? {
      FirstEmptyPasses(table, h, |table|);
      WalkCovers(table, h);
    }
  }

  /** Searching `a + b` slots is searching `a`, then `b` more from where that stopped. */
  lemma {:induction false} FirstEmptySplit(table: seq<nat>, i: nat, a: nat, b: nat)
    requires i < |table|
    ensures FirstEmpty(table, i, a + b) ==
      match FirstEmpty(table, i, a)
      case Some(d) => Some(d)
      case None =>
        match FirstEmpty(table, Walk(|table|, i, a), b)
        case Some(d) => Some(a + d)
        case None => None
    decreases a
  {
    if a > 0 && table[i] != 0 {
      FirstEmptySplit(table, Next(|table|, i), a - 1, b);
    }
  }

  /** The second pass of the scan is a plain search to the end of the table. */
  lemma {:induction false} ScanMarked(table: seq<nat>, i: nat)
    requires i < |table|
    ensures Scan(table, i, true) ==
      match FirstEmpty(table, i, |table| - i)
      case Some(d) => Ok(Walk(|table|, i, d))
      case None => Fail(Errors.HashFull)
    decreases |table| - i
  {
    if table[i] != 0 && i + 1 < |table| {
      ScanMarked(table, i + 1);
    }
  }

  lemma {:induction false} ScanUnmarked(table: seq<nat>, i: nat)
    requires i < |table|
    ensures Scan(table, i, false) ==
      match FirstEmpty(table, i, |table| - i)
      case Some(d) => Ok(Walk(|table|, i, d))
      case None => Scan(table, 0, true)
    decreases |table| - i
  {
    if table[i] != 0 && i + 1 < |table| {
      ScanUnmarked(table, i + 1);
    }
  }

  /** Walking from `i` to the end of the table wraps round to slot 0. */
  lemma {:induction false} WalkToEnd(n: nat, i: nat)
    requires i < n
    ensures Walk(n, i, n - i) == 0
    decreases n - i
  {
    if i + 1 < n {
      WalkToEnd(n, i + 1);
    }
  }

  /** Walking `d` slots from slot 0 reaches slot `d`. */
  lemma {:induction false} WalkFromStart(n: nat, d: nat)
    requires d < n
    ensures Walk(n, 0, d) == d
  {
    if d > 0 {
      WalkFromStart(n, d - 1);
      WalkAdd(n, 0, d - 1, 1);
    }
  }

  /** The two-pass scan finds the first empty slot in cyclic order from `h`,
      and fails exactly when there is none. */
  lemma ScanIsFirstEmpty(table: seq<nat>, h: nat)
    requires h < |table|
    ensures Scan(table, h, false) ==
      match FirstEmpty(table, h, |table|)
      case Some(d) => Ok(Walk(|table|, h, d))
      case None => Fail(Errors.HashFull)
  {
    var n := |table|;
    ScanUnmarked(table, h);
    FirstEmptySplit(table, h, n - h, h);
    if FirstEmpty(table, h, n - h).None? {
      ScanWraps(table, h);
    }
  }

  /** When no slot from `h` to the end is empty, the scan's second pass
      from slot 0 finds what the cyclic search finds. */
  lemma ScanWraps(table: seq<nat>, h: nat)
    requires h < |table| && FirstEmpty(table, h, |table| - h).None?
    ensures Scan(table, 0, true) ==
      match FirstEmpty(table, h, |table|)
      case Some(d) => Ok(Walk(|table|, h, d))
      case None => Fail(Errors.HashFull)
  {
    var n := |table|;
    ScanMarked(table, 0);
    SearchWraps(table, h);
    SearchFromStart(table, h);
    var wrapped := FirstEmpty(table, 0, h);
    if wrapped.Some? {
      var d := wrapped.value;
      WalkAdd(n, h, n - h, d);
      WalkToEnd(n, h);
    }
  }

  /** A cyclic search from `h` that finds nothing up to the end of the table
      goes on from slot 0. */
  lemma SearchWraps(table: seq<nat>, h: nat)
    requires h < |table| && FirstEmpty(table, h, |table| - h).None?
    ensures FirstEmpty(table, h, |table|) ==
      match FirstEmpty(table, 0, h) case Some(d) => Some(|table| - h + d) case None => None
  {
    FirstEmptySplit(table, h, |table| - h, h);
    WalkToEnd(|table|, h);
  }

  /** A search from slot 0 meets no empty slot at or after `h` before it
      meets one before `h`, when there is none from `h` to the end. */
  lemma SearchFromStart(table: seq<nat>, h: nat)
    requires h < |table| && FirstEmpty(table, h, |table| - h).None?
    ensures FirstEmpty(table, 0, |table|) == FirstEmpty(table, 0, h)
  {
    FirstEmptySplit(table, 0, h, |table| - h);
    WalkFromStart(|table|, h);
  }

  /** `ql_qreg_add_hash(reg, a, pos)`: store `pos + 1` in the first empty
      slot in probe order from `a`'s hash, or fail when the table is full. */
  function AddHash(table: seq<nat>, hashw: nat, a: Word, pos: nat): (r: Result<seq<nat>>)
    requires 1 <= hashw <= 30 && |table| == Pow2(hashw)
    ensures r.Fail? <==> Full(table)
    ensures r.Fail? ==> r.code == Errors.HashFull
    ensures r.Ok? ==> var h := Hash64(a, hashw); var d := FirstEmpty(table, h, |table|);
      d.Some? && r.value == table[Walk(|table|, h, d.value) := pos + 1]
  {
    var h := Hash64(a, hashw);
    ScanIsFirstEmpty(table, h);
    FirstEmptyFull(table, h);
    var p :- Scan(table, h, false);
    Ok(table[p := pos + 1])
  }

  /** The number of occupied slots. */
  function CountUsed(table: seq<nat>): (c: nat)
    ensures c <= |table|
  {
    if |table| == 0 then 0 else (if table[0] != 0 then 1 else 0) + CountUsed(table[1..])
  }

  lemma {:induction false} CountUsedFill(table: seq<nat>, p: nat, v: nat)
    requires p < |table| && table[p] == 0 && v != 0
    ensures CountUsed(table[p := v]) == CountUsed(table) + 1
  {
    if p > 0 {
      assert table[p := v][1..] == table[1..][p - 1 := v];
      CountUsedFill(table[1..], p - 1, v);
    }
  }

  lemma {:induction false} CountUsedFull(table: seq<nat>)
    ensures Full(table) ==> CountUsed(table) == |table|
  {
    if |table| > 0 {
      CountUsedFull(table[1..]);
    }
  }

  lemma {:induction false} CountUsedEmpty(n: nat)
    ensures CountUsed(seq(n, _ => 0)) == 0
  {
    if n > 0 {
      assert seq(n, _ => 0)[1..] == seq(n - 1, _ => 0);
      CountUsedEmpty(n - 1);
    }
  }

  /** Filling an empty slot does not disturb a lookup that already succeeds. */
  lemma {:induction false} ProbeAfterFill(table: seq<nat>, states: seq<Word>, a: Word, i: nat, steps: nat, p: nat, v: nat)
    requires i < |table| && p < |table| && table[p] == 0 && 0 < v <= |states|
    requires EntriesIn(table, |states|)
    requires Probe(table, states, a, i, steps).Index?
    ensures EntriesIn(table[p := v], |states|)
    ensures Probe(table[p := v], states, a, i, steps) == Probe(table, states, a, i, steps)
    decreases steps
  {
    if table[i] != 0 && states[table[i] - 1] != a {
      ProbeAfterFill(table, states, a, Next(|table|, i), steps - 1, p, v);
    }
  }

  /** A key inserted at the first empty slot of its probe sequence is found
      there, provided no earlier slot holds an equal state. */
  lemma {:induction false} ProbeFindsInserted(table: seq<nat>, states: seq<Word>, n: nat, i: nat, steps: nat)
    requires i < |table| && n < |states| && EntriesIn(table, n)
    requires forall k | 0 <= k < n :: states[k] != states[n]
    requires FirstEmpty(table, i, steps).Some?
    ensures EntriesIn(table[Walk(|table|, i, FirstEmpty(table, i, steps).value) := n + 1], |states|)
    ensures Probe(table[Walk(|table|, i, FirstEmpty(table, i, steps).value) := n + 1], states, states[n], i, steps) == Index(n)
    decreases steps
  {
    var d := FirstEmpty(table, i, steps).value;
    var p := Walk(|table|, i, d);
    if table[i] != 0 {
      ProbeFindsInserted(table, states, n, Next(|table|, i), steps - 1);
      assert table[p := n + 1][i] == table[i];
    }
  }

  /** The home slot of every state: where its probe sequence starts. */
  function Homes(states: seq<Word>, hashw: nat): (homes: seq<nat>)
    requires 1 <= hashw <= 30
    ensures |homes| == |states|
    ensures forall k | 0 <= k < |states| :: homes[k] == Hash64(states[k], hashw) && homes[k] < Pow2(hashw)
  {
    seq(|states|, k requires 0 <= k < |states| => Hash64(states[k], hashw))
  }

  /** The state of `ql_qreg_reconstruct_hash` after inserting the first `i`
      positions: entries point below `i`, exactly `i` slots are taken, and
      each of those positions is found by a probe from its home slot. */
  ghost predicate Indexes(table: seq<nat>, homes: seq<nat>, states: seq<Word>, i: nat)
  {
    i <= |states| && |homes| == |states| && EntriesIn(table, i) && EntriesIn(table, |states|) && CountUsed(table) == i
    && forall k {:trigger homes[k]} | 0 <= k < i :: homes[k] < |table| && Probe(table, states, states[k], homes[k], |table|) == Index(k)
  }

  ghost predicate DistinctPrefix(states: seq<Word>, size: nat)
    requires size <= |states|
  {
    forall j, k | 0 <= j < k < size :: states[j] != states[k]
  }

  /** The insertion loop of `ql_qreg_reconstruct_hash`, from position `i`. */
  function InsertFrom(table: seq<nat>, hashw: nat, states: seq<Word>, i: nat, size: nat): (r: Result<seq<nat>>)
    requires 1 <= hashw <= 30 && |table| == Pow2(hashw) && i <= size <= |states|
    ensures r.Ok? ==> |r.value| == |table|
    decreases size - i
  {
    if i == size then Ok(table)
    else
      var t :- AddHash(table, hashw, states[i], i);
      InsertFrom(t, hashw, states, i + 1, size)
  }

  /** Inserting position `i` at the first empty slot from its home keeps
      every earlier position findable and makes `i` findable. */
  lemma {:induction false} InsertStep(table: seq<nat>, homes: seq<nat>, states: seq<Word>, i: nat)
    requires i < |states| && i < |table| && Indexes(table, homes, states, i) && homes[i] < |table|
    requires forall k | 0 <= k < i :: states[k] != states[i]
    ensures FirstEmpty(table, homes[i], |table|).Some?
    ensures Indexes(table[Walk(|table|, homes[i], FirstEmpty(table, homes[i], |table|).value) := i + 1], homes, states, i + 1)
  {
    var h := homes[i];
    assert !Full(table) by {
      CountUsedFull(table);
    }
    FirstEmptyFull(table, h);
    var d := FirstEmpty(table, h, |table|).value;
    var p := Walk(|table|, h, d);
    var t := table[p := i + 1];
    CountUsedFill(table, p, i + 1);
    ProbeFindsInserted(table, states, i, h, |table|);
    assert EntriesIn(t, i + 1);
    InsertKeepsEarlier(table, homes, states, i, p);
    assert forall k | 0 <= k < i + 1 :: homes[k] < |t| && Probe(t, states, states[k], homes[k], |t|) == Index(k);
  }

  /** Filling an empty slot keeps every earlier position findable. */
  lemma InsertKeepsEarlier(table: seq<nat>, homes: seq<nat>, states: seq<Word>, i: nat, p: nat)
    requires i < |states| == |homes| && EntriesIn(table, |states|) && p < |table| && table[p] == 0
    requires forall k {:trigger homes[k]} | 0 <= k < i :: homes[k] < |table| && Probe(table, states, states[k], homes[k], |table|) == Index(k)
    ensures EntriesIn(table[p := i + 1], |states|)
    ensures forall k | 0 <= k < i :: Probe(table[p := i + 1], states, states[k], homes[k], |table|) == Index(k)
  {
    var t := table[p := i + 1];
    assert EntriesIn(t, |states|);
    forall k | 0 <= k < i
      ensures EntriesIn(t, |states|) && Probe(t, states, states[k], homes[k], |table|) == Index(k)
    {
      FillKeeps(table, states, states[k], homes[k], p, i + 1, k);
    }
  }

  /** `ProbeAfterFill` for a lookup that finds position `k`. */
  lemma FillKeeps(table: seq<nat>, states: seq<Word>, a: Word, h: nat, p: nat, v: nat, k: int)
    requires h < |table| && p < |table| && table[p] == 0 && 0 < v <= |states|
    requires EntriesIn(table, |states|) && Probe(table, states, a, h, |table|) == Index(k)
    ensures EntriesIn(table[p := v], |states|)
    ensures Probe(table[p := v], states, a, h, |table|) == Index(k)
  {
    ProbeAfterFill(table, states, a, h, |table|, p, v);
  }

  /** Position `i` goes where the reference search from its home slot says. */
  lemma AddHashAtHome(table: seq<nat>, hashw: nat, homes: seq<nat>, states: seq<Word>, i: nat) returns (t: seq<nat>)
    requires 1 <= hashw <= 30 && |table| == Pow2(hashw) && i < |states|
    requires homes == Homes(states, hashw)
    requires FirstEmpty(table, homes[i], |table|).Some?
    ensures t == table[Walk(|table|, homes[i], FirstEmpty(table, homes[i], |table|).value) := i + 1]
    ensures AddHash(table, hashw, states[i], i) == Ok(t)
  {
    t := table[Walk(|table|, homes[i], FirstEmpty(table, homes[i], |table|).value) := i + 1];
    assert homes[i] == Hash64(states[i], hashw);
  }

  /** One round of the insertion loop keeps the invariant. */
  lemma InsertFromStep(table: seq<nat>, hashw: nat, homes: seq<nat>, states: seq<Word>, i: nat, size: nat) returns (t: seq<nat>)
    requires 1 <= hashw <= 30 && |table| == Pow2(hashw) && i < size <= |states| && size <= |table|
    requires homes == Homes(states, hashw)
    requires DistinctPrefix(states, size)
    requires Indexes(table, homes, states, i)
    ensures |t| == |table| && Indexes(t, homes, states, i + 1)
    ensures InsertFrom(table, hashw, states, i, size) == InsertFrom(t, hashw, states, i + 1, size)
  {
    InsertStep(table, homes, states, i);
    t := AddHashAtHome(table, hashw, homes, states, i);
  }

  lemma {:induction false} InsertFromCorrect(table: seq<nat>, hashw: nat, homes: seq<nat>, states: seq<Word>, i: nat, size: nat)
    requires 1 <= hashw <= 30 && |table| == Pow2(hashw) && i <= size <= |states| && size <= |table|
    requires homes == Homes(states, hashw)
    requires DistinctPrefix(states, size)
    requires Indexes(table, homes, states, i)
    ensures InsertFrom(table, hashw, states, i, size).Ok?
    ensures Indexes(InsertFrom(table, hashw, states, i, size).value, homes, states, size)
    decreases size - i
  {
    if i < size {
      var t := InsertFromStep(table, hashw, homes, states, i, size);
      InsertFromCorrect(t, hashw, homes, states, i + 1, size);
    }
  }

  /** `ql_qreg_reconstruct_hash`: nothing happens without a table (`hashw`
      0); otherwise every slot is cleared and positions `0 .. size - 1` are
      inserted in order. */
  function ReconstructHash(table: seq<nat>, hashw: nat, states: seq<Word>, size: nat): (r: Result<seq<nat>>)
    requires size <= |states|
    requires hashw != 0 ==> hashw <= 30 && |table| == Pow2(hashw)
    ensures hashw == 0 ==> r == Ok(table)
    ensures r.Ok? ==> |r.value| == |table|
  {
    if hashw == 0 then Ok(table) else InsertFrom(seq(|table|, _ => 0), hashw, states, 0, size)
  }

  /** With distinct states and room for all of them, rebuilding succeeds,
      every stored state is found at its own position, exactly `size` slots
      are taken, and (when a slot is left free) any other state is reported
      absent. */
  lemma ReconstructCorrect(table: seq<nat>, hashw: nat, states: seq<Word>, size: nat)
    requires 1 <= hashw <= 30 && |table| == Pow2(hashw)
    requires size <= |states| && size <= Pow2(hashw)
    requires DistinctPrefix(states, size)
    ensures ReconstructHash(table, hashw, states, size).Ok?
    ensures var t := ReconstructHash(table, hashw, states, size).value;
      EntriesIn(t, size) && CountUsed(t) == size
      && (forall k | 0 <= k < size :: GetState(hashw, t, states, states[k]) == Index(k))
      && (size < Pow2(hashw) ==> forall a: Word | (forall k | 0 <= k < size :: states[k] != a) ::
            GetState(hashw, t, states, a) == Absent)
  {
    var empty := seq(|table|, _ => 0);
    CountUsedEmpty(|table|);
    InsertFromCorrect(empty, hashw, Homes(states, hashw), states, 0, size);
    var t := ReconstructHash(table, hashw, states, size).value;
    var homes := Homes(states, hashw);
    forall k | 0 <= k < size
      ensures GetState(hashw, t, states, states[k]) == Index(k)
    {
      assert Probe(t, states, states[k], homes[k], |t|) == Index(k);
    }
    if size < Pow2(hashw) {
      forall a: Word | (forall k | 0 <= k < size :: states[k] != a)
        ensures GetState(hashw, t, states, a) == Absent
      {
        CountUsedFull(t);
      }
    }
  }

  /** `ql_bitmask(a, width, bits)`: bit `i` of the result is bit `bits[i]` of
      `a`.  The sum `1 << i` is an `int`, so `width` stays below 32. */
  method Bitmask(a: Word, width: nat, bits: seq<nat>) returns (mask: nat)
    requires width <= |bits| && width <= 31
    requires forall i | 0 <= i < width :: bits[i] < WordSize
    ensures mask < Pow2(width)
    ensures forall i | 0 <= i < width :: FromNat(mask, width)[i] == a[bits[i]]
  {
    mask := 0;
    var i := 0;
    ghost var picked: seq<bool> := [];
    while i < width
      invariant i <= width && |picked| == i
      invariant forall k | 0 <= k < i :: picked[k] == a[bits[k]]
      invariant mask == Value(picked)
    {
      ValueAppend(picked, a[bits[i]]);
      if a[bits[i]] {
        mask := mask + Pow2(i);
      }
      picked := picked + [a[bits[i]]];
      i := i + 1;
    }
    ValueBound(picked);
    FromNatOfValue(picked);
  }
}

=== FILE: matrix.dfy ===
/** Dense complex matrices (src/ql_matrix.c).

    A `ql_matrix` holds `cols`, `rows` and a flat array `t` in which the entry
    at column `x`, row `y` is `t[x + y * cols]` (the `M` macro of
    include/openql/ql_matrix.h).  The model keeps the same layout.
 */
module Matrix {
  import opened Wrappers
  import opened Complex
  import opened Arith
  import Errors

  datatype Matrix = Matrix(cols: nat, rows: nat, t: seq<Complex>)

  /** The array holds exactly `cols * rows` entries. */
  predicate Valid(m: Matrix)
  {
    |m.t| == m.cols * m.rows
  }

  /** `M(m, x, y)`: column `x`, row `y`. */
  function At(m: Matrix, x: nat, y: nat): Complex
    requires Valid(m) && x < m.cols && y < m.rows
  {
    FlatBound(x, y, m.cols, m.rows);
    m.t[x + y * m.cols]
  }

  /** Two well-formed matrices of one shape that agree entry by entry are equal. */
  lemma {:induction false} Extensionality(a: Matrix, b: Matrix)
    requires Valid(a) && Valid(b) && a.cols == b.cols && a.rows == b.rows
    requires forall x: nat, y: nat | x < a.cols && y < a.rows :: At(a, x, y) == At(b, x, y)
    ensures a == b
  {
    forall k | 0 <= k < |a.t|
      ensures a.t[k] == b.t[k]
    {
      FlatCover(k, a.cols, a.rows);
      assert At(a, k % a.cols, k / a.cols) == At(b, k % a.cols, k / a.cols);
    }
  }

  /** The matrix with `cols` columns and `rows` rows whose entry at (x, y) is `f(x, y)`. */
  function Build(cols: nat, rows: nat, f: (nat, nat) -> Complex): (m: Matrix)
    ensures Valid(m) && m.cols == cols && m.rows == rows
    ensures forall x: nat, y: nat | x < cols && y < rows :: At(m, x, y) == f(x, y)
  {
    var m := Matrix(cols, rows, seq(cols * rows, k requires 0 <= k < cols * rows => f(k % cols, k / cols)));
    assert forall x: nat, y: nat | x < cols && y < rows :: At(m, x, y) == f(x, y) by {
      forall x: nat, y: nat | x < cols && y < rows
        ensures At(m, x, y) == f(x, y)
      {
        FlatBound(x, y, cols, rows);
        FlatSplit(x, y, cols);
      }
    }
    m
  }

  /** `ql_matrix_new(cols, rows)`: note the argument order, columns first. */
  function New(cols: nat, rows: nat): (m: Matrix)
    ensures Valid(m) && m.cols == cols && m.rows == rows
    ensures forall x: nat, y: nat | x < cols && y < rows :: At(m, x, y) == Zero
  {
    Build(cols, rows, (x: nat, y: nat) => Zero)
  }

  /** The sum `A(0, j) * B(i, 0) + ... + A(n - 1, j) * B(i, n - 1)`, accumulated
      from `k = 0` upward as the innermost loop of `ql_matrix_mmult` does. */
  function Dot(a: Matrix, b: Matrix, i: nat, j: nat, n: nat): Complex
    requires Valid(a) && Valid(b) && a.cols == b.rows
    requires i < b.cols && j < a.rows && n <= b.rows
  {
    if n == 0 then Zero else Add(Dot(a, b, i, j, n - 1), Mul(At(a, n - 1, j), At(b, i, n - 1)))
  }

  /** `ql_matrix_mmult(A, B)`: the product has `B.cols` columns and `A.rows` rows. */
  function MMult(a: Matrix, b: Matrix): (r: Result<Matrix>)
    requires Valid(a) && Valid(b)
    ensures r.Fail? <==> a.cols != b.rows
    ensures r.Fail? ==> r.code == Errors.MatrixSize
    ensures r.Ok? ==> Valid(r.value) && r.value.cols == b.cols && r.value.rows == a.rows
    ensures r.Ok? ==> forall i: nat, j: nat | i < b.cols && j < a.rows :: At(r.value, i, j) == Dot(a, b, i, j, b.rows)
  {
    if a.cols != b.rows then Fail(Errors.MatrixSize)
    else Ok(Build(b.cols, a.rows, (i: nat, j: nat) => if i < b.cols && j < a.rows then Dot(a, b, i, j, b.rows) else Zero))
  }

  /** The `n * n` identity. */
  function Identity(n: nat): (m: Matrix)
    ensures Valid(m) && m.cols == n && m.rows == n
    ensures forall x: nat, y: nat | x < n && y < n :: At(m, x, y) == if x == y then One else Zero
  {
    Build(n, n, (x: nat, y: nat) => if x == y then One else Zero)
  }

  /** A row of the identity picks one entry of the column: the partial sum
      over the first `n` rows is that entry once `n` passes it, zero before. */
  lemma {:induction false} DotIdentity(id: Matrix, b: Matrix, i: nat, j: nat, n: nat)
    requires Valid(id) && Valid(b) && id.cols == id.rows == b.rows
    requires forall x: nat, y: nat | x < id.cols && y < id.rows :: At(id, x, y) == if x == y then One else Zero
    requires i < b.cols && j < b.rows && n <= b.rows
    ensures Dot(id, b, i, j, n) == if j < n then At(b, i, j) else Zero
  {
    if n > 0 {
      var e := At(b, i, n - 1);
      var prev := Dot(id, b, i, j, n - 1);
      DotIdentity(id, b, i, j, n - 1);
      assert Dot(id, b, i, j, n) == Add(prev, Mul(At(id, n - 1, j), e));
      if n - 1 == j {
        MulOne(e);
        AddZero(e);
      } else {
        MulZero(e);
        AddZero(prev);
      }
    }
  }

  /** Multiplying by the identity on the left returns the matrix itself. */
  lemma MMultIdentity(b: Matrix)
    requires Valid(b)
    ensures MMult(Identity(b.rows), b) == Ok(b)
  {
    var r := MMult(Identity(b.rows), b).value;
    forall x: nat, y: nat | x < b.cols && y < b.rows
      ensures At(r, x, y) == At(b, x, y)
    {
      DotIdentity(Identity(b.rows), b, x, y, b.rows);
    }
    Extensionality(r, b);
  }

  /** The conjugate swap of the pair (i, j) / (j, i) done by one step of
      `ql_matrix_adjoint`. */
  function SwapConj(m: Matrix, i: nat, j: nat): (r: Matrix)
    requires Valid(m) && i < m.cols && j < m.cols && m.cols <= m.rows
    ensures Valid(r) && r.cols == m.cols && r.rows == m.rows
    ensures forall x: nat, y: nat | x < m.cols && y < m.rows ::
      At(r, x, y) == if x == i && y == j then Conj(At(m, j, i))
                     else if x == j && y == i then Conj(At(m, i, j))
                     else At(m, x, y)
  {
    FlatBound(i, j, m.cols, m.rows);
    FlatBound(j, i, m.cols, m.rows);
    var a, b := i + j * m.cols, j + i * m.cols;
    var r := Matrix(m.cols, m.rows, m.t[a := Conj(m.t[b])][b := Conj(m.t[a])]);
    assert forall x: nat, y: nat | x < m.cols && y < m.rows ::
      At(r, x, y) == if x == i && y == j then Conj(At(m, j, i))
                     else if x == j && y == i then Conj(At(m, i, j))
                     else At(m, x, y) by {
      forall x: nat, y: nat | x < m.cols && y < m.rows
        ensures At(r, x, y) == if x == i && y == j then Conj(At(m, j, i))
                               else if x == j && y == i then Conj(At(m, i, j))
                               else At(m, x, y)
      {
        SwapAt(m.t, m.cols, m.rows, i, j, x, y);
      }
    }
    r
  }

  /** One entry after the swap, argued on the flat array. */
  lemma SwapAt(t: seq<Complex>, cols: nat, rows: nat, i: nat, j: nat, x: nat, y: nat)
    requires |t| == cols * rows && i < cols && j < cols && cols <= rows && x < cols && y < rows
    ensures 0 <= j * cols && 0 <= i * cols && 0 <= y * cols
    ensures i + j * cols < |t| && j + i * cols < |t| && x + y * cols < |t|
    ensures var a, b := i + j * cols, j + i * cols;
      t[a := Conj(t[b])][b := Conj(t[a])][x + y * cols] ==
        if x == i && y == j then Conj(t[b])
        else if x == j && y == i then Conj(t[a])
        else t[x + y * cols]
  {
    FlatBound(i, j, cols, rows);
    FlatBound(j, i, cols, rows);
    FlatBound(x, y, cols, rows);
    FlatInjective(x, y, i, j, cols);
    FlatInjective(x, y, j, i, cols);
    SwapRead(t, i + j * cols, j + i * cols, x + y * cols, x == i && y == j, x == j && y == i);
  }

  /** Reading slot `c` after writing the conjugates of slots `a` and `b`
      into each other, where `p` and `q` say whether `c` is `a` or `b`. */
  lemma SwapRead(t: seq<Complex>, a: nat, b: nat, c: nat, p: bool, q: bool)
    requires a < |t| && b < |t| && c < |t| && (c == a <==> p) && (c == b <==> q)
    ensures t[a := Conj(t[b])][b := Conj(t[a])][c] ==
      if p then Conj(t[b]) else if q then Conj(t[a]) else t[c]
  {
  }

  /** The loop of `ql_matrix_adjoint` from column `i`, row `j` on: for every
      `i < cols` and every `j < i`, swap and conjugate (i, j) with (j, i).
      Columns at or beyond `rows` would index past the array, so the model
      asks for `cols <= rows`. */
  function AdjointFrom(m: Matrix, i: nat, j: nat): (r: Matrix)
    requires Valid(m) && m.cols <= m.rows && j <= i
    ensures Valid(r) && r.cols == m.cols && r.rows == m.rows
    decreases m.cols - i, i - j
  {
    if i >= m.cols then m
    else if j == i then AdjointFrom(m, i + 1, 0)
    else AdjointFrom(SwapConj(m, i, j), i, j + 1)
  }

  /** `ql_matrix_adjoint(m)`, which works in place and returns `m`. */
  function Adjoint(m: Matrix): (r: Matrix)
    requires Valid(m) && m.cols <= m.rows
    ensures Valid(r) && r.cols == m.cols && r.rows == m.rows
  {
    AdjointFrom(m, 0, 0)
  }

  /** Reference definition of what the loop leaves behind: off the diagonal of
      the leading `cols * cols` square, entry (x, y) is the conjugate of the
      original (y, x); the diagonal and the rows below the square are kept. */
  ghost predicate IsAdjointOf(r: Matrix, m: Matrix)
    requires Valid(m) && Valid(r) && r.cols == m.cols && r.rows == m.rows && m.cols <= m.rows
  {
    forall x: nat, y: nat | x < m.cols && y < m.rows ::
      At(r, x, y) == if y < m.cols && x != y then Conj(At(m, y, x)) else At(m, x, y)
  }

  /** Whether the pair (x, y) / (y, x) has been handled before the loop
      reaches column `i`, row `j`. */
  predicate Done(x: nat, y: nat, i: nat, j: nat)
  {
    var hi, lo := if x > y then x else y, if x > y then y else x;
    lo < hi && (hi < i || (hi == i && lo < j))
  }

  /** The state of the loop at (i, j): handled pairs swapped, the rest untouched. */
  ghost predicate AdjointProgress(r: Matrix, m: Matrix, i: nat, j: nat)
    requires Valid(m) && Valid(r) && r.cols == m.cols && r.rows == m.rows && m.cols <= m.rows
  {
    forall x: nat, y: nat | x < m.cols && y < m.rows ::
      At(r, x, y) == if y < m.cols && Done(x, y, i, j) then Conj(At(m, y, x)) else At(m, x, y)
  }

  lemma {:induction false} SwapConjStep(r: Matrix, m: Matrix, i: nat, j: nat)
    requires Valid(m) && Valid(r) && r.cols == m.cols && r.rows == m.rows && m.cols <= m.rows
    requires j < i < m.cols
    requires AdjointProgress(r, m, i, j)
    ensures AdjointProgress(SwapConj(r, i, j), m, i, j + 1)
  {
    var s := SwapConj(r, i, j);
    forall x: nat, y: nat | x < m.cols && y < m.rows
      ensures At(s, x, y) == if y < m.cols && Done(x, y, i, j + 1) then Conj(At(m, y, x)) else At(m, x, y)
    {
      if x == i && y == j {
        assert !Done(j, i, i, j);
      } else if x == j && y == i {
        assert !Done(i, j, i, j);
        ConjInvolution(At(m, i, j));
      } else {
        assert Done(x, y, i, j + 1) == Done(x, y, i, j);
      }
    }
  }

  lemma {:induction false} AdjointFromProgress(r: Matrix, m: Matrix, i: nat, j: nat)
    requires Valid(m) && Valid(r) && r.cols == m.cols && r.rows == m.rows && m.cols <= m.rows
    requires j <= i
    requires AdjointProgress(r, m, i, j)
    ensures IsAdjointOf(AdjointFrom(r, i, j), m)
    decreases m.cols - i, i - j
  {
    if i >= m.cols {
      forall x: nat, y: nat | x < m.cols && y < m.rows
        ensures At(r, x, y) == if y < m.cols && x != y then Conj(At(m, y, x)) else At(m, x, y)
      {
        assert y < m.cols && x != y ==> Done(x, y, i, j);
      }
    } else if j == i {
      forall x: nat, y: nat | x < m.cols && y < m.rows
        ensures Done(x, y, i, j) == Done(x, y, i + 1, 0)
      {
      }
      AdjointFromProgress(r, m, i + 1, 0);
    } else {
      SwapConjStep(r, m, i, j);
      AdjointFromProgress(SwapConj(r, i, j), m, i, j + 1);
    }
  }

  /** The loop computes the reference definition. */
  lemma AdjointCorrect(m: Matrix)
    requires Valid(m) && m.cols <= m.rows
    ensures IsAdjointOf(Adjoint(m), m)
  {
    AdjointFromProgress(m, m, 0, 0);
  }

  /** Applying `ql_matrix_adjoint` twice gives back the matrix. */
  lemma AdjointInvolution(m: Matrix)
    requires Valid(m) && m.cols <= m.rows
    ensures Adjoint(Adjoint(m)) == m
  {
    var a := Adjoint(m);
    AdjointCorrect(m);
    AdjointCorrect(a);
    var b := Adjoint(a);
    forall x: nat, y: nat | x < m.cols && y < m.rows
      ensures At(b, x, y) == At(m, x, y)
    {
      if y < m.cols && x != y {
        ConjInvolution(At(m, x, y));
      }
    }
    Extensionality(b, m);
  }

  /** The diagonal is copied unconjugated: on the 1 x 1 matrix holding `i`,
      the result still holds `i`, whereas the conjugate transpose holds `-i`. */
  lemma AdjointKeepsDiagonal()
    ensures var m := Matrix(1, 1, [Complex(0.0, 1.0)]);
      Adjoint(m) == m && ConjugateTranspose(m) == Matrix(1, 1, [Complex(0.0, -1.0)])
  {
    var m := Matrix(1, 1, [Complex(0.0, 1.0)]);
    var c := ConjugateTranspose(m);
    assert At(c, 0, 0) == Complex(0.0, -1.0);
    Extensionality(c, Matrix(1, 1, [Complex(0.0, -1.0)]));
  }

  /** The evidently intended adjoint: entry (x, y) is the conjugate of (y, x)
      everywhere, the diagonal included, and the shape is transposed. */
  function ConjugateTranspose(m: Matrix): (r: Matrix)
    requires Valid(m)
    ensures Valid(r) && r.cols == m.rows && r.rows == m.cols
    ensures forall x: nat, y: nat | x < m.rows && y < m.cols :: At(r, x, y) == Conj(At(m, y, x))
  {
    Build(m.rows, m.cols, (x: nat, y: nat) => if x < m.rows && y < m.cols then Conj(At(m, y, x)) else Zero)
  }

  lemma ConjugateTransposeInvolution(m: Matrix)
    requires Valid(m)
    ensures ConjugateTranspose(ConjugateTranspose(m)) == m
  {
    var b := ConjugateTranspose(ConjugateTranspose(m));
    forall x: nat, y: nat | x < m.cols && y < m.rows
      ensures At(b, x, y) == At(m, x, y)
    {
      ConjInvolution(At(m, x, y));
    }
    Extensionality(b, m);
  }

  /** On a square matrix the two agree everywhere off the diagonal. */
  lemma AdjointOffDiagonal(m: Matrix, x: nat, y: nat)
    requires Valid(m) && m.cols == m.rows && x < m.cols && y < m.rows && x != y
    ensures At(Adjoint(m), x, y) == At(ConjugateTranspose(m), x, y)
  {
    AdjointCorrect(m);
  }

  /** The static counters of `ql_matrix_memsize`: running total and high-water mark. */
  datatype MemCounter = MemCounter(mem: int, max: int)

  const InitialMem := MemCounter(0, 0)

  const ULongModulus := 0x1_0000_0000_0000_0000

  /** `ql_matrix_memsize(change)`: the new counters and the total, converted
      to `unsigned long` (a negative total wraps modulo 2^64). */
  function Memsize(c: MemCounter, change: int): (res: (MemCounter, nat))
    ensures res.0.mem == c.mem + change
    ensures res.0.max >= res.0.mem && res.0.max >= c.max
    ensures res.0.max == c.max || res.0.max == res.0.mem
    ensures res.1 < ULongModulus && (res.1 - res.0.mem) % ULongModulus == 0
  {
    var mem := c.mem + change;
    var c' := MemCounter(mem, if mem > c.max then mem else c.max);
    (c', mem % ULongModulus)
  }

  function MemsizeAll(c: MemCounter, changes: seq<int>): MemCounter
    decreases |changes|
  {
    if |changes| == 0 then c else MemsizeAll(Memsize(c, changes[0]).0, changes[1..])
  }

  function Total(changes: seq<int>): int
  {
    if |changes| == 0 then 0 else changes[0] + Total(changes[1..])
  }

  /** After any sequence of calls from the initial counters, the total is the
      sum of the changes and the high-water mark is at least every running
      total reached on the way, and equal to one of them or to 0. */
  lemma {:induction false} MemsizeHighWater(c: MemCounter, changes: seq<int>)
    requires c.max >= c.mem
    ensures MemsizeAll(c, changes).mem == c.mem + Total(changes)
    ensures forall n | 0 <= n <= |changes| :: MemsizeAll(c, changes).max >= c.mem + Total(changes[..n])
    ensures MemsizeAll(c, changes).max >= c.max
    ensures MemsizeAll(c, changes).max == c.max
      || exists n | 0 < n <= |changes| :: MemsizeAll(c, changes).max == c.mem + Total(changes[..n])
    decreases |changes|
  {
    if |changes| > 0 {
      var c1 := Memsize(c, changes[0]).0;
      var rest := changes[1..];
      MemsizeHighWater(c1, rest);
      var r := MemsizeAll(c, changes);
      forall n | 0 <= n <= |changes|
        ensures r.max >= c.mem + Total(changes[..n])
      {
        if n > 0 {
          assert changes[..n][1..] == rest[..n - 1];
        }
      }
      if r.max != c.max {
        if r.max == c1.max {
          assert c1.max == c1.mem;
          assert changes[..1][1..] == [];
          assert r.max == c.mem + Total(changes[..1]);
        } else {
          var n :| 0 < n <= |rest| && r.max == c1.mem + Total(rest[..n]);
          assert changes[..n + 1][1..] == rest[..n];
          assert r.max == c.mem + Total(changes[..n + 1]);
        }
      }
    }
  }
}

=== FILE: measure.dfy ===
/** Measurement (src/ql_measure.c).

    The random draw `ql_frand()` is a parameter `r`; the factor
    `1 / (float) sqrt(d)` is a parameter `norm` applied to `d`.

    * `ql_measure` subtracts the probabilities of the entries from `r` in
      order and returns the state of the first entry that brings it to 0 or
      below; when none does it returns `-1`, the word with every bit set.
    * `ql_bmeasure` draws outcome 1 exactly when `r` exceeds the probability
      `pa` of the entries whose bit `pos` is clear, and collapses onto that
      outcome.  As written it frees the caller's state and amplitude arrays
      (`ql_qreg_delete_hash`, src/ql_qreg.c) and then stores the collapsed
      register only in its own parameter, so the caller keeps its old width,
      size, table width and table over freed arrays, and the collapse is
      lost (`BMeasureAsWritten`); the intended version hands the collapse
      back (`BMeasure`).
    * `ql_bmeasure_bit` keeps qubit `pos`: it zeroes the amplitude of every
      entry whose bit `pos` differs from the outcome, sizes the output by
      the number of matching entries, but copies only the entries whose
      amplitude is non-zero.  When a matching entry has amplitude exactly 0
      the output ends with entries left as allocated, state 0 and amplitude
      0, whose bit `pos` need not be the outcome
      (`BMeasureBitAsWritten`); the intended output holds just the copied
      entries (`BMeasureBit`).
 */
module Measure {
  import opened Wrappers
  import opened Bits
  import opened Complex
  import opened Register
  import opened Collapse
  import Conversion

  /** The draw `r` is used up by the first `i + 1` entries. */
  predicate Reached(amps: seq<Complex>, r: real, i: nat)
    requires i < |amps|
  {
    r <= SumProb(amps[..i + 1])
  }

  /** A prefix never carries more probability than the whole sequence. */
  lemma {:induction false} SumProbPrefix(amps: seq<Complex>, i: nat)
    requires i <= |amps|
    ensures SumProb(amps[..i]) <= SumProb(amps)
    decreases |amps|
  {
    if i < |amps| {
      var n := |amps| - 1;
      assert amps[..n][..i] == amps[..i];
      SumProbPrefix(amps[..n], i);
      assert amps[..|amps|] == amps;
    } else {
      assert amps[..i] == amps;
    }
  }

  /** `ql_measure(reg)` with the draw `r`: the state of the first entry at
      which the running probability reaches `r`, or every bit set when no
      entry does.  When `r` is at most the total probability of a non-empty
      register the result is one of its states; when `r` exceeds it the
      result is every bit set. */
  method Measure(reg: Qreg, r: real) returns (s: Word)
    requires WellFormed(reg) && reg.state.Some?
    ensures forall i | 0 <= i < reg.Size() && Reached(reg.amplitude, r, i)
      && (forall j | 0 <= j < i :: !Reached(reg.amplitude, r, j)) :: s == reg.state.value[i]
    ensures (forall i | 0 <= i < reg.Size() :: !Reached(reg.amplitude, r, i)) ==> s == AllOnes()
    ensures reg.Size() > 0 && r <= SumProb(reg.amplitude) ==> s in reg.state.value
    ensures r > SumProb(reg.amplitude) ==> s == AllOnes()
  {
    var amps := reg.amplitude;
    var left := r;
    var i := 0;
    while i < reg.Size()
      invariant i <= reg.Size()
      invariant left == r - SumProb(amps[..i])
      invariant forall j | 0 <= j < i :: !Reached(amps, r, j)
    {
      left := left - Prob(amps[i]);
      assert amps[..i + 1][..i] == amps[..i];
      if 0.0 >= left {
        assert Reached(amps, r, i);
        SumProbPrefix(amps, i + 1);
        return reg.state.value[i];
      }
      i := i + 1;
    }
    if reg.Size() > 0 {
      assert amps[..reg.Size()] == amps;
      assert !Reached(amps, r, reg.Size() - 1);
    }
    return AllOnes();
  }

  /** The probability `pa` of the entries whose bit `pos` is clear. */
  function ClearProb(reg: Qreg, pos: nat): (pa: real)
    requires WellFormed(reg) && reg.state.Some? && pos < WordSize
  {
    SumProb(Pick(reg.amplitude, Kept(reg.state.value, pos, 0)))
  }

  /** The probability of the entries whose bit `pos` is set. */
  function SetProb(reg: Qreg, pos: nat): (pb: real)
    requires WellFormed(reg) && reg.state.Some? && pos < WordSize
  {
    SumProb(Pick(reg.amplitude, Kept(reg.state.value, pos, 1)))
  }

  /** The probability of the entries among the first `n` whose bit `pos`
      matches `value`. */
  function PartProb(states: seq<Word>, amps: seq<Complex>, pos: nat, value: int, n: nat): real
    requires |states| == |amps| && pos < WordSize && n <= |states|
  {
    SumProb(Pick(amps, Kept(states[..n], pos, value)))
  }

  /** Scanning one more entry adds its probability to the sum of the
      matching entries exactly when it matches. */
  lemma KeptSumStep(states: seq<Word>, amps: seq<Complex>, pos: nat, value: int, i: nat, n: nat)
    requires |states| == |amps| && pos < WordSize && n == i + 1 && n <= |states|
    ensures PartProb(states, amps, pos, value, n)
      == PartProb(states, amps, pos, value, i) + (if Matches(states[i], pos, value) then Prob(amps[i]) else 0.0)
  {
    var ks := Kept(states[..i], pos, value);
    KeptStep(states, i, pos, value);
    assert states[..n] == states[..i + 1];
    if Matches(states[i], pos, value) {
      SumProbPickStep(amps, ks, i);
    } else {
      assert ks + [] == ks;
    }
  }

  /** One more entry adds its probability to the prefix sum. */
  lemma PrefixProbStep(amps: seq<Complex>, i: nat, n: nat)
    requires n == i + 1 && n <= |amps|
    ensures SumProb(amps[..n]) == SumProb(amps[..i]) + Prob(amps[i])
  {
    assert amps[..n][..i] == amps[..i];
  }

  /** The entries with bit `pos` clear and those with it set share out the
      probability of every prefix of the register between them. */
  lemma {:induction false} SplitProb(states: seq<Word>, amps: seq<Complex>, pos: nat, n: nat)
    requires |states| == |amps| && pos < WordSize && n <= |states|
    ensures PartProb(states, amps, pos, 0, n) + PartProb(states, amps, pos, 1, n) == SumProb(amps[..n])
  {
    if n > 0 {
      var i := n - 1;
      SplitProb(states, amps, pos, i);
      KeptSumStep(states, amps, pos, 0, i, n);
      KeptSumStep(states, amps, pos, 1, i, n);
      PrefixProbStep(amps, i, n);
    } else {
      assert states[..0] == [];
    }
  }

  /** The outcome both measurements draw: 1 exactly when `r` exceeds the
      probability of the entries with bit `pos` clear, which is when `r`
      falls in the share of the entries with the bit set. */
  method Outcome(reg: Qreg, pos: nat, r: real) returns (result: int)
    requires WellFormed(reg) && reg.state.Some? && pos < WordSize
    ensures result == 0 || result == 1
    ensures result == 1 <==> r > ClearProb(reg, pos)
    ensures result == 1 <==> r > SumProb(reg.amplitude) - SetProb(reg, pos)
  {
    var _, pa := Weigh(reg, pos, 0);
    result := if r > pa then 1 else 0;
    ShareOut(reg, pos);
  }

  /** The probability of a register splits into that of the entries with
      bit `pos` clear and that of the entries with it set. */
  lemma ShareOut(reg: Qreg, pos: nat)
    requires WellFormed(reg) && reg.state.Some? && pos < WordSize
    ensures ClearProb(reg, pos) + SetProb(reg, pos) == SumProb(reg.amplitude)
  {
    SplitProb(reg.state.value, reg.amplitude, pos, reg.Size());
    assert reg.state.value[..reg.Size()] == reg.state.value;
    assert reg.amplitude[..reg.Size()] == reg.amplitude;
  }

  /** What a caller's register variable holds: a register, or the fields
      `ql_qreg_delete_hash` leaves behind once the state and amplitude
      arrays are freed and the fields that held them cleared. */
  datatype Caller =
    | Holds(reg: Qreg)
    | Freed(width: int, size: nat, hashw: nat, hash: Option<seq<nat>>)

  /** `ql_qreg_delete_hash(reg)`: both arrays go, while the size, the
      widths and the table stay as they were. */
  function DeleteHash(reg: Qreg): (c: Caller)
    ensures c.Freed? && c.size == reg.Size()
    ensures c.width == reg.width && c.hashw == reg.hashw && c.hash == reg.hash
  {
    Freed(reg.width, reg.Size(), reg.hashw, reg.hash)
  }

  /** `ql_bmeasure(reg, pos)` as written: the outcome, and what the caller's
      register holds afterwards.  The collapse is built and dropped, so the
      caller is left with its old size and table over freed arrays and no
      entry it can read. */
  method BMeasureAsWritten(reg: Qreg, pos: nat, r: real, norm: real -> real) returns (result: int, after: Caller)
    requires WellFormed(reg) && reg.state.Some? && pos < WordSize
    ensures result == 0 || result == 1
    ensures result == 1 <==> r > ClearProb(reg, pos)
    ensures after.Freed? && after.size == reg.Size()
    ensures after.width == reg.width && after.hashw == reg.hashw && after.hash == reg.hash
  {
    result := Outcome(reg, pos, r);
    var out := Collapse.Collapse(reg, pos, result, norm);
    after := DeleteHash(reg);
  }

  /** As written, a caller whose register has an entry with bit `pos` clear
      and one with it set is left claiming the old size although the
      collapse holds fewer entries. */
  lemma BMeasureLosesCollapse(reg: Qreg, pos: nat, value: int, norm: real -> real)
    requires WellFormed(reg) && reg.state.Some? && pos < WordSize
    requires exists i | 0 <= i < reg.Size() :: !Matches(reg.state.value[i], pos, value)
    ensures DeleteHash(reg).size > Collapse.Collapse(reg, pos, value, norm).Size()
  {
    var i :| 0 <= i < reg.Size() && !Matches(reg.state.value[i], pos, value);
    KeptShorter(reg.state.value, pos, value, i, reg.Size());
    assert reg.state.value[..reg.Size()] == reg.state.value;
  }

  /** At most one kept position per scanned entry, and fewer once a scanned
      entry does not match. */
  lemma {:induction false} KeptShorter(states: seq<Word>, pos: nat, value: int, i: nat, n: nat)
    requires pos < WordSize && n <= |states|
    ensures |Kept(states[..n], pos, value)| <= n
    ensures i < n && !Matches(states[i], pos, value) ==> |Kept(states[..n], pos, value)| < n
  {
    if n > 0 {
      var m := n - 1;
      KeptShorter(states, pos, value, i, m);
      KeptStep(states, m, pos, value);
      assert states[..n] == states[..m + 1];
    } else {
      assert states[..0] == [];
    }
  }

  /** `ql_bmeasure(reg, pos)` as intended: the caller's register becomes the
      collapse onto the outcome.  It holds exactly the entries whose bit
      `pos` equals the outcome, in their order, each with that bit removed
      and its amplitude renormalised, and one qubit fewer. */
  method BMeasure(reg: Qreg, pos: nat, r: real, norm: real -> real) returns (result: int, after: Caller)
    requires WellFormed(reg) && reg.state.Some? && pos < WordSize
    ensures result == 0 || result == 1
    ensures result == 1 <==> r > ClearProb(reg, pos)
    ensures after.Holds? && WellFormed(after.reg) && after.reg.width == reg.width - 1
    ensures var ks := Kept(reg.state.value, pos, result);
      && after.reg.state.Some?
      && after.reg.Size() == |ks|
      && |after.reg.state.value| == |ks|
      && (forall i | 0 <= i < reg.Size() :: i in ks <==> reg.state.value[i][pos] == (result == 1))
      && (forall t | 0 <= t < |ks| :: InsertBit(after.reg.state.value[t], pos, result == 1) == reg.state.value[ks[t]])
      && after.reg.amplitude == KeptAmplitudes(reg, pos, result, norm)
  {
    result := Outcome(reg, pos, r);
    CollapseKeeps(reg, pos, result, norm);
    CollapseInverse(reg, pos, result, norm);
    after := Holds(Collapse.Collapse(reg, pos, result, norm));
  }

  /** The amplitudes after the first loop of `ql_bmeasure_bit`: an entry
      whose bit `pos` differs from the outcome is zeroed, the others are
      untouched. */
  function Restricted(reg: Qreg, pos: nat, result: int): (amps: seq<Complex>)
    requires WellFormed(reg) && reg.state.Some? && pos < WordSize
    ensures |amps| == reg.Size()
  {
    seq(reg.Size(), i requires 0 <= i < reg.Size() =>
      if Matches(reg.state.value[i], pos, result) then reg.amplitude[i] else Zero)
  }

  /** The positions the copy loop takes: the non-zero entries after the
      zeroing, which are the matching entries with a non-zero amplitude. */
  function Copied(reg: Qreg, pos: nat, result: int): (ks: seq<nat>)
    requires WellFormed(reg) && reg.state.Some? && pos < WordSize
    ensures forall t | 0 <= t < |ks| ::
      ks[t] < reg.Size() && Matches(reg.state.value[ks[t]], pos, result) && reg.amplitude[ks[t]] != Zero
    ensures forall t, u | 0 <= t < u < |ks| :: ks[t] < ks[u]
    ensures forall i | 0 <= i < reg.Size() :: i in ks <==> Matches(reg.state.value[i], pos, result) && reg.amplitude[i] != Zero
  {
    Conversion.NonZero(Restricted(reg, pos, result))
  }

  /** The copied entries are among the matching ones, so there are never
      more of them than the matching entries the output is sized for. */
  lemma CopiedFit(reg: Qreg, pos: nat, result: int)
    requires WellFormed(reg) && reg.state.Some? && pos < WordSize
    ensures |Copied(reg, pos, result)| <= |Kept(reg.state.value, pos, result)|
  {
    var cs := Copied(reg, pos, result);
    var ks := Kept(reg.state.value, pos, result);
    IncreasingWithin(cs, ks);
  }

  /** An increasing sequence whose every element lies in `ks`, itself
      increasing, is no longer than `ks`. */
  lemma {:induction false} IncreasingWithin(cs: seq<nat>, ks: seq<nat>)
    requires forall t, u | 0 <= t < u < |cs| :: cs[t] < cs[u]
    requires forall t | 0 <= t < |cs| :: cs[t] in ks
    ensures |cs| <= |ks|
  {
    var sc := set t | 0 <= t < |cs| :: cs[t];
    var sk := set t | 0 <= t < |ks| :: ks[t];
    assert sc <= sk;
    DistinctCard(cs);
    BoundCard(ks);
    SubsetCard(sc, sk);
  }

  /** The elements of a strictly increasing sequence are as many as its length. */
  lemma {:induction false} DistinctCard(cs: seq<nat>)
    requires forall t, u | 0 <= t < u < |cs| :: cs[t] < cs[u]
    ensures |set t | 0 <= t < |cs| :: cs[t]| == |cs|
    decreases |cs|
  {
    if |cs| > 0 {
      var n := |cs| - 1;
      var init := cs[..n];
      DistinctCard(init);
      var a := set t | 0 <= t < n :: init[t];
      var b := set t | 0 <= t < |cs| :: cs[t];
      assert b == a + {cs[n]};
      assert cs[n] !in a;
    }
  }

  /** A sequence has no more distinct elements than its length. */
  lemma {:induction false} BoundCard(ks: seq<nat>)
    ensures |set t | 0 <= t < |ks| :: ks[t]| <= |ks|
    decreases |ks|
  {
    if |ks| > 0 {
      var n := |ks| - 1;
      var init := ks[..n];
      BoundCard(init);
      var a := set t | 0 <= t < n :: init[t];
      var b := set t | 0 <= t < |ks| :: ks[t];
      assert b == a + {ks[n]};
    }
  }

  /** A subset is no larger than its superset. */
  lemma SubsetCard(a: set<nat>, b: set<nat>)
    requires a <= b
    ensures |a| <= |b|
  {
    assert b == a + (b - a);
  }

  /** The output entries of `ql_bmeasure_bit`: the copied entries with
      renormalised amplitudes, followed by `total` minus their number
      entries as allocated, state 0 and amplitude 0. */
  function BitOutput(reg: Qreg, pos: nat, result: int, d: real, norm: real -> real, total: nat): (out: Qreg)
    requires WellFormed(reg) && reg.state.Some? && pos < WordSize
    requires |Copied(reg, pos, result)| <= total
    ensures WellFormed(out) && out.state.Some? && out.Size() == total
    ensures out.width == reg.width && out.hashw == reg.hashw && out.hash == reg.hash
    ensures var cs := Copied(reg, pos, result);
      && (forall t | 0 <= t < |cs| :: out.state.value[t] == reg.state.value[cs[t]]
            && out.amplitude[t] == Scale(reg.amplitude[cs[t]], norm(d)))
      && (forall t | |cs| <= t < total :: out.state.value[t] == ZeroWord() && out.amplitude[t] == Zero)
  {
    var cs := Copied(reg, pos, result);
    var states := Pick(reg.state.value, cs) + seq(total - |cs|, _ => ZeroWord());
    var amps := seq(total, t requires 0 <= t < total => if t < |cs| then Scale(reg.amplitude[cs[t]], norm(d)) else Zero);
    Qreg(reg.width, reg.hashw, amps, Some(states), reg.hash)
  }

  /** `ql_bmeasure_bit(reg, pos)` as written: the output is sized by the
      number of matching entries, the entries copied are the matching ones
      with a non-zero amplitude, renormalised by the probability of all
      matching entries, and the width and table are the input's. */
  method BMeasureBitAsWritten(reg: Qreg, pos: nat, r: real, norm: real -> real) returns (result: int, out: Qreg)
    requires WellFormed(reg) && reg.state.Some? && pos < WordSize
    ensures result == 0 || result == 1
    ensures result == 1 <==> r > ClearProb(reg, pos)
    ensures |Copied(reg, pos, result)| <= |Kept(reg.state.value, pos, result)|
    ensures var ks := Kept(reg.state.value, pos, result);
      out == BitOutput(reg, pos, result, SumProb(Pick(reg.amplitude, ks)), norm, |ks|)
  {
    result := Outcome(reg, pos, r);
    var size, d := Weigh(reg, pos, result);
    CopiedFit(reg, pos, result);
    out := BitOutput(reg, pos, result, d, norm, size);
  }

  /** `ql_bmeasure_bit(reg, pos)` as intended: the output holds exactly the
      copied entries, so every output state has bit `pos` equal to the
      outcome and a non-zero amplitude. */
  method BMeasureBit(reg: Qreg, pos: nat, r: real, norm: real -> real) returns (result: int, out: Qreg)
    requires WellFormed(reg) && reg.state.Some? && pos < WordSize
    ensures result == 0 || result == 1
    ensures result == 1 <==> r > ClearProb(reg, pos)
    ensures WellFormed(out) && out.state.Some?
    ensures out.width == reg.width && out.hashw == reg.hashw && out.hash == reg.hash
    ensures forall t | 0 <= t < out.Size() :: out.state.value[t][pos] == (result != 0)
    ensures forall s :: s in out.state.value <==>
      exists i | 0 <= i < reg.Size() :: reg.state.value[i] == s && reg.state.value[i][pos] == (result != 0) && reg.amplitude[i] != Zero
    ensures norm(SumProb(Pick(reg.amplitude, Kept(reg.state.value, pos, result)))) != 0.0 ==>
      forall t | 0 <= t < out.Size() :: out.amplitude[t] != Zero
  {
    result := Outcome(reg, pos, r);
    var _, d := Weigh(reg, pos, result);
    out := BitOutput(reg, pos, result, d, norm, |Copied(reg, pos, result)|);
    BitOutputStates(reg, pos, result, d, norm);
    BitOutputNonZero(reg, pos, result, d, norm);
  }

  /** Without padding, the output states are exactly the states of the
      matching entries with a non-zero amplitude. */
  lemma BitOutputStates(reg: Qreg, pos: nat, result: int, d: real, norm: real -> real)
    requires WellFormed(reg) && reg.state.Some? && pos < WordSize
    ensures var out := BitOutput(reg, pos, result, d, norm, |Copied(reg, pos, result)|);
      (forall t | 0 <= t < out.Size() :: out.state.value[t][pos] == (result != 0))
      && forall s :: s in out.state.value <==>
        exists i | 0 <= i < reg.Size() :: reg.state.value[i] == s && reg.state.value[i][pos] == (result != 0) && reg.amplitude[i] != Zero
  {
    var cs := Copied(reg, pos, result);
    var out := BitOutput(reg, pos, result, d, norm, |cs|);
    forall s | s in out.state.value
      ensures exists i | 0 <= i < reg.Size() :: reg.state.value[i] == s && reg.state.value[i][pos] == (result != 0) && reg.amplitude[i] != Zero
    {
      var t :| 0 <= t < |cs| && out.state.value[t] == s;
      assert reg.state.value[cs[t]] == s;
    }
    forall i | 0 <= i < reg.Size() && reg.state.value[i][pos] == (result != 0) && reg.amplitude[i] != Zero
      ensures reg.state.value[i] in out.state.value
    {
      assert i in cs;
      var t :| 0 <= t < |cs| && cs[t] == i;
      assert out.state.value[t] == reg.state.value[i];
    }
  }

  /** Without padding, a non-zero factor leaves every output amplitude non-zero. */
  lemma BitOutputNonZero(reg: Qreg, pos: nat, result: int, d: real, norm: real -> real)
    requires WellFormed(reg) && reg.state.Some? && pos < WordSize
    ensures var out := BitOutput(reg, pos, result, d, norm, |Copied(reg, pos, result)|);
      norm(d) != 0.0 ==> forall t | 0 <= t < out.Size() :: out.amplitude[t] != Zero
  {
    var cs := Copied(reg, pos, result);
    var out := BitOutput(reg, pos, result, d, norm, |cs|);
    forall t | 0 <= t < out.Size() && norm(d) != 0.0
      ensures out.amplitude[t] != Zero
    {
      ScaleNonZero(reg.amplitude[cs[t]], norm(d));
    }
  }

  /** Scaling a non-zero amplitude by a non-zero factor keeps it non-zero. */
  lemma ScaleNonZero(a: Complex, f: real)
    requires a != Zero && f != 0.0
    ensures Scale(a, f) != Zero
  {
    if a.re != 0.0 {
      assert a.re * f != 0.0;
    } else {
      assert a.im * f != 0.0;
    }
  }

  /** When no matching entry has amplitude exactly 0 the two versions
      agree. */
  lemma BitAgree(reg: Qreg, pos: nat, result: int, d: real, norm: real -> real)
    requires WellFormed(reg) && reg.state.Some? && pos < WordSize
    requires forall i | 0 <= i < reg.Size() && Matches(reg.state.value[i], pos, result) :: reg.amplitude[i] != Zero
    ensures var ks := Kept(reg.state.value, pos, result);
      |Copied(reg, pos, result)| == |ks|
      && BitOutput(reg, pos, result, d, norm, |ks|) == BitOutput(reg, pos, result, d, norm, |Copied(reg, pos, result)|)
  {
    var cs := Copied(reg, pos, result);
    var ks := Kept(reg.state.value, pos, result);
    CopiedFit(reg, pos, result);
    IncreasingWithin(ks, cs);
  }

  /** As written, a matching entry with amplitude exactly 0 is counted but
      not copied, so the output ends with an entry left as allocated: state
      0, whose bit `pos` is clear whatever the outcome, and amplitude 0. */
  lemma BitAsWrittenPads(reg: Qreg, pos: nat, result: int, d: real, norm: real -> real)
    requires WellFormed(reg) && reg.state.Some? && pos < WordSize
    requires exists i | 0 <= i < reg.Size() :: Matches(reg.state.value[i], pos, result) && reg.amplitude[i] == Zero
    ensures var ks := Kept(reg.state.value, pos, result);
      && |Copied(reg, pos, result)| < |ks|
      && var out := BitOutput(reg, pos, result, d, norm, |ks|);
      out.state.value[|ks| - 1] == ZeroWord() && !out.state.value[|ks| - 1][pos] && out.amplitude[|ks| - 1] == Zero
  {
    var i :| 0 <= i < reg.Size() && Matches(reg.state.value[i], pos, result) && reg.amplitude[i] == Zero;
    CopiedFewer(reg, pos, result, i);
  }

  /** A matching entry with amplitude 0 is kept but not copied. */
  lemma CopiedFewer(reg: Qreg, pos: nat, result: int, i: nat)
    requires WellFormed(reg) && reg.state.Some? && pos < WordSize
    requires i < reg.Size() && Matches(reg.state.value[i], pos, result) && reg.amplitude[i] == Zero
    ensures |Copied(reg, pos, result)| < |Kept(reg.state.value, pos, result)|
  {
    var cs := Copied(reg, pos, result);
    var ks := Kept(reg.state.value, pos, result);
    var sc := set t | 0 <= t < |cs| :: cs[t];
    var sk := set t | 0 <= t < |ks| :: ks[t];
    assert i in sk && i !in sc;
    assert sc <= sk - {i};
    DistinctCard(cs);
    DistinctCard(ks);
    SubsetCard(sc, sk - {i});
  }
}

=== FILE: qec.dfy ===
/** The three-copy bit-flip code of src/ql_qec.c.

    Encoding a register of width `w` spreads each qubit `i` over positions
    `i`, `w + i` and `2w + i` and triples the width.  The statics
    `qec_type` and `qec_width` record whether the register is encoded and
    its logical width; the encoded gates act on the three copies of their
    qubits and then tick a gate counter, which after `freq` gates runs a
    decode and a fresh encode.  The model follows the statics, the
    decoherence setting, the register width and the states the encoded
    gates produce; the Hadamard, controlled-NOT, measurement and Z gates
    that encode and decode apply are not part of it.  The encoded gates
    tick the intended counter (`Counter`), whose round decodes and encodes
    as intended; the counter as written (`CounterAsWritten`) faults in the
    round on any register with an entry.
 */
module Qec {
  import opened Wrappers
  import opened Bits
  import opened Register
  import Gates
  import Decoherence
  import Measure

  /** The statics of src/ql_qec.c together with the decoherence setting:
      `qec_type`, `qec_width`, the counter's `counter` and `freq`. */
  datatype Qec = Qec(qtype: int, qwidth: int, counter: int, freq: int, noise: Decoherence.Noise)

  /** Every static starts at 0 except `freq`, which starts at `1 << 30`. */
  const Initial: Qec := Qec(0, 0, 0, Pow2(30), Decoherence.Initial)

  /** `ql_qec_set_status(stype, swidth)`. */
  function SetStatus(q: Qec, stype: int, swidth: int): (r: Qec)
    ensures r.qtype == stype && r.qwidth == swidth
    ensures r.counter == q.counter && r.freq == q.freq && r.noise == q.noise
  {
    q.(qtype := stype, qwidth := swidth)
  }

  /** The two out-parameters of `ql_qec_get_status`: `None` for a null
      address, otherwise the value of the cell it points to. */
  datatype Cells = Cells(ptype: Option<int>, pwidth: Option<int>)

  /** `ql_qec_get_status(ptype, pwidth)`: each non-null cell receives its
      static; a null address is skipped. */
  function GetStatus(q: Qec, cells: Cells): (r: Cells)
    ensures r.ptype.Some? <==> cells.ptype.Some?
    ensures r.pwidth.Some? <==> cells.pwidth.Some?
    ensures r.ptype.Some? ==> r.ptype.value == q.qtype
    ensures r.pwidth.Some? ==> r.pwidth.value == q.qwidth
  {
    Cells(if cells.ptype.Some? then Some(q.qtype) else None,
          if cells.pwidth.Some? then Some(q.qwidth) else None)
  }

  /** Reading the status back gives what was set, into every non-null cell,
      whatever the cells held before. */
  lemma GetAfterSet(q: Qec, stype: int, swidth: int, cells: Cells)
    ensures GetStatus(SetStatus(q, stype, swidth), cells)
      == Cells(if cells.ptype.Some? then Some(stype) else None,
               if cells.pwidth.Some? then Some(swidth) else None)
  {
  }

  /** The save and restore around the inner gates: read the strength, set
      0, set the strength read.  The strength survives, and noise ends up on
      exactly when the strength is non-zero. */
  function Restored(n: Decoherence.Noise): (m: Decoherence.Noise)
    ensures Decoherence.GetDecoherence(m) == Decoherence.GetDecoherence(n)
    ensures m.enabled <==> n.lambda != 0.0
  {
    Decoherence.SetDecoherence(Decoherence.SetDecoherence(n, 0.0), Decoherence.GetDecoherence(n))
  }

  /** Restoring twice is restoring once. */
  lemma {:induction false} RestoredIdempotent(n: Decoherence.Noise)
    ensures Restored(Restored(n)) == Restored(n)
  {
    var m := Restored(n);
    assert m.lambda == n.lambda;
    Decoherence.SaveRestore(m);
  }

  /** C's `a / 3` on `int`, which truncates toward zero. */
  function Third(a: int): (t: int)
    ensures a >= 0 ==> 0 <= 3 * t <= a < 3 * t + 3
    ensures a < 0 ==> 3 * t - 3 < a <= 3 * t <= 0
  {
    if a >= 0 then a / 3 else -((-a) / 3)
  }

  /** The statics and the register width after an encode or a decode. */
  datatype Effect = Effect(qec: Qec, width: int)

  /** `ql_qec_encode(reg, type, width)` on a register of width `width` as
      written: noise is switched off, the saved strength is set again at
      the start of the last round of the loop over the register's qubits,
      the status becomes (1, old width) and the width triples.  A register
      of width 0 has no last round, so noise stays off. */
  function EncodeAsWritten(q: Qec, width: int): (e: Effect)
    ensures e.qec.qtype == 1 && e.qec.qwidth == width && e.width == 3 * width
    ensures e.qec.counter == q.counter && e.qec.freq == q.freq
    ensures Decoherence.GetDecoherence(e.qec.noise) == Decoherence.GetDecoherence(q.noise)
    ensures width >= 1 ==> (e.qec.noise.enabled <==> q.noise.lambda != 0.0)
    ensures width < 1 ==> !e.qec.noise.enabled
  {
    var off := Decoherence.SetDecoherence(q.noise, 0.0);
    var n := if width >= 1 then Decoherence.SetDecoherence(off, Decoherence.GetDecoherence(q.noise)) else off;
    Effect(SetStatus(q.(noise := n), 1, width), 3 * width)
  }

  /** The encode with the saved strength always set again. */
  function Encode(q: Qec, width: int): (e: Effect)
    ensures e.qec.qtype == 1 && e.qec.qwidth == width && e.width == 3 * width
    ensures e.qec.counter == q.counter && e.qec.freq == q.freq
    ensures e.qec.noise == Restored(q.noise)
  {
    Effect(SetStatus(q.(noise := Restored(q.noise)), 1, width), 3 * width)
  }

  /** `ql_qec_decode(reg, type, width)` as written, on a register of width
      `width` with `size` entries: the status becomes (0, 0) first, and the
      saved strength is set again at the start of the last round of the
      loop that runs `width / 3` times, so a register narrower than 3 keeps
      noise off.  The measurement loop then faults (`None`) on a register
      with an entry, as `DecodeMeasuresAsWritten` shows: the first
      `ql_bmeasure` frees the caller's arrays and the second reads them.
      Otherwise the decode ends with the width unchanged. */
  function DecodeAsWritten(q: Qec, width: int, size: nat): (r: Option<Effect>)
    ensures r.None? <==> Third(width) >= 1 && size >= 1
    ensures r.Some? ==> var e := r.value;
      && e.qec.qtype == 0 && e.qec.qwidth == 0 && e.width == width
      && e.qec.counter == q.counter && e.qec.freq == q.freq
      && Decoherence.GetDecoherence(e.qec.noise) == Decoherence.GetDecoherence(q.noise)
      && (Third(width) >= 1 ==> (e.qec.noise.enabled <==> q.noise.lambda != 0.0))
      && (Third(width) < 1 ==> !e.qec.noise.enabled)
  {
    var off := Decoherence.SetDecoherence(q.noise, 0.0);
    var n := if Third(width) >= 1 then Decoherence.SetDecoherence(off, Decoherence.GetDecoherence(q.noise)) else off;
    if Third(width) >= 1 && size >= 1 then None else Some(Effect(SetStatus(q.(noise := n), 0, 0), width))
  }

  /** The measurement loop of `ql_qec_decode` as written on the caller's
      register, with `swidth = width / 3`.  Its first `ql_bmeasure` (of bit
      `swidth`) frees the caller's arrays, nulls both pointers and keeps the
      size, so on a register with an entry the second `ql_bmeasure`
      dereferences the null state pointer that `ql_qreg_delete_hash` left:
      the run faults (`None`).  A loop that does not run leaves the
      register as it was; on an empty register every measurement reads
      nothing and the caller keeps the freed fields. */
  method DecodeMeasuresAsWritten(reg: Qreg, swidth: int, r: real, norm: real -> real) returns (after: Option<Measure.Caller>)
    requires WellFormed(reg) && reg.state.Some? && swidth < WordSize
    ensures after.None? <==> swidth >= 1 && reg.Size() >= 1
    ensures swidth < 1 ==> after == Some(Measure.Holds(reg))
    ensures swidth >= 1 && reg.Size() == 0 ==> after == Some(Measure.DeleteHash(reg))
  {
    if swidth < 1 {
      return Some(Measure.Holds(reg));
    }
    var a, c := Measure.BMeasureAsWritten(reg, swidth, r, norm);
    if c.size > 0 {
      // The second `ql_bmeasure` dereferences the null state pointer that
      // `ql_qreg_delete_hash` left.
      return None;
    }
    after := Some(c);
  }

  /** The decode with the saved strength always set again and each of the
      `2 * (width / 3)` measurements removing its qubit: an encoded register
      of width `3w` comes back with width `w`. */
  function Decode(q: Qec, width: int): (e: Effect)
    ensures e.qec.qtype == 0 && e.qec.qwidth == 0
    ensures e.qec.counter == q.counter && e.qec.freq == q.freq
    ensures e.qec.noise == Restored(q.noise)
    ensures Third(width) >= 1 ==> e.width == width - 2 * Third(width)
    ensures Third(width) < 1 ==> e.width == width
    ensures forall w: int | w >= 0 && width == 3 * w :: e.width == w
  {
    var t := Third(width);
    Effect(SetStatus(q.(noise := Restored(q.noise)), 0, 0), if t >= 1 then width - 2 * t else width)
  }

  /** The counter is a gate count below a positive period. */
  predicate Counting(q: Qec)
  {
    q.freq > 0 && 0 <= q.counter < q.freq
  }

  lemma InitialCounting()
    ensures Counting(Initial)
  {
  }

  /** The result of a counter tick: the statics, the register width and
      whether a decode and encode round ran. */
  datatype Tick = Tick(qec: Qec, width: int, round: bool)

  /** The counter value after the increment: a positive `inc` adds, a
      negative one resets, 0 leaves it. */
  function Bumped(counter: int, inc: int): int
  {
    if inc > 0 then counter + inc else if inc < 0 then 0 else counter
  }

  /** `ql_qec_counter(reg, inc, frequency)` on a register of width `width`,
      with the intended decode and encode.  A positive `frequency` becomes
      the period; once the count reaches the period it resets and the
      register is decoded with the recorded status and encoded again.  The
      count stays below a positive period. */
  function Counter(q: Qec, width: int, inc: int, frequency: int): (t: Tick)
    ensures t.qec.freq == (if frequency > 0 then frequency else q.freq)
    ensures t.round <==> Bumped(q.counter, inc) >= t.qec.freq
    ensures t.round ==> t.qec.counter == 0 && t.qec.noise == Restored(q.noise)
    ensures t.round ==> t.qec.qtype == 1 && t.width == 3 * t.qec.qwidth
    ensures !t.round ==> t == Tick(q.(counter := Bumped(q.counter, inc), freq := t.qec.freq), width, false)
    ensures Counting(q) && inc >= 0 && frequency >= 0 ==> Counting(t.qec)
  {
    var freq := if frequency > 0 then frequency else q.freq;
    var c := Bumped(q.counter, inc);
    var q1 := q.(counter := c, freq := freq);
    if c >= freq then
      var d := Decode(q1.(counter := 0), width);
      var e := Encode(d.qec, d.width);
      RestoredIdempotent(q.noise);
      Tick(e.qec, e.width, true)
    else
      Tick(q1, width, false)
  }

  /** A round on an encoded register gives back its status and width. */
  lemma CounterRestores(q: Qec, w: int, inc: int, frequency: int)
    requires w >= 0
    ensures var t := Counter(q, 3 * w, inc, frequency);
      t.round ==> t.qec.qtype == 1 && t.qec.qwidth == w && t.width == 3 * w
  {
  }

  /** `ql_qec_counter` as written, on a register of width `width` with
      `size` entries, whose round uses the decode and encode as written.
      The round faults (`None`) whenever the decode does; a round that
      completes leaves the width tripled, since the decode does not narrow
      the register. */
  function CounterAsWritten(q: Qec, width: int, size: nat, inc: int, frequency: int): (t: Option<Tick>)
    ensures var freq := if frequency > 0 then frequency else q.freq;
      t.None? <==> Bumped(q.counter, inc) >= freq && Third(width) >= 1 && size >= 1
    ensures t.Some? ==> t.value.qec.freq == (if frequency > 0 then frequency else q.freq)
    ensures t.Some? ==> (t.value.round <==> Bumped(q.counter, inc) >= t.value.qec.freq)
    ensures t.Some? && t.value.round ==>
      t.value.qec.counter == 0 && t.value.qec.qtype == 1 && t.value.qec.qwidth == width && t.value.width == 3 * width
    ensures t.Some? && !t.value.round ==> t.value == Counter(q, width, inc, frequency)
  {
    var freq := if frequency > 0 then frequency else q.freq;
    var c := Bumped(q.counter, inc);
    var q1 := q.(counter := c, freq := freq);
    if c >= freq then
      match DecodeAsWritten(q1.(counter := 0), width, size)
      case None => None
      case Some(d) =>
        var e := EncodeAsWritten(d.qec, d.width);
        Some(Tick(e.qec, e.width, true))
    else
      Some(Tick(q1, width, false))
  }

  /** As written, a round on an encoded register of logical width `w >= 1`
      with an entry never completes, where the intended round gives back
      width `3w` and status (1, w). */
  lemma CounterAsWrittenFaults(q: Qec, w: int, size: nat, inc: int, frequency: int)
    requires w >= 1 && size >= 1
    ensures var t := Counter(q, 3 * w, inc, frequency);
      t.round ==> CounterAsWritten(q, 3 * w, size, inc, frequency).None? && t.width == 3 * w && t.qec.qwidth == w
  {
    CounterRestores(q, w, inc, frequency);
    assert Third(3 * w) == w;
  }

  /** As written, an encode of a register of width 0 and a decode of one
      narrower than 3 leave noise switched off, where the intended ones
      switch a non-zero strength back on. */
  lemma NoiseLeftOff(q: Qec, width: int, size: nat)
    requires q.noise.lambda != 0.0 && 0 <= width < 3
    ensures DecodeAsWritten(q, width, size).Some?
    ensures !DecodeAsWritten(q, width, size).value.qec.noise.enabled && Decode(q, width).qec.noise.enabled
    ensures !EncodeAsWritten(q, 0).qec.noise.enabled && Encode(q, 0).qec.noise.enabled
  {
  }

  /** The three positions of a qubit `x` in a register encoded with logical
      width `w`. */
  function Copies(x: int, w: int): set<int>
  {
    {x, x + w, x + 2 * w}
  }

  /** The three copies of `x` are bit positions of a word. */
  predicate Fits(x: int, w: int)
  {
    0 <= x < WordSize && 0 <= x + w < WordSize && 0 <= x + 2 * w < WordSize
  }

  /** Bit `j` is flipped an odd number of times when copies of `t` flip:
      once for each copy equal to `j`. */
  predicate OddHit(j: int, t: int, w: int)
  {
    ((j == t) != (j == t + w)) != (j == t + 2 * w)
  }

  /** The three flips of a logical X on one state, in the order
      `ql_qec_qop_X` applies them. */
  function FlipCopies(s: Word, t: int, w: int): (r: Word)
    requires Fits(t, w)
    ensures forall j | 0 <= j < WordSize :: r[j] == (s[j] != OddHit(j, t, w))
  {
    Flip(Flip(Flip(s, t), t + w), t + 2 * w)
  }

  /** The parity `ql_qec_qop_CCX` reads for a control: the exclusive or of
      its three copies. */
  function Parity(s: Word, c: int, w: int): bool
    requires Fits(c, w)
  {
    (s[c] != s[c + w]) != s[c + 2 * w]
  }

  /** The register after an encoded gate: the statics, the states after
      the gate (before any round), the register width after the call and
      whether a decode and encode round followed. */
  datatype Gate = Gate(qec: Qec, reg: Qreg, width: int, round: bool)

  /** `ql_qec_qop_X(reg, target)`: `qec_type` is set to 0 and noise switched
      off around the first two flips; the target's three copies are
      flipped, the counter ticks, and `qec_type` gets its saved value back.
      The strength survives the call. */
  function QecX(q: Qec, reg: Qreg, target: int): (g: Gate)
    requires WellFormed(reg) && reg.state.Some? && Fits(target, q.qwidth)
    ensures WellFormed(g.reg) && g.reg == reg.(state := g.reg.state) && g.reg.state.Some?
    ensures |g.reg.state.value| == reg.Size()
    ensures forall i | 0 <= i < reg.Size() :: g.reg.state.value[i] == FlipCopies(reg.state.value[i], target, q.qwidth)
    ensures g.qec.qtype == q.qtype
    ensures Decoherence.GetDecoherence(g.qec.noise) == Decoherence.GetDecoherence(q.noise)
    ensures g.qec.noise.enabled <==> q.noise.lambda != 0.0
    ensures var t := Counter(q.(qtype := 0), reg.width, 1, 0);
      g.round == t.round && g.width == t.width && g.qec.counter == t.qec.counter
  {
    var w := q.qwidth;
    var r := Gates.X(Gates.X(Gates.X(reg, target), target + w), target + 2 * w);
    var t := Counter(q.(qtype := 0, noise := Restored(q.noise)), reg.width, 1, 0);
    RestoredIdempotent(q.noise);
    Gate(t.qec.(qtype := q.qtype), r, t.width, t.round)
  }

  /** On an unencoded register (`qec_width` 0) the three flips are one X. */
  lemma QecXPlain(q: Qec, reg: Qreg, target: int)
    requires WellFormed(reg) && reg.state.Some? && Fits(target, q.qwidth) && q.qwidth == 0
    ensures QecX(q, reg, target).reg == Gates.X(reg, target)
  {
    var r := QecX(q, reg, target).reg;
    var x := Gates.X(reg, target);
    forall i | 0 <= i < reg.Size()
      ensures r.state.value[i] == x.state.value[i]
    {
      var s := reg.state.value[i];
      assert forall j | 0 <= j < WordSize :: r.state.value[i][j] == x.state.value[i][j];
    }
    assert r.state.value == x.state.value;
  }

  /** Two logical X gates on the same target give back the states. */
  lemma QecXTwice(q: Qec, reg: Qreg, target: int)
    requires WellFormed(reg) && reg.state.Some? && Fits(target, q.qwidth)
    ensures forall i | 0 <= i < reg.Size() ::
      FlipCopies(FlipCopies(reg.state.value[i], target, q.qwidth), target, q.qwidth) == reg.state.value[i]
  {
    forall i | 0 <= i < reg.Size()
      ensures FlipCopies(FlipCopies(reg.state.value[i], target, q.qwidth), target, q.qwidth) == reg.state.value[i]
    {
      var s := reg.state.value[i];
      var r := FlipCopies(FlipCopies(s, target, q.qwidth), target, q.qwidth);
      assert forall j | 0 <= j < WordSize :: r[j] == s[j];
    }
  }

  /** The three controlled-NOTs of `ql_qec_qop_CX` on one state. */
  function CXCopies(s: Word, c: int, t: int, w: int): Word
    requires Fits(c, w) && Fits(t, w)
  {
    Gates.CXWord(Gates.CXWord(Gates.CXWord(s, c, t), c + w, t + w), c + 2 * w, t + 2 * w)
  }

  /** `ql_qec_qop_CX(reg, control, target)`: like the encoded X, with a
      controlled-NOT between each pair of copies. */
  function QecCX(q: Qec, reg: Qreg, control: int, target: int): (g: Gate)
    requires WellFormed(reg) && reg.state.Some? && Fits(control, q.qwidth) && Fits(target, q.qwidth)
    ensures WellFormed(g.reg) && g.reg == reg.(state := g.reg.state) && g.reg.state.Some?
    ensures |g.reg.state.value| == reg.Size()
    ensures forall i | 0 <= i < reg.Size() :: g.reg.state.value[i] == CXCopies(reg.state.value[i], control, target, q.qwidth)
    ensures g.qec.qtype == q.qtype
    ensures Decoherence.GetDecoherence(g.qec.noise) == Decoherence.GetDecoherence(q.noise)
    ensures g.qec.noise.enabled <==> q.noise.lambda != 0.0
    ensures var t := Counter(q.(qtype := 0), reg.width, 1, 0);
      g.round == t.round && g.width == t.width && g.qec.counter == t.qec.counter
  {
    var w := q.qwidth;
    var r := Gates.CX(Gates.CX(Gates.CX(reg, control, target), control + w, target + w), control + 2 * w, target + 2 * w);
    var t := Counter(q.(qtype := 0, noise := Restored(q.noise)), reg.width, 1, 0);
    RestoredIdempotent(q.noise);
    Gate(t.qec.(qtype := q.qtype), r, t.width, t.round)
  }

  /** With distinct copies (`w != 0`) and the control's copies apart from
      the target's, copy `k` of the target flips exactly when copy `k` of
      the control is set, and no other bit changes. */
  lemma CXCopiesBits(s: Word, c: int, t: int, w: int)
    requires Fits(c, w) && Fits(t, w) && w != 0 && Copies(c, w) !! Copies(t, w)
    ensures var r := CXCopies(s, c, t, w);
      r[t] == (s[t] != s[c]) && r[t + w] == (s[t + w] != s[c + w]) && r[t + 2 * w] == (s[t + 2 * w] != s[c + 2 * w])
      && forall j | 0 <= j < WordSize && j !in Copies(t, w) :: r[j] == s[j]
  {
    assert c !in Copies(t, w) && c + w !in Copies(t, w) && c + 2 * w !in Copies(t, w);
  }

  /** On an unencoded register the three controlled-NOTs are one, even when
      control and target coincide. */
  lemma QecCXPlain(q: Qec, reg: Qreg, control: int, target: int)
    requires WellFormed(reg) && reg.state.Some? && Fits(control, q.qwidth) && Fits(target, q.qwidth) && q.qwidth == 0
    ensures QecCX(q, reg, control, target).reg == Gates.CX(reg, control, target)
  {
    var r := QecCX(q, reg, control, target).reg;
    var x := Gates.CX(reg, control, target);
    forall i | 0 <= i < reg.Size()
      ensures r.state.value[i] == x.state.value[i]
    {
      var s := reg.state.value[i];
      if s[control] {
        Gates.FlipTwice(s, target);
      }
    }
    assert r.state.value == x.state.value;
  }

  /** The mask `ql_qec_qop_CCX` XORs in, as written: the sum of the three
      copies' bits, reduced to 64 bits (`WordOf` keeps the low 64).  When
      copies coincide the sum carries into the next bit instead of naming
      the copy once. */
  function SumMask(t: int, w: int): Word
    requires Fits(t, w)
  {
    WordOf(Pow2(t) + Pow2(t + w) + Pow2(t + 2 * w))
  }

  /** One state under `ql_qec_qop_CCX` as written. */
  function CCXWordAsWritten(s: Word, c1: int, c2: int, t: int, w: int): (r: Word)
    requires Fits(c1, w) && Fits(c2, w) && Fits(t, w)
    ensures Parity(s, c1, w) && Parity(s, c2, w) ==> forall j | 0 <= j < WordSize :: r[j] == (s[j] != SumMask(t, w)[j])
    ensures !(Parity(s, c1, w) && Parity(s, c2, w)) ==> r == s
  {
    if Parity(s, c1, w) && Parity(s, c2, w) then Xor(s, SumMask(t, w)) else s
  }

  /** One state under the intended encoded Toffoli: when both controls'
      parities are 1, each copy of the target flips. */
  function CCXWord(s: Word, c1: int, c2: int, t: int, w: int): (r: Word)
    requires Fits(c1, w) && Fits(c2, w) && Fits(t, w)
    ensures forall j | 0 <= j < WordSize ::
      r[j] == (s[j] != (Parity(s, c1, w) && Parity(s, c2, w) && OddHit(j, t, w)))
  {
    if Parity(s, c1, w) && Parity(s, c2, w) then FlipCopies(s, t, w) else s
  }

  /** `ql_qec_qop_CCX(reg, control1, control2, target)`, intended: the
      states change as `CCXWord` says, then the decoherence step (not part
      of this function) and a counter tick, with `qec_type` left as it is. */
  function QecCCX(q: Qec, reg: Qreg, control1: int, control2: int, target: int): (g: Gate)
    requires WellFormed(reg) && reg.state.Some?
    requires Fits(control1, q.qwidth) && Fits(control2, q.qwidth) && Fits(target, q.qwidth)
    ensures WellFormed(g.reg) && g.reg == reg.(state := g.reg.state) && g.reg.state.Some?
    ensures |g.reg.state.value| == reg.Size()
    ensures forall i | 0 <= i < reg.Size() ::
      g.reg.state.value[i] == CCXWord(reg.state.value[i], control1, control2, target, q.qwidth)
    ensures var t := Counter(q, reg.width, 1, 0);
      g.qec == t.qec && g.round == t.round && g.width == t.width
  {
    var st := reg.state.value;
    var r := reg.(state := Some(seq(|st|, i requires 0 <= i < |st| => CCXWord(st[i], control1, control2, target, q.qwidth))));
    var t := Counter(q, reg.width, 1, 0);
    Gate(t.qec, r, t.width, t.round)
  }

  /** On an unencoded register the encoded Toffoli is the plain one. */
  lemma QecCCXPlain(q: Qec, reg: Qreg, c1: int, c2: int, target: int)
    requires WellFormed(reg) && reg.state.Some? && q.qwidth == 0
    requires Fits(c1, q.qwidth) && Fits(c2, q.qwidth) && Fits(target, q.qwidth)
    ensures QecCCX(q, reg, c1, c2, target).reg == Gates.CCX(reg, c1, c2, target)
  {
    var r := QecCCX(q, reg, c1, c2, target).reg;
    var x := Gates.CCX(reg, c1, c2, target);
    forall i | 0 <= i < reg.Size()
      ensures r.state.value[i] == x.state.value[i]
    {
      var s := reg.state.value[i];
      assert forall j | 0 <= j < WordSize :: r.state.value[i][j] == x.state.value[i][j];
    }
    assert r.state.value == x.state.value;
  }

  /** With the target's copies apart from both controls' copies, the
      encoded Toffoli undoes itself on every state. */
  lemma CCXWordInvolution(s: Word, c1: int, c2: int, t: int, w: int)
    requires Fits(c1, w) && Fits(c2, w) && Fits(t, w)
    requires Copies(t, w) !! Copies(c1, w) && Copies(t, w) !! Copies(c2, w)
    ensures CCXWord(CCXWord(s, c1, c2, t, w), c1, c2, t, w) == s
  {
    var m := CCXWord(s, c1, c2, t, w);
    assert Parity(m, c1, w) == Parity(s, c1, w) && Parity(m, c2, w) == Parity(s, c2, w) by {
      assert c1 !in Copies(t, w) && c1 + w !in Copies(t, w) && c1 + 2 * w !in Copies(t, w);
      assert c2 !in Copies(t, w) && c2 + w !in Copies(t, w) && c2 + 2 * w !in Copies(t, w);
    }
    var r := CCXWord(m, c1, c2, t, w);
    assert forall j | 0 <= j < WordSize :: r[j] == s[j];
  }

  /** The register-level involution. */
  lemma QecCCXInvolution(q: Qec, reg: Qreg, c1: int, c2: int, target: int)
    requires WellFormed(reg) && reg.state.Some?
    requires Fits(c1, q.qwidth) && Fits(c2, q.qwidth) && Fits(target, q.qwidth)
    requires Copies(target, q.qwidth) !! Copies(c1, q.qwidth) && Copies(target, q.qwidth) !! Copies(c2, q.qwidth)
    ensures var g := QecCCX(q, reg, c1, c2, target);
      QecCCX(g.qec.(qwidth := q.qwidth), g.reg, c1, c2, target).reg == reg
  {
    var g := QecCCX(q, reg, c1, c2, target);
    var h := QecCCX(g.qec.(qwidth := q.qwidth), g.reg, c1, c2, target);
    forall i | 0 <= i < reg.Size()
      ensures h.reg.state.value[i] == reg.state.value[i]
    {
      CCXWordInvolution(reg.state.value[i], c1, c2, target, q.qwidth);
    }
    assert h.reg.state.value == reg.state.value;
  }

  /** `3 * 2^t` spells bits `t` and `t + 1` and nothing below. */
  lemma {:induction false} ThreeAt(t: nat, len: nat)
    requires t + 2 <= len
    ensures FromNat(3 * Pow2(t), len)[t] && FromNat(3 * Pow2(t), len)[t + 1]
    decreases t
  {
    if t == 0 {
      assert FromNat(3, len) == [true] + FromNat(1, len - 1);
      assert FromNat(1, len - 1) == [true] + FromNat(0, len - 2);
    } else {
      ThreeAt(t - 1, len - 1);
      var n := 3 * Pow2(t);
      assert n % 2 == 0 && n / 2 == 3 * Pow2(t - 1);
      assert FromNat(n, len) == [false] + FromNat(3 * Pow2(t - 1), len - 1);
    }
  }

  /** On an unencoded register (`qec_width` 0) the mask as written is three
      times `1 << t`, which sets bit `t + 1` as well as bit `t`. */
  lemma SumMaskPlain(t: int)
    requires 0 <= t && t + 1 < WordSize
    ensures SumMask(t, 0)[t] && SumMask(t, 0)[t + 1]
  {
    assert SumMask(t, 0) == FromNat(3 * Pow2(t), WordSize);
    ThreeAt(t, WordSize);
  }

  /** As written, an encoded Toffoli on an unencoded register with both
      controls set flips the bit above the target too; the intended one
      leaves it. */
  lemma CCXAsWrittenFlipsNext(s: Word, c1: int, c2: int, t: int)
    requires Fits(c1, 0) && Fits(c2, 0) && 0 <= t && t + 1 < WordSize && s[c1] && s[c2]
    ensures CCXWordAsWritten(s, c1, c2, t, 0)[t + 1] != s[t + 1]
    ensures CCXWord(s, c1, c2, t, 0)[t + 1] == s[t + 1]
  {
    SumMaskPlain(t);
  }
}

=== FILE: qft.dfy ===
/** The quantum Fourier transform of src/ql_qft.c as the list of gates it
    applies.

    `ql_qft(reg, width)` and `ql_qft_inv(reg, width)` only call gates:
    Hadamards and the controlled phases `CP` and `CP_inv` of module Gates.
    The model is the sequence of those calls in order, so properties of the
    circuit (its inverse, its gate counts, the operands it passes) are
    statements about sequences.
 */
module Qft {

  /** One gate call: `ql_qop_H(reg, target)`, `ql_qop_CP(reg, control,
      target)` or `ql_qop_CP_inv(reg, control, target)`. */
  datatype Gate = H(target: nat) | CP(control: nat, target: nat) | CPInv(control: nat, target: nat)

  /** The phases row `i` of `ql_qft` emits: `CP(j, i)` for `j` from
      `hi - 1` down to `i + 1`. */
  function DownCP(i: nat, hi: nat): (gs: seq<Gate>)
    ensures |gs| == (if hi > i + 1 then hi - i - 1 else 0)
    ensures forall k | 0 <= k < |gs| :: gs[k] == CP(hi - 1 - k, i)
    decreases hi
  {
    if hi <= i + 1 then [] else [CP(hi - 1, i)] + DownCP(i, hi - 1)
  }

  /** Row `i` of `ql_qft` on `w` qubits: its phases, then `H(i)`. */
  function Row(w: nat, i: nat): seq<Gate>
  {
    DownCP(i, w) + [H(i)]
  }

  /** The rows `n - 1` down to 0 of `ql_qft` on `w` qubits. */
  function QftRows(w: nat, n: nat): seq<Gate>
    decreases n
  {
    if n == 0 then [] else Row(w, n - 1) + QftRows(w, n - 1)
  }

  /** `ql_qft(reg, width)`; a width of 0 or below applies nothing. */
  function Qft(width: int): seq<Gate>
  {
    if width <= 0 then [] else QftRows(width, width)
  }

  /** The phases row `i` of `ql_qft_inv` emits from `j` on: `CP_inv(j, i)`
      for `j` up to `hi - 1`. */
  function UpCPInv(i: nat, j: nat, hi: nat): (gs: seq<Gate>)
    ensures |gs| == (if hi > j then hi - j else 0)
    ensures forall k | 0 <= k < |gs| :: gs[k] == CPInv(j + k, i)
    decreases hi - j
  {
    if j >= hi then [] else [CPInv(j, i)] + UpCPInv(i, j + 1, hi)
  }

  /** Row `i` of `ql_qft_inv` on `w` qubits: `H(i)`, then its phases. */
  function InvRow(w: nat, i: nat): seq<Gate>
  {
    [H(i)] + UpCPInv(i, i + 1, w)
  }

  /** The rows `i` up to `n - 1` of `ql_qft_inv` on `w` qubits. */
  function InvRows(w: nat, i: nat, n: nat): seq<Gate>
    decreases n - i
  {
    if i >= n then [] else InvRow(w, i) + InvRows(w, i + 1, n)
  }

  /** `ql_qft_inv(reg, width)`; a width of 0 or below applies nothing. */
  function QftInv(width: int): seq<Gate>
  {
    if width <= 0 then [] else InvRows(width, 0, width)
  }

  /** The inverse of one gate: `CP` and `CP_inv` swap, `H` is its own. */
  function Invert(g: Gate): (h: Gate)
    ensures h.H? == g.H? && h.target == g.target
    ensures !g.H? ==> h.control == g.control && (h.CPInv? <==> g.CP?)
  {
    match g
    case H(t) => H(t)
    case CP(c, t) => CPInv(c, t)
    case CPInv(c, t) => CP(c, t)
  }

  /** The inverse circuit: the gates in reverse order, each inverted. */
  function Inverse(gs: seq<Gate>): (rs: seq<Gate>)
    ensures |rs| == |gs|
    ensures forall k | 0 <= k < |gs| :: rs[k] == Invert(gs[|gs| - 1 - k])
  {
    if |gs| == 0 then [] else Inverse(gs[1..]) + [Invert(gs[0])]
  }

  /** Inverting a concatenation inverts each part and swaps them. */
  lemma InverseAppend(a: seq<Gate>, b: seq<Gate>)
    ensures Inverse(a + b) == Inverse(b) + Inverse(a)
  {
    assert forall k | 0 <= k < |a + b| :: Inverse(a + b)[k] == (Inverse(b) + Inverse(a))[k];
  }

  /** The inverse circuit inverts back. */
  lemma InverseInverse(gs: seq<Gate>)
    ensures Inverse(Inverse(gs)) == gs
  {
    assert forall k | 0 <= k < |gs| :: Inverse(Inverse(gs))[k] == gs[k];
  }

  /** The phases of a row of `ql_qft`, inverted, are those of the same row
      of `ql_qft_inv`. */
  lemma DownUp(i: nat, hi: nat)
    ensures Inverse(DownCP(i, hi)) == UpCPInv(i, i + 1, hi)
  {
  }

  /** Adding one row at the top of `ql_qft_inv`'s loop appends it. */
  lemma {:induction false} InvRowsSnoc(w: nat, i: nat, n: nat)
    requires i <= n
    ensures InvRows(w, i, n + 1) == InvRows(w, i, n) + InvRow(w, n)
    decreases n - i
  {
    if i < n {
      InvRowsSnoc(w, i + 1, n);
    } else {
      assert InvRows(w, i, n + 1) == InvRow(w, n) + InvRows(w, n + 1, n + 1);
    }
  }

  /** The rows of `ql_qft` inverted are the rows of `ql_qft_inv`. */
  lemma {:induction false} RowsInverse(w: nat, n: nat)
    ensures Inverse(QftRows(w, n)) == InvRows(w, 0, n)
    decreases n
  {
    if n > 0 {
      var i := n - 1;
      calc {
        Inverse(QftRows(w, n));
        Inverse(Row(w, i) + QftRows(w, i));
        { InverseAppend(Row(w, i), QftRows(w, i)); }
        Inverse(QftRows(w, i)) + Inverse(Row(w, i));
        { RowsInverse(w, i); InverseAppend(DownCP(i, w), [H(i)]); }
        InvRows(w, 0, i) + (Inverse([H(i)]) + Inverse(DownCP(i, w)));
        { DownUp(i, w); assert Inverse([H(i)]) == [H(i)]; }
        InvRows(w, 0, i) + InvRow(w, i);
        { InvRowsSnoc(w, 0, i); }
        InvRows(w, 0, n);
      }
    }
  }

  /** `ql_qft_inv` applies the gates of `ql_qft` in reverse order, with
      every `CP` replaced by `CP_inv`. */
  lemma QftInvIsInverse(width: int)
    ensures QftInv(width) == Inverse(Qft(width))
    ensures Qft(width) == Inverse(QftInv(width))
  {
    if width > 0 {
      RowsInverse(width, width);
    }
    InverseInverse(Qft(width));
  }

  /** The number of Hadamards in a circuit. */
  function Hadamards(gs: seq<Gate>): nat
  {
    if |gs| == 0 then 0 else (if gs[0].H? then 1 else 0) + Hadamards(gs[1..])
  }

  /** The number of controlled phases in a circuit. */
  function Phases(gs: seq<Gate>): nat
  {
    if |gs| == 0 then 0 else (if gs[0].H? then 0 else 1) + Phases(gs[1..])
  }

  /** Both counts add up over a concatenation. */
  lemma {:induction false} CountAppend(a: seq<Gate>, b: seq<Gate>)
    ensures Hadamards(a + b) == Hadamards(a) + Hadamards(b)
    ensures Phases(a + b) == Phases(a) + Phases(b)
    decreases |a|
  {
    if |a| > 0 {
      CountAppend(a[1..], b);
      assert (a + b)[1..] == a[1..] + b;
    } else {
      assert a + b == b;
    }
  }

  /** Every gate is a Hadamard or a phase. */
  lemma {:induction false} CountAll(gs: seq<Gate>)
    ensures Hadamards(gs) + Phases(gs) == |gs|
    decreases |gs|
  {
    if |gs| > 0 {
      CountAll(gs[1..]);
    }
  }

  /** Inverting a circuit keeps both counts. */
  lemma {:induction false} CountInverse(gs: seq<Gate>)
    ensures Hadamards(Inverse(gs)) == Hadamards(gs) && Phases(Inverse(gs)) == Phases(gs)
    decreases |gs|
  {
    if |gs| > 0 {
      CountInverse(gs[1..]);
      CountAppend(Inverse(gs[1..]), [Invert(gs[0])]);
    }
  }

  /** A row of phases has no Hadamard. */
  lemma {:induction false} DownCPCount(i: nat, hi: nat)
    ensures Hadamards(DownCP(i, hi)) == 0
    ensures Phases(DownCP(i, hi)) == |DownCP(i, hi)|
    decreases hi
  {
    if hi > i + 1 {
      DownCPCount(i, hi - 1);
      assert DownCP(i, hi)[1..] == DownCP(i, hi - 1);
    }
  }

  /** The first `n` rows of `ql_qft` on `w >= n` qubits hold `n`
      Hadamards, and twice their phases are `n * (2w - n - 1)`. */
  lemma {:induction false} RowsCount(w: nat, n: nat)
    requires n <= w
    ensures Hadamards(QftRows(w, n)) == n
    ensures 2 * Phases(QftRows(w, n)) == n * (2 * w - n - 1)
    decreases n
  {
    if n > 0 {
      RowsCount(w, n - 1);
      DownCPCount(n - 1, w);
      CountAppend(DownCP(n - 1, w), [H(n - 1)]);
      CountAppend(Row(w, n - 1), QftRows(w, n - 1));
      assert Hadamards([H(n - 1)]) == 1 && Phases([H(n - 1)]) == 0;
      assert 2 * (w - n) + (n - 1) * (2 * w - (n - 1) - 1) == n * (2 * w - n - 1);
    }
  }

  /** `ql_qft` and `ql_qft_inv` on `width >= 0` qubits each apply `width`
      Hadamards and `width * (width - 1) / 2` controlled phases. */
  lemma QftCounts(width: nat)
    ensures Hadamards(Qft(width)) == width && 2 * Phases(Qft(width)) == width * (width - 1)
    ensures Hadamards(QftInv(width)) == width && 2 * Phases(QftInv(width)) == width * (width - 1)
  {
    if width > 0 {
      RowsCount(width, width);
    }
    QftInvIsInverse(width);
    CountInverse(Qft(width));
  }

  /** Every gate acts on qubits below `w`, and every controlled phase has
      its control above its target, so the shift `control - target` that
      `CP` and `CP_inv` take is positive. */
  predicate Ordered(gs: seq<Gate>, w: int)
  {
    forall k | 0 <= k < |gs| ::
      gs[k].target < w && (!gs[k].H? ==> gs[k].target < gs[k].control < w)
  }

  lemma {:induction false} RowsOrdered(w: nat, n: nat)
    requires n <= w
    ensures Ordered(QftRows(w, n), w)
    decreases n
  {
    if n > 0 {
      RowsOrdered(w, n - 1);
    }
  }

  /** Every gate `ql_qft` and `ql_qft_inv` apply stays below the width, and
      every controlled phase has control above target. */
  lemma QftOrdered(width: int)
    ensures Ordered(Qft(width), width) && Ordered(QftInv(width), width)
  {
    if width > 0 {
      RowsOrdered(width, width);
    }
    QftInvIsInverse(width);
  }
}

=== FILE: register.dfy ===
/** Quantum registers and their constructors (src/ql_qreg.c).

    A `ql_qreg` is a sparse vector: `size` basis states with their amplitudes,
    the number of qubits `width`, and an optional hash index of `2^hashw`
    slots.  The model keeps the two parallel arrays as sequences of equal
    length (`size` is the length of `amplitude`); a null `state` array, which
    the library uses for dense registers indexed by position, is `None`, and
    so is a null hash table.  Two registers that share one hash table in the
    library hold equal tables here.
 */
module Register {
  import opened Wrappers
  import opened Bits
  import opened Complex
  import opened Arith
  import opened HashIndex

  datatype Qreg = Qreg(width: int, hashw: nat, amplitude: seq<Complex>, state: Option<seq<Word>>, hash: Option<seq<nat>>)
  {
    /** `size`: the number of stored entries. */
    function Size(): nat
    {
      |amplitude|
    }
  }

  /** The arrays agree in length, and a register with `hashw > 0` owns a
      table of `2^hashw` slots (`1 << hashw` stays an `int`). */
  predicate WellFormed(r: Qreg)
  {
    (r.state.Some? ==> |r.state.value| == |r.amplitude|)
    && (r.hashw != 0 ==> r.hashw <= 30 && r.hash.Some? && |r.hash.value| == Pow2(r.hashw))
  }

  /** The states of a register, all different from one another. */
  ghost predicate Distinct(states: seq<Word>)
  {
    forall i, j | 0 <= i < j < |states| :: states[i] != states[j]
  }

  function EmptyTable(hashw: nat): (t: seq<nat>)
    ensures |t| == Pow2(hashw) && forall s | 0 <= s < |t| :: t[s] == 0
  {
    seq(Pow2(hashw), _ => 0)
  }

  /** `ql_qreg_new(width, initval)`: one entry `initval` with amplitude 1 and
      an all-empty table of `2^(width + 2)` slots. */
  function New(width: nat, initval: Word): (r: Qreg)
    requires width + 2 <= 30
    ensures WellFormed(r) && r.width == width && r.hashw == width + 2
    ensures r.amplitude == [One] && r.state == Some([initval])
    ensures r.hash.Some? && forall s | 0 <= s < |r.hash.value| :: r.hash.value[s] == 0
  {
    Qreg(width, width + 2, [One], Some([initval]), Some(EmptyTable(width + 2)))
  }

  /** The initial state is not entered in the table: a lookup misses it
      until the table is rebuilt, and finds it at position 0 afterwards. */
  lemma NewNotIndexed(width: nat, initval: Word)
    requires width + 2 <= 30
    ensures var r := New(width, initval);
      GetState(r.hashw, r.hash.value, r.state.value, initval) == Absent
      && ReconstructHash(r.hash.value, r.hashw, r.state.value, 1).Ok?
      && GetState(r.hashw, ReconstructHash(r.hash.value, r.hashw, r.state.value, 1).value, r.state.value, initval) == Index(0)
  {
    var r := New(width, initval);
    Pow2Monotone(1, r.hashw);
    ReconstructCorrect(r.hash.value, r.hashw, r.state.value, 1);
  }

  /** `ql_qreg_alloc(width, siz)`: `siz` zero amplitudes, no state array, no table. */
  function Alloc(width: int, siz: nat): (r: Qreg)
    ensures WellFormed(r) && r.width == width && r.Size() == siz && r.hashw == 0
    ensures r.state.None? && r.hash.None?
    ensures forall i | 0 <= i < siz :: r.amplitude[i] == Zero
  {
    Qreg(width, 0, seq(siz, _ => Zero), None, None)
  }

  /** `ql_qreg_and_state_alloc(width, siz)`: as `Alloc`, with `siz` zero states. */
  function AndStateAlloc(width: int, siz: nat): (r: Qreg)
    ensures WellFormed(r) && r.width == width && r.Size() == siz && r.hashw == 0 && r.hash.None?
    ensures r.state.Some? && forall i | 0 <= i < siz :: r.state.value[i] == ZeroWord() && r.amplitude[i] == Zero
  {
    Qreg(width, 0, seq(siz, _ => Zero), Some(seq(siz, _ => ZeroWord())), None)
  }

  /** `ql_qreg_copy(src, dst)`: the same entries; with `hashw > 0` a fresh
      empty table of the same size, otherwise the source's (null) table. */
  function Copy(src: Qreg): (dst: Qreg)
    requires WellFormed(src)
    ensures WellFormed(dst)
    ensures dst.width == src.width && dst.hashw == src.hashw
    ensures dst.amplitude == src.amplitude && dst.state == src.state
    ensures src.hashw == 0 ==> dst.hash == src.hash
    ensures src.hashw != 0 ==>
      dst.hash.Some? && |dst.hash.value| == |src.hash.value| && forall s | 0 <= s < |dst.hash.value| :: dst.hash.value[s] == 0
  {
    if src.hashw != 0 then src.(hash := Some(EmptyTable(src.hashw))) else src
  }

  /** A copy indexes its states exactly as the source does once either table
      is rebuilt: rebuilding never looks at the old slot contents. */
  lemma CopyReconstruct(src: Qreg)
    requires WellFormed(src) && src.hashw != 0 && src.state.Some?
    ensures var dst := Copy(src);
      ReconstructHash(dst.hash.value, dst.hashw, dst.state.value, dst.Size())
        == ReconstructHash(src.hash.value, src.hashw, src.state.value, src.Size())
  {
    var dst := Copy(src);
    assert seq(|dst.hash.value|, _ => 0) == seq(|src.hash.value|, _ => 0);
  }

  /** `ql_qreg_addscratch(reg, bits)`: `bits` new qubits at the bottom; every
      state moves up by `bits` places and the order is kept. */
  function AddScratch(reg: Qreg, bits: nat): (r: Qreg)
    requires bits < WordSize
    ensures r.width == reg.width + bits && r.hashw == reg.hashw && r.hash == reg.hash
    ensures r.amplitude == reg.amplitude && r.state.Some? == reg.state.Some?
    ensures reg.state.Some? ==> |r.state.value| == |reg.state.value|
    ensures reg.state.Some? ==> forall i | 0 <= i < |reg.state.value| :: r.state.value[i] == Shl(reg.state.value[i], bits)
  {
    match reg.state
    case None => reg.(width := reg.width + bits)
    case Some(st) => reg.(width := reg.width + bits, state := Some(seq(|st|, i requires 0 <= i < |st| => Shl(st[i], bits))))
  }

  /** A state that fits below bit `64 - bits` is multiplied by `2^bits`. */
  lemma ShlValue(s: Word, bits: nat)
    requires bits < WordSize && Fits(s, WordSize - bits)
    ensures Value(Shl(s, bits)) == Value(s) * Pow2(bits)
  {
    ShlLow(s, bits);
    FitsValue(s, WordSize - bits);
    var v, p := Value(s), Pow2(bits);
    assert Value(Shl(s, bits)) == p * v;
  }

  /** The shifted word's value is `2^bits` times that of the bits that stay. */
  lemma ShlLow(s: Word, bits: nat)
    requires bits < WordSize
    ensures Value(Shl(s, bits)) == Pow2(bits) * Value(s[..WordSize - bits])
  {
    var t := Shl(s, bits);
    assert forall i | 0 <= i < bits :: !t[..bits][i];
    ValueOfZeros(t[..bits]);
    assert t[bits..] == s[..WordSize - bits];
    ValueSplit(t, bits);
  }

  /** Shifting back down recovers every state that fitted. */
  lemma ShlShr(s: Word, bits: nat)
    requires bits < WordSize && Fits(s, WordSize - bits)
    ensures Shr(Shl(s, bits), bits) == s
  {
  }

  /** The scratch qubits of every entry are 0 and the rest is the old state. */
  lemma AddScratchInverse(reg: Qreg, bits: nat)
    requires bits < WordSize && reg.state.Some?
    requires forall i | 0 <= i < |reg.state.value| :: Fits(reg.state.value[i], WordSize - bits)
    ensures var r := AddScratch(reg, bits);
      forall i | 0 <= i < |reg.state.value| ::
        Shr(r.state.value[i], bits) == reg.state.value[i]
        && forall k | 0 <= k < bits :: !r.state.value[i][k]
  {
    var r := AddScratch(reg, bits);
    forall i | 0 <= i < |reg.state.value|
      ensures Shr(r.state.value[i], bits) == reg.state.value[i]
    {
      ShlShr(reg.state.value[i], bits);
    }
  }

  /** The elements of `xs` at the positions `ks`, in the order of `ks`. */
  function Pick<T>(xs: seq<T>, ks: seq<nat>): (ys: seq<T>)
    requires forall t | 0 <= t < |ks| :: ks[t] < |xs|
    ensures |ys| == |ks| && forall t | 0 <= t < |ks| :: ys[t] == xs[ks[t]]
  {
    seq(|ks|, t requires 0 <= t < |ks| => xs[ks[t]])
  }

  /** The state `(s1 << w2) | s2` of a product entry. */
  function Join(s1: Word, s2: Word, w2: nat): (s: Word)
    requires w2 < WordSize
    ensures forall k | 0 <= k < WordSize :: s[k] == ((k >= w2 && s1[k - w2]) || s2[k])
  {
    Or(Shl(s1, w2), s2)
  }

  /** The position `i * n2 + j` of the pair (i, j) in the product. */
  function Pair(i: nat, j: nat, n1: nat, n2: nat): (k: nat)
    requires i < n1 && j < n2
    ensures k < n1 * n2 && k / n2 == i && k % n2 == j
  {
    FlatBound(j, i, n2, n1);
    FlatSplit(j, i, n2);
    j + i * n2
  }

  /** Every position of the product is the position of exactly one pair. */
  lemma Unpair(k: nat, n1: nat, n2: nat)
    requires k < n1 * n2
    ensures n2 > 0 && k / n2 < n1 && k % n2 < n2 && Pair(k / n2, k % n2, n1, n2) == k
  {
    assert n1 * n2 == n2 * n1;
    FlatCover(k, n2, n1);
  }

  /** The pair (i, j) at position `k = i * n2 + j` of the product. */
  function Unpaired(k: nat, n1: nat, n2: nat): (p: (nat, nat))
    requires k < n1 * n2
    ensures p.0 < n1 && p.1 < n2 && Pair(p.0, p.1, n1, n2) == k
  {
    Unpair(k, n1, n2);
    (k / n2, k % n2)
  }

  /** The states of the product, pair by pair, the second index running fastest. */
  function ProductStates(s1: seq<Word>, s2: seq<Word>, w2: nat): (st: seq<Word>)
    requires w2 < WordSize
    ensures |st| == |s1| * |s2|
  {
    var n1, n2 := |s1|, |s2|;
    seq(n1 * n2, k requires 0 <= k < n1 * n2 => var p := Unpaired(k, n1, n2); Join(s1[p.0], s2[p.1], w2))
  }

  /** The amplitudes of the product, in the order of `ProductStates`. */
  function ProductAmplitudes(a1: seq<Complex>, a2: seq<Complex>): (amps: seq<Complex>)
    ensures |amps| == |a1| * |a2|
  {
    var n1, n2 := |a1|, |a2|;
    seq(n1 * n2, k requires 0 <= k < n1 * n2 => var p := Unpaired(k, n1, n2); Mul(a1[p.0], a2[p.1]))
  }

  /** `ql_qreg_kronecker(reg1, reg2)`: entry `i * size2 + j` pairs entry `i`
      of `reg1` with entry `j` of `reg2` (see `KroneckerAt`); the table is
      new and empty. */
  function Kronecker(reg1: Qreg, reg2: Qreg): (r: Qreg)
    requires WellFormed(reg1) && WellFormed(reg2) && reg1.state.Some? && reg2.state.Some?
    requires 0 <= reg2.width < WordSize && 0 <= reg1.width + reg2.width <= 28
    ensures WellFormed(r) && r.width == reg1.width + reg2.width && r.hashw == r.width + 2
    ensures r.Size() == reg1.Size() * reg2.Size() && r.state.Some?
    ensures r.hash.Some? && forall s | 0 <= s < |r.hash.value| :: r.hash.value[s] == 0
  {
    var w := reg1.width + reg2.width;
    Qreg(w, w + 2, ProductAmplitudes(reg1.amplitude, reg2.amplitude),
         Some(ProductStates(reg1.state.value, reg2.state.value, reg2.width)), Some(EmptyTable(w + 2)))
  }

  /** Entry `i * size2 + j` of the product holds the joined state and the
      product of the amplitudes of entry `i` of `reg1` and entry `j` of `reg2`. */
  lemma KroneckerAt(reg1: Qreg, reg2: Qreg, i: nat, j: nat)
    requires WellFormed(reg1) && WellFormed(reg2) && reg1.state.Some? && reg2.state.Some?
    requires 0 <= reg2.width < WordSize && 0 <= reg1.width + reg2.width <= 28
    requires i < reg1.Size() && j < reg2.Size()
    ensures Kronecker(reg1, reg2).state.value[Pair(i, j, reg1.Size(), reg2.Size())]
      == Join(reg1.state.value[i], reg2.state.value[j], reg2.width)
    ensures Kronecker(reg1, reg2).amplitude[Pair(i, j, reg1.Size(), reg2.Size())]
      == Mul(reg1.amplitude[i], reg2.amplitude[j])
  {
  }

  /** Entry `k` of the product joins an entry `i` of `reg1` with an entry
      `j` of `reg2`, where `k = i * size2 + j`. */
  lemma KroneckerEntry(reg1: Qreg, reg2: Qreg, k: nat) returns (i: nat, j: nat)
    requires WellFormed(reg1) && WellFormed(reg2) && reg1.state.Some? && reg2.state.Some?
    requires 0 <= reg2.width < WordSize && 0 <= reg1.width + reg2.width <= 28
    requires k < reg1.Size() * reg2.Size()
    ensures i < |reg1.state.value| && j < |reg2.state.value|
    ensures k == Pair(i, j, reg1.Size(), reg2.Size())
    ensures Kronecker(reg1, reg2).state.value[k] == Join(reg1.state.value[i], reg2.state.value[j], reg2.width)
  {
    Unpair(k, reg1.Size(), reg2.Size());
    i, j := k / reg2.Size(), k % reg2.Size();
  }

  /** Joining is injective when the second state fits in `w2` bits and the
      first one fits in the remaining `64 - w2`. */
  lemma JoinInjective(a1: Word, a2: Word, b1: Word, b2: Word, w2: nat)
    requires w2 < WordSize
    requires Fits(a2, w2) && Fits(b2, w2) && Fits(a1, WordSize - w2) && Fits(b1, WordSize - w2)
    ensures Join(a1, a2, w2) == Join(b1, b2, w2) <==> a1 == b1 && a2 == b2
  {
    if Join(a1, a2, w2) == Join(b1, b2, w2) {
      forall k | 0 <= k < WordSize
        ensures a2[k] == b2[k]
      {
        assert Join(a1, a2, w2)[k] == Join(b1, b2, w2)[k];
      }
      forall k | 0 <= k < WordSize
        ensures a1[k] == b1[k]
      {
        if k < WordSize - w2 {
          assert Join(a1, a2, w2)[k + w2] == Join(b1, b2, w2)[k + w2];
        }
      }
    }
  }

  /** Distinct factors give a product without repeated states. */
  lemma KroneckerDistinct(reg1: Qreg, reg2: Qreg)
    requires WellFormed(reg1) && WellFormed(reg2) && reg1.state.Some? && reg2.state.Some?
    requires 0 <= reg2.width < WordSize && 0 <= reg1.width + reg2.width <= 28
    requires Distinct(reg1.state.value) && Distinct(reg2.state.value)
    requires forall i | 0 <= i < reg1.Size() :: Fits(reg1.state.value[i], WordSize - reg2.width)
    requires forall j | 0 <= j < reg2.Size() :: Fits(reg2.state.value[j], reg2.width)
    ensures Distinct(Kronecker(reg1, reg2).state.value)
  {
    var r := Kronecker(reg1, reg2);
    var n1, n2 := reg1.Size(), reg2.Size();
    var st := r.state.value;
    forall p, q | 0 <= p < q < |st|
      ensures st[p] != st[q]
    {
      var i1, j1 := KroneckerEntry(reg1, reg2, p);
      var i2, j2 := KroneckerEntry(reg1, reg2, q);
      JoinInjective(reg1.state.value[i1], reg2.state.value[j1], reg1.state.value[i2], reg2.state.value[j2], reg2.width);
    }
  }
}

=== FILE: unitary.dfy ===
/** The one-qubit gate `ql_qop_U1` and the prune pass it shares with
    `ql_qop_U2` (src/ql_qop.c).

    `U1` applies a 2x2 matrix `t[0..3]` (row-major) to one target qubit of a
    register with a table.  It rebuilds the index, counts the entries whose
    flipped-target partner is absent (`addsize`), grows both arrays by that
    many zero slots, and sweeps the entries in order: an entry not yet
    handled is mixed with its partner, and an absent partner is appended
    after the old entries.  Finally the prune pass drops every entry whose
    probability is below a limit, keeping the order of the rest.

    Three details of the code as written differ from the evident intent, and
    the sweep is defined for both (`Variant`):
    - the partner's amplitude is held in an `int` (`int tnot`), so it is
      truncated to the integer part of its real part;
    - the target bit is held in an `int` (`int iset`), so for targets 32 to
      63 it reads as 0;
    - when the partner is absent and the matrix would give it amplitude
      exactly 0, the loop `break`s instead of skipping that one entry.
 */
module Unitary {
  import opened Wrappers
  import opened Bits
  import opened Complex
  import opened HashIndex
  import opened Register
  import opened VectorAdd
  import Gates
  import Matrix
  import Errors

  // ---------------------------------------------------------------------
  // Partners and what the rebuilt table says about them

  /** The partner of every state: the same state with the target bit flipped. */
  function Partners(st: seq<Word>, target: nat): (fs: seq<Word>)
    requires target < WordSize
    ensures |fs| == |st| && forall p | 0 <= p < |st| :: fs[p] == Flip(st[p], target)
  {
    seq(|st|, p requires 0 <= p < |st| => Flip(st[p], target))
  }

  /** The lookups `ql_qreg_get_state(reg, state[i] ^ (1 << target))` in a table. */
  function Lookups(hashw: nat, table: seq<nat>, st: seq<Word>, target: nat): (ps: seq<Lookup>)
    requires target < WordSize && 1 <= hashw <= 30 && |table| == Pow2(hashw) && EntriesIn(table, |st|)
    requires !Full(table)
    ensures |ps| == |st|
    ensures forall p | 0 <= p < |ps| :: (ps[p].Index? || ps[p].Absent?) && (ps[p].Index? ==> 0 <= ps[p].i < |st|)
  {
    seq(|st|, p requires 0 <= p < |st| => GetState(hashw, table, st, Flip(st[p], target)))
  }

  /** Every lookup names the partner's position or reports it absent, and
      the partner relation is symmetric. */
  ghost predicate Paired(st: seq<Word>, target: nat, ps: seq<Lookup>)
    requires target < WordSize
  {
    |ps| == |st|
    && (forall p | 0 <= p < |st| :: (ps[p].Index? || ps[p].Absent?) && (ps[p].Index? <==> Flip(st[p], target) in st))
    && (forall p | 0 <= p < |st| && ps[p].Index? ::
          0 <= ps[p].i < |st| && ps[p].i != p && st[ps[p].i] == Flip(st[p], target))
    && (forall p, q | 0 <= p < |st| && 0 <= q < |st| && ps[p] == Index(q) :: ps[q] == Index(p))
  }

  /** In a table that finds every state at its own position and reports
      every other state absent, the partner lookups are paired. */
  lemma LookupsPaired(hashw: nat, table: seq<nat>, st: seq<Word>, target: nat)
    requires target < WordSize && 1 <= hashw <= 30 && |table| == Pow2(hashw) && EntriesIn(table, |st|)
    requires !Full(table) && Distinct(st)
    requires forall k | 0 <= k < |st| :: GetState(hashw, table, st, st[k]) == Index(k)
    requires forall a: Word | a !in st :: GetState(hashw, table, st, a) == Absent
    ensures Paired(st, target, Lookups(hashw, table, st, target))
  {
    var ps := Lookups(hashw, table, st, target);
    forall p | 0 <= p < |st|
      ensures (ps[p].Index? || ps[p].Absent?) && (ps[p].Index? <==> Flip(st[p], target) in st)
      ensures ps[p].Index? ==> 0 <= ps[p].i < |st| && ps[p].i != p && st[ps[p].i] == Flip(st[p], target)
    {
      var a := Flip(st[p], target);
      if a in st {
        var k :| 0 <= k < |st| && st[k] == a;
        assert ps[p] == Index(k);
        assert st[k][target] != st[p][target];
      }
    }
    forall p, q | 0 <= p < |st| && 0 <= q < |st| && ps[p] == Index(q)
      ensures ps[q] == Index(p)
    {
      assert st[q] == Flip(st[p], target);
      Gates.FlipTwice(st[p], target);
      assert ps[q] == GetState(hashw, table, st, st[p]);
    }
  }

  /** The number of lookups that report "absent": `addsize`. */
  function AbsentCount(ps: seq<Lookup>): nat
    decreases |ps|
  {
    if |ps| == 0 then 0 else (if ps[0].Absent? then 1 else 0) + AbsentCount(ps[1..])
  }

  /** The absent count of a suffix, one position at a time. */
  lemma AbsentStep(ps: seq<Lookup>, i: nat)
    requires i < |ps|
    ensures AbsentCount(ps[i..]) == (if ps[i].Absent? then 1 else 0) + AbsentCount(ps[i + 1..])
  {
    assert ps[i..][1..] == ps[i + 1..];
  }

  /** Counting the absent lookups counts the states whose partner is missing. */
  lemma {:induction false} AbsentCountMissing(st: seq<Word>, target: nat, ps: seq<Lookup>, n: nat)
    requires target < WordSize && Paired(st, target, ps) && n <= |st|
    ensures |Missing(st, Partners(st, target)[..n])| + AbsentCount(ps[n..]) == AbsentCount(ps)
    decreases n
  {
    var fs := Partners(st, target);
    if n == 0 {
      assert ps[0..] == ps;
    } else {
      AbsentCountMissing(st, target, ps, n - 1);
      MissingCountStep(st, target, ps, n);
    }
  }

  /** The count up to `n - 1` gives the count up to `n`. */
  lemma MissingCountStep(st: seq<Word>, target: nat, ps: seq<Lookup>, n: nat)
    requires target < WordSize && Paired(st, target, ps) && 0 < n <= |st|
    requires |Missing(st, Partners(st, target)[..n - 1])| + AbsentCount(ps[n - 1..]) == AbsentCount(ps)
    ensures |Missing(st, Partners(st, target)[..n])| + AbsentCount(ps[n..]) == AbsentCount(ps)
  {
    var fs := Partners(st, target);
    MissingStep(st, fs, n - 1);
    AbsentStep(ps, n - 1);
    assert fs[..n - 1 + 1] == fs[..n];
  }

  // ---------------------------------------------------------------------
  // The sweep

  /** The code as written, or as evidently intended. */
  datatype Variant = AsWritten | Intended

  /** The fixed inputs of the sweep: the variant, the matrix, the target,
      the original states and the partner lookups. */
  datatype Env = Env(variant: Variant, m: Matrix.Matrix, target: nat, st: seq<Word>, ps: seq<Lookup>)

  predicate EnvOk(e: Env)
  {
    |e.m.t| == 4 && e.target < WordSize
    && |e.ps| == |e.st|
    && forall p | 0 <= p < |e.ps| :: (e.ps[p].Index? || e.ps[p].Absent?) && (e.ps[p].Index? ==> 0 <= e.ps[p].i < |e.st|)
  }

  /** The arrays during the sweep, `done[]`, the next free slot `k`, and
      whether the loop has been left by `break`. */
  datatype Sweep = Sweep(amps: seq<Complex>, states: seq<Word>, done: seq<bool>, k: nat, stopped: bool)

  /** `int iset = state & (1 << target)`: as written, converting the 64-bit
      mask to `int` keeps its low 32 bits, so targets 32 to 63 read as 0. */
  function TargetBit(v: Variant, s: Word, target: nat): bool
    requires target < WordSize
  {
    if v == AsWritten then target < 32 && s[target] else s[target]
  }

  /** Conversion of a real to `int`: truncation toward zero. */
  function Truncate(x: real): int
  {
    if x >= 0.0 then x.Floor else -((-x).Floor)
  }

  /** `tnot = reg->amplitude[j]`: as written `tnot` is an `int`, which keeps
      the integer part of the real part and drops the imaginary part. */
  function PartnerAmp(v: Variant, a: Complex): Complex
  {
    if v == AsWritten then Complex(Truncate(a.re) as real, 0.0) else a
  }

  /** Row `row` of the 2x2 matrix (`t[0], t[1]` or `t[2], t[3]`) applied to
      the pair (amplitude with target bit 0, amplitude with target bit 1). */
  function Row(m: Matrix.Matrix, row: bool, amp0: Complex, amp1: Complex): Complex
    requires |m.t| == 4
  {
    if row then Add(Mul(m.t[2], amp0), Mul(m.t[3], amp1)) else Add(Mul(m.t[0], amp0), Mul(m.t[1], amp1))
  }

  /** The matrix moves amplitude from a state with target bit `b` to its
      partner: the code skips the partner exactly when `t[1]` (for a set
      bit) or `t[2]` (for a clear bit) is zero. */
  predicate Grows(m: Matrix.Matrix, b: bool)
    requires |m.t| == 4
  {
    (if b then m.t[1] else m.t[2]) != Zero
  }

  /** Entry `i` and its stored partner `j`, both rewritten from the two old
      amplitudes; `j` is then marked done. */
  function MixPair(e: Env, acc: Sweep, i: nat, b: bool): (r: Sweep)
    requires EnvOk(e) && i < |e.st| && e.ps[i].Index?
    requires |acc.amps| == |acc.states| == |acc.done| && |e.st| <= |acc.amps|
    ensures |r.amps| == |acc.amps| && |r.states| == |acc.states| && |r.done| == |acc.done|
    ensures r.states == acc.states && r.k == acc.k && r.stopped == acc.stopped
    ensures forall q | 0 <= q < |r.amps| && q != i && q != e.ps[i].i :: r.amps[q] == acc.amps[q] && r.done[q] == acc.done[q]
  {
    var j := e.ps[i].i;
    var own := acc.amps[i];
    var other := PartnerAmp(e.variant, acc.amps[j]);
    var amps := acc.amps[i := if b then Row(e.m, true, other, own) else Row(e.m, false, own, other)];
    acc.(amps := amps[j := if b then Row(e.m, false, other, own) else Row(e.m, true, own, other)],
         done := acc.done[j := true])
  }

  /** Entry `i` whose partner is absent: its amplitude is rewritten with a
      zero partner, and the partner is appended at slot `k` unless the
      matrix gives it nothing, in which case the code as written leaves the
      loop. */
  function MixAlone(e: Env, acc: Sweep, i: nat, b: bool): (r: Sweep)
    requires EnvOk(e) && i < |e.st|
    requires |acc.amps| == |acc.states| == |acc.done| && |e.st| <= acc.k < |acc.amps|
    ensures |r.amps| == |acc.amps| && |r.states| == |acc.states| && |r.done| == |acc.done|
    ensures r.k == (if Grows(e.m, b) then acc.k + 1 else acc.k) && r.done == acc.done
    ensures forall q | 0 <= q < |e.st| :: r.states[q] == acc.states[q]
    ensures forall q | 0 <= q < |r.amps| && q != i && q != acc.k :: r.amps[q] == acc.amps[q] && r.states[q] == acc.states[q]
  {
    var own := acc.amps[i];
    var amps := acc.amps[i := if b then Row(e.m, true, Zero, own) else Row(e.m, false, own, Zero)];
    if !Grows(e.m, b) then acc.(amps := amps, stopped := e.variant == AsWritten)
    else
      acc.(amps := amps[acc.k := if b then Mul(e.m.t[1], own) else Mul(e.m.t[2], own)],
           states := acc.states[acc.k := Flip(e.st[i], e.target)], k := acc.k + 1)
  }

  /** One pass of the loop body for entry `i`. */
  function Step(e: Env, acc: Sweep, i: nat): (r: Sweep)
    requires EnvOk(e) && i < |e.st|
    requires |acc.amps| == |acc.states| == |acc.done| && |e.st| <= |acc.amps|
    requires |e.st| <= acc.k && acc.k + AbsentCount(e.ps[i..]) <= |acc.amps|
    ensures |r.amps| == |acc.amps| && |r.states| == |acc.states| && |r.done| == |acc.done|
    ensures |e.st| <= r.k && r.k + AbsentCount(e.ps[i + 1..]) <= |r.amps|
    ensures forall q | 0 <= q < |e.st| :: r.states[q] == acc.states[q]
  {
    AbsentStep(e.ps, i);
    if acc.stopped || acc.done[i] then acc
    else if e.ps[i].Index? then MixPair(e, acc, i, TargetBit(e.variant, e.st[i], e.target))
    else MixAlone(e, acc, i, TargetBit(e.variant, e.st[i], e.target))
  }

  /** The loop over the first `n` entries. */
  function Run(e: Env, start: Sweep, n: nat): (r: Sweep)
    requires EnvOk(e) && n <= |e.st|
    requires |start.amps| == |start.states| == |start.done| && |e.st| <= |start.amps|
    requires |e.st| <= start.k && start.k + AbsentCount(e.ps) <= |start.amps|
    ensures |r.amps| == |start.amps| && |r.states| == |start.states| && |r.done| == |start.done|
    ensures |e.st| <= r.k && r.k + AbsentCount(e.ps[n..]) <= |r.amps|
    ensures forall q | 0 <= q < |e.st| :: r.states[q] == start.states[q]
  {
    if n == 0 then assert e.ps[0..] == e.ps; start
    else Step(e, Run(e, start, n - 1), n - 1)
  }

  /** The arrays grown by `addsize` zero slots, `done[]` all clear, and the
      first free slot just after the old entries. */
  function Start(a0: seq<Complex>, st: seq<Word>, addsize: nat): (acc: Sweep)
    requires |a0| == |st|
    ensures |acc.amps| == |acc.states| == |acc.done| == |st| + addsize && acc.k == |st| && !acc.stopped
    ensures forall p | 0 <= p < |st| :: acc.amps[p] == a0[p] && acc.states[p] == st[p]
    ensures forall q | |st| <= q < |st| + addsize :: acc.amps[q] == Zero && acc.states[q] == ZeroWord()
    ensures forall q | 0 <= q < |st| + addsize :: !acc.done[q]
  {
    Sweep(a0 + seq(addsize, _ => Zero), st + seq(addsize, _ => ZeroWord()), seq(|st| + addsize, _ => false), |st|, false)
  }

  // ---------------------------------------------------------------------
  // What the intended sweep computes

  /** The amplitude entry `p` should end with: its row of the matrix applied
      to the old amplitudes of the pair, a missing partner counting as zero. */
  function Final(e: Env, a0: seq<Complex>, p: nat): Complex
    requires EnvOk(e) && |a0| == |e.st| && p < |e.st|
  {
    var other := if e.ps[p].Index? then a0[e.ps[p].i] else Zero;
    if e.st[p][e.target] then Row(e.m, true, other, a0[p]) else Row(e.m, false, a0[p], other)
  }

  /** The amplitude the new partner of entry `g` should get: the other row
      of the matrix, the partner's own old amplitude being zero. */
  function Appended(e: Env, a0: seq<Complex>, g: nat): Complex
    requires EnvOk(e) && |a0| == |e.st| && g < |e.st|
  {
    if e.st[g][e.target] then Row(e.m, false, Zero, a0[g]) else Row(e.m, true, a0[g], Zero)
  }

  /** The entries among the first `i` whose partner is absent and gets a
      slot, in order. */
  function Grown(e: Env, i: nat): (gs: seq<nat>)
    requires EnvOk(e) && i <= |e.st|
    ensures |gs| <= i && forall t | 0 <= t < |gs| :: gs[t] < i
  {
    if i == 0 then []
    else Grown(e, i - 1) + (if e.ps[i - 1].Absent? && Grows(e.m, e.st[i - 1][e.target]) then [i - 1] else [])
  }

  /** Entry `p` has its final amplitude once it or its partner has been
      visited. */
  predicate Handled(e: Env, p: nat, i: nat)
    requires EnvOk(e) && p < |e.st|
  {
    p < i || (e.ps[p].Index? && e.ps[p].i < i)
  }

  /** The states of the intended sweep when the entries `gs` have had their
      partners appended: the old states in place, the partners after them,
      and zero slots after those. */
  ghost predicate Shape(e: Env, acc: Sweep, gs: seq<nat>)
    requires EnvOk(e) && forall t | 0 <= t < |gs| :: gs[t] < |e.st|
  {
    var n := |e.st|;
    |acc.amps| == |acc.states| == |acc.done| && n + |gs| <= |acc.amps|
    && !acc.stopped && acc.k == n + |gs|
    && (forall p | 0 <= p < n :: acc.states[p] == e.st[p])
    && (forall t | 0 <= t < |gs| :: acc.states[n + t] == Flip(e.st[gs[t]], e.target))
    && (forall q | n + |gs| <= q < |acc.amps| :: acc.states[q] == ZeroWord() && acc.amps[q] == Zero)
  }

  /** The appended partners hold the amplitudes the matrix gives them. */
  ghost predicate Filled(e: Env, a0: seq<Complex>, acc: Sweep, gs: seq<nat>)
    requires EnvOk(e) && |a0| == |e.st| && |e.st| + |gs| <= |acc.amps|
    requires forall t | 0 <= t < |gs| :: gs[t] < |e.st|
  {
    forall t | 0 <= t < |gs| :: acc.amps[|e.st| + t] == Appended(e, a0, gs[t])
  }

  ghost predicate Layout(e: Env, a0: seq<Complex>, acc: Sweep, gs: seq<nat>)
    requires EnvOk(e) && |a0| == |e.st| && forall t | 0 <= t < |gs| :: gs[t] < |e.st|
  {
    Shape(e, acc, gs) && Filled(e, a0, acc, gs)
  }

  /** `done[p]` is set exactly when the partner of `p` came first and has
      been visited. */
  ghost predicate DoneMarks(e: Env, done: seq<bool>, i: nat)
    requires EnvOk(e) && |e.st| <= |done|
  {
    forall p | 0 <= p < |e.st| :: done[p] == (e.ps[p].Index? && e.ps[p].i < p && e.ps[p].i < i)
  }

  /** Handled entries hold their final amplitudes, the others their old ones. */
  ghost predicate AmpsSoFar(e: Env, a0: seq<Complex>, amps: seq<Complex>, i: nat)
    requires EnvOk(e) && |a0| == |e.st| <= |amps|
  {
    forall p | 0 <= p < |e.st| :: amps[p] == (if Handled(e, p, i) then Final(e, a0, p) else a0[p])
  }

  /** The state of the intended sweep before entry `i`. */
  ghost predicate Inv(e: Env, a0: seq<Complex>, acc: Sweep, i: nat)
    requires EnvOk(e) && |a0| == |e.st| && i <= |e.st|
  {
    Layout(e, a0, acc, Grown(e, i)) && DoneMarks(e, acc.done, i) && AmpsSoFar(e, a0, acc.amps, i)
  }

  /** The intended sweep about to visit entry `i`, with room for the
      partners still to be appended. */
  ghost predicate Ready(e: Env, a0: seq<Complex>, acc: Sweep, i: nat)
  {
    EnvOk(e) && e.variant == Intended && |a0| == |e.st| && i < |e.st|
    && Inv(e, a0, acc, i) && Room(e, acc, i)
  }

  /** What `Step` needs of the arrays before entry `i`. */
  predicate Room(e: Env, acc: Sweep, i: nat)
    requires i <= |e.ps|
  {
    |acc.amps| == |acc.states| == |acc.done| && |e.st| <= |acc.amps| && !acc.stopped
    && |e.st| <= acc.k && acc.k + AbsentCount(e.ps[i..]) <= |acc.amps|
  }

  /** What the pairing says about entry `i`: its partner is another entry
      holding the flipped state and naming `i` back, and no other entry
      names `i`. */
  ghost predicate Mirror(e: Env, i: nat)
    requires EnvOk(e) && i < |e.st|
  {
    (e.ps[i].Index? ==> e.ps[i].i != i && e.ps[e.ps[i].i] == Index(i) && e.st[e.ps[i].i] == Flip(e.st[i], e.target))
    && forall p | 0 <= p < |e.st| && e.ps[p] == Index(i) :: e.ps[i] == Index(p)
  }

  lemma PairedMirror(e: Env, i: nat)
    requires EnvOk(e) && Paired(e.st, e.target, e.ps) && i < |e.st|
    ensures Mirror(e, i)
  {
  }

  /** A visited entry whose partner came first is skipped. */
  lemma StepDone(e: Env, a0: seq<Complex>, acc: Sweep, i: nat)
    requires Ready(e, a0, acc, i) && Mirror(e, i) && acc.done[i]
    ensures Inv(e, a0, Step(e, acc, i), i + 1)
  {
    var n := |e.st|;
    assert Grown(e, i + 1) == Grown(e, i);
    assert Step(e, acc, i) == acc;
    assert DoneMarks(e, acc.done, i + 1);
    assert AmpsSoFar(e, a0, acc.amps, i + 1) by {
      forall p | 0 <= p < n
        ensures Handled(e, p, i + 1) == Handled(e, p, i)
      {
      }
    }
  }

  /** The partner of an unvisited entry with a stored partner comes later
      and neither has been touched yet. */
  lemma PairedFresh(e: Env, a0: seq<Complex>, acc: Sweep, i: nat)
    requires Ready(e, a0, acc, i) && Mirror(e, i) && !acc.done[i] && e.ps[i].Index?
    ensures e.ps[i].i > i
    ensures acc.amps[i] == a0[i] && acc.amps[e.ps[i].i] == a0[e.ps[i].i]
  {
  }

  lemma PairedLayout(e: Env, a0: seq<Complex>, acc: Sweep, i: nat)
    requires Ready(e, a0, acc, i) && !acc.done[i] && e.ps[i].Index?
    ensures Layout(e, a0, Step(e, acc, i), Grown(e, i + 1))
  {
    var r := Step(e, acc, i);
    assert r == MixPair(e, acc, i, e.st[i][e.target]);
    assert Grown(e, i + 1) == Grown(e, i);
  }

  lemma PairedDone(e: Env, a0: seq<Complex>, acc: Sweep, i: nat)
    requires Ready(e, a0, acc, i) && Mirror(e, i) && !acc.done[i] && e.ps[i].Index?
    ensures DoneMarks(e, Step(e, acc, i).done, i + 1)
  {
    PairedFresh(e, a0, acc, i);
    var r := Step(e, acc, i);
    assert r == MixPair(e, acc, i, e.st[i][e.target]);
  }

  lemma PairedAmps(e: Env, a0: seq<Complex>, acc: Sweep, i: nat)
    requires Ready(e, a0, acc, i) && Mirror(e, i) && !acc.done[i] && e.ps[i].Index?
    ensures AmpsSoFar(e, a0, Step(e, acc, i).amps, i + 1)
  {
    PairedFresh(e, a0, acc, i);
    var j := e.ps[i].i;
    var b := e.st[i][e.target];
    var r := Step(e, acc, i);
    assert r == MixPair(e, acc, i, b);
    assert e.st[j][e.target] == !b;
    assert r.amps[i] == Final(e, a0, i);
    assert r.amps[j] == Final(e, a0, j);
  }

  /** An entry with a stored partner that has not been visited: both get
      their final amplitudes and the partner is marked done. */
  lemma StepPaired(e: Env, a0: seq<Complex>, acc: Sweep, i: nat)
    requires Ready(e, a0, acc, i) && Mirror(e, i) && !acc.done[i] && e.ps[i].Index?
    ensures Inv(e, a0, Step(e, acc, i), i + 1)
  {
    PairedLayout(e, a0, acc, i);
    PairedDone(e, a0, acc, i);
    PairedAmps(e, a0, acc, i);
  }

  /** The appended amplitude is the one the other row of the matrix gives. */
  lemma AppendedIsMul(e: Env, a0: seq<Complex>, g: nat)
    requires EnvOk(e) && |a0| == |e.st| && g < |e.st|
    ensures Appended(e, a0, g) == (if e.st[g][e.target] then Mul(e.m.t[1], a0[g]) else Mul(e.m.t[2], a0[g]))
  {
    MulZero(e.m.t[0]);
    MulZero(e.m.t[3]);
  }

  lemma AloneLayout(e: Env, a0: seq<Complex>, acc: Sweep, i: nat)
    requires EnvOk(e) && e.variant == Intended && |a0| == |e.st| && i < |e.st| && Room(e, acc, i)
    requires Layout(e, a0, acc, Grown(e, i)) && !acc.done[i] && acc.amps[i] == a0[i] && e.ps[i].Absent?
    ensures Layout(e, a0, Step(e, acc, i), Grown(e, i + 1))
  {
    if Grows(e.m, e.st[i][e.target]) {
      AloneGrows(e, a0, acc, i);
    } else {
      assert Grown(e, i + 1) == Grown(e, i);
      var r := Step(e, acc, i);
      assert r == MixAlone(e, acc, i, e.st[i][e.target]);
      LayoutKeep(e, a0, acc, r, Grown(e, i));
    }
  }

  /** Rewriting only old entries keeps the layout of the appended part. */
  lemma LayoutKeep(e: Env, a0: seq<Complex>, acc: Sweep, r: Sweep, gs: seq<nat>)
    requires EnvOk(e) && |a0| == |e.st| && forall t | 0 <= t < |gs| :: gs[t] < |e.st|
    requires Layout(e, a0, acc, gs)
    requires |r.amps| == |acc.amps| && |r.done| == |acc.done| && !r.stopped && r.k == acc.k
    requires r.states == acc.states
    requires forall q | |e.st| <= q < |r.amps| :: r.amps[q] == acc.amps[q]
    ensures Layout(e, a0, r, gs)
  {
  }

  /** The partner is appended at the first zero slot. */
  lemma AloneGrows(e: Env, a0: seq<Complex>, acc: Sweep, i: nat)
    requires EnvOk(e) && e.variant == Intended && |a0| == |e.st| && i < |e.st| && Room(e, acc, i)
    requires Layout(e, a0, acc, Grown(e, i)) && !acc.done[i] && acc.amps[i] == a0[i] && e.ps[i].Absent?
    requires Grows(e.m, e.st[i][e.target])
    ensures Layout(e, a0, Step(e, acc, i), Grown(e, i + 1))
  {
    AloneGrowsShape(e, a0, acc, i);
    AloneGrowsFilled(e, a0, acc, i);
  }

  lemma AloneGrowsShape(e: Env, a0: seq<Complex>, acc: Sweep, i: nat)
    requires EnvOk(e) && e.variant == Intended && |a0| == |e.st| && i < |e.st| && Room(e, acc, i)
    requires Shape(e, acc, Grown(e, i)) && !acc.done[i] && e.ps[i].Absent? && Grows(e.m, e.st[i][e.target])
    ensures Shape(e, Step(e, acc, i), Grown(e, i + 1))
  {
    var gs := Grown(e, i);
    AbsentStep(e.ps, i);
    assert Grown(e, i + 1) == gs + [i];
    var r := Step(e, acc, i);
    assert r == MixAlone(e, acc, i, e.st[i][e.target]);
    ShapeAppend(e, acc, r, gs, i);
  }

  /** Appending the partner of `x` at the first zero slot keeps the shape. */
  lemma ShapeAppend(e: Env, acc: Sweep, r: Sweep, gs: seq<nat>, x: nat)
    requires EnvOk(e) && x < |e.st| && forall t | 0 <= t < |gs| :: gs[t] < |e.st|
    requires Shape(e, acc, gs) && |e.st| + |gs| < |acc.amps|
    requires |r.amps| == |acc.amps| && |r.done| == |acc.done| && !r.stopped && r.k == acc.k + 1
    requires r.states == acc.states[acc.k := Flip(e.st[x], e.target)]
    requires forall q | 0 <= q < |r.amps| && q != x && q != acc.k :: r.amps[q] == acc.amps[q]
    ensures Shape(e, r, gs + [x])
  {
    var n := |e.st|;
    var gs' := gs + [x];
    forall t | 0 <= t < |gs'|
      ensures r.states[n + t] == Flip(e.st[gs'[t]], e.target)
    {
      if t < |gs| {
        assert gs'[t] == gs[t];
      }
    }
  }

  lemma AloneGrowsFilled(e: Env, a0: seq<Complex>, acc: Sweep, i: nat)
    requires EnvOk(e) && e.variant == Intended && |a0| == |e.st| && i < |e.st| && Room(e, acc, i)
    requires Layout(e, a0, acc, Grown(e, i)) && !acc.done[i] && acc.amps[i] == a0[i] && e.ps[i].Absent?
    requires Grows(e.m, e.st[i][e.target])
    ensures |e.st| + |Grown(e, i + 1)| <= |Step(e, acc, i).amps|
    ensures Filled(e, a0, Step(e, acc, i), Grown(e, i + 1))
  {
    var gs := Grown(e, i);
    AbsentStep(e.ps, i);
    assert Grown(e, i + 1) == gs + [i];
    var r := Step(e, acc, i);
    assert r == MixAlone(e, acc, i, e.st[i][e.target]);
    assert r.amps[acc.k] == Appended(e, a0, i) by {
      AppendedIsMul(e, a0, i);
    }
    FilledAppend(e, a0, acc, r, gs, i);
  }

  /** Writing the amplitude of the partner of `x` at the first zero slot
      keeps the appended partners filled. */
  lemma FilledAppend(e: Env, a0: seq<Complex>, acc: Sweep, r: Sweep, gs: seq<nat>, x: nat)
    requires EnvOk(e) && |a0| == |e.st| && x < |e.st| && forall t | 0 <= t < |gs| :: gs[t] < |e.st|
    requires |e.st| + |gs| < |acc.amps| && acc.k == |e.st| + |gs| && Filled(e, a0, acc, gs)
    requires |r.amps| == |acc.amps| && r.amps[acc.k] == Appended(e, a0, x)
    requires forall q | 0 <= q < |r.amps| && q != x && q != acc.k :: r.amps[q] == acc.amps[q]
    ensures Filled(e, a0, r, gs + [x])
  {
    var n := |e.st|;
    var gs' := gs + [x];
    forall t | 0 <= t < |gs'|
      ensures r.amps[n + t] == Appended(e, a0, gs'[t])
    {
      if t < |gs| {
        assert gs'[t] == gs[t];
      }
    }
  }

  lemma AloneDone(e: Env, a0: seq<Complex>, acc: Sweep, i: nat)
    requires EnvOk(e) && e.variant == Intended && i < |e.st| && Room(e, acc, i)
    requires DoneMarks(e, acc.done, i) && Mirror(e, i) && e.ps[i].Absent?
    ensures DoneMarks(e, Step(e, acc, i).done, i + 1)
  {
    assert !acc.done[i];
    assert Step(e, acc, i).done == acc.done;
  }

  lemma AloneAmps(e: Env, a0: seq<Complex>, acc: Sweep, i: nat)
    requires EnvOk(e) && e.variant == Intended && |a0| == |e.st| && i < |e.st| && Room(e, acc, i)
    requires DoneMarks(e, acc.done, i) && AmpsSoFar(e, a0, acc.amps, i)
    requires Mirror(e, i) && e.ps[i].Absent?
    ensures AmpsSoFar(e, a0, Step(e, acc, i).amps, i + 1)
  {
    assert !acc.done[i] && acc.amps[i] == a0[i];
    var r := Step(e, acc, i);
    assert r == MixAlone(e, acc, i, e.st[i][e.target]);
    assert r.amps[i] == Final(e, a0, i);
  }

  /** An entry whose partner is absent: it gets its final amplitude and the
      partner is appended when the matrix gives it anything. */
  lemma StepAlone(e: Env, a0: seq<Complex>, acc: Sweep, i: nat)
    requires Ready(e, a0, acc, i) && Mirror(e, i) && e.ps[i].Absent?
    ensures Inv(e, a0, Step(e, acc, i), i + 1)
  {
    assert !acc.done[i] && acc.amps[i] == a0[i];
    AloneLayout(e, a0, acc, i);
    AloneDone(e, a0, acc, i);
    AloneAmps(e, a0, acc, i);
  }

  /** One visit keeps the invariant. */
  lemma StepKeeps(e: Env, a0: seq<Complex>, acc: Sweep, i: nat)
    requires Ready(e, a0, acc, i) && Mirror(e, i)
    ensures Inv(e, a0, Step(e, acc, i), i + 1)
  {
    if acc.done[i] {
      StepDone(e, a0, acc, i);
    } else if e.ps[i].Index? {
      StepPaired(e, a0, acc, i);
    } else {
      StepAlone(e, a0, acc, i);
    }
  }

  lemma StartInv(e: Env, a0: seq<Complex>)
    requires EnvOk(e) && |a0| == |e.st|
    ensures Inv(e, a0, Run(e, Start(a0, e.st, AbsentCount(e.ps)), 0), 0)
  {
    assert Grown(e, 0) == [];
    assert Run(e, Start(a0, e.st, AbsentCount(e.ps)), 0) == Start(a0, e.st, AbsentCount(e.ps));
  }

  /** The intended sweep keeps the invariant over every prefix. */
  lemma {:induction false} RunInv(e: Env, a0: seq<Complex>, i: nat)
    requires EnvOk(e) && e.variant == Intended && Paired(e.st, e.target, e.ps) && |a0| == |e.st| && i <= |e.st|
    ensures Inv(e, a0, Run(e, Start(a0, e.st, AbsentCount(e.ps)), i), i)
    decreases i
  {
    if i == 0 {
      StartInv(e, a0);
    } else {
      RunInv(e, a0, i - 1);
      RunStep(e, a0, i);
    }
  }

  lemma RunStep(e: Env, a0: seq<Complex>, i: nat)
    requires EnvOk(e) && e.variant == Intended && Paired(e.st, e.target, e.ps) && |a0| == |e.st| && 0 < i <= |e.st|
    requires Inv(e, a0, Run(e, Start(a0, e.st, AbsentCount(e.ps)), i - 1), i - 1)
    ensures Inv(e, a0, Run(e, Start(a0, e.st, AbsentCount(e.ps)), i), i)
  {
    var acc := Run(e, Start(a0, e.st, AbsentCount(e.ps)), i - 1);
    PairedMirror(e, i - 1);
    StepKeeps(e, a0, acc, i - 1);
  }

  /** `Grown` lists exactly the entries with an absent partner that the
      matrix reaches, in increasing order. */
  lemma {:induction false} GrownExact(e: Env, i: nat)
    requires EnvOk(e) && i <= |e.st|
    ensures forall t | 0 <= t < |Grown(e, i)| :: e.ps[Grown(e, i)[t]].Absent? && Grows(e.m, e.st[Grown(e, i)[t]][e.target])
    ensures forall t, u | 0 <= t < u < |Grown(e, i)| :: Grown(e, i)[t] < Grown(e, i)[u]
    ensures forall p | 0 <= p < i && e.ps[p].Absent? && Grows(e.m, e.st[p][e.target]) :: p in Grown(e, i)
    decreases i
  {
    if i > 0 {
      GrownExact(e, i - 1);
    }
  }

  // ---------------------------------------------------------------------
  // The gate as a map on amplitude vectors

  /** The amplitude of basis state `w` in a sparse vector: the amplitude of
      its entry, or zero when it has none. */
  function AmpOf(st: seq<Word>, a: seq<Complex>, w: Word): (c: Complex)
    requires |a| == |st|
    ensures w !in st ==> c == Zero
    decreases |st|
  {
    if |st| == 0 then Zero else if st[0] == w then a[0] else AmpOf(st[1..], a[1..], w)
  }

  lemma {:induction false} AmpOfAt(st: seq<Word>, a: seq<Complex>, p: nat)
    requires |a| == |st| && p < |st| && Distinct(st)
    ensures AmpOf(st, a, st[p]) == a[p]
    decreases p
  {
    if p > 0 {
      assert st[0] != st[p];
      AmpOfAt(st[1..], a[1..], p - 1);
    }
  }

  /** The one-qubit gate `m` on qubit `target`, at basis state `w`: the row
      of the matrix picked by the target bit of `w`, applied to the
      amplitudes of `w` and of `w` with the target bit flipped. */
  function Apply1(m: Matrix.Matrix, target: nat, st: seq<Word>, a: seq<Complex>, w: Word): Complex
    requires |m.t| == 4 && target < WordSize && |a| == |st|
  {
    var own := AmpOf(st, a, w);
    var other := AmpOf(st, a, Flip(w, target));
    if w[target] then Row(m, true, other, own) else Row(m, false, own, other)
  }

  lemma FlipInjective(s1: Word, s2: Word, target: nat)
    requires target < WordSize && Flip(s1, target) == Flip(s2, target)
    ensures s1 == s2
  {
    Gates.FlipTwice(s1, target);
    Gates.FlipTwice(s2, target);
  }

  /** The states an intended sweep leaves in use: the old ones, then the
      partners it appended. */
  function Used(e: Env, r: Sweep): (us: seq<Word>)
    requires EnvOk(e) && |e.st| + |Grown(e, |e.st|)| <= |r.states|
    ensures |us| == |e.st| + |Grown(e, |e.st|)|
  {
    r.states[..|e.st| + |Grown(e, |e.st|)|]
  }

  /** What the intended sweep computes: every used slot holds the gate's
      amplitude for its state, the used states are all different, every
      basis state the gate gives a non-zero amplitude is used, and the
      slots after the used ones hold state 0 with amplitude 0. */
  lemma SweepMeaning(e: Env, a0: seq<Complex>)
    requires EnvOk(e) && e.variant == Intended && Paired(e.st, e.target, e.ps) && |a0| == |e.st| && Distinct(e.st)
    ensures var r := Run(e, Start(a0, e.st, AbsentCount(e.ps)), |e.st|);
      |e.st| + |Grown(e, |e.st|)| <= |r.states| == |r.amps|
      && Distinct(Used(e, r))
      && (forall q | 0 <= q < |Used(e, r)| :: r.amps[q] == Apply1(e.m, e.target, e.st, a0, r.states[q]))
      && (forall w: Word | Apply1(e.m, e.target, e.st, a0, w) != Zero :: w in Used(e, r))
      && (forall q | |Used(e, r)| <= q < |r.amps| :: r.states[q] == ZeroWord() && r.amps[q] == Zero)
  {
    var n := |e.st|;
    var r := Run(e, Start(a0, e.st, AbsentCount(e.ps)), n);
    RunInv(e, a0, n);
    SweepOld(e, a0, r);
    GrownFresh(e);
    SweepNew(e, a0, r);
    SweepDistinct(e, r);
    assert Located(e);
    forall w: Word | Apply1(e.m, e.target, e.st, a0, w) != Zero
      ensures w in Used(e, r)
    {
      SweepCovers(e, a0, r, w);
    }
  }

  /** The old slots hold the gate's amplitudes for the old states. */
  lemma SweepOld(e: Env, a0: seq<Complex>, r: Sweep)
    requires EnvOk(e) && Paired(e.st, e.target, e.ps) && |a0| == |e.st| && Distinct(e.st)
    requires |e.st| <= |r.amps| && |e.st| <= |r.states| && AmpsSoFar(e, a0, r.amps, |e.st|)
    requires forall p | 0 <= p < |e.st| :: r.states[p] == e.st[p]
    ensures forall p | 0 <= p < |e.st| :: r.amps[p] == Apply1(e.m, e.target, e.st, a0, r.states[p])
  {
    forall p | 0 <= p < |e.st|
      ensures r.amps[p] == Apply1(e.m, e.target, e.st, a0, e.st[p])
    {
      AmpOfAt(e.st, a0, p);
      assert Handled(e, p, |e.st|);
      if e.ps[p].Index? {
        AmpOfAt(e.st, a0, e.ps[p].i);
      }
    }
  }

  /** The appended slots hold the gate's amplitudes for the new states. */
  lemma SweepNew(e: Env, a0: seq<Complex>, r: Sweep)
    requires EnvOk(e) && |a0| == |e.st| && Distinct(e.st)
    requires Layout(e, a0, r, Grown(e, |e.st|)) && Fresh(e, Grown(e, |e.st|))
    ensures forall q | |e.st| <= q < |Used(e, r)| :: r.amps[q] == Apply1(e.m, e.target, e.st, a0, r.states[q])
  {
    var n := |e.st|;
    var gs := Grown(e, n);
    forall q | n <= q < |Used(e, r)|
      ensures r.amps[q] == Apply1(e.m, e.target, e.st, a0, r.states[q])
    {
      var g := gs[q - n];
      var w := Flip(e.st[g], e.target);
      assert r.states[q] == w;
      assert r.amps[q] == Appended(e, a0, g);
      Gates.FlipTwice(e.st[g], e.target);
      AmpOfAt(e.st, a0, g);
      assert w !in e.st;
    }
  }

  /** The appended partners are not old states. */
  ghost predicate Fresh(e: Env, gs: seq<nat>)
    requires EnvOk(e) && forall t | 0 <= t < |gs| :: gs[t] < |e.st|
  {
    forall t | 0 <= t < |gs| :: Flip(e.st[gs[t]], e.target) !in e.st
  }

  lemma GrownFresh(e: Env)
    requires EnvOk(e) && Paired(e.st, e.target, e.ps)
    ensures Fresh(e, Grown(e, |e.st|))
  {
    GrownExact(e, |e.st|);
  }

  /** The used states are all different. */
  lemma SweepDistinct(e: Env, r: Sweep)
    requires EnvOk(e) && Distinct(e.st)
    requires Shape(e, r, Grown(e, |e.st|)) && Fresh(e, Grown(e, |e.st|))
    ensures Distinct(Used(e, r))
  {
    var n := |e.st|;
    var gs := Grown(e, n);
    var us := Used(e, r);
    forall x, y | 0 <= x < y < |us|
      ensures us[x] != us[y]
    {
      UsedPair(e, r, x, y);
    }
  }

  /** Two used slots hold different states. */
  lemma UsedPair(e: Env, r: Sweep, x: nat, y: nat)
    requires EnvOk(e) && Distinct(e.st)
    requires Shape(e, r, Grown(e, |e.st|)) && Fresh(e, Grown(e, |e.st|))
    requires x < y < |Used(e, r)|
    ensures Used(e, r)[x] != Used(e, r)[y]
  {
    var n := |e.st|;
    if y < n {
      UsedAt(e, r, x);
      UsedAt(e, r, y);
      DistinctAt(e.st, x, y);
    } else if x < n {
      UsedOldNew(e, r, x, y - n);
    } else {
      UsedNewNew(e, r, x - n, y - n);
    }
  }

  /** An old state and an appended partner are different. */
  lemma UsedOldNew(e: Env, r: Sweep, x: nat, t: nat)
    requires EnvOk(e) && Shape(e, r, Grown(e, |e.st|)) && Fresh(e, Grown(e, |e.st|))
    requires x < |e.st| && t < |Grown(e, |e.st|)|
    ensures Used(e, r)[x] != Used(e, r)[|e.st| + t]
  {
    UsedAt(e, r, x);
    UsedAt(e, r, |e.st| + t);
    FreshAt(e, Grown(e, |e.st|), x, t);
  }

  /** Two different appended partners are different. */
  lemma UsedNewNew(e: Env, r: Sweep, x: nat, y: nat)
    requires EnvOk(e) && Distinct(e.st) && Shape(e, r, Grown(e, |e.st|))
    requires x < y < |Grown(e, |e.st|)|
    ensures Used(e, r)[|e.st| + x] != Used(e, r)[|e.st| + y]
  {
    UsedAt(e, r, |e.st| + x);
    UsedAt(e, r, |e.st| + y);
    AppendedDistinct(e, x, y);
  }

  /** Two entries of a sequence of different states differ. */
  lemma DistinctAt(st: seq<Word>, x: nat, y: nat)
    requires Distinct(st) && x < y < |st|
    ensures st[x] != st[y]
  {
  }

  /** An old state differs from every partner appended. */
  lemma FreshAt(e: Env, gs: seq<nat>, x: nat, t: nat)
    requires EnvOk(e) && (forall t | 0 <= t < |gs| :: gs[t] < |e.st|) && Fresh(e, gs)
    requires x < |e.st| && t < |gs|
    ensures e.st[x] != Flip(e.st[gs[t]], e.target)
  {
  }

  /** A used slot holds an old state or the partner appended for it. */
  lemma UsedAt(e: Env, r: Sweep, q: nat)
    requires EnvOk(e) && Shape(e, r, Grown(e, |e.st|)) && q < |e.st| + |Grown(e, |e.st|)|
    ensures q < |e.st| ==> Used(e, r)[q] == e.st[q]
    ensures q >= |e.st| ==> Used(e, r)[q] == Flip(e.st[Grown(e, |e.st|)[q - |e.st|]], e.target)
  {
  }

  /** Two different appended partners are different states. */
  lemma AppendedDistinct(e: Env, x: nat, y: nat)
    requires EnvOk(e) && Distinct(e.st) && x < y < |Grown(e, |e.st|)|
    ensures Flip(e.st[Grown(e, |e.st|)[x]], e.target) != Flip(e.st[Grown(e, |e.st|)[y]], e.target)
  {
    var gs := Grown(e, |e.st|);
    GrownExact(e, |e.st|);
    assert gs[x] < gs[y];
    if Flip(e.st[gs[x]], e.target) == Flip(e.st[gs[y]], e.target) {
      FlipInjective(e.st[gs[x]], e.st[gs[y]], e.target);
    }
  }

  /** A lookup reports "absent" exactly when the partner is not stored. */
  ghost predicate Located(e: Env)
    requires EnvOk(e)
  {
    forall p | 0 <= p < |e.st| :: e.ps[p].Absent? <==> Flip(e.st[p], e.target) !in e.st
  }

  /** A state that is neither stored nor the partner of a stored state
      gets amplitude zero. */
  lemma ApplyOutside(m: Matrix.Matrix, target: nat, st: seq<Word>, a: seq<Complex>, w: Word)
    requires |m.t| == 4 && target < WordSize && |a| == |st|
    requires w !in st && Flip(w, target) !in st
    ensures Apply1(m, target, st, a, w) == Zero
  {
    MulZero(m.t[0]);
    MulZero(m.t[1]);
    MulZero(m.t[2]);
    MulZero(m.t[3]);
  }

  /** The missing partner of a stored state gets amplitude zero when the
      matrix does not reach it. */
  lemma ApplyUnreached(m: Matrix.Matrix, target: nat, st: seq<Word>, a: seq<Complex>, g: nat)
    requires |m.t| == 4 && target < WordSize && |a| == |st| && g < |st| && Distinct(st)
    requires Flip(st[g], target) !in st
    ensures !Grows(m, st[g][target]) ==> Apply1(m, target, st, a, Flip(st[g], target)) == Zero
  {
    Gates.FlipTwice(st[g], target);
    AmpOfAt(st, a, g);
    MulZero(m.t[0]);
    MulZero(m.t[3]);
    MulZero(a[g]);
  }

  /** A missing partner the matrix reaches has been appended. */
  lemma CoversPartner(e: Env, r: Sweep, g: nat)
    requires EnvOk(e) && Located(e) && g < |e.st|
    requires Shape(e, r, Grown(e, |e.st|))
    requires Flip(e.st[g], e.target) !in e.st && Grows(e.m, e.st[g][e.target])
    ensures Flip(e.st[g], e.target) in Used(e, r)
  {
    var n := |e.st|;
    assert e.ps[g].Absent?;
    var t := GrownIndex(e, g);
    UsedAt(e, r, n + t);
  }

  /** An entry with an absent partner that the matrix reaches is listed in `Grown`. */
  lemma GrownIndex(e: Env, g: nat) returns (t: nat)
    requires EnvOk(e) && g < |e.st| && e.ps[g].Absent? && Grows(e.m, e.st[g][e.target])
    ensures t < |Grown(e, |e.st|)| && Grown(e, |e.st|)[t] == g
  {
    GrownExact(e, |e.st|);
    t :| 0 <= t < |Grown(e, |e.st|)| && Grown(e, |e.st|)[t] == g;
  }

  /** A basis state the gate gives a non-zero amplitude is old, or the
      appended partner of an old state. */
  lemma SweepCovers(e: Env, a0: seq<Complex>, r: Sweep, w: Word)
    requires EnvOk(e) && Located(e) && |a0| == |e.st| && Distinct(e.st)
    requires Shape(e, r, Grown(e, |e.st|))
    requires Apply1(e.m, e.target, e.st, a0, w) != Zero
    ensures w in Used(e, r)
  {
    var f := Flip(w, e.target);
    if w in e.st {
      var p :| 0 <= p < |e.st| && e.st[p] == w;
      assert Used(e, r)[p] == w;
    } else if f in e.st {
      var g: nat :| g < |e.st| && e.st[g] == f;
      Gates.FlipTwice(w, e.target);
      ApplyUnreached(e.m, e.target, e.st, a0, g);
      CoversPartner(e, r, g);
    } else {
      ApplyOutside(e.m, e.target, e.st, a0, w);
      assert false;
    }
  }

  // ---------------------------------------------------------------------
  // The prune pass

  /** The positions the prune pass keeps: those whose probability is not
      below the limit, in increasing order (`SurvivorsExact`). */
  function Survivors(amps: seq<Complex>, limit: real): (ks: seq<nat>)
    ensures |ks| <= |amps| && forall t | 0 <= t < |ks| :: ks[t] < |amps|
    decreases |amps|
  {
    if |amps| == 0 then []
    else
      var n := |amps| - 1;
      Survivors(amps[..n], limit) + (if Prob(amps[n]) >= limit then [n] else [])
  }

  /** Every kept position is at or above the limit, the positions increase,
      and no position at or above the limit is dropped. */
  lemma {:induction false} SurvivorsExact(amps: seq<Complex>, limit: real)
    ensures forall t | 0 <= t < |Survivors(amps, limit)| :: Prob(amps[Survivors(amps, limit)[t]]) >= limit
    ensures forall t, u | 0 <= t < u < |Survivors(amps, limit)| :: Survivors(amps, limit)[t] < Survivors(amps, limit)[u]
    ensures forall i | 0 <= i < |amps| && Prob(amps[i]) >= limit :: i in Survivors(amps, limit)
    decreases |amps|
  {
    if |amps| > 0 {
      var n := |amps| - 1;
      SurvivorsExact(amps[..n], limit);
      var ks := Survivors(amps[..n], limit);
      assert forall t | 0 <= t < |ks| :: amps[..n][ks[t]] == amps[ks[t]];
    }
  }

  lemma SurvivorsStep(amps: seq<Complex>, limit: real, i: nat)
    requires i < |amps|
    ensures Survivors(amps[..i + 1], limit) == Survivors(amps[..i], limit) + (if Prob(amps[i]) >= limit then [i] else [])
  {
    assert amps[..i + 1][..i] == amps[..i];
  }

  /** Moving entry `i` down to the first free slot extends the compacted
      prefix by one and leaves the entries after `i` alone. */
  lemma MoveDown<T>(xs: seq<T>, src: seq<T>, ks: seq<nat>, i: nat)
    requires |xs| == |src| && |ks| <= i < |xs|
    requires forall t | 0 <= t < |ks| :: ks[t] < i && xs[t] == src[ks[t]]
    requires forall q | i <= q < |xs| :: xs[q] == src[q]
    ensures var ys := xs[|ks| := xs[i]]; var ks' := ks + [i];
      (forall t | 0 <= t < |ks'| :: ks'[t] < i + 1 && ys[t] == src[ks'[t]])
      && (forall q | i + 1 <= q < |ys| :: ys[q] == src[q])
  {
  }

  /** The compaction loop shared by U1 (src/ql_qop.c:237-261) and U2
      (src/ql_qop.c:355-377): an entry below the limit is counted, and every
      later survivor moves down by the count so far; the arrays are then cut
      to the survivors.  The survivors keep their order, every dropped entry
      was below the limit, and `decsize` is the number dropped. */
  method Prune(states: seq<Word>, amps: seq<Complex>, limit: real) returns (st: seq<Word>, am: seq<Complex>, decsize: nat)
    requires |states| == |amps|
    ensures st == Pick(states, Survivors(amps, limit)) && am == Pick(amps, Survivors(amps, limit))
    ensures decsize == |amps| - |Survivors(amps, limit)| == |amps| - |am|
  {
    var j;
    st, am, j := Compact(states, amps, limit);
    ghost var ks := Survivors(amps, limit);
    CutIsPick(st, states, ks);
    CutIsPick(am, amps, ks);
    decsize := j;
    st, am := st[..|amps| - j], am[..|amps| - j];
  }

  /** The loop of the compaction: afterwards the first slots hold the
      survivors in order and `j` counts the dropped entries. */
  method Compact(states: seq<Word>, amps: seq<Complex>, limit: real) returns (st: seq<Word>, am: seq<Complex>, j: nat)
    requires |states| == |amps|
    ensures |st| == |states| && |am| == |amps|
    ensures var ks := Survivors(amps, limit);
      |ks| + j == |amps| && forall t | 0 <= t < |ks| :: st[t] == states[ks[t]] && am[t] == amps[ks[t]]
  {
    st, am := states, amps;
    j := 0;
    var i := 0;
    ghost var ks: seq<nat> := [];
    while i < |amps|
      invariant 0 <= i <= |amps|
      invariant Compacted(states, amps, limit, st, am, ks, i, j)
    {
      if Prob(am[i]) < limit {
        DropStep(states, amps, limit, st, am, ks, i, j);
        j := j + 1;
      } else {
        KeepStep(states, amps, limit, st, am, ks, i, j);
        if j != 0 {
          st := st[i - j := st[i]];
          am := am[i - j := am[i]];
        }
        ks := ks + [i];
      }
      i := i + 1;
    }
    CompactDone(states, amps, limit, st, am, ks, j);
  }

  /** The state of the compaction after the first `i` entries: `ks` lists
      the survivors so far, the first `|ks|` slots hold them, `j` counts the
      dropped ones and the slots from `i` on are untouched. */
  ghost predicate Compacted(states: seq<Word>, amps: seq<Complex>, limit: real,
                            st: seq<Word>, am: seq<Complex>, ks: seq<nat>, i: nat, j: nat)
  {
    |states| == |amps| == |st| == |am| && i <= |amps|
    && ks == Survivors(amps[..i], limit) && |ks| + j == i
    && (forall t | 0 <= t < |ks| :: ks[t] < i && st[t] == states[ks[t]] && am[t] == amps[ks[t]])
    && (forall q | i <= q < |amps| :: st[q] == states[q] && am[q] == amps[q])
  }

  lemma DropStep(states: seq<Word>, amps: seq<Complex>, limit: real,
                 st: seq<Word>, am: seq<Complex>, ks: seq<nat>, i: nat, j: nat)
    requires Compacted(states, amps, limit, st, am, ks, i, j) && i < |amps| && Prob(am[i]) < limit
    ensures Compacted(states, amps, limit, st, am, ks, i + 1, j + 1)
  {
    SurvivorsStep(amps, limit, i);
  }

  lemma KeepStep(states: seq<Word>, amps: seq<Complex>, limit: real,
                 st: seq<Word>, am: seq<Complex>, ks: seq<nat>, i: nat, j: nat)
    requires Compacted(states, amps, limit, st, am, ks, i, j) && i < |amps| && Prob(am[i]) >= limit
    ensures j == 0 ==> st[i - j := st[i]] == st && am[i - j := am[i]] == am
    ensures Compacted(states, amps, limit, st[i - j := st[i]], am[i - j := am[i]], ks + [i], i + 1, j)
  {
    SurvivorsStep(amps, limit, i);
    MoveDown(st, states, ks, i);
    MoveDown(am, amps, ks, i);
  }

  lemma CompactDone(states: seq<Word>, amps: seq<Complex>, limit: real,
                    st: seq<Word>, am: seq<Complex>, ks: seq<nat>, j: nat)
    requires Compacted(states, amps, limit, st, am, ks, |amps|, j)
    ensures |st| == |states| && |am| == |amps|
    ensures var ks := Survivors(amps, limit);
      |ks| + j == |amps| && forall t | 0 <= t < |ks| :: st[t] == states[ks[t]] && am[t] == amps[ks[t]]
  {
    assert amps[..|amps|] == amps;
  }

  /** Cutting the compacted arrays to the survivors gives the survivors. */
  lemma CutIsPick<T>(xs: seq<T>, src: seq<T>, ks: seq<nat>)
    requires |ks| <= |xs| && forall t | 0 <= t < |ks| :: ks[t] < |src| && xs[t] == src[ks[t]]
    ensures xs[..|ks|] == Pick(src, ks)
  {
  }

  // ---------------------------------------------------------------------
  // ql_qop_U1

  /** `epsilon` (include/openql/ql_utils.h:24). */
  const Epsilon: real := 0.000001

  /** `limit = (1.0 / (1 << width)) * epsilon`: entries whose probability
      falls below it are dropped.  The shift is by a 64-bit one, so the
      width stays below 64; the `float` rounding is not modelled. */
  function Limit(width: int): (l: real)
    requires 0 <= width < WordSize
    ensures 0.0 < l <= Epsilon
  {
    Epsilon / (Pow2(width) as real)
  }

  /** The table after `ql_qreg_reconstruct_hash`: it answers every lookup. */
  function Rebuilt(reg: Qreg): (t: seq<nat>)
    requires Indexed(reg)
    ensures Answers(reg.hashw, t, reg.state.value) && !Full(t)
    ensures forall k | 0 <= k < reg.Size() :: GetState(reg.hashw, t, reg.state.value, reg.state.value[k]) == Index(k)
  {
    ReconstructCorrect(reg.hash.value, reg.hashw, reg.state.value, reg.Size());
    RebuiltAnswers(reg);
    var t := ReconstructHash(reg.hash.value, reg.hashw, reg.state.value, reg.Size()).value;
    CountUsedFull(t);
    t
  }

  /** The partner lookups against the rebuilt table. */
  function PartnerLookups(reg: Qreg, target: nat): (ps: seq<Lookup>)
    requires Indexed(reg) && target < WordSize
    ensures Paired(reg.state.value, target, ps)
  {
    var t := Rebuilt(reg);
    LookupsPaired(reg.hashw, t, reg.state.value, target);
    Lookups(reg.hashw, t, reg.state.value, target)
  }

  /** The grow-and-sweep part of `ql_qop_U1` (src/ql_qop.c:159-233): the
      arrays grow by one slot for every state whose partner is missing. */
  function SweepOf(v: Variant, reg: Qreg, target: nat, m: Matrix.Matrix): (s: Sweep)
    requires Indexed(reg) && target < WordSize && |m.t| == 4
    ensures |s.amps| == |s.states| == reg.Size() + |Missing(reg.state.value, Partners(reg.state.value, target))|
  {
    var st := reg.state.value;
    var ps := PartnerLookups(reg, target);
    AbsentCountMissing(st, target, ps, |st|);
    assert ps[|st|..] == [] && Partners(st, target)[..|st|] == Partners(st, target);
    Run(Env(v, m, target, st, ps), Start(reg.amplitude, st, AbsentCount(ps)), |st|)
  }

  /** `ql_qop_U1(reg, target, m)` on a register with a table (without the
      trailing `ql_decoherence`): a matrix that is not 2x2 is refused; the
      result holds the sweep's entries at or above the limit, in order, and
      the rebuilt table. */
  function U1Of(v: Variant, reg: Qreg, target: nat, m: Matrix.Matrix): (r: Result<Qreg>)
    requires Indexed(reg) && target < WordSize && Matrix.Valid(m) && 0 <= reg.width < WordSize
    ensures r.Fail? <==> m.cols != 2 || m.rows != 2
    ensures r.Fail? ==> r.code == Errors.MatrixSize
    ensures r.Ok? ==>
              (WellFormed(r.value) && r.value.width == reg.width && r.value.hashw == reg.hashw && r.value.state.Some?
               && r.value.Size() <= reg.Size() + |Missing(reg.state.value, Partners(reg.state.value, target))|)
  {
    if m.cols != 2 || m.rows != 2 then Fail(Errors.MatrixSize)
    else
      var s := SweepOf(v, reg, target, m);
      var ks := Survivors(s.amps, Limit(reg.width));
      Ok(reg.(amplitude := Pick(s.amps, ks), state := Some(Pick(s.states, ks)), hash := Some(Rebuilt(reg))))
  }

  /** `ql_qop_U1` as written. */
  function U1AsWritten(reg: Qreg, target: nat, m: Matrix.Matrix): (r: Result<Qreg>)
    requires Indexed(reg) && target < WordSize && Matrix.Valid(m) && 0 <= reg.width < WordSize
    ensures r.Fail? <==> m.cols != 2 || m.rows != 2
  {
    U1Of(AsWritten, reg, target, m)
  }

  /** `ql_qop_U1` as evidently intended (`U1Correct`). */
  function U1(reg: Qreg, target: nat, m: Matrix.Matrix): (r: Result<Qreg>)
    requires Indexed(reg) && target < WordSize && Matrix.Valid(m) && 0 <= reg.width < WordSize
    ensures r.Fail? <==> m.cols != 2 || m.rows != 2
  {
    U1Of(Intended, reg, target, m)
  }

  /** Pruning a vector whose slots from `u` on hold zero keeps only slots
      below `u`, and keeps different states different. */
  lemma PruneZeroTail(states: seq<Word>, amps: seq<Complex>, u: nat, limit: real)
    requires |states| == |amps| && u <= |amps| && limit > 0.0
    requires Distinct(states[..u]) && forall q | u <= q < |amps| :: amps[q] == Zero
    ensures var ks := Survivors(amps, limit);
      (forall t | 0 <= t < |ks| :: ks[t] < u) && Distinct(Pick(states, ks))
  {
    var ks := Survivors(amps, limit);
    SurvivorsExact(amps, limit);
    assert forall t | 0 <= t < |ks| :: Prob(amps[ks[t]]) >= limit;
    var out := Pick(states, ks);
    forall x, y | 0 <= x < y < |out|
      ensures out[x] != out[y]
    {
      assert ks[x] < ks[y] < u;
      assert states[..u][ks[x]] == out[x] && states[..u][ks[y]] == out[y];
    }
  }

  /** The entries `os`, `oa` are the states whose amplitude under `f`
      reaches the limit, each once, with that amplitude. */
  ghost predicate KeepsAbove(f: Word -> Complex, os: seq<Word>, oa: seq<Complex>, lim: real)
    requires |os| == |oa|
  {
    Distinct(os)
    && (forall k | 0 <= k < |os| :: oa[k] == f(os[k]) && Prob(oa[k]) >= lim)
    && (forall w: Word | Prob(f(w)) >= lim :: w in os)
  }

  /** Pruning a vector that holds the amplitudes `f` gives to its first `u`
      states, all different, and zeros after them, keeps exactly the
      states whose amplitude reaches the limit. */
  lemma PruneMeaning(f: Word -> Complex, s: Sweep, u: nat, lim: real)
    requires |s.states| == |s.amps| && u <= |s.amps| && lim > 0.0
    requires Distinct(s.states[..u])
    requires forall q | 0 <= q < u :: s.amps[q] == f(s.states[q])
    requires forall w: Word | f(w) != Zero :: w in s.states[..u]
    requires forall q | u <= q < |s.amps| :: s.amps[q] == Zero
    ensures var ks := Survivors(s.amps, lim); KeepsAbove(f, Pick(s.states, ks), Pick(s.amps, ks), lim)
  {
    PruneZeroTail(s.states, s.amps, u, lim);
    PruneValues(f, s, u, lim);
    PruneComplete(f, s, u, lim);
  }

  /** Every kept entry holds the amplitude `f` gives its state, at or above the limit. */
  lemma PruneValues(f: Word -> Complex, s: Sweep, u: nat, lim: real)
    requires |s.states| == |s.amps| && u <= |s.amps| && lim > 0.0
    requires forall q | 0 <= q < u :: s.amps[q] == f(s.states[q])
    requires forall q | u <= q < |s.amps| :: s.amps[q] == Zero
    ensures var ks := Survivors(s.amps, lim); var os := Pick(s.states, ks); var oa := Pick(s.amps, ks);
      forall k | 0 <= k < |os| :: oa[k] == f(os[k]) && Prob(oa[k]) >= lim
  {
    SurvivorsExact(s.amps, lim);
    var ks := Survivors(s.amps, lim);
    var os := Pick(s.states, ks);
    var oa := Pick(s.amps, ks);
    forall k | 0 <= k < |os|
      ensures oa[k] == f(os[k]) && Prob(oa[k]) >= lim
    {
      assert oa[k] == s.amps[ks[k]] && os[k] == s.states[ks[k]];
      assert Prob(s.amps[ks[k]]) >= lim;
      assert ks[k] < u;
    }
  }

  /** Every state `f` gives an amplitude at or above the limit is kept. */
  lemma PruneComplete(f: Word -> Complex, s: Sweep, u: nat, lim: real)
    requires |s.states| == |s.amps| && u <= |s.amps| && lim > 0.0
    requires forall q | 0 <= q < u :: s.amps[q] == f(s.states[q])
    requires forall w: Word | f(w) != Zero :: w in s.states[..u]
    ensures forall w: Word | Prob(f(w)) >= lim :: w in Pick(s.states, Survivors(s.amps, lim))
  {
    forall w: Word | Prob(f(w)) >= lim
      ensures w in Pick(s.states, Survivors(s.amps, lim))
    {
      assert f(w) != Zero;
      var q :| 0 <= q < u && s.states[..u][q] == w;
      KeptAt(s.states, s.amps, lim, q);
    }
  }

  /** An entry at or above the limit survives the prune. */
  lemma KeptAt(states: seq<Word>, amps: seq<Complex>, lim: real, q: nat)
    requires |states| == |amps| && q < |amps| && Prob(amps[q]) >= lim
    ensures states[q] in Pick(states, Survivors(amps, lim))
  {
    SurvivorsExact(amps, lim);
    var ks := Survivors(amps, lim);
    var t :| 0 <= t < |ks| && ks[t] == q;
    assert Pick(states, ks)[t] == states[q];
  }

  /** The intended sweep followed by the prune pass. */
  lemma SweepPrune(e: Env, a0: seq<Complex>, lim: real)
    requires EnvOk(e) && e.variant == Intended && Paired(e.st, e.target, e.ps) && |a0| == |e.st| && Distinct(e.st)
    requires lim > 0.0
    ensures var s := Run(e, Start(a0, e.st, AbsentCount(e.ps)), |e.st|);
      var ks := Survivors(s.amps, lim); var os := Pick(s.states, ks); var oa := Pick(s.amps, ks);
      Distinct(os)
      && (forall k | 0 <= k < |os| :: oa[k] == Apply1(e.m, e.target, e.st, a0, os[k]) && Prob(oa[k]) >= lim)
      && (forall w: Word | Prob(Apply1(e.m, e.target, e.st, a0, w)) >= lim :: w in os)
  {
    SweepMeaning(e, a0);
    PruneSweep(e, a0, Run(e, Start(a0, e.st, AbsentCount(e.ps)), |e.st|), lim);
  }

  lemma PruneSweep(e: Env, a0: seq<Complex>, s: Sweep, lim: real)
    requires EnvOk(e) && |a0| == |e.st| && lim > 0.0
    requires |e.st| + |Grown(e, |e.st|)| <= |s.states| == |s.amps|
    requires Distinct(Used(e, s))
    requires forall q | 0 <= q < |Used(e, s)| :: s.amps[q] == Apply1(e.m, e.target, e.st, a0, s.states[q])
    requires forall w: Word | Apply1(e.m, e.target, e.st, a0, w) != Zero :: w in Used(e, s)
    requires forall q | |Used(e, s)| <= q < |s.amps| :: s.amps[q] == Zero
    ensures var ks := Survivors(s.amps, lim); var os := Pick(s.states, ks); var oa := Pick(s.amps, ks);
      Distinct(os)
      && (forall k | 0 <= k < |os| :: oa[k] == Apply1(e.m, e.target, e.st, a0, os[k]) && Prob(oa[k]) >= lim)
      && (forall w: Word | Prob(Apply1(e.m, e.target, e.st, a0, w)) >= lim :: w in os)
  {
    var f := (w: Word) => Apply1(e.m, e.target, e.st, a0, w);
    var u := |Used(e, s)|;
    assert Used(e, s) == s.states[..u];
    forall q | 0 <= q < u
      ensures s.amps[q] == f(s.states[q])
    {
    }
    forall w: Word | f(w) != Zero
      ensures w in s.states[..u]
    {
      assert Apply1(e.m, e.target, e.st, a0, w) != Zero;
    }
    PruneMeaning(f, s, u, lim);
    var os := Pick(s.states, Survivors(s.amps, lim));
    forall w: Word | Prob(Apply1(e.m, e.target, e.st, a0, w)) >= lim
      ensures w in os
    {
      assert Prob(f(w)) >= lim;
    }
  }

  /** The intended gate on a register with a table: the result's states are
      all different, each carries the amplitude the matrix gives it (row
      picked by its target bit, applied to its own and its partner's old
      amplitudes) at or above the limit, and every basis state whose
      amplitude reaches the limit is present. */
  lemma U1Correct(reg: Qreg, target: nat, m: Matrix.Matrix)
    requires Indexed(reg) && target < WordSize && Matrix.Valid(m) && m.cols == 2 && m.rows == 2
    requires 0 <= reg.width < WordSize
    ensures U1(reg, target, m).Ok?
    ensures var out := U1(reg, target, m).value; var lim := Limit(reg.width);
      Distinct(out.state.value)
      && (forall k | 0 <= k < out.Size() ::
            out.amplitude[k] == Apply1(m, target, reg.state.value, reg.amplitude, out.state.value[k])
            && Prob(out.amplitude[k]) >= lim)
      && (forall w: Word | Prob(Apply1(m, target, reg.state.value, reg.amplitude, w)) >= lim :: w in out.state.value)
  {
    var st := reg.state.value;
    assert |m.t| == 4;
    var e := Env(Intended, m, target, st, PartnerLookups(reg, target));
    assert SweepOf(Intended, reg, target, m) == Run(e, Start(reg.amplitude, st, AbsentCount(e.ps)), |st|);
    SweepPrune(e, reg.amplitude, Limit(reg.width));
  }
}

=== FILE: unitary2.dfy ===
/** The two-qubit gate `ql_qop_U2` (src/ql_qop.c:271-380) at the level of
    indices and states.

    `U2` applies a 4x4 matrix to two target qubits of a register with a
    table.  It rebuilds the index and counts the slots to add (`addsize`).
    It then walks the entries in order.  An entry not yet handled opens its
    group: the four states that agree with it outside the two targets.
    `base[j]` is the position of the member whose target bits form the
    number `j`, and a member that is absent is given the next new slot.
    Every member found is marked done, and the four amplitudes are replaced
    by the matrix applied to them.  Finally the prune pass of `U1` drops the
    entries below the limit, keeping the order of the rest.

    This module models the lookups, which slots the walk gives out and
    which states they hold, and the amplitudes the walk writes (`Walk`);
    `UnitaryTwoMix` proves what those amplitudes are.

    Three details of the code as written differ from the evident intent:
    - `addsize` counts the missing partners with one target flipped, but
      not the missing partner with both flipped, while the walk gives every
      missing member a slot, so it can write past the end of the arrays;
    - the line that would give a new slot its state is commented out, so
      every new slot keeps state 0;
    - `base[b ^ 1]` is looked up with target 2 flipped and `base[b ^ 2]`
      with target 1 flipped, although bit 0 of `b` is the target-1 bit, so
      which member meets which row of the matrix depends on the member the
      group was entered at.
 */
module UnitaryTwo {
  import opened Wrappers
  import opened Bits
  import opened Complex
  import opened HashIndex
  import opened Register
  import opened VectorAdd
  import Unitary
  import Matrix
  import Errors

  // ---------------------------------------------------------------------
  // Groups of four

  /** The low bit (target 1) and the high bit (target 2) of a two-bit number. */
  predicate Lo(j: nat)
  {
    j == 1 || j == 3
  }

  predicate Hi(j: nat)
  {
    j == 2 || j == 3
  }

  /** The two-bit number with the given low and high bits. */
  function Bits2(lo: bool, hi: bool): (j: nat)
    ensures j < 4 && Lo(j) == lo && Hi(j) == hi
  {
    (if lo then 1 else 0) + (if hi then 2 else 0)
  }

  /** `ql_bitmask(s, 2, {target1, target2})`: bit 0 is the target-1 bit and
      bit 1 the target-2 bit of `s`. */
  function Pattern(s: Word, t1: nat, t2: nat): (b: nat)
    requires t1 < WordSize && t2 < WordSize
    ensures b < 4 && Lo(b) == s[t1] && Hi(b) == s[t2]
  {
    Bits2(s[t1], s[t2])
  }

  /** `b ^ c` on two-bit numbers. */
  function Xor2(b: nat, c: nat): (x: nat)
    requires b < 4 && c < 4
    ensures x < 4 && Lo(x) == (Lo(b) != Lo(c)) && Hi(x) == (Hi(b) != Hi(c))
  {
    Bits2(Lo(b) != Lo(c), Hi(b) != Hi(c))
  }

  /** Two states agree outside the two targets: they lie in one group. */
  predicate SameGroup(a: Word, c: Word, t1: nat, t2: nat)
  {
    forall k | 0 <= k < WordSize && k != t1 && k != t2 :: a[k] == c[k]
  }

  /** The state looked up for `base[j]` in the group entered at `s`, whose
      pattern is `b` (src/ql_qop.c:321-327): `s` itself at `b`, the state
      with both targets flipped at `b ^ 3`, and the two single flips at
      `b ^ 1` and `b ^ 2`.  As written, `b ^ 1` gets target 2 flipped and
      `b ^ 2` target 1; intended, the other way round. */
  function Member(v: Unitary.Variant, s: Word, t1: nat, t2: nat, j: nat): (w: Word)
    requires t1 < WordSize && t2 < WordSize && j < 4
    ensures SameGroup(s, w, t1, t2)
  {
    var b := Pattern(s, t1, t2);
    var f1 := if v == Unitary.AsWritten then t2 else t1;
    var f2 := if v == Unitary.AsWritten then t1 else t2;
    if j == b then s
    else if j == Xor2(b, 1) then Flip(s, f1)
    else if j == Xor2(b, 2) then Flip(s, f2)
    else Flip(Flip(s, t1), t2)
  }

  /** The four states looked up for `base[0..3]`. */
  function GroupWords(v: Unitary.Variant, s: Word, t1: nat, t2: nat): (ws: seq<Word>)
    requires t1 < WordSize && t2 < WordSize
    ensures |ws| == 4 && ws[Pattern(s, t1, t2)] == s
    ensures forall j | 0 <= j < 4 :: ws[j] == Member(v, s, t1, t2, j)
  {
    seq(4, j requires 0 <= j < 4 => Member(v, s, t1, t2, j))
  }

  /** Two numbers below 4 with the same bits are equal. */
  lemma SameBits(x: nat, y: nat)
    requires x < 4 && y < 4 && Lo(x) == Lo(y) && Hi(x) == Hi(y)
    ensures x == y
  {
  }

  /** The pattern of the member looked up for `base[j]`: `j` itself, except
      that as written `b ^ 1` and `b ^ 2` hold each other's member. */
  lemma MemberPatternAny(v: Unitary.Variant, s: Word, t1: nat, t2: nat, j: nat)
    requires t1 < WordSize && t2 < WordSize && t1 != t2 && j < 4
    ensures var b := Pattern(s, t1, t2);
      Pattern(Member(v, s, t1, t2, j), t1, t2)
      == if v == Unitary.AsWritten && j == Xor2(b, 1) then Xor2(b, 2)
         else if v == Unitary.AsWritten && j == Xor2(b, 2) then Xor2(b, 1)
         else j
  {
    var b := Pattern(s, t1, t2);
    var w := Member(v, s, t1, t2, j);
    if j != b && j != Xor2(b, 1) && j != Xor2(b, 2) {
      SameBits(j, Xor2(b, 3));
    }
    if v == Unitary.AsWritten && j == Xor2(b, 1) {
      SameBits(Pattern(w, t1, t2), Xor2(b, 2));
    } else if v == Unitary.AsWritten && j == Xor2(b, 2) {
      SameBits(Pattern(w, t1, t2), Xor2(b, 1));
    } else {
      SameBits(Pattern(w, t1, t2), j);
    }
  }

  /** Intended, `base[j]` holds the member whose pattern is `j`. */
  lemma MemberPattern(s: Word, t1: nat, t2: nat, j: nat)
    requires t1 < WordSize && t2 < WordSize && t1 != t2 && j < 4
    ensures Pattern(Member(Unitary.Intended, s, t1, t2, j), t1, t2) == j
  {
    var b := Pattern(s, t1, t2);
    var w := Member(Unitary.Intended, s, t1, t2, j);
    if j != b && j != Xor2(b, 1) && j != Xor2(b, 2) {
      SameBits(j, Xor2(b, 3));
    }
    SameBits(Pattern(w, t1, t2), j);
  }

  /** Every member of the group of `s` is looked up. */
  lemma GroupCovers(v: Unitary.Variant, s: Word, w: Word, t1: nat, t2: nat)
    requires t1 < WordSize && t2 < WordSize && t1 != t2 && SameGroup(s, w, t1, t2)
    ensures w in GroupWords(v, s, t1, t2)
  {
    var ws := GroupWords(v, s, t1, t2);
    var b := Pattern(s, t1, t2);
    var x1, x2 := Xor2(b, 1), Xor2(b, 2);
    assert x1 != b && x2 != b && x1 != x2;
    if w[t1] == s[t1] && w[t2] == s[t2] {
      assert w == s;
      assert ws[b] == w;
    } else if w[t1] != s[t1] && w[t2] == s[t2] {
      assert w == Flip(s, t1);
      if v == Unitary.AsWritten {
        assert ws[x2] == w;
      } else {
        assert ws[x1] == w;
      }
    } else if w[t1] == s[t1] && w[t2] != s[t2] {
      assert w == Flip(s, t2);
      if v == Unitary.AsWritten {
        assert ws[x1] == w;
      } else {
        assert ws[x2] == w;
      }
    } else {
      var x3 := Xor2(b, 3);
      assert x3 != b && x3 != x1 && x3 != x2;
      assert w == Flip(Flip(s, t1), t2);
      assert ws[x3] == w;
    }
  }

  /** The four looked-up states differ when the targets do. */
  lemma GroupWordsDistinct(v: Unitary.Variant, s: Word, t1: nat, t2: nat)
    requires t1 < WordSize && t2 < WordSize && t1 != t2
    ensures Distinct(GroupWords(v, s, t1, t2))
  {
    var ws := GroupWords(v, s, t1, t2);
    forall x, y | 0 <= x < y < 4
      ensures ws[x] != ws[y]
    {
      MemberPatternAny(v, s, t1, t2, x);
      MemberPatternAny(v, s, t1, t2, y);
    }
  }

  /** The pattern `j` with its two bits exchanged. */
  function SwapBits(j: nat): (x: nat)
    requires j < 4
    ensures x < 4 && Lo(x) == Hi(j) && Hi(x) == Lo(j)
  {
    Bits2(Hi(j), Lo(j))
  }

  /** As written, `base[j]` holds the member whose pattern is `j` with its
      bits exchanged (target 2 as the low bit) when the group is entered at
      a state whose two target bits agree, and not otherwise: entered at a
      state with only the target-1 bit set, `base[0]` holds the member with
      both target bits set. */
  lemma GroupPatternsAsWritten(s: Word, t1: nat, t2: nat)
    requires t1 < WordSize && t2 < WordSize && t1 != t2
    ensures (forall j | 0 <= j < 4 :: Pattern(GroupWords(Unitary.AsWritten, s, t1, t2)[j], t1, t2) == SwapBits(j))
            <==> s[t1] == s[t2]
    ensures s[t1] && !s[t2] ==> Pattern(GroupWords(Unitary.AsWritten, s, t1, t2)[0], t1, t2) == 3
  {
    var ws := GroupWords(Unitary.AsWritten, s, t1, t2);
    var b := Pattern(s, t1, t2);
    forall j | 0 <= j < 4
      ensures Pattern(ws[j], t1, t2)
              == if j == Xor2(b, 1) then Xor2(b, 2) else if j == Xor2(b, 2) then Xor2(b, 1) else j
    {
      MemberPatternAny(Unitary.AsWritten, s, t1, t2, j);
    }
    if s[t1] == s[t2] {
      forall j | 0 <= j < 4
        ensures Pattern(ws[j], t1, t2) == SwapBits(j)
      {
        if j == Xor2(b, 1) {
          SameBits(Xor2(b, 2), SwapBits(j));
        } else if j == Xor2(b, 2) {
          SameBits(Xor2(b, 1), SwapBits(j));
        } else {
          SameBits(j, SwapBits(j));
        }
      }
    } else {
      assert Pattern(ws[b], t1, t2) == b != SwapBits(b);
    }
  }

  // ---------------------------------------------------------------------
  // The walk over the entries (src/ql_qop.c:315-351)

  /** `ql_qreg_get_state(reg, w)` against the rebuilt table. */
  function Find(reg: Qreg, w: Word): (l: Lookup)
    requires Indexed(reg)
    ensures l.Index? <==> w in reg.state.value
    ensures l.Absent? <==> w !in reg.state.value
    ensures l.Index? ==> 0 <= l.i < reg.Size() && reg.state.value[l.i] == w
  {
    RebuiltLookup(reg, w);
    GetState(reg.hashw, Unitary.Rebuilt(reg), reg.state.value, w)
  }

  /** `base[0..3]` before any new slot is given out: entry `i` at its own
      pattern, and the table's answer for the three other members. */
  function Bases(v: Unitary.Variant, reg: Qreg, t1: nat, t2: nat, i: nat): (bs: seq<Lookup>)
    requires Indexed(reg) && t1 < WordSize && t2 < WordSize && i < reg.Size()
    ensures |bs| == 4
    ensures forall j | 0 <= j < 4 ::
              (bs[j].Absent? <==> Member(v, reg.state.value[i], t1, t2, j) !in reg.state.value)
              && (bs[j].Index? ==> 0 <= bs[j].i < reg.Size()
                                   && reg.state.value[bs[j].i] == Member(v, reg.state.value[i], t1, t2, j))
  {
    var s := reg.state.value[i];
    var b := Pattern(s, t1, t2);
    seq(4, j requires 0 <= j < 4 => if j == b then Index(i) else Find(reg, Member(v, s, t1, t2, j)))
  }

  /** The states of the members from `base[j]` on that get new slots, in
      order (`base[j] = l; l++` for every `base[j] == -1`). */
  function Claimed(ws: seq<Word>, bs: seq<Lookup>, j: nat): (cs: seq<Word>)
    requires |ws| == |bs| && j <= |ws|
    ensures |cs| == Unitary.AbsentCount(bs[j..])
    decreases |ws| - j
  {
    if j == |ws| then []
    else
      Unitary.AbsentStep(bs, j);
      (if bs[j].Absent? then [ws[j]] else []) + Claimed(ws, bs, j + 1)
  }

  /** `c` is a member from `base[j]` on whose lookup came back empty. */
  ghost predicate AbsentFrom(ws: seq<Word>, bs: seq<Lookup>, j: nat, c: Word)
    requires |ws| == |bs|
  {
    exists k | j <= k < |ws| :: c == ws[k] && bs[k].Absent?
  }

  /** Every claimed state is a member whose lookup came back empty. */
  lemma {:induction false} ClaimedAbsent(ws: seq<Word>, bs: seq<Lookup>, j: nat)
    requires |ws| == |bs| && j <= |ws|
    ensures forall t | 0 <= t < |Claimed(ws, bs, j)| :: AbsentFrom(ws, bs, j, Claimed(ws, bs, j)[t])
    decreases |ws| - j
  {
    if j < |ws| {
      var rest := Claimed(ws, bs, j + 1);
      var cs := Claimed(ws, bs, j);
      ClaimedAbsent(ws, bs, j + 1);
      forall t | 0 <= t < |cs|
        ensures AbsentFrom(ws, bs, j, cs[t])
      {
        if bs[j].Absent? && t == 0 {
          assert cs[t] == ws[j];
        } else {
          var u := if bs[j].Absent? then t - 1 else t;
          assert AbsentFrom(ws, bs, j + 1, rest[u]);
          var k :| j + 1 <= k < |ws| && rest[u] == ws[k] && bs[k].Absent?;
          assert cs[t] == ws[k];
        }
      }
    } else {
      assert Claimed(ws, bs, j) == [];
    }
  }

  /** Different states give different claimed states. */
  lemma {:induction false} ClaimedDistinct(ws: seq<Word>, bs: seq<Lookup>, j: nat)
    requires |ws| == |bs| && j <= |ws| && Distinct(ws)
    ensures Distinct(Claimed(ws, bs, j))
    decreases |ws| - j
  {
    if j < |ws| {
      var rest := Claimed(ws, bs, j + 1);
      ClaimedDistinct(ws, bs, j + 1);
      forall t | 0 <= t < |rest|
        ensures rest[t] != ws[j]
      {
        ClaimedAbsent(ws, bs, j + 1);
        assert AbsentFrom(ws, bs, j + 1, rest[t]);
        var k :| j + 1 <= k < |ws| && rest[t] == ws[k] && bs[k].Absent?;
      }
    }
  }

  /** The walk so far: `done[]` over the old entries, the states of the
      new slots given out, in order (slot `size + t` for `slots[t]`), and
      the amplitudes of the old entries followed by those of the slots. */
  datatype Walk = Walk(done: seq<bool>, slots: seq<Word>, amps: seq<Complex>)

  /** For every entry, the four lookups `bss[i]` of its group, each an
      entry or absent, and the four looked-up states `wss[i]`. */
  predicate Shaped(bss: seq<seq<Lookup>>, wss: seq<seq<Word>>)
  {
    |bss| == |wss|
    && forall i | 0 <= i < |bss| ::
         |bss[i]| == 4 && |wss[i]| == 4
         && forall k | 0 <= k < 4 :: bss[i][k].Absent? || (bss[i][k].Index? && 0 <= bss[i][k].i < |bss|)
  }

  /** The matrix is 4x4, so `M(m, k, j)` exists for `k, j < 4`. */
  predicate Square4(m: Matrix.Matrix)
  {
    Matrix.Valid(m) && m.cols == 4 && m.rows == 4
  }

  /** Every lookup is absent or found at a position. */
  predicate Placeable(bs: seq<Lookup>)
  {
    forall k | 0 <= k < |bs| :: bs[k].Absent? || (bs[k].Index? && 0 <= bs[k].i)
  }

  /** `base[j..3]` once the absent members get the slots from `l` on
      (src/ql_qop.c:329-334). */
  function Placed(bs: seq<Lookup>, l: nat, j: nat): (ps: seq<nat>)
    requires j <= |bs| && Placeable(bs)
    ensures |ps| == |bs| - j
    decreases |bs| - j
  {
    if j == |bs| then []
    else if bs[j].Index? then [bs[j].i as nat] + Placed(bs, l, j + 1)
    else [l] + Placed(bs, l + 1, j + 1)
  }

  /** A found member keeps its entry; an absent one gets a slot from `l`
      on, one per absent member. */
  lemma {:induction false} PlacedBound(bs: seq<Lookup>, l: nat, j: nat)
    requires j <= |bs| && Placeable(bs)
    ensures forall d | 0 <= d < |bs| - j ::
              (bs[j + d].Index? ==> Placed(bs, l, j)[d] == bs[j + d].i)
              && (bs[j + d].Absent? ==> l <= Placed(bs, l, j)[d] < l + Unitary.AbsentCount(bs[j..]))
    decreases |bs| - j
  {
    if j < |bs| {
      Unitary.AbsentStep(bs, j);
      var l' := if bs[j].Index? then l else l + 1;
      PlacedBound(bs, l', j + 1);
      var rest := Placed(bs, l', j + 1);
      assert Placed(bs, l, j) == [Placed(bs, l, j)[0]] + rest;
    }
  }

  /** `reg->amplitude[base[j]] = 0` followed by `+= M(m, k, j) * psi_sub[k]`
      for the first `k` columns: row `j` of the matrix against `psi`. */
  function Dot(m: Matrix.Matrix, j: nat, psi: seq<Complex>, k: nat): Complex
    requires Square4(m) && j < 4 && k <= 4 && |psi| == 4
  {
    if k == 0 then Zero else Add(Dot(m, j, psi, k - 1), Mul(Matrix.At(m, k - 1, j), psi[k - 1]))
  }

  /** The write loop from `j` on (src/ql_qop.c:338-345): position
      `ps[j]` receives row `j` of the matrix against the saved amplitudes. */
  function Mix(amps: seq<Complex>, ps: seq<nat>, psi: seq<Complex>, m: Matrix.Matrix, j: nat): (r: seq<Complex>)
    requires Square4(m) && |ps| == 4 && |psi| == 4 && j <= 4
    requires forall k | 0 <= k < 4 :: ps[k] < |amps|
    ensures |r| == |amps|
    decreases 4 - j
  {
    if j == 4 then amps else Mix(amps[ps[j] := Dot(m, j, psi, 4)], ps, psi, m, j + 1)
  }

  /** The amplitudes with `c` new slots of amplitude 0 after them
      (src/ql_qop.c:297-300). */
  function Grow(amps: seq<Complex>, c: nat): (r: seq<Complex>)
    ensures |r| == |amps| + c
    ensures forall p | 0 <= p < |amps| :: r[p] == amps[p]
    ensures forall p | |amps| <= p < |r| :: r[p] == Zero
  {
    amps + seq(c, _ => Zero)
  }

  /** `psi_sub[j] = reg->amplitude[base[j]]`. */
  function Saved(amps: seq<Complex>, ps: seq<nat>): (psi: seq<Complex>)
    requires |ps| == 4 && forall k | 0 <= k < 4 :: ps[k] < |amps|
    ensures |psi| == 4 && forall k | 0 <= k < 4 :: psi[k] == amps[ps[k]]
  {
    seq(4, j requires 0 <= j < 4 => amps[ps[j]])
  }

  /** The positions of a group lie inside the grown arrays. */
  lemma PlacedInside(bss: seq<seq<Lookup>>, wss: seq<seq<Word>>, i: nat, l: nat)
    requires Shaped(bss, wss) && i < |bss| && |bss| <= l
    ensures forall k | 0 <= k < 4 :: Placed(bss[i], l, 0)[k] < l + |Claimed(wss[i], bss[i], 0)|
  {
    assert bss[i][0..] == bss[i];
    PlacedBound(bss[i], l, 0);
    forall k | 0 <= k < 4
      ensures Placed(bss[i], l, 0)[k] < l + |Claimed(wss[i], bss[i], 0)|
    {
      assert bss[i][0 + k] == bss[i][k];
      assert bss[i][k].Absent? || bss[i][k].i < |bss|;
    }
  }

  /** One pass of the loop body for entry `i` (src/ql_qop.c:317-350):
      skipped when done; otherwise the absent members get new slots, which
      hold amplitude 0, the four amplitudes at `base[]` are saved and
      replaced by the matrix applied to them, and every member found is
      marked done. */
  function Visit(bss: seq<seq<Lookup>>, wss: seq<seq<Word>>, m: Matrix.Matrix, w: Walk, i: nat): (r: Walk)
    requires Shaped(bss, wss) && Square4(m) && i < |bss|
    requires |w.done| == |bss| && |w.amps| == |bss| + |w.slots|
    ensures |r.done| == |bss| && |r.amps| == |bss| + |r.slots|
  {
    if w.done[i] then w
    else
      var cs := Claimed(wss[i], bss[i], 0);
      var ps := Placed(bss[i], |w.amps|, 0);
      var grown := Grow(w.amps, |cs|);
      PlacedInside(bss, wss, i, |w.amps|);
      Walk(seq(|bss|, q requires 0 <= q < |bss| => w.done[q] || Index(q) in bss[i]),
           w.slots + cs, Mix(grown, ps, Saved(grown, ps), m, 0))
  }

  /** The walk over the first `n` entries, from the old amplitudes `a0`. */
  function WalkTo(bss: seq<seq<Lookup>>, wss: seq<seq<Word>>, m: Matrix.Matrix, a0: seq<Complex>, n: nat): (r: Walk)
    requires Shaped(bss, wss) && Square4(m) && |a0| == |bss| && n <= |bss|
    ensures |r.done| == |bss| && |r.amps| == |bss| + |r.slots|
  {
    if n == 0 then Walk(seq(|bss|, _ => false), [], a0)
    else Visit(bss, wss, m, WalkTo(bss, wss, m, a0, n - 1), n - 1)
  }

  /** The walk to `n = i + 1` is the walk to `i` followed by a visit to entry `i`. */
  lemma WalkToStep(bss: seq<seq<Lookup>>, wss: seq<seq<Word>>, m: Matrix.Matrix, a0: seq<Complex>, i: nat, n: nat)
    requires Shaped(bss, wss) && Square4(m) && |a0| == |bss| && n == i + 1 && n <= |bss|
    ensures WalkTo(bss, wss, m, a0, n) == Visit(bss, wss, m, WalkTo(bss, wss, m, a0, i), i)
  {
    var w := WalkTo(bss, wss, m, a0, i);
    assert WalkTo(bss, wss, m, a0, i + 1) == Visit(bss, wss, m, w, i);
  }

  /** The lookups of every entry's group against the rebuilt table. */
  function AllBases(v: Unitary.Variant, reg: Qreg, t1: nat, t2: nat): (bss: seq<seq<Lookup>>)
    requires Indexed(reg) && t1 < WordSize && t2 < WordSize
    ensures |bss| == reg.Size() && forall i | 0 <= i < |bss| :: bss[i] == Bases(v, reg, t1, t2, i)
  {
    seq(reg.Size(), i requires 0 <= i < reg.Size() => Bases(v, reg, t1, t2, i))
  }

  /** The looked-up states of every entry's group. */
  function AllGroups(v: Unitary.Variant, st: seq<Word>, t1: nat, t2: nat): (wss: seq<seq<Word>>)
    requires t1 < WordSize && t2 < WordSize
    ensures |wss| == |st| && forall i | 0 <= i < |wss| :: wss[i] == GroupWords(v, st[i], t1, t2)
  {
    seq(|st|, i requires 0 <= i < |st| => GroupWords(v, st[i], t1, t2))
  }

  /** The lookups and looked-up states of a register have the walk's shape. */
  lemma AllShaped(v: Unitary.Variant, reg: Qreg, t1: nat, t2: nat)
    requires Indexed(reg) && t1 < WordSize && t2 < WordSize
    ensures Shaped(AllBases(v, reg, t1, t2), AllGroups(v, reg.state.value, t1, t2))
  {
  }

  /** The whole walk over a register with a table. */
  function WalkOf(v: Unitary.Variant, reg: Qreg, t1: nat, t2: nat, m: Matrix.Matrix): (r: Walk)
    requires Indexed(reg) && t1 < WordSize && t2 < WordSize && Square4(m)
    ensures |r.amps| == reg.Size() + |r.slots|
  {
    var bss := AllBases(v, reg, t1, t2);
    WalkTo(bss, AllGroups(v, reg.state.value, t1, t2), m, reg.amplitude, |bss|)
  }

  /** The states of the slots the whole walk gives out. */
  function Slots(v: Unitary.Variant, reg: Qreg, t1: nat, t2: nat, m: Matrix.Matrix): (cs: seq<Word>)
    requires Indexed(reg) && t1 < WordSize && t2 < WordSize && Square4(m)
  {
    WalkOf(v, reg, t1, t2, m).slots
  }

  // ---------------------------------------------------------------------
  // How many slots are added

  /** 1 when the table does not hold `w` (`get_state(...) == -1`). */
  function Miss(reg: Qreg, w: Word): (c: nat)
    requires Indexed(reg)
    ensures c == (if w in reg.state.value then 0 else 1)
  {
    if Find(reg, w).Absent? then 1 else 0
  }

  /** `addsize` over the first `n` entries as written (src/ql_qop.c:280-288):
      the missing partners with target 1 flipped plus those with target 2
      flipped. */
  function AddSizeAsWritten(reg: Qreg, t1: nat, t2: nat, n: nat): nat
    requires Indexed(reg) && t1 < WordSize && t2 < WordSize && n <= reg.Size()
  {
    if n == 0 then 0
    else
      var s := reg.state.value[n - 1];
      AddSizeAsWritten(reg, t1, t2, n - 1) + Miss(reg, Flip(s, t1)) + Miss(reg, Flip(s, t2))
  }

  /** `addsize` as intended over the first `n` entries: the partner with
      both targets flipped counted too. */
  function AddSize(reg: Qreg, t1: nat, t2: nat, n: nat): nat
    requires Indexed(reg) && t1 < WordSize && t2 < WordSize && n <= reg.Size()
  {
    SumTo(MissCounts(reg, t1, t2), n)
  }

  /** A visited group gives out one slot per missing partner of the entry
      it was entered at. */
  lemma BasesAbsent(v: Unitary.Variant, reg: Qreg, t1: nat, t2: nat, i: nat)
    requires Indexed(reg) && t1 < WordSize && t2 < WordSize && i < reg.Size()
    ensures Unitary.AbsentCount(Bases(v, reg, t1, t2, i))
            == Miss(reg, Flip(reg.state.value[i], t1)) + Miss(reg, Flip(reg.state.value[i], t2))
               + Miss(reg, Flip(Flip(reg.state.value[i], t1), t2))
  {
    var s := reg.state.value[i];
    BasesMiss(v, reg, t1, t2, i);
    MembersMiss(v, reg, s, t1, t2);
  }

  /** The absent count of a group's lookups, member by member. */
  lemma BasesMiss(v: Unitary.Variant, reg: Qreg, t1: nat, t2: nat, i: nat)
    requires Indexed(reg) && t1 < WordSize && t2 < WordSize && i < reg.Size()
    ensures Unitary.AbsentCount(Bases(v, reg, t1, t2, i))
            == Miss(reg, Member(v, reg.state.value[i], t1, t2, 0)) + Miss(reg, Member(v, reg.state.value[i], t1, t2, 1))
               + Miss(reg, Member(v, reg.state.value[i], t1, t2, 2)) + Miss(reg, Member(v, reg.state.value[i], t1, t2, 3))
  {
    var bs := Bases(v, reg, t1, t2, i);
    AbsentFour(bs);
    forall j | 0 <= j < 4
      ensures (if bs[j].Absent? then 1 else 0) == Miss(reg, Member(v, reg.state.value[i], t1, t2, j))
    {
    }
  }

  /** The four members of a held state's group miss exactly the partners
      with one or both targets flipped that the table lacks. */
  lemma MembersMiss(v: Unitary.Variant, reg: Qreg, s: Word, t1: nat, t2: nat)
    requires Indexed(reg) && t1 < WordSize && t2 < WordSize && s in reg.state.value
    ensures Miss(reg, Member(v, s, t1, t2, 0)) + Miss(reg, Member(v, s, t1, t2, 1))
            + Miss(reg, Member(v, s, t1, t2, 2)) + Miss(reg, Member(v, s, t1, t2, 3))
            == Miss(reg, Flip(s, t1)) + Miss(reg, Flip(s, t2)) + Miss(reg, Flip(Flip(s, t1), t2))
  {
    var b := Pattern(s, t1, t2);
    assert Miss(reg, s) == 0;
    if b == 0 {
      assert Xor2(b, 1) == 1 && Xor2(b, 2) == 2;
    } else if b == 1 {
      assert Xor2(b, 1) == 0 && Xor2(b, 2) == 3;
    } else if b == 2 {
      assert Xor2(b, 1) == 3 && Xor2(b, 2) == 0;
    } else {
      assert Xor2(b, 1) == 2 && Xor2(b, 2) == 1;
    }
  }

  /** The absent count of four lookups, one by one. */
  lemma AbsentFour(bs: seq<Lookup>)
    requires |bs| == 4
    ensures Unitary.AbsentCount(bs)
            == (if bs[0].Absent? then 1 else 0) + (if bs[1].Absent? then 1 else 0)
               + (if bs[2].Absent? then 1 else 0) + (if bs[3].Absent? then 1 else 0)
  {
    assert bs[1..][0] == bs[1] && bs[1..][1..] == bs[2..];
    assert bs[2..][0] == bs[2] && bs[2..][1..] == bs[3..];
    assert bs[3..][0] == bs[3] && bs[3..][1..] == [];
    assert Unitary.AbsentCount(bs[3..]) == (if bs[3].Absent? then 1 else 0);
    assert Unitary.AbsentCount(bs[2..]) == (if bs[2].Absent? then 1 else 0) + Unitary.AbsentCount(bs[3..]);
    assert Unitary.AbsentCount(bs[1..]) == (if bs[1].Absent? then 1 else 0) + Unitary.AbsentCount(bs[2..]);
  }

  /** The slots the entries before `n` could ask for: every absent lookup. */
  function Asked(bss: seq<seq<Lookup>>, n: nat): nat
    requires n <= |bss|
  {
    if n == 0 then 0 else Asked(bss, n - 1) + Unitary.AbsentCount(bss[n - 1])
  }

  /** The walk gives out at most the slots asked for. */
  lemma {:induction false} WalkAsked(bss: seq<seq<Lookup>>, wss: seq<seq<Word>>, m: Matrix.Matrix, a0: seq<Complex>, n: nat)
    requires Shaped(bss, wss) && Square4(m) && |a0| == |bss| && n <= |bss|
    ensures |WalkTo(bss, wss, m, a0, n).slots| <= Asked(bss, n)
  {
    if n > 0 {
      WalkAsked(bss, wss, m, a0, n - 1);
      assert bss[n - 1][0..] == bss[n - 1];
    }
  }

  /** The slots asked for against the rebuilt table are the intended `addsize`. */
  lemma AskedIsAddSize(v: Unitary.Variant, reg: Qreg, t1: nat, t2: nat, n: nat)
    requires Indexed(reg) && t1 < WordSize && t2 < WordSize && n <= reg.Size()
    ensures Asked(AllBases(v, reg, t1, t2), n) == AddSize(reg, t1, t2, n)
  {
    var bss := AllBases(v, reg, t1, t2);
    var xs := MissCounts(reg, t1, t2);
    forall i | 0 <= i < |bss|
      ensures Unitary.AbsentCount(bss[i]) == xs[i]
    {
      EntryAsked(v, reg, t1, t2, i);
    }
    AskedSum(bss, xs, n);
  }

  /** The missing partners of every entry. */
  function MissCounts(reg: Qreg, t1: nat, t2: nat): (xs: seq<nat>)
    requires Indexed(reg) && t1 < WordSize && t2 < WordSize
    ensures |xs| == reg.Size()
    ensures forall i {:trigger xs[i]} | 0 <= i < reg.Size() ::
              xs[i] == Miss(reg, Flip(reg.state.value[i], t1)) + Miss(reg, Flip(reg.state.value[i], t2))
                       + Miss(reg, Flip(Flip(reg.state.value[i], t1), t2))
  {
    var st := reg.state.value;
    seq(|st|, i requires 0 <= i < |st| => Miss(reg, Flip(st[i], t1)) + Miss(reg, Flip(st[i], t2)) + Miss(reg, Flip(Flip(st[i], t1), t2)))
  }

  /** The sum of the first `n` counts. */
  function SumTo(xs: seq<nat>, n: nat): nat
    requires n <= |xs|
  {
    if n == 0 then 0 else SumTo(xs, n - 1) + xs[n - 1]
  }

  /** Slots asked for, as a sum of per-entry counts. */
  lemma {:induction false} AskedSum(bss: seq<seq<Lookup>>, xs: seq<nat>, n: nat)
    requires |xs| == |bss| && n <= |bss|
    requires forall i | 0 <= i < |bss| :: Unitary.AbsentCount(bss[i]) == xs[i]
    ensures Asked(bss, n) == SumTo(xs, n)
  {
    if n > 0 {
      AskedSum(bss, xs, n - 1);
    }
  }

  /** Entry `i`'s lookups in the rebuilt table miss its absent partners. */
  lemma EntryAsked(v: Unitary.Variant, reg: Qreg, t1: nat, t2: nat, i: nat)
    requires Indexed(reg) && t1 < WordSize && t2 < WordSize && i < reg.Size()
    ensures Unitary.AbsentCount(AllBases(v, reg, t1, t2)[i]) == MissCounts(reg, t1, t2)[i]
  {
    BasesAbsent(v, reg, t1, t2, i);
  }

  /** Whatever the variant, the walk gives out at most the intended
      `addsize` slots: one per missing partner of each group's first entry. */
  lemma ClaimBound(v: Unitary.Variant, reg: Qreg, t1: nat, t2: nat, m: Matrix.Matrix)
    requires Indexed(reg) && t1 < WordSize && t2 < WordSize && Square4(m)
    ensures |Slots(v, reg, t1, t2, m)| <= AddSize(reg, t1, t2, reg.Size())
  {
    var bss := AllBases(v, reg, t1, t2);
    WalkAsked(bss, AllGroups(v, reg.state.value, t1, t2), m, reg.amplitude, |bss|);
    AskedIsAddSize(v, reg, t1, t2, reg.Size());
  }

  /** The walk over a single entry gives out one slot per absent lookup. */
  lemma WalkOne(bss: seq<seq<Lookup>>, wss: seq<seq<Word>>, m: Matrix.Matrix, a0: seq<Complex>)
    requires Shaped(bss, wss) && Square4(m) && |a0| == |bss| && |bss| >= 1
    ensures |WalkTo(bss, wss, m, a0, 1).slots| == Unitary.AbsentCount(bss[0])
  {
    assert !WalkTo(bss, wss, m, a0, 0).done[0];
    assert bss[0][0..] == bss[0];
  }

  /** As written, `addsize` can fall short of the slots the walk gives out:
      for a register holding one state, it counts 2 slots, and the walk
      gives out 3, the third one past the end of the arrays. */
  lemma OverflowAsWritten(reg: Qreg, t1: nat, t2: nat, m: Matrix.Matrix)
    requires Indexed(reg) && t1 < WordSize && t2 < WordSize && t1 != t2 && Square4(m) && reg.Size() == 1
    ensures AddSizeAsWritten(reg, t1, t2, reg.Size()) == 2
    ensures |Slots(Unitary.AsWritten, reg, t1, t2, m)| == 3
  {
    AddSizeOne(reg, t1, t2);
    SlotsOne(reg, t1, t2, m);
  }

  /** For a register holding one state, all three partners of that state
      are missing. */
  lemma MissOne(reg: Qreg, t1: nat, t2: nat)
    requires Indexed(reg) && t1 < WordSize && t2 < WordSize && t1 != t2 && reg.Size() == 1
    ensures var s := reg.state.value[0];
      && Miss(reg, Flip(s, t1)) == 1 && Miss(reg, Flip(s, t2)) == 1 && Miss(reg, Flip(Flip(s, t1), t2)) == 1
  {
    var s := reg.state.value[0];
    var f1, f2, f3 := Flip(s, t1), Flip(s, t2), Flip(Flip(s, t1), t2);
    assert reg.state.value == [s];
    assert f1[t1] != s[t1] && f2[t2] != s[t2] && f3[t1] != s[t1];
  }

  /** For a register holding one state, `addsize` as written counts two of
      its three missing partners. */
  lemma AddSizeOne(reg: Qreg, t1: nat, t2: nat)
    requires Indexed(reg) && t1 < WordSize && t2 < WordSize && t1 != t2 && reg.Size() == 1
    ensures AddSizeAsWritten(reg, t1, t2, reg.Size()) == 2
  {
    var s := reg.state.value[0];
    MissOne(reg, t1, t2);
    assert AddSizeAsWritten(reg, t1, t2, 1) == AddSizeAsWritten(reg, t1, t2, 0) + Miss(reg, Flip(s, t1)) + Miss(reg, Flip(s, t2));
  }

  /** For a register holding one state, the walk gives out three slots. */
  lemma SlotsOne(reg: Qreg, t1: nat, t2: nat, m: Matrix.Matrix)
    requires Indexed(reg) && t1 < WordSize && t2 < WordSize && t1 != t2 && Square4(m) && reg.Size() == 1
    ensures |Slots(Unitary.AsWritten, reg, t1, t2, m)| == 3
  {
    var bss := AllBases(Unitary.AsWritten, reg, t1, t2);
    var wss := AllGroups(Unitary.AsWritten, reg.state.value, t1, t2);
    AllShaped(Unitary.AsWritten, reg, t1, t2);
    calc {
      |Slots(Unitary.AsWritten, reg, t1, t2, m)|;
      |WalkTo(bss, wss, m, reg.amplitude, 1).slots|;
      { WalkOne(bss, wss, m, reg.amplitude); }
      Unitary.AbsentCount(Bases(Unitary.AsWritten, reg, t1, t2, 0));
      { BasesAbsent(Unitary.AsWritten, reg, t1, t2, 0); MissOne(reg, t1, t2); }
      3;
    }
  }

  // ---------------------------------------------------------------------
  // The new slots are new, different states

  /** Some entry before `i` lies in the group of `w`. */
  predicate Covered(st: seq<Word>, i: nat, w: Word, t1: nat, t2: nat)
    requires i <= |st|
  {
    i > 0 && (SameGroup(st[i - 1], w, t1, t2) || Covered(st, i - 1, w, t1, t2))
  }

  /** A group is covered as a whole. */
  lemma {:induction false} CoveredGroup(st: seq<Word>, i: nat, a: Word, w: Word, t1: nat, t2: nat)
    requires i <= |st| && Covered(st, i, a, t1, t2) && SameGroup(a, w, t1, t2)
    ensures Covered(st, i, w, t1, t2)
  {
    if !SameGroup(st[i - 1], a, t1, t2) {
      CoveredGroup(st, i - 1, a, w, t1, t2);
    }
  }

  /** What the walk needs of its inputs: the lookups of entry `i` find
      exactly the old entries in its group; an absent lookup stands for a
      state in that group that the register does not hold; and the four
      looked-up states differ. */
  ghost predicate Sound(st: seq<Word>, t1: nat, t2: nat, bss: seq<seq<Lookup>>, wss: seq<seq<Word>>)
  {
    Shaped(bss, wss) && |bss| == |st|
    && (forall i, q | 0 <= i < |st| && 0 <= q < |st| :: Index(q) in bss[i] <==> SameGroup(st[i], st[q], t1, t2))
    && (forall i, k | 0 <= i < |st| && 0 <= k < |bss[i]| && bss[i][k].Absent? ::
          wss[i][k] !in st && SameGroup(st[i], wss[i][k], t1, t2))
    && (forall i | 0 <= i < |st| :: Distinct(wss[i]))
  }

  /** The members found by the lookups of entry `i` are exactly the old
      entries in its group. */
  lemma BasesFind(v: Unitary.Variant, reg: Qreg, t1: nat, t2: nat, i: nat, q: nat)
    requires Indexed(reg) && t1 < WordSize && t2 < WordSize && t1 != t2 && i < reg.Size() && q < reg.Size()
    ensures Index(q) in Bases(v, reg, t1, t2, i) <==> SameGroup(reg.state.value[i], reg.state.value[q], t1, t2)
  {
    var st := reg.state.value;
    var bs := Bases(v, reg, t1, t2, i);
    var ws := GroupWords(v, st[i], t1, t2);
    if Index(q) in bs {
      var j :| 0 <= j < 4 && bs[j] == Index(q);
      assert st[q] == Member(v, st[i], t1, t2, j);
    }
    if SameGroup(st[i], st[q], t1, t2) {
      GroupCovers(v, st[i], st[q], t1, t2);
      var j :| 0 <= j < 4 && ws[j] == st[q];
      assert bs[j].Index? && st[bs[j].i] == st[q];
      assert bs[j] == Index(q);
    }
  }

  /** The lookups against the rebuilt table are sound. */
  lemma AllSound(v: Unitary.Variant, reg: Qreg, t1: nat, t2: nat)
    requires Indexed(reg) && t1 < WordSize && t2 < WordSize && t1 != t2
    ensures Sound(reg.state.value, t1, t2, AllBases(v, reg, t1, t2), AllGroups(v, reg.state.value, t1, t2))
  {
    var st := reg.state.value;
    var bss := AllBases(v, reg, t1, t2);
    var wss := AllGroups(v, st, t1, t2);
    forall i, q | 0 <= i < |st| && 0 <= q < |st|
      ensures Index(q) in bss[i] <==> SameGroup(st[i], st[q], t1, t2)
    {
      BasesFind(v, reg, t1, t2, i, q);
    }
    forall i: int, k: int | 0 <= i < |st| && 0 <= k < |bss[i]| && bss[i][k] == Absent
      ensures wss[i][k] !in st && SameGroup(st[i], wss[i][k], t1, t2)
    {
      assert wss[i][k] == Member(v, st[i], t1, t2, k);
    }
    forall i | 0 <= i < |st|
      ensures Distinct(wss[i])
    {
      GroupWordsDistinct(v, st[i], t1, t2);
    }
  }

  /** After the first `i` entries: an old entry is done exactly when its
      group has been visited, and the slots given out hold different states
      that the register does not hold, each in a visited group. */
  ghost predicate WalkInv(st: seq<Word>, t1: nat, t2: nat, i: nat, w: Walk)
    requires i <= |st|
  {
    |w.done| == |st|
    && (forall q | 0 <= q < |st| :: w.done[q] == Covered(st, i, st[q], t1, t2))
    && Distinct(w.slots)
    && (forall t | 0 <= t < |w.slots| :: w.slots[t] !in st && Covered(st, i, w.slots[t], t1, t2))
  }

  /** Two sequences of different states with no state in common. */
  lemma DistinctConcat(a: seq<Word>, b: seq<Word>)
    requires Distinct(a) && Distinct(b) && forall x, y | 0 <= x < |a| && 0 <= y < |b| :: a[x] != b[y]
    ensures Distinct(a + b)
  {
    forall x, y | 0 <= x < y < |a + b|
      ensures (a + b)[x] != (a + b)[y]
    {
      if y < |a| {
        assert (a + b)[x] == a[x] && (a + b)[y] == a[y];
      } else if x < |a| {
        assert (a + b)[x] == a[x] && (a + b)[y] == b[y - |a|];
      } else {
        assert (a + b)[x] == b[x - |a|] && (a + b)[y] == b[y - |a|];
      }
    }
  }

  /** The slots an unvisited group gives out are new states outside every
      visited group. */
  lemma VisitClaims(st: seq<Word>, t1: nat, t2: nat, bss: seq<seq<Lookup>>, wss: seq<seq<Word>>, i: nat)
    requires Sound(st, t1, t2, bss, wss) && i < |st| && !Covered(st, i, st[i], t1, t2)
    ensures Distinct(Claimed(wss[i], bss[i], 0))
    ensures forall t | 0 <= t < |Claimed(wss[i], bss[i], 0)| ::
              Claimed(wss[i], bss[i], 0)[t] !in st && !Covered(st, i, Claimed(wss[i], bss[i], 0)[t], t1, t2)
              && Covered(st, i + 1, Claimed(wss[i], bss[i], 0)[t], t1, t2)
  {
    var cs := Claimed(wss[i], bss[i], 0);
    ClaimedDistinct(wss[i], bss[i], 0);
    ClaimedAbsent(wss[i], bss[i], 0);
    forall t | 0 <= t < |cs|
      ensures cs[t] !in st && !Covered(st, i, cs[t], t1, t2) && Covered(st, i + 1, cs[t], t1, t2)
    {
      assert AbsentFrom(wss[i], bss[i], 0, cs[t]);
      var k :| 0 <= k < |wss[i]| && cs[t] == wss[i][k] && bss[i][k].Absent?;
      if Covered(st, i, cs[t], t1, t2) {
        CoveredGroup(st, i, cs[t], st[i], t1, t2);
      }
    }
  }

  /** One pass of the loop keeps the invariant. */
  lemma VisitInv(st: seq<Word>, t1: nat, t2: nat, bss: seq<seq<Lookup>>, wss: seq<seq<Word>>, m: Matrix.Matrix, w: Walk, i: nat)
    requires Sound(st, t1, t2, bss, wss) && Square4(m) && i < |st| && |w.amps| == |st| + |w.slots| && WalkInv(st, t1, t2, i, w)
    ensures WalkInv(st, t1, t2, i + 1, Visit(bss, wss, m, w, i))
  {
    var r := Visit(bss, wss, m, w, i);
    if w.done[i] {
      forall q | 0 <= q < |st|
        ensures r.done[q] == Covered(st, i + 1, st[q], t1, t2)
      {
        if SameGroup(st[i], st[q], t1, t2) {
          CoveredGroup(st, i, st[i], st[q], t1, t2);
        }
      }
    } else {
      var cs := Claimed(wss[i], bss[i], 0);
      assert forall q | 0 <= q < |st| :: r.done[q] == Covered(st, i + 1, st[q], t1, t2);
      VisitClaims(st, t1, t2, bss, wss, i);
      DistinctConcat(w.slots, cs);
      assert r.slots == w.slots + cs;
      forall t | 0 <= t < |r.slots|
        ensures r.slots[t] !in st && Covered(st, i + 1, r.slots[t], t1, t2)
      {
        if t >= |w.slots| {
          assert r.slots[t] == cs[t - |w.slots|];
        }
      }
    }
  }

  /** The walk over the first `n` entries keeps the invariant. */
  lemma {:induction false} WalkToInv(st: seq<Word>, t1: nat, t2: nat, bss: seq<seq<Lookup>>, wss: seq<seq<Word>>, m: Matrix.Matrix, a0: seq<Complex>, n: nat)
    requires Sound(st, t1, t2, bss, wss) && Square4(m) && |a0| == |st| && n <= |st|
    ensures WalkInv(st, t1, t2, n, WalkTo(bss, wss, m, a0, n))
  {
    if n > 0 {
      WalkToInv(st, t1, t2, bss, wss, m, a0, n - 1);
      VisitInv(st, t1, t2, bss, wss, m, WalkTo(bss, wss, m, a0, n - 1), n - 1);
    }
  }

  /** With two different targets, the states the walk gives the new slots
      are different from one another and from the old states, and each lies
      in the group of an old state. */
  lemma SlotsFresh(v: Unitary.Variant, reg: Qreg, t1: nat, t2: nat, m: Matrix.Matrix)
    requires Indexed(reg) && t1 < WordSize && t2 < WordSize && t1 != t2 && Square4(m)
    ensures Distinct(reg.state.value + Slots(v, reg, t1, t2, m))
    ensures forall t | 0 <= t < |Slots(v, reg, t1, t2, m)| ::
              Covered(reg.state.value, reg.Size(), Slots(v, reg, t1, t2, m)[t], t1, t2)
  {
    var st := reg.state.value;
    var bss := AllBases(v, reg, t1, t2);
    var wss := AllGroups(v, st, t1, t2);
    AllSound(v, reg, t1, t2);
    WalkToInv(st, t1, t2, bss, wss, m, reg.amplitude, |st|);
    DistinctConcat(st, Slots(v, reg, t1, t2, m));
  }
}

=== FILE: unitary2_mix.dfy ===
/** What the walk of `ql_qop_U2` does to the amplitudes.

    Intended, every basis state `w` ends up with row `Pattern(w)` of the
    4x4 matrix applied to the old amplitudes of the four states of its
    group, ordered by their pattern (target 1 as the low bit).  `Apply2`
    states that directly; `WalkOfMeaning` proves the walk computes it, and
    `UnitaryTwoOp.U2Correct` follows it through the prune pass.
 */
module UnitaryTwoMix {
  import opened Wrappers
  import opened Bits
  import opened Complex
  import opened HashIndex
  import opened Register
  import opened VectorAdd
  import opened UnitaryTwo
  import Unitary
  import Matrix
  import Errors

  // ---------------------------------------------------------------------
  // The gate as a map on amplitude vectors

  /** `w` with its target-1 bit set to the low bit of `k` and its target-2
      bit to the high bit: the member of `w`'s group whose pattern is `k`. */
  function WithPattern(w: Word, t1: nat, t2: nat, k: nat): (r: Word)
    requires t1 < WordSize && t2 < WordSize && t1 != t2 && k < 4
    ensures SameGroup(w, r, t1, t2) && Pattern(r, t1, t2) == k
  {
    w[t1 := Lo(k)][t2 := Hi(k)]
  }

  /** The old amplitudes of the group of `w`, by pattern. */
  function GroupAmps(t1: nat, t2: nat, st: seq<Word>, a: seq<Complex>, w: Word): (psi: seq<Complex>)
    requires t1 < WordSize && t2 < WordSize && t1 != t2 && |a| == |st|
    ensures |psi| == 4
  {
    seq(4, k requires 0 <= k < 4 => Unitary.AmpOf(st, a, WithPattern(w, t1, t2, k)))
  }

  /** The two-qubit gate `m` on qubits `t1` and `t2`, at basis state `w`:
      row `Pattern(w)` of the matrix applied to the group's amplitudes. */
  function Apply2(m: Matrix.Matrix, t1: nat, t2: nat, st: seq<Word>, a: seq<Complex>, w: Word): Complex
    requires Square4(m) && t1 < WordSize && t2 < WordSize && t1 != t2 && |a| == |st|
  {
    Dot(m, Pattern(w, t1, t2), GroupAmps(t1, t2, st, a, w), 4)
  }

  /** A row applied to zeros is zero. */
  lemma {:induction false} DotZero(m: Matrix.Matrix, j: nat, psi: seq<Complex>, k: nat)
    requires Square4(m) && j < 4 && k <= 4 && |psi| == 4
    requires forall x | 0 <= x < 4 :: psi[x] == Zero
    ensures Dot(m, j, psi, k) == Zero
  {
    if k > 0 {
      DotZero(m, j, psi, k - 1);
      MulZero(Matrix.At(m, k - 1, j));
    }
  }

  /** The gate leaves zero outside the groups the register touches: a state
      with a nonzero amplitude after the gate has a group-mate before it. */
  lemma ApplyOutside(m: Matrix.Matrix, t1: nat, t2: nat, st: seq<Word>, a: seq<Complex>, w: Word)
    requires Square4(m) && t1 < WordSize && t2 < WordSize && t1 != t2 && |a| == |st|
    requires Apply2(m, t1, t2, st, a, w) != Zero
    ensures exists q | 0 <= q < |st| :: SameGroup(st[q], w, t1, t2)
  {
    var psi := GroupAmps(t1, t2, st, a, w);
    if forall x | 0 <= x < 4 :: psi[x] == Zero {
      DotZero(m, Pattern(w, t1, t2), psi, 4);
    } else {
      var x :| 0 <= x < 4 && psi[x] != Zero;
      var c := WithPattern(w, t1, t2, x);
      var q :| 0 <= q < |st| && st[q] == c;
      assert SameGroup(st[q], w, t1, t2);
    }
  }

  /** Two states of one group with one pattern are equal. */
  lemma GroupPatternUnique(a: Word, c: Word, t1: nat, t2: nat)
    requires t1 < WordSize && t2 < WordSize && SameGroup(a, c, t1, t2)
    requires Pattern(a, t1, t2) == Pattern(c, t1, t2)
    ensures a == c
  {
    assert a[t1] == c[t1] && a[t2] == c[t2];
    assert forall k | 0 <= k < WordSize :: a[k] == c[k];
  }

  /** Intended, the member looked up for `base[j]` has pattern `j`, and
      the member of its group with pattern `k` is the one for `base[k]`. */
  lemma MemberAligned(s: Word, t1: nat, t2: nat, j: nat, k: nat)
    requires t1 < WordSize && t2 < WordSize && t1 != t2 && j < 4 && k < 4
    ensures Pattern(Member(Unitary.Intended, s, t1, t2, j), t1, t2) == j
    ensures WithPattern(Member(Unitary.Intended, s, t1, t2, j), t1, t2, k) == Member(Unitary.Intended, s, t1, t2, k)
  {
    MemberPattern(s, t1, t2, j);
    MemberPattern(s, t1, t2, k);
    var x := WithPattern(Member(Unitary.Intended, s, t1, t2, j), t1, t2, k);
    var y := Member(Unitary.Intended, s, t1, t2, k);
    assert SameGroup(s, x, t1, t2);
    GroupPatternUnique(x, y, t1, t2);
  }

  // ---------------------------------------------------------------------
  // What the amplitude side of the walk needs of its inputs

  /** A found lookup names the entry holding its member. */
  ghost predicate Found(st: seq<Word>, bss: seq<seq<Lookup>>, wss: seq<seq<Word>>)
    requires Shaped(bss, wss) && |bss| == |st|
  {
    forall i, k | 0 <= i < |st| && 0 <= k < 4 && bss[i][k].Index? :: st[bss[i][k].i] == wss[i][k]
  }

  /** Every state of an entry's group is among its four members. */
  ghost predicate Spans(st: seq<Word>, t1: nat, t2: nat, wss: seq<seq<Word>>)
    requires |wss| == |st|
  {
    forall i, x: Word | 0 <= i < |st| && SameGroup(st[i], x, t1, t2) :: x in wss[i]
  }

  /** `wss[i][j]` has pattern `j`, and its group-mate of pattern `k` is `wss[i][k]`. */
  ghost predicate Aligned(t1: nat, t2: nat, wss: seq<seq<Word>>)
    requires t1 < WordSize && t2 < WordSize && t1 != t2
    requires forall i | 0 <= i < |wss| :: |wss[i]| == 4
  {
    (forall i, j | 0 <= i < |wss| && 0 <= j < 4 :: Pattern(wss[i][j], t1, t2) == j)
    && forall i, j, k | 0 <= i < |wss| && 0 <= j < 4 && 0 <= k < 4 :: WithPattern(wss[i][j], t1, t2, k) == wss[i][k]
  }

  /** What the amplitude side of the walk needs of its lookups. */
  ghost predicate Matched(st: seq<Word>, t1: nat, t2: nat, bss: seq<seq<Lookup>>, wss: seq<seq<Word>>)
    requires t1 < WordSize && t2 < WordSize && t1 != t2
  {
    Shaped(bss, wss) && |bss| == |st| && Found(st, bss, wss) && Spans(st, t1, t2, wss) && Aligned(t1, t2, wss)
  }

  /** The intended lookups against the rebuilt table are matched. */
  lemma AllMatched(reg: Qreg, t1: nat, t2: nat)
    requires Indexed(reg) && t1 < WordSize && t2 < WordSize && t1 != t2
    ensures Matched(reg.state.value, t1, t2, AllBases(Unitary.Intended, reg, t1, t2),
                    AllGroups(Unitary.Intended, reg.state.value, t1, t2))
  {
    AllShaped(Unitary.Intended, reg, t1, t2);
    AllFound(reg, t1, t2);
    AllSpans(reg.state.value, t1, t2);
    AllAligned(reg.state.value, t1, t2);
  }

  lemma AllFound(reg: Qreg, t1: nat, t2: nat)
    requires Indexed(reg) && t1 < WordSize && t2 < WordSize && t1 != t2
    requires Shaped(AllBases(Unitary.Intended, reg, t1, t2), AllGroups(Unitary.Intended, reg.state.value, t1, t2))
    ensures Found(reg.state.value, AllBases(Unitary.Intended, reg, t1, t2), AllGroups(Unitary.Intended, reg.state.value, t1, t2))
  {
    var st := reg.state.value;
    var bss: seq<seq<Lookup>> := AllBases(Unitary.Intended, reg, t1, t2);
    var wss := AllGroups(Unitary.Intended, st, t1, t2);
    forall i, k | 0 <= i < |st| && 0 <= k < 4 && bss[i][k].Index?
      ensures st[bss[i][k].i] == wss[i][k]
    {
      assert bss[i] == Bases(Unitary.Intended, reg, t1, t2, i);
      assert wss[i][k] == Member(Unitary.Intended, st[i], t1, t2, k);
    }
  }

  lemma AllSpans(st: seq<Word>, t1: nat, t2: nat)
    requires t1 < WordSize && t2 < WordSize && t1 != t2
    ensures Spans(st, t1, t2, AllGroups(Unitary.Intended, st, t1, t2))
  {
    var wss := AllGroups(Unitary.Intended, st, t1, t2);
    forall i, x: Word | 0 <= i < |st| && SameGroup(st[i], x, t1, t2)
      ensures x in wss[i]
    {
      GroupCovers(Unitary.Intended, st[i], x, t1, t2);
    }
  }

  lemma AllAligned(st: seq<Word>, t1: nat, t2: nat)
    requires t1 < WordSize && t2 < WordSize && t1 != t2
    ensures Aligned(t1, t2, AllGroups(Unitary.Intended, st, t1, t2))
  {
    var wss := AllGroups(Unitary.Intended, st, t1, t2);
    forall i, j | 0 <= i < |st| && 0 <= j < 4
      ensures Pattern(wss[i][j], t1, t2) == j
    {
      assert wss[i][j] == Member(Unitary.Intended, st[i], t1, t2, j);
      MemberPattern(st[i], t1, t2, j);
    }
    forall i, j, k | 0 <= i < |st| && 0 <= j < 4 && 0 <= k < 4
      ensures WithPattern(wss[i][j], t1, t2, k) == wss[i][k]
    {
      assert wss[i][j] == Member(Unitary.Intended, st[i], t1, t2, j);
      assert wss[i][k] == Member(Unitary.Intended, st[i], t1, t2, k);
      MemberAligned(st[i], t1, t2, j, k);
    }
  }

  // ---------------------------------------------------------------------
  // Where the members go, and the write loop

  /** An absent member's slot, counted from `l`, holds that member among
      the claimed states. */
  lemma {:induction false} PlacedAbsent(ws: seq<Word>, bs: seq<Lookup>, l: nat, j: nat, k: nat)
    requires |ws| == |bs| && j <= k < |bs| && bs[k].Absent?
    requires Placeable(bs)
    ensures l <= Placed(bs, l, j)[k - j] < l + |Claimed(ws, bs, j)|
    ensures Claimed(ws, bs, j)[Placed(bs, l, j)[k - j] - l] == ws[k]
    decreases k - j
  {
    if j == k {
      PlacedHere(ws, bs, l, j);
    } else {
      var l' := if bs[j].Index? then l else l + 1;
      PlacedAbsent(ws, bs, l', j + 1, k);
      StepBack(ws, bs, l, j, k);
    }
  }

  /** The slot of member `k` seen from `j + 1` is its slot seen from `j`. */
  lemma StepBack(ws: seq<Word>, bs: seq<Lookup>, l: nat, j: nat, k: nat)
    requires |ws| == |bs| && j < k < |bs| && Placeable(bs)
    requires var l' := if bs[j].Index? then l else l + 1;
      && l' <= Placed(bs, l', j + 1)[k - (j + 1)] < l' + |Claimed(ws, bs, j + 1)|
      && Claimed(ws, bs, j + 1)[Placed(bs, l', j + 1)[k - (j + 1)] - l'] == ws[k]
    ensures l <= Placed(bs, l, j)[k - j] < l + |Claimed(ws, bs, j)|
    ensures Claimed(ws, bs, j)[Placed(bs, l, j)[k - j] - l] == ws[k]
  {
    var l' := if bs[j].Index? then l else l + 1;
    PlacedStep(ws, bs, l, j, k - j);
    Transfer(Placed(bs, l, j), Claimed(ws, bs, j), Placed(bs, l', j + 1), Claimed(ws, bs, j + 1), l, l', k - j, ws[k]);
  }

  /** A slot found one step on, shifted back by what step `j` claimed. */
  lemma Transfer(ps: seq<nat>, cs: seq<Word>, qs: seq<nat>, more: seq<Word>, l: nat, l': nat, d: nat, y: Word)
    requires 0 < d < |ps| && d - 1 < |qs| && ps[d] == qs[d - 1] && l <= l'
    requires |cs| == |more| + (l' - l)
    requires forall t | l' - l <= t < |cs| :: cs[t] == more[t - (l' - l)]
    requires l' <= qs[d - 1] < l' + |more| && more[qs[d - 1] - l'] == y
    ensures l <= ps[d] < l + |cs| && cs[ps[d] - l] == y
  {
    assert cs[ps[d] - l] == more[ps[d] - l - (l' - l)];
  }

  /** Past member `j`, positions are those from `j + 1` on, counted from
      `l` past a found member and from `l + 1` past an absent one, which
      claims the first state. */
  lemma PlacedStep(ws: seq<Word>, bs: seq<Lookup>, l: nat, j: nat, d: nat)
    requires |ws| == |bs| && 0 < d < |bs| - j && Placeable(bs)
    ensures var l' := if bs[j].Index? then l else l + 1;
      && d - 1 < |Placed(bs, l', j + 1)|
      && Placed(bs, l, j)[d] == Placed(bs, l', j + 1)[d - 1]
      && |Claimed(ws, bs, j)| == |Claimed(ws, bs, j + 1)| + (l' - l)
      && forall t | l' - l <= t < |Claimed(ws, bs, j)| :: Claimed(ws, bs, j)[t] == Claimed(ws, bs, j + 1)[t - (l' - l)]
  {
    if bs[j].Index? {
      PlacedFound(ws, bs, l, j, d);
    } else {
      PlacedMissed(ws, bs, l, j, d);
    }
  }

  /** An absent member at `j` takes slot `l` and is the first claimed state. */
  lemma PlacedHere(ws: seq<Word>, bs: seq<Lookup>, l: nat, j: nat)
    requires |ws| == |bs| && j < |bs| && bs[j].Absent?
    requires Placeable(bs)
    ensures Placed(bs, l, j)[0] == l && 0 < |Claimed(ws, bs, j)| && Claimed(ws, bs, j)[0] == ws[j]
  {
    assert Claimed(ws, bs, j) == [ws[j]] + Claimed(ws, bs, j + 1);
  }

  /** A found member at `j` claims nothing and shifts the positions by one. */
  lemma PlacedFound(ws: seq<Word>, bs: seq<Lookup>, l: nat, j: nat, d: nat)
    requires |ws| == |bs| && j < |bs| && bs[j].Index? && 0 < d < |bs| - j
    requires Placeable(bs)
    ensures Claimed(ws, bs, j) == Claimed(ws, bs, j + 1)
    ensures Placed(bs, l, j)[d] == Placed(bs, l, j + 1)[d - 1]
  {
    assert Claimed(ws, bs, j) == [] + Claimed(ws, bs, j + 1);
  }

  /** An absent member at `j` claims its state first and shifts the
      positions by one, the later ones counted from `l + 1`. */
  lemma PlacedMissed(ws: seq<Word>, bs: seq<Lookup>, l: nat, j: nat, d: nat)
    requires |ws| == |bs| && j < |bs| && bs[j].Absent? && 0 < d < |bs| - j
    requires Placeable(bs)
    ensures Claimed(ws, bs, j) == [ws[j]] + Claimed(ws, bs, j + 1)
    ensures Placed(bs, l, j)[d] == Placed(bs, l + 1, j + 1)[d - 1]
  {
  }

  /** Every claimed state sits at the slot of the absent member it came from. */
  lemma {:induction false} PlacedSlot(ws: seq<Word>, bs: seq<Lookup>, l: nat, j: nat, t: nat) returns (k: nat)
    requires |ws| == |bs| && j <= |bs| && t < |Claimed(ws, bs, j)|
    requires Placeable(bs)
    ensures j <= k < |bs| && bs[k].Absent? && Placed(bs, l, j)[k - j] == l + t
    ensures Claimed(ws, bs, j)[t] == ws[k]
    decreases |bs| - j
  {
    var ps := Placed(bs, l, j);
    var cs := Claimed(ws, bs, j);
    assert j < |bs|;
    if bs[j].Index? {
      var rest := Placed(bs, l, j + 1);
      assert ps == [bs[j].i as nat] + rest;
      assert cs == [] + Claimed(ws, bs, j + 1);
      k := PlacedSlot(ws, bs, l, j + 1, t);
      assert ps[k - j] == rest[k - (j + 1)];
    } else if t == 0 {
      k := j;
      assert ps[0] == l && cs[0] == ws[j];
    } else {
      var rest := Placed(bs, l + 1, j + 1);
      assert ps == [l] + rest;
      assert cs == [ws[j]] + Claimed(ws, bs, j + 1);
      k := PlacedSlot(ws, bs, l + 1, j + 1, t - 1);
      assert ps[k - j] == rest[k - (j + 1)];
    }
  }

  /** The positions differ when the found entries do and all lie below `l`. */
  lemma {:induction false} PlacedDistinct(bs: seq<Lookup>, l: nat, j: nat)
    requires j <= |bs|
    requires forall x | 0 <= x < |bs| :: bs[x].Absent? || (bs[x].Index? && 0 <= bs[x].i < l)
    requires forall x, y | 0 <= x < y < |bs| && bs[x].Index? && bs[y].Index? :: bs[x].i != bs[y].i
    ensures forall x, y | 0 <= x < y < |Placed(bs, l, j)| :: Placed(bs, l, j)[x] != Placed(bs, l, j)[y]
    decreases |bs| - j
  {
    if j < |bs| {
      var ps := Placed(bs, l, j);
      var l' := if bs[j].Index? then l else l + 1;
      var rest := Placed(bs, l', j + 1);
      PlacedDistinct(bs, l', j + 1);
      assert ps == [ps[0]] + rest;
      PlacedBound(bs, l', j + 1);
      forall y | 0 < y < |ps|
        ensures ps[0] != ps[y]
      {
        assert ps[y] == rest[y - 1];
        assert bs[(j + 1) + (y - 1)] == bs[j + y];
        if bs[j].Index? && bs[j + y].Index? {
          assert bs[j + y].i != bs[j].i;
        }
      }
    }
  }

  /** The write loop puts row `k` at `ps[k]` and leaves every other
      position alone, when the positions differ. */
  lemma {:induction false} MixAt(amps: seq<Complex>, ps: seq<nat>, psi: seq<Complex>, m: Matrix.Matrix, j: nat)
    requires Square4(m) && |ps| == 4 && |psi| == 4 && j <= 4
    requires forall k | 0 <= k < 4 :: ps[k] < |amps|
    requires forall x, y | 0 <= x < y < 4 :: ps[x] != ps[y]
    ensures forall k | j <= k < 4 :: Mix(amps, ps, psi, m, j)[ps[k]] == Dot(m, k, psi, 4)
    ensures forall p | 0 <= p < |amps| && p !in ps[j..] :: Mix(amps, ps, psi, m, j)[p] == amps[p]
    decreases 4 - j
  {
    if j < 4 {
      var a' := amps[ps[j] := Dot(m, j, psi, 4)];
      MixAt(a', ps, psi, m, j + 1);
      assert Mix(amps, ps, psi, m, j) == Mix(a', ps, psi, m, j + 1);
      assert ps[j..] == [ps[j]] + ps[j + 1..];
    }
  }

  // ---------------------------------------------------------------------
  // The walk computes the gate

  /** What the amplitude side of the walk relies on. */
  ghost predicate Ready(m: Matrix.Matrix, t1: nat, t2: nat, st: seq<Word>, a0: seq<Complex>,
                        bss: seq<seq<Lookup>>, wss: seq<seq<Word>>)
    requires t1 < WordSize && t2 < WordSize && t1 != t2
  {
    Square4(m) && |a0| == |st| && Distinct(st) && Sound(st, t1, t2, bss, wss) && Matched(st, t1, t2, bss, wss)
  }

  /** The walk over the first `n` entries, under a name without fuel. */
  ghost function Walked(bss: seq<seq<Lookup>>, wss: seq<seq<Word>>, m: Matrix.Matrix, a0: seq<Complex>, n: nat): Walk
    requires Shaped(bss, wss) && Square4(m) && |a0| == |bss| && n <= |bss|
  {
    WalkTo(bss, wss, m, a0, n)
  }

  /** After the first `i` entries: an old entry of a visited group holds
      the gate's amplitude and any other old entry its old one; every slot
      holds the gate's amplitude of its state; and every state of a
      visited group is an old entry or a slot. */
  ghost predicate AmpInv(m: Matrix.Matrix, t1: nat, t2: nat, st: seq<Word>, a0: seq<Complex>, i: nat, w: Walk)
    requires Square4(m) && t1 < WordSize && t2 < WordSize && t1 != t2 && |a0| == |st| && i <= |st|
  {
    |w.amps| == |st| + |w.slots|
    && (forall p | 0 <= p < |st| ::
          w.amps[p] == if Covered(st, i, st[p], t1, t2) then Apply2(m, t1, t2, st, a0, st[p]) else a0[p])
    && (forall t | 0 <= t < |w.slots| :: w.amps[|st| + t] == Apply2(m, t1, t2, st, a0, w.slots[t]))
    && (forall x: Word | Covered(st, i, x, t1, t2) :: x in st || x in w.slots)
  }

  /** The amplitudes saved from an unvisited group are the old amplitudes
      of its members: a found member was not touched before, and a new
      slot holds zero. */
  lemma PsiOld(m: Matrix.Matrix, t1: nat, t2: nat, st: seq<Word>, a0: seq<Complex>,
               bss: seq<seq<Lookup>>, wss: seq<seq<Word>>, w: Walk, i: nat, ps: seq<nat>, grown: seq<Complex>)
    requires t1 < WordSize && t2 < WordSize && t1 != t2
    requires Square4(m) && |a0| == |st| && Ready(m, t1, t2, st, a0, bss, wss) && i < |st|
    requires WalkInv(st, t1, t2, i, w) && AmpInv(m, t1, t2, st, a0, i, w) && !w.done[i]
    requires ps == Placed(bss[i], |w.amps|, 0) && |grown| == |w.amps| + Unitary.AbsentCount(bss[i])
    requires forall p | 0 <= p < |w.amps| :: grown[p] == w.amps[p]
    requires forall p | |w.amps| <= p < |grown| :: grown[p] == Zero
    ensures forall k | 0 <= k < 4 :: ps[k] < |grown| && grown[ps[k]] == Unitary.AmpOf(st, a0, wss[i][k])
  {
    PlacedBound(bss[i], |w.amps|, 0);
    assert bss[i][0..] == bss[i];
    forall k | 0 <= k < 4
      ensures ps[k] < |grown| && grown[ps[k]] == Unitary.AmpOf(st, a0, wss[i][k])
    {
      assert bss[i][0 + k] == bss[i][k];
      if bss[i][k].Index? {
        var q := bss[i][k].i;
        assert st[q] == wss[i][k];
        assert Index(q) in bss[i];
        assert SameGroup(st[q], st[i], t1, t2);
        if Covered(st, i, st[q], t1, t2) {
          CoveredGroup(st, i, st[q], st[i], t1, t2);
        }
        Unitary.AmpOfAt(st, a0, q);
      }
    }
  }

  /** The saved amplitudes are the old amplitudes of the group of each
      member, by pattern. */
  lemma GroupAmpsSaved(t1: nat, t2: nat, st: seq<Word>, a0: seq<Complex>,
                       wss: seq<seq<Word>>, i: nat, j: nat, psi: seq<Complex>)
    requires t1 < WordSize && t2 < WordSize && t1 != t2 && |a0| == |st| && j < 4
    requires i < |wss| && (forall x | 0 <= x < |wss| :: |wss[x]| == 4) && Aligned(t1, t2, wss)
    requires |psi| == 4 && forall k | 0 <= k < 4 :: psi[k] == Unitary.AmpOf(st, a0, wss[i][k])
    ensures GroupAmps(t1, t2, st, a0, wss[i][j]) == psi
  {
    var g := GroupAmps(t1, t2, st, a0, wss[i][j]);
    forall k | 0 <= k < 4
      ensures g[k] == psi[k]
    {
      assert WithPattern(wss[i][j], t1, t2, k) == wss[i][k];
    }
  }

  /** Row `j` against the saved amplitudes is the gate's amplitude of the
      member of pattern `j`. */
  lemma DotApply(m: Matrix.Matrix, t1: nat, t2: nat, st: seq<Word>, a0: seq<Complex>,
                 wss: seq<seq<Word>>, i: nat, psi: seq<Complex>)
    requires Square4(m) && t1 < WordSize && t2 < WordSize && t1 != t2 && |a0| == |st|
    requires i < |wss| && (forall x | 0 <= x < |wss| :: |wss[x]| == 4) && Aligned(t1, t2, wss)
    requires |psi| == 4 && forall k | 0 <= k < 4 :: psi[k] == Unitary.AmpOf(st, a0, wss[i][k])
    ensures forall j | 0 <= j < 4 :: Dot(m, j, psi, 4) == Apply2(m, t1, t2, st, a0, wss[i][j])
  {
    forall j | 0 <= j < 4
      ensures Dot(m, j, psi, 4) == Apply2(m, t1, t2, st, a0, wss[i][j])
    {
      GroupAmpsSaved(t1, t2, st, a0, wss, i, j, psi);
      assert Pattern(wss[i][j], t1, t2) == j;
    }
  }

  /** The positions of an unvisited group differ. */
  lemma OpenDistinct(m: Matrix.Matrix, t1: nat, t2: nat, st: seq<Word>, a0: seq<Complex>,
                     bss: seq<seq<Lookup>>, wss: seq<seq<Word>>, i: nat, l: nat)
    requires t1 < WordSize && t2 < WordSize && t1 != t2
    requires Square4(m) && |a0| == |st| && Ready(m, t1, t2, st, a0, bss, wss) && i < |st| && |st| <= l
    ensures forall x, y | 0 <= x < y < 4 :: Placed(bss[i], l, 0)[x] != Placed(bss[i], l, 0)[y]
  {
    var bs := bss[i];
    forall x, y | 0 <= x < y < |bs| && bs[x].Index? && bs[y].Index?
      ensures bs[x].i != bs[y].i
    {
      assert Pattern(wss[i][x], t1, t2) == x && Pattern(wss[i][y], t1, t2) == y;
      assert st[bs[x].i] == wss[i][x] && st[bs[y].i] == wss[i][y];
    }
    PlacedDistinct(bs, l, 0);
  }

  /** The old entries after visiting an unvisited group. */
  lemma OpenOld(m: Matrix.Matrix, t1: nat, t2: nat, st: seq<Word>, a0: seq<Complex>,
                bss: seq<seq<Lookup>>, wss: seq<seq<Word>>, w: Walk, i: nat, ps: seq<nat>, ra: seq<Complex>)
    requires t1 < WordSize && t2 < WordSize && t1 != t2
    requires Square4(m) && |a0| == |st| && Ready(m, t1, t2, st, a0, bss, wss) && i < |st|
    requires WalkInv(st, t1, t2, i, w) && AmpInv(m, t1, t2, st, a0, i, w) && !w.done[i]
    requires |ps| == 4 && |st| <= |ra|
    requires forall k | 0 <= k < 4 :: bss[i][k].Index? ==> ps[k] == bss[i][k].i
    requires forall k | 0 <= k < 4 :: bss[i][k].Absent? ==> |st| <= ps[k]
    requires forall k | 0 <= k < 4 :: ps[k] < |ra| && ra[ps[k]] == Apply2(m, t1, t2, st, a0, wss[i][k])
    requires forall p | 0 <= p < |st| && p !in ps :: ra[p] == w.amps[p]
    ensures forall p | 0 <= p < |st| ::
              ra[p] == if Covered(st, i + 1, st[p], t1, t2) then Apply2(m, t1, t2, st, a0, st[p]) else a0[p]
  {
    forall p | 0 <= p < |st|
      ensures ra[p] == if Covered(st, i + 1, st[p], t1, t2) then Apply2(m, t1, t2, st, a0, st[p]) else a0[p]
    {
      if Index(p) in bss[i] {
        var k :| 0 <= k < 4 && bss[i][k] == Index(p);
        assert st[p] == wss[i][k];
        assert SameGroup(st[i], st[p], t1, t2);
      } else {
        forall k | 0 <= k < 4
          ensures ps[k] != p
        {
          if bss[i][k].Index? {
            assert bss[i][k] != Index(p);
          }
        }
        assert !SameGroup(st[i], st[p], t1, t2);
      }
    }
  }

  /** The slots after visiting an unvisited group: the old ones keep their
      values, the new ones receive the value of their state, given that
      every position of the group received the value of its member. */
  lemma SlotsAfter(m: Matrix.Matrix, t1: nat, t2: nat, st: seq<Word>, a0: seq<Complex>,
                   slots: seq<Word>, amps: seq<Complex>, ws: seq<Word>, bs: seq<Lookup>, ra: seq<Complex>)
    requires Square4(m) && t1 < WordSize && t2 < WordSize && t1 != t2 && |a0| == |st|
    requires |ws| == 4 && |bs| == 4
    requires forall k | 0 <= k < 4 :: bs[k].Absent? || (bs[k].Index? && 0 <= bs[k].i < |st|)
    requires |amps| == |st| + |slots| && forall t | 0 <= t < |slots| :: amps[|st| + t] == Apply2(m, t1, t2, st, a0, slots[t])
    requires |ra| == |amps| + |Claimed(ws, bs, 0)|
    requires forall k | 0 <= k < 4 :: Placed(bs, |amps|, 0)[k] < |ra| && ra[Placed(bs, |amps|, 0)[k]] == Apply2(m, t1, t2, st, a0, ws[k])
    requires forall p | |st| <= p < |amps| && p !in Placed(bs, |amps|, 0) :: ra[p] == amps[p]
    ensures forall t | 0 <= t < |slots + Claimed(ws, bs, 0)| :: ra[|st| + t] == Apply2(m, t1, t2, st, a0, (slots + Claimed(ws, bs, 0))[t])
  {
    var l := |amps|;
    var ps := Placed(bs, l, 0);
    var cs := Claimed(ws, bs, 0);
    PlacedBound(bs, l, 0);
    forall t | 0 <= t < |slots + cs|
      ensures ra[|st| + t] == Apply2(m, t1, t2, st, a0, (slots + cs)[t])
    {
      if t < |slots| {
        forall k | 0 <= k < 4
          ensures ps[k] != |st| + t
        {
          assert bs[0 + k] == bs[k];
        }
      } else {
        var k := PlacedSlot(ws, bs, l, 0, t - |slots|);
        assert ps[k - 0] == ps[k];
      }
    }
  }

  /** Every state of the newly visited group is an old entry or a slot. */
  lemma OpenComplete(m: Matrix.Matrix, t1: nat, t2: nat, st: seq<Word>, a0: seq<Complex>,
                     bss: seq<seq<Lookup>>, wss: seq<seq<Word>>, w: Walk, i: nat)
    requires t1 < WordSize && t2 < WordSize && t1 != t2
    requires Square4(m) && |a0| == |st| && Ready(m, t1, t2, st, a0, bss, wss) && i < |st|
    requires AmpInv(m, t1, t2, st, a0, i, w)
    ensures forall x: Word | Covered(st, i + 1, x, t1, t2) :: x in st || x in w.slots + Claimed(wss[i], bss[i], 0)
  {
    var cs := Claimed(wss[i], bss[i], 0);
    forall x: Word | Covered(st, i + 1, x, t1, t2)
      ensures x in st || x in w.slots + cs
    {
      if !Covered(st, i, x, t1, t2) {
        assert SameGroup(st[i], x, t1, t2);
        var k :| 0 <= k < 4 && wss[i][k] == x;
        if bss[i][k].Index? {
          assert st[bss[i][k].i] == x;
        } else {
          PlacedAbsent(wss[i], bss[i], |w.amps|, 0, k);
          assert cs[Placed(bss[i], |w.amps|, 0)[k - 0] - |w.amps|] == x;
        }
      }
    }
  }

  /** A group already visited changes nothing. */
  lemma DoneAmps(m: Matrix.Matrix, t1: nat, t2: nat, st: seq<Word>, a0: seq<Complex>,
                 bss: seq<seq<Lookup>>, wss: seq<seq<Word>>, w: Walk, i: nat, n: nat)
    requires t1 < WordSize && t2 < WordSize && t1 != t2
    requires Square4(m) && |a0| == |st| && Ready(m, t1, t2, st, a0, bss, wss) && i < |st| && n == i + 1
    requires WalkInv(st, t1, t2, i, w) && AmpInv(m, t1, t2, st, a0, i, w) && w.done[i]
    ensures AmpInv(m, t1, t2, st, a0, n, w)
  {
    forall x: Word
      ensures Covered(st, n, x, t1, t2) == Covered(st, i, x, t1, t2)
    {
      if SameGroup(st[i], x, t1, t2) {
        CoveredGroup(st, i, st[i], x, t1, t2);
      }
    }
  }

  /** Visiting an unvisited group puts the gate's amplitude of each member
      at its position and leaves every other amplitude alone. */
  lemma OpenMixed(m: Matrix.Matrix, t1: nat, t2: nat, st: seq<Word>, a0: seq<Complex>,
                  bss: seq<seq<Lookup>>, wss: seq<seq<Word>>, w: Walk, i: nat)
    requires t1 < WordSize && t2 < WordSize && t1 != t2
    requires Square4(m) && |a0| == |st| && Ready(m, t1, t2, st, a0, bss, wss) && i < |st|
    requires WalkInv(st, t1, t2, i, w) && AmpInv(m, t1, t2, st, a0, i, w) && !w.done[i]
    ensures var ps := Placed(bss[i], |w.amps|, 0); var ra := Visit(bss, wss, m, w, i).amps;
      (forall k | 0 <= k < 4 :: ps[k] < |ra| && ra[ps[k]] == Apply2(m, t1, t2, st, a0, wss[i][k]))
      && (forall p | 0 <= p < |w.amps| && p !in ps :: ra[p] == w.amps[p])
  {
    var cs := Claimed(wss[i], bss[i], 0);
    var ps := Placed(bss[i], |w.amps|, 0);
    var grown := Grow(w.amps, |cs|);
    assert bss[i][0..] == bss[i];
    PsiOld(m, t1, t2, st, a0, bss, wss, w, i, ps, grown);
    var psi := Saved(grown, ps);
    assert Visit(bss, wss, m, w, i).amps == Mix(grown, ps, psi, m, 0);
    DotApply(m, t1, t2, st, a0, wss, i, psi);
    OpenDistinct(m, t1, t2, st, a0, bss, wss, i, |w.amps|);
    MixAt(grown, ps, psi, m, 0);
    assert ps[0..] == ps;
  }

  /** Visiting an unvisited group keeps the invariant. */
  lemma OpenAmps(m: Matrix.Matrix, t1: nat, t2: nat, st: seq<Word>, a0: seq<Complex>,
                 bss: seq<seq<Lookup>>, wss: seq<seq<Word>>, w: Walk, i: nat, n: nat)
    requires t1 < WordSize && t2 < WordSize && t1 != t2
    requires Square4(m) && |a0| == |st| && Ready(m, t1, t2, st, a0, bss, wss) && i < |st| && n == i + 1
    requires WalkInv(st, t1, t2, i, w) && AmpInv(m, t1, t2, st, a0, i, w) && !w.done[i]
    ensures AmpInv(m, t1, t2, st, a0, n, Visit(bss, wss, m, w, i))
  {
    var r := Visit(bss, wss, m, w, i);
    assert r.slots == w.slots + Claimed(wss[i], bss[i], 0);
    OpenEntries(m, t1, t2, st, a0, bss, wss, w, i);
    OpenSlots(m, t1, t2, st, a0, bss, wss, w, i);
    OpenComplete(m, t1, t2, st, a0, bss, wss, w, i);
  }

  /** The old entries after visiting an unvisited group. */
  lemma OpenEntries(m: Matrix.Matrix, t1: nat, t2: nat, st: seq<Word>, a0: seq<Complex>,
                    bss: seq<seq<Lookup>>, wss: seq<seq<Word>>, w: Walk, i: nat)
    requires t1 < WordSize && t2 < WordSize && t1 != t2
    requires Square4(m) && |a0| == |st| && Ready(m, t1, t2, st, a0, bss, wss) && i < |st|
    requires WalkInv(st, t1, t2, i, w) && AmpInv(m, t1, t2, st, a0, i, w) && !w.done[i]
    ensures forall p | 0 <= p < |st| ::
              Visit(bss, wss, m, w, i).amps[p]
              == if Covered(st, i + 1, st[p], t1, t2) then Apply2(m, t1, t2, st, a0, st[p]) else a0[p]
  {
    var ps := Placed(bss[i], |w.amps|, 0);
    OpenMixed(m, t1, t2, st, a0, bss, wss, w, i);
    OpenPositions(bss, wss, i, |w.amps|);
    OpenOld(m, t1, t2, st, a0, bss, wss, w, i, ps, Visit(bss, wss, m, w, i).amps);
  }

  /** The slots after visiting an unvisited group. */
  lemma OpenSlots(m: Matrix.Matrix, t1: nat, t2: nat, st: seq<Word>, a0: seq<Complex>,
                  bss: seq<seq<Lookup>>, wss: seq<seq<Word>>, w: Walk, i: nat)
    requires t1 < WordSize && t2 < WordSize && t1 != t2
    requires Square4(m) && |a0| == |st| && Ready(m, t1, t2, st, a0, bss, wss) && i < |st|
    requires WalkInv(st, t1, t2, i, w) && AmpInv(m, t1, t2, st, a0, i, w) && !w.done[i]
    ensures forall t | 0 <= t < |w.slots + Claimed(wss[i], bss[i], 0)| ::
              Visit(bss, wss, m, w, i).amps[|st| + t]
              == Apply2(m, t1, t2, st, a0, (w.slots + Claimed(wss[i], bss[i], 0))[t])
  {
    OpenMixed(m, t1, t2, st, a0, bss, wss, w, i);
    SlotsAfter(m, t1, t2, st, a0, w.slots, w.amps, wss[i], bss[i], Visit(bss, wss, m, w, i).amps);
  }

  /** A found member keeps its entry's position and an absent one lies past the old entries. */
  lemma OpenPositions(bss: seq<seq<Lookup>>, wss: seq<seq<Word>>, i: nat, l: nat)
    requires Shaped(bss, wss) && i < |bss| && |bss| <= l
    ensures forall k | 0 <= k < 4 ::
              (bss[i][k].Index? ==> Placed(bss[i], l, 0)[k] == bss[i][k].i)
              && (bss[i][k].Absent? ==> |bss| <= Placed(bss[i], l, 0)[k])
  {
    PlacedBound(bss[i], l, 0);
    forall k | 0 <= k < 4
      ensures (bss[i][k].Index? ==> Placed(bss[i], l, 0)[k] == bss[i][k].i)
              && (bss[i][k].Absent? ==> |bss| <= Placed(bss[i], l, 0)[k])
    {
      assert bss[i][0 + k] == bss[i][k];
    }
  }

  /** The walk over the first `n` entries keeps the invariant. */
  lemma {:induction false} WalkAmpsTo(m: Matrix.Matrix, t1: nat, t2: nat, st: seq<Word>, a0: seq<Complex>,
                                      bss: seq<seq<Lookup>>, wss: seq<seq<Word>>, n: nat)
    requires t1 < WordSize && t2 < WordSize && t1 != t2
    requires Ready(m, t1, t2, st, a0, bss, wss) && n <= |st|
    ensures AmpInv(m, t1, t2, st, a0, n, Walked(bss, wss, m, a0, n))
  {
    if n > 0 {
      var i := n - 1;
      WalkAmpsTo(m, t1, t2, st, a0, bss, wss, i);
      StepAmps(m, t1, t2, st, a0, bss, wss, i, n);
    }
  }

  /** The walk's step from `i` to `n = i + 1` visits entry `i`. */
  lemma StepAmps(m: Matrix.Matrix, t1: nat, t2: nat, st: seq<Word>, a0: seq<Complex>,
                 bss: seq<seq<Lookup>>, wss: seq<seq<Word>>, i: nat, n: nat)
    requires t1 < WordSize && t2 < WordSize && t1 != t2
    requires Ready(m, t1, t2, st, a0, bss, wss) && n == i + 1 && n <= |st|
    requires AmpInv(m, t1, t2, st, a0, i, Walked(bss, wss, m, a0, i))
    ensures AmpInv(m, t1, t2, st, a0, n, Walked(bss, wss, m, a0, n))
  {
    var w := Walked(bss, wss, m, a0, i);
    WalkToInv(st, t1, t2, bss, wss, m, a0, i);
    VisitAmps(m, t1, t2, st, a0, bss, wss, w, i, n);
    WalkToStep(bss, wss, m, a0, i, n);
  }

  /** One pass of the loop keeps the invariant. */
  lemma VisitAmps(m: Matrix.Matrix, t1: nat, t2: nat, st: seq<Word>, a0: seq<Complex>,
                  bss: seq<seq<Lookup>>, wss: seq<seq<Word>>, w: Walk, i: nat, n: nat)
    requires t1 < WordSize && t2 < WordSize && t1 != t2
    requires Square4(m) && |a0| == |st| && Shaped(bss, wss) && |bss| == |st|
    requires Ready(m, t1, t2, st, a0, bss, wss) && i < |st| && n == i + 1
    requires WalkInv(st, t1, t2, i, w) && AmpInv(m, t1, t2, st, a0, i, w)
    ensures AmpInv(m, t1, t2, st, a0, n, Visit(bss, wss, m, w, i))
  {
    if w.done[i] {
      DoneAmps(m, t1, t2, st, a0, bss, wss, w, i, n);
    } else {
      OpenAmps(m, t1, t2, st, a0, bss, wss, w, i, n);
    }
  }

  // ---------------------------------------------------------------------
  // The whole walk

  /** Every one of the first `n` entries is covered after `n` entries. */
  lemma {:induction false} CoveredSelf(st: seq<Word>, n: nat, p: nat, t1: nat, t2: nat)
    requires p < n <= |st|
    ensures Covered(st, n, st[p], t1, t2)
  {
    if p + 1 < n {
      CoveredSelf(st, n - 1, p, t1, t2);
    }
  }

  /** The intended walk against the rebuilt table: old entries and slots
      hold different states, each entry holds the gate's amplitude of its
      state, and every state the gate gives a non-zero amplitude is among
      them. */
  lemma WalkOfMeaning(reg: Qreg, t1: nat, t2: nat, m: Matrix.Matrix)
    requires Indexed(reg) && t1 < WordSize && t2 < WordSize && t1 != t2 && Square4(m)
    ensures var st := reg.state.value; var r := WalkOf(Unitary.Intended, reg, t1, t2, m); var all := st + r.slots;
      Distinct(all) && |r.amps| == |all|
      && (forall p | 0 <= p < |all| :: r.amps[p] == Apply2(m, t1, t2, st, reg.amplitude, all[p]))
      && (forall w: Word | Apply2(m, t1, t2, st, reg.amplitude, w) != Zero :: w in all)
  {
    var st := reg.state.value;
    var bss := AllBases(Unitary.Intended, reg, t1, t2);
    var wss := AllGroups(Unitary.Intended, st, t1, t2);
    AllSound(Unitary.Intended, reg, t1, t2);
    AllMatched(reg, t1, t2);
    var n := |st|;
    WalkAmpsTo(m, t1, t2, st, reg.amplitude, bss, wss, n);
    SlotsFresh(Unitary.Intended, reg, t1, t2, m);
    WalkAmpsAll(m, t1, t2, st, reg.amplitude, n, Walked(bss, wss, m, reg.amplitude, n));
  }

  /** The invariant after every entry, read as a statement about the
      concatenated old entries and slots. */
  lemma WalkAmpsAll(m: Matrix.Matrix, t1: nat, t2: nat, st: seq<Word>, a0: seq<Complex>, n: nat, r: Walk)
    requires Square4(m) && t1 < WordSize && t2 < WordSize && t1 != t2 && |a0| == |st| && n == |st|
    requires AmpInv(m, t1, t2, st, a0, n, r)
    ensures var all := st + r.slots;
      |r.amps| == |all|
      && (forall p | 0 <= p < |all| :: r.amps[p] == Apply2(m, t1, t2, st, a0, all[p]))
      && (forall w: Word | Apply2(m, t1, t2, st, a0, w) != Zero :: w in all)
  {
    var all := st + r.slots;
    forall p | 0 <= p < |all|
      ensures r.amps[p] == Apply2(m, t1, t2, st, a0, all[p])
    {
      if p < n {
        CoveredSelf(st, n, p, t1, t2);
      } else {
        assert all[p] == r.slots[p - n];
      }
    }
    forall w: Word | Apply2(m, t1, t2, st, a0, w) != Zero
      ensures w in all
    {
      ApplyOutside(m, t1, t2, st, a0, w);
      var q :| 0 <= q < |st| && SameGroup(st[q], w, t1, t2);
      CoveredSelf(st, n, q, t1, t2);
      CoveredGroup(st, n, st[q], w, t1, t2);
    }
  }
}

=== FILE: unitary2_op.dfy ===
/** `ql_qop_U2` as a whole (src/ql_qop.c:271-380): the matrix check, the
    arrays the walk leaves, and the prune pass.

    As written, the arrays grow by the miscounted `addsize` and every new
    slot keeps state 0; writes the walk makes at or past the end of the
    grown arrays fall outside them and are not kept here.  As intended,
    the arrays grow by the full count and each slot holds the state of the
    member it was given to.  `U2Correct` states what the intended gate
    computes and `U2AsWrittenRepeats` the repeated state the written code
    can leave.
 */
module UnitaryTwoOp {
  import opened Wrappers
  import opened Bits
  import opened Complex
  import opened Register
  import opened VectorAdd
  import opened UnitaryTwo
  import opened UnitaryTwoMix
  import Unitary
  import Matrix
  import Errors

  /** `amps` cut or padded with zeros to length `n`. */
  function Fit(amps: seq<Complex>, n: nat): (r: seq<Complex>)
    ensures |r| == n
    ensures forall q | 0 <= q < n :: r[q] == if q < |amps| then amps[q] else Zero
  {
    if |amps| >= n then amps[..n] else amps + seq(n - |amps|, _ => Zero)
  }

  /** The arrays before the prune, as written: the register's entries
      followed by `addsize` slots of state 0, holding the amplitudes the
      walk left at those positions. */
  function GrownAsWritten(reg: Qreg, t1: nat, t2: nat, m: Matrix.Matrix): (s: Unitary.Sweep)
    requires Indexed(reg) && t1 < WordSize && t2 < WordSize && Square4(m)
    ensures |s.states| == |s.amps| == reg.Size() + AddSizeAsWritten(reg, t1, t2, reg.Size())
    ensures s.states[..reg.Size()] == reg.state.value
    ensures forall q | reg.Size() <= q < |s.states| :: s.states[q] == ZeroWord()
    ensures forall q | 0 <= q < |s.amps| && q < |WalkOf(Unitary.AsWritten, reg, t1, t2, m).amps| ::
              s.amps[q] == WalkOf(Unitary.AsWritten, reg, t1, t2, m).amps[q]
  {
    var n := reg.Size() + AddSizeAsWritten(reg, t1, t2, reg.Size());
    var states := reg.state.value + seq(AddSizeAsWritten(reg, t1, t2, reg.Size()), _ => ZeroWord());
    assert states[..reg.Size()] == reg.state.value;
    Unitary.Sweep(Fit(WalkOf(Unitary.AsWritten, reg, t1, t2, m).amps, n), states, [], 0, false)
  }

  /** The entries `st`, then the walk's slots, then zero slots up to
      `total` slots in all. */
  function Padded(st: seq<Word>, r: Walk, total: nat): (s: Unitary.Sweep)
    requires |r.amps| == |st| + |r.slots| && |r.slots| <= total
    ensures |s.states| == |s.amps| == |st| + total
    ensures s.states[..|st| + |r.slots|] == st + r.slots && s.amps[..|st| + |r.slots|] == r.amps
    ensures forall q | |st| + |r.slots| <= q < |s.amps| :: s.amps[q] == Zero
  {
    var pad := total - |r.slots|;
    var states := st + r.slots + seq(pad, _ => ZeroWord());
    var amps := r.amps + seq(pad, _ => Zero);
    assert states[..|st| + |r.slots|] == st + r.slots;
    assert amps[..|st| + |r.slots|] == r.amps;
    Unitary.Sweep(amps, states, [], 0, false)
  }

  /** The arrays before the prune, as intended: the register's entries, then
      one slot per member the walk gave out, holding that member's state,
      then zero slots up to the full `addsize`. */
  function GrownIntended(reg: Qreg, t1: nat, t2: nat, m: Matrix.Matrix): (s: Unitary.Sweep)
    requires Indexed(reg) && t1 < WordSize && t2 < WordSize && Square4(m)
    ensures |s.states| == |s.amps| == reg.Size() + AddSize(reg, t1, t2, reg.Size())
  {
    ClaimBound(Unitary.Intended, reg, t1, t2, m);
    Padded(reg.state.value, WalkOf(Unitary.Intended, reg, t1, t2, m), AddSize(reg, t1, t2, reg.Size()))
  }

  /** `ql_qop_U2(reg, target1, target2, m)` on a register with a table
      (without the trailing `ql_decoherence`): a matrix that is not 4x4 is
      refused; the result holds the grown entries at or above the limit, in
      order, and the rebuilt table. */
  function U2Of(v: Unitary.Variant, reg: Qreg, t1: nat, t2: nat, m: Matrix.Matrix): (r: Result<Qreg>)
    requires Indexed(reg) && t1 < WordSize && t2 < WordSize && Matrix.Valid(m) && 0 <= reg.width < WordSize
    ensures r.Fail? <==> m.cols != 4 || m.rows != 4
    ensures r.Fail? ==> r.code == Errors.MatrixSize
    ensures r.Ok? ==>
              (WellFormed(r.value) && r.value.width == reg.width && r.value.hashw == reg.hashw && r.value.state.Some?
               && r.value.Size() <= reg.Size() + (if v == Unitary.AsWritten then AddSizeAsWritten(reg, t1, t2, reg.Size())
                                                  else AddSize(reg, t1, t2, reg.Size())))
  {
    if m.cols != 4 || m.rows != 4 then Fail(Errors.MatrixSize)
    else
      var s := if v == Unitary.AsWritten then GrownAsWritten(reg, t1, t2, m) else GrownIntended(reg, t1, t2, m);
      var ks := Unitary.Survivors(s.amps, Unitary.Limit(reg.width));
      Ok(reg.(amplitude := Pick(s.amps, ks), state := Some(Pick(s.states, ks)), hash := Some(Unitary.Rebuilt(reg))))
  }

  /** `ql_qop_U2` as written (`U2AsWrittenRepeats`). */
  function U2AsWritten(reg: Qreg, t1: nat, t2: nat, m: Matrix.Matrix): (r: Result<Qreg>)
    requires Indexed(reg) && t1 < WordSize && t2 < WordSize && Matrix.Valid(m) && 0 <= reg.width < WordSize
    ensures r.Fail? <==> m.cols != 4 || m.rows != 4
  {
    U2Of(Unitary.AsWritten, reg, t1, t2, m)
  }

  /** `ql_qop_U2` as evidently intended (`U2Correct`). */
  function U2(reg: Qreg, t1: nat, t2: nat, m: Matrix.Matrix): (r: Result<Qreg>)
    requires Indexed(reg) && t1 < WordSize && t2 < WordSize && Matrix.Valid(m) && 0 <= reg.width < WordSize
    ensures r.Fail? <==> m.cols != 4 || m.rows != 4
  {
    U2Of(Unitary.Intended, reg, t1, t2, m)
  }

  /** The intended gate on a register with a table: the result's states are
      all different, each carries the amplitude the matrix gives it (the row
      of its pattern applied to the old amplitudes of its group) at or above
      the limit, and every basis state whose amplitude reaches the limit is
      present. */
  lemma U2Correct(reg: Qreg, t1: nat, t2: nat, m: Matrix.Matrix)
    requires Indexed(reg) && t1 < WordSize && t2 < WordSize && t1 != t2
    requires Matrix.Valid(m) && m.cols == 4 && m.rows == 4 && 0 <= reg.width < WordSize
    ensures U2(reg, t1, t2, m).Ok?
    ensures var out := U2(reg, t1, t2, m).value; var lim := Unitary.Limit(reg.width);
      var st := reg.state.value;
      Distinct(out.state.value)
      && (forall k | 0 <= k < out.Size() ::
            out.amplitude[k] == Apply2(m, t1, t2, st, reg.amplitude, out.state.value[k])
            && Prob(out.amplitude[k]) >= lim)
      && (forall w: Word | Prob(Apply2(m, t1, t2, st, reg.amplitude, w)) >= lim :: w in out.state.value)
  {
    U2Shape(reg, t1, t2, m);
    GrownIntendedPrune(reg, t1, t2, m);
  }

  /** With a 4x4 matrix the intended gate succeeds with the kept part of the grown arrays. */
  lemma U2Shape(reg: Qreg, t1: nat, t2: nat, m: Matrix.Matrix)
    requires Indexed(reg) && t1 < WordSize && t2 < WordSize
    requires Matrix.Valid(m) && m.cols == 4 && m.rows == 4 && 0 <= reg.width < WordSize
    ensures U2(reg, t1, t2, m).Ok?
    ensures var out := U2(reg, t1, t2, m).value; var s := GrownIntended(reg, t1, t2, m);
      var ks := Unitary.Survivors(s.amps, Unitary.Limit(reg.width));
      out.state.value == Pick(s.states, ks) && out.amplitude == Pick(s.amps, ks)
  {
  }

  /** The prune pass over the intended arrays. */
  lemma GrownIntendedPrune(reg: Qreg, t1: nat, t2: nat, m: Matrix.Matrix)
    requires Indexed(reg) && t1 < WordSize && t2 < WordSize && t1 != t2 && Square4(m) && 0 <= reg.width < WordSize
    ensures var s := GrownIntended(reg, t1, t2, m); var lim := Unitary.Limit(reg.width);
      var ks := Unitary.Survivors(s.amps, lim); var os := Pick(s.states, ks); var oa := Pick(s.amps, ks);
      var st := reg.state.value;
      Distinct(os)
      && (forall k | 0 <= k < |os| :: oa[k] == Apply2(m, t1, t2, st, reg.amplitude, os[k]) && Prob(oa[k]) >= lim)
      && (forall w: Word | Prob(Apply2(m, t1, t2, st, reg.amplitude, w)) >= lim :: w in os)
  {
    var r := WalkOf(Unitary.Intended, reg, t1, t2, m);
    var total := AddSize(reg, t1, t2, reg.Size());
    WalkOfMeaning(reg, t1, t2, m);
    ClaimBound(Unitary.Intended, reg, t1, t2, m);
    assert GrownIntended(reg, t1, t2, m) == Padded(reg.state.value, r, total);
    PaddedPrune(m, t1, t2, reg.state.value, reg.amplitude, r, total, Unitary.Limit(reg.width));
  }

  /** Pruning the padded arrays of a walk that put the gate's amplitude at
      every entry and missed no state. */
  lemma PaddedPrune(m: Matrix.Matrix, t1: nat, t2: nat, st: seq<Word>, a0: seq<Complex>, r: Walk, total: nat, lim: real)
    requires Square4(m) && t1 < WordSize && t2 < WordSize && t1 != t2 && |a0| == |st| && lim > 0.0
    requires |r.amps| == |st| + |r.slots| && |r.slots| <= total
    requires Distinct(st + r.slots)
    requires forall p | 0 <= p < |st + r.slots| :: r.amps[p] == Apply2(m, t1, t2, st, a0, (st + r.slots)[p])
    requires forall w: Word | Apply2(m, t1, t2, st, a0, w) != Zero :: w in st + r.slots
    ensures var s := Padded(st, r, total); var ks := Unitary.Survivors(s.amps, lim);
      var os := Pick(s.states, ks); var oa := Pick(s.amps, ks);
      Distinct(os)
      && (forall k | 0 <= k < |os| :: oa[k] == Apply2(m, t1, t2, st, a0, os[k]) && Prob(oa[k]) >= lim)
      && (forall w: Word | Prob(Apply2(m, t1, t2, st, a0, w)) >= lim :: w in os)
  {
    var s := Padded(st, r, total);
    var u := |st| + |r.slots|;
    var f := (w: Word) => Apply2(m, t1, t2, st, a0, w);
    forall q | 0 <= q < u
      ensures s.amps[q] == f(s.states[q])
    {
      assert s.amps[q] == s.amps[..u][q] == r.amps[q];
      assert s.states[q] == s.states[..u][q] == (st + r.slots)[q];
    }
    forall w: Word | f(w) != Zero
      ensures w in s.states[..u]
    {
      assert Apply2(m, t1, t2, st, a0, w) != Zero;
    }
    Unitary.PruneMeaning(f, s, u, lim);
    var os := Pick(s.states, Unitary.Survivors(s.amps, lim));
    forall w: Word | Prob(Apply2(m, t1, t2, st, a0, w)) >= lim
      ensures w in os
    {
      assert Prob(f(w)) >= lim;
    }
  }

  /** As written, a single-state register grows by two slots of state 0;
      when both survive the prune (a matrix that moves amplitude onto both
      single flips of the state), the result holds state 0 twice. */
  lemma U2AsWrittenRepeats(reg: Qreg, t1: nat, t2: nat, m: Matrix.Matrix)
    requires Indexed(reg) && t1 < WordSize && t2 < WordSize && t1 != t2
    requires Matrix.Valid(m) && m.cols == 4 && m.rows == 4 && 0 <= reg.width < WordSize && reg.Size() == 1
    requires var s := GrownAsWritten(reg, t1, t2, m); var lim := Unitary.Limit(reg.width);
      |s.amps| == 3 && Prob(s.amps[1]) >= lim && Prob(s.amps[2]) >= lim
    ensures GrownAsWritten(reg, t1, t2, m).states == reg.state.value + [ZeroWord(), ZeroWord()]
    ensures U2AsWritten(reg, t1, t2, m).Ok? && !Distinct(U2AsWritten(reg, t1, t2, m).value.state.value)
  {
    var s := GrownAsWritten(reg, t1, t2, m);
    var lim := Unitary.Limit(reg.width);
    OverflowAsWritten(reg, t1, t2, m);
    assert s.states == reg.state.value + [ZeroWord(), ZeroWord()];
    var ks := Unitary.Survivors(s.amps, lim);
    Unitary.SurvivorsExact(s.amps, lim);
    var x :| 0 <= x < |ks| && ks[x] == 1;
    var y :| 0 <= y < |ks| && ks[y] == 2;
    var out := Pick(s.states, ks);
    assert out[x] == ZeroWord() == out[y] && x != y;
    assert out == U2AsWritten(reg, t1, t2, m).value.state.value;
    assert x < y;
  }
}

=== FILE: unitary_findings.dfy ===
/** Inputs on which `ql_qop_U1` as written (src/ql_qop.c:157-264) and the
    intended gate (`Unitary.U1Correct`) give different registers.

    Each example is a concrete register; the lemmas about the code as
    written follow its sweep step by step, and the intended side is read
    off `Unitary.U1Correct`. */
module UnitaryFindings {
  import opened Wrappers
  import opened Bits
  import opened Complex
  import opened HashIndex
  import opened Register
  import opened VectorAdd
  import opened Unitary
  import Gates
  import Matrix

  /** The basis state with bits 0 and 1 set. */
  function Three(): (w: Word)
    ensures w[0] && w[1] && forall b | 2 <= b < WordSize :: !w[b]
  {
    ZeroWord()[0 := true][1 := true]
  }

  /** The basis state with only bit `b` set. */
  function Bit(b: nat): (w: Word)
    requires b < WordSize
    ensures w[b] && forall c | 0 <= c < WordSize && c != b :: !w[c]
  {
    Flip(ZeroWord(), b)
  }

  const Half := Complex(0.5, 0.0)

  /** The matrix diag(1, -1): it never moves amplitude to a missing partner. */
  const PhaseFlip: Matrix.Matrix := Matrix.Matrix(2, 2, [One, Zero, Zero, Gates.MinusOne])

  /** The matrix of the NOT gate. */
  const NotGate: Matrix.Matrix := Matrix.Matrix(2, 2, [Zero, One, One, Zero])

  // ---------------------------------------------------------------------
  // Arithmetic facts about the example matrices, each on its own

  lemma PhaseFlipShape()
    ensures Matrix.Valid(PhaseFlip) && PhaseFlip.cols == 2 && PhaseFlip.rows == 2 && |PhaseFlip.t| == 4
    ensures !Grows(PhaseFlip, false)
  {
  }

  /** diag(1, -1) negates the amplitude of a state with the bit set. */
  lemma PhaseFlipSet()
    ensures |PhaseFlip.t| == 4 && Row(PhaseFlip, true, Zero, One) == Gates.MinusOne
  {
  }

  /** diag(1, -1) keeps the amplitude of a state with the bit clear. */
  lemma PhaseFlipClear()
    ensures |PhaseFlip.t| == 4 && Row(PhaseFlip, false, One, Zero) == One
  {
  }

  lemma NotGateShape()
    ensures Matrix.Valid(NotGate) && NotGate.cols == 2 && NotGate.rows == 2 && |NotGate.t| == 4
  {
  }

  /** The integer part of 1/2 is 0, and the NOT gate sends a zero partner
      amplitude to the state with the bit clear. */
  lemma HalfTruncated()
    ensures PartnerAmp(AsWritten, Half) == Zero
  {
    assert Truncate(0.5) == 0;
  }

  lemma NotGateTruncated()
    ensures |NotGate.t| == 4 && Row(NotGate, false, Half, Zero) == Zero
  {
  }

  /** The NOT gate swaps two amplitudes of 1/2. */
  lemma NotGateSwaps()
    ensures |NotGate.t| == 4 && Row(NotGate, false, Half, Half) == Half
  {
  }

  lemma ExampleProbs()
    ensures Prob(One) == 1.0 && Prob(Gates.MinusOne) == 1.0 && Prob(Half) == 0.25
  {
  }

  // ---------------------------------------------------------------------
  // Reading the prune pass

  /** The prune pass keeps entry `i` when it reaches the limit. */
  lemma PruneKeeps(states: seq<Word>, amps: seq<Complex>, lim: real, i: nat)
    requires |states| == |amps| && i < |amps| && Prob(amps[i]) >= lim
    ensures exists k | 0 <= k < |Survivors(amps, lim)| ::
      Pick(states, Survivors(amps, lim))[k] == states[i] && Pick(amps, Survivors(amps, lim))[k] == amps[i]
  {
    SurvivorsExact(amps, lim);
    var ks := Survivors(amps, lim);
    var k :| 0 <= k < |ks| && ks[k] == i;
    assert Pick(states, ks)[k] == states[i] && Pick(amps, ks)[k] == amps[i];
  }

  /** The prune pass drops a state all of whose entries are below the limit. */
  lemma PruneDrops(states: seq<Word>, amps: seq<Complex>, lim: real, w: Word)
    requires |states| == |amps|
    requires forall i | 0 <= i < |states| && states[i] == w :: Prob(amps[i]) < lim
    ensures w !in Pick(states, Survivors(amps, lim))
  {
    SurvivorsExact(amps, lim);
  }

  /** The register `U1Of` returns is the prune pass over the sweep. */
  lemma U1OfPrunes(v: Variant, reg: Qreg, target: nat, m: Matrix.Matrix)
    requires Indexed(reg) && target < WordSize && Matrix.Valid(m) && m.cols == 2 && m.rows == 2 && 0 <= reg.width < WordSize
    ensures |m.t| == 4 && U1Of(v, reg, target, m).Ok?
    ensures var s := SweepOf(v, reg, target, m); var ks := Survivors(s.amps, Limit(reg.width));
      U1Of(v, reg, target, m).value.amplitude == Pick(s.amps, ks)
      && U1Of(v, reg, target, m).value.state == Some(Pick(s.states, ks))
  {
    assert |m.t| == 4;
  }

  /** An entry of the sweep as written that reaches the limit is in the
      result of `U1AsWritten`. */
  lemma AsWrittenKeeps(reg: Qreg, target: nat, m: Matrix.Matrix, i: nat)
    requires Indexed(reg) && target < WordSize && Matrix.Valid(m) && m.cols == 2 && m.rows == 2 && 0 <= reg.width < WordSize
    requires |m.t| == 4 && i < |SweepOf(AsWritten, reg, target, m).amps|
    requires Prob(SweepOf(AsWritten, reg, target, m).amps[i]) >= Limit(reg.width)
    ensures U1AsWritten(reg, target, m).Ok?
    ensures var s := SweepOf(AsWritten, reg, target, m); var out := U1AsWritten(reg, target, m).value;
      exists k | 0 <= k < out.Size() :: out.state.value[k] == s.states[i] && out.amplitude[k] == s.amps[i]
  {
    var s := SweepOf(AsWritten, reg, target, m);
    U1OfPrunes(AsWritten, reg, target, m);
    PruneKeeps(s.states, s.amps, Limit(reg.width), i);
  }

  /** A state all of whose entries in the sweep as written fall below the
      limit is not in the result of `U1AsWritten`. */
  lemma AsWrittenDrops(reg: Qreg, target: nat, m: Matrix.Matrix, w: Word)
    requires Indexed(reg) && target < WordSize && Matrix.Valid(m) && m.cols == 2 && m.rows == 2 && 0 <= reg.width < WordSize
    requires |m.t| == 4
    requires var s := SweepOf(AsWritten, reg, target, m);
      forall i | 0 <= i < |s.states| && s.states[i] == w :: Prob(s.amps[i]) < Limit(reg.width)
    ensures U1AsWritten(reg, target, m).Ok? && w !in U1AsWritten(reg, target, m).value.state.value
  {
    var s := SweepOf(AsWritten, reg, target, m);
    U1OfPrunes(AsWritten, reg, target, m);
    PruneDrops(s.states, s.amps, Limit(reg.width), w);
  }

  /** In a pair of different values, only the first equals the first. */
  lemma OnlyFirst<T>(xs: seq<T>, i: nat)
    requires |xs| == 2 && xs[1] != xs[0] && i < 2 && xs[i] == xs[0]
    ensures i == 0
  {
  }

  /** In a sweep as written of two entries with different states, a first
      entry that falls below the limit takes its state out of the result. */
  lemma AsWrittenDropsFirst(reg: Qreg, target: nat, m: Matrix.Matrix)
    requires Indexed(reg) && target < WordSize && Matrix.Valid(m) && m.cols == 2 && m.rows == 2 && 0 <= reg.width < WordSize
    requires |m.t| == 4
    requires var s := SweepOf(AsWritten, reg, target, m);
      |s.states| == 2 && s.states[1] != s.states[0] && Prob(s.amps[0]) < Limit(reg.width)
    ensures U1AsWritten(reg, target, m).Ok?
    ensures SweepOf(AsWritten, reg, target, m).states[0] !in U1AsWritten(reg, target, m).value.state.value
  {
    var s := SweepOf(AsWritten, reg, target, m);
    forall i | 0 <= i < |s.states| && s.states[i] == s.states[0]
      ensures Prob(s.amps[i]) < Limit(reg.width)
    {
      OnlyFirst(s.states, i);
    }
    AsWrittenDrops(reg, target, m, s.states[0]);
  }

  /** A basis state to which the gate gives an amplitude at or above the
      limit is in the result of the intended `U1`, with that amplitude. */
  lemma IntendedGives(reg: Qreg, target: nat, m: Matrix.Matrix, w: Word, c: Complex)
    requires Indexed(reg) && target < WordSize && Matrix.Valid(m) && m.cols == 2 && m.rows == 2 && 0 <= reg.width < WordSize
    requires |m.t| == 4 && Apply1(m, target, reg.state.value, reg.amplitude, w) == c && Prob(c) >= Limit(reg.width)
    ensures U1(reg, target, m).Ok?
    ensures var out := U1(reg, target, m).value;
      w in out.state.value && forall k | 0 <= k < out.Size() && out.state.value[k] == w :: out.amplitude[k] == c
  {
    U1Correct(reg, target, m);
  }

  // ---------------------------------------------------------------------
  // Single loop passes

  lemma RunFirst(e: Env, s0: Sweep)
    requires EnvOk(e) && 1 <= |e.st|
    requires |s0.amps| == |s0.states| == |s0.done| && |e.st| <= |s0.amps|
    requires |e.st| <= s0.k && s0.k + AbsentCount(e.ps) <= |s0.amps|
    ensures Run(e, s0, 1) == Step(e, s0, 0)
  {
    assert Run(e, s0, 0) == s0;
  }

  /** A pass over an entry with a partner rewrites it from its own and its
      partner's amplitude, and marks the partner done. */
  lemma StepMixes(e: Env, acc: Sweep, i: nat)
    requires EnvOk(e) && i < |e.st| && e.ps[i].Index? && e.ps[i].i != i
    requires |acc.amps| == |acc.states| == |acc.done| && |e.st| <= acc.k && acc.k + AbsentCount(e.ps[i..]) <= |acc.amps|
    requires !acc.stopped && !acc.done[i]
    ensures var b := TargetBit(e.variant, e.st[i], e.target); var j := e.ps[i].i;
      var own := acc.amps[i]; var other := PartnerAmp(e.variant, acc.amps[j]); var r := Step(e, acc, i);
      r.amps[i] == (if b then Row(e.m, true, other, own) else Row(e.m, false, own, other))
      && r.done[j] && r.states == acc.states && !r.stopped
      && forall q | 0 <= q < |acc.amps| && q != i && q != j :: r.amps[q] == acc.amps[q] && r.done[q] == acc.done[q]
  {
  }

  /** A pass over an entry without a partner rewrites it with a zero
      partner amplitude. */
  lemma StepLone(e: Env, acc: Sweep, i: nat)
    requires EnvOk(e) && i < |e.st| && e.ps[i].Absent?
    requires |acc.amps| == |acc.states| == |acc.done| && |e.st| <= acc.k && acc.k + AbsentCount(e.ps[i..]) <= |acc.amps|
    requires !acc.stopped && !acc.done[i]
    ensures var b := TargetBit(e.variant, e.st[i], e.target); var own := acc.amps[i];
      Step(e, acc, i).amps[i] == (if b then Row(e.m, true, Zero, own) else Row(e.m, false, own, Zero))
      && Step(e, acc, i).states[i] == acc.states[i]
  {
  }

  /** A pass over an entry already rewritten as a partner changes nothing. */
  lemma StepSkips(e: Env, acc: Sweep, i: nat)
    requires EnvOk(e) && i < |e.st|
    requires |acc.amps| == |acc.states| == |acc.done| && |e.st| <= acc.k && acc.k + AbsentCount(e.ps[i..]) <= |acc.amps|
    requires acc.done[i]
    ensures Step(e, acc, i) == acc
  {
  }

  /** The sweep of a register is the loop over its entries. */
  lemma SweepIsRun(v: Variant, reg: Qreg, target: nat, m: Matrix.Matrix)
    requires Indexed(reg) && target < WordSize && |m.t| == 4
    ensures var ps := PartnerLookups(reg, target); var e := Env(v, m, target, reg.state.value, ps);
      EnvOk(e) && AbsentCount(ps) + reg.Size() == |SweepOf(v, reg, target, m).amps|
      && SweepOf(v, reg, target, m) == Run(e, Start(reg.amplitude, reg.state.value, AbsentCount(ps)), reg.Size())
  {
    var st := reg.state.value;
    AbsentCountMissing(st, target, PartnerLookups(reg, target), |st|);
    assert Partners(st, target)[..|st|] == Partners(st, target);
  }

  // ---------------------------------------------------------------------
  // The break

  /** As written, an entry whose partner is missing and would get nothing
      ends the loop (src/ql_qop.c:216-217): from then on the sweep has
      stopped and only that entry's amplitude has changed. */
  lemma {:induction false} BreakFreezes(e: Env, s0: Sweep, i: nat, n: nat)
    requires EnvOk(e) && e.variant == AsWritten && i < n <= |e.st|
    requires |s0.amps| == |s0.states| == |s0.done| && |e.st| <= |s0.amps|
    requires |e.st| <= s0.k && s0.k + AbsentCount(e.ps) <= |s0.amps|
    requires !Run(e, s0, i).stopped && !Run(e, s0, i).done[i] && e.ps[i].Absent?
    requires !Grows(e.m, TargetBit(AsWritten, e.st[i], e.target))
    ensures Run(e, s0, n).stopped && Run(e, s0, n).states == Run(e, s0, i).states
    ensures forall q | 0 <= q < |s0.amps| && q != i :: Run(e, s0, n).amps[q] == Run(e, s0, i).amps[q]
    decreases n
  {
    if n > i + 1 {
      BreakFreezes(e, s0, i, n - 1);
    }
  }

  /** States 0 and 3 have no partners under qubit 0. */
  lemma NoPartners(reg: Qreg)
    requires Indexed(reg) && reg.state == Some([ZeroWord(), Three()])
    ensures PartnerLookups(reg, 0) == [Absent, Absent]
  {
    var st := reg.state.value;
    assert Flip(st[0], 0)[1] != st[1][1];
    assert Flip(st[0], 0) !in st;
    assert Flip(st[1], 0)[0] != st[1][0] && Flip(st[1], 0)[1] != st[0][1];
    assert Flip(st[1], 0) !in st;
  }

  /** diag(1, -1) on qubit 0 gives state 3 amplitude -1. */
  lemma BreakGate(reg: Qreg)
    requires WellFormed(reg) && reg.state == Some([ZeroWord(), Three()]) && reg.amplitude == [One, One]
    ensures |PhaseFlip.t| == 4 && Apply1(PhaseFlip, 0, reg.state.value, reg.amplitude, Three()) == Gates.MinusOne
  {
    var st := reg.state.value;
    assert st[0] != st[1] by { assert st[0][0] != st[1][0]; }
    AmpOfAt(st, reg.amplitude, 1);
    assert Flip(Three(), 0)[1] != st[0][1] && Flip(Three(), 0)[0] != st[1][0];
    assert Flip(Three(), 0) !in st;
    PhaseFlipSet();
  }

  /** As written, a sweep over two entries that stops at the first leaves
      the second as it was. */
  lemma BreakRun(e: Env, s0: Sweep)
    requires EnvOk(e) && e.variant == AsWritten && |e.st| == 2 && e.ps[0].Absent?
    requires !e.st[0][e.target] && !Grows(e.m, false)
    requires |s0.amps| == |s0.states| == |s0.done| && |e.st| <= |s0.amps|
    requires |e.st| <= s0.k && s0.k + AbsentCount(e.ps) <= |s0.amps|
    requires !s0.stopped && !s0.done[0]
    ensures Run(e, s0, 2).amps[1] == s0.amps[1] && Run(e, s0, 2).states[1] == s0.states[1]
  {
    assert Run(e, s0, 0) == s0;
    BreakFreezes(e, s0, 0, 2);
  }

  /** As written, the sweep stops at state 0, so state 3 keeps amplitude 1. */
  lemma BreakSweep(reg: Qreg)
    requires Indexed(reg) && reg.state == Some([ZeroWord(), Three()]) && reg.amplitude == [One, One]
    ensures |PhaseFlip.t| == 4
    ensures var s := SweepOf(AsWritten, reg, 0, PhaseFlip); |s.amps| >= 2 && s.states[1] == Three() && s.amps[1] == One
  {
    var st := reg.state.value;
    PhaseFlipShape();
    NoPartners(reg);
    SweepIsRun(AsWritten, reg, 0, PhaseFlip);
    var e := Env(AsWritten, PhaseFlip, 0, st, [Absent, Absent]);
    var s0 := Start(reg.amplitude, st, AbsentCount(e.ps));
    BreakRun(e, s0);
  }

  /** With the break of src/ql_qop.c:216-217, on the register of states 0
      and 3, both with amplitude 1, diag(1, -1) on qubit 0 as written leaves
      state 3 at amplitude 1 (the gate gives -1: `BreakGate`). */
  lemma BreakAsWritten(reg: Qreg)
    requires Indexed(reg) && 0 <= reg.width < WordSize
    requires reg.state == Some([ZeroWord(), Three()]) && reg.amplitude == [One, One]
    ensures |PhaseFlip.t| == 4 && Matrix.Valid(PhaseFlip) && PhaseFlip.cols == 2 && PhaseFlip.rows == 2
    ensures U1AsWritten(reg, 0, PhaseFlip).Ok?
    ensures var out := U1AsWritten(reg, 0, PhaseFlip).value;
      exists k | 0 <= k < out.Size() :: out.state.value[k] == Three() && out.amplitude[k] == One
  {
    PhaseFlipShape();
    ExampleProbs();
    BreakSweep(reg);
    AsWrittenKeeps(reg, 0, PhaseFlip, 1);
  }

  /** The intended `U1` on the same register gives state 3 amplitude -1. */
  lemma BreakIntended(reg: Qreg)
    requires Indexed(reg) && 0 <= reg.width < WordSize
    requires reg.state == Some([ZeroWord(), Three()]) && reg.amplitude == [One, One]
    ensures |PhaseFlip.t| == 4 && Matrix.Valid(PhaseFlip) && PhaseFlip.cols == 2 && PhaseFlip.rows == 2
    ensures U1(reg, 0, PhaseFlip).Ok?
    ensures var out := U1(reg, 0, PhaseFlip).value;
      Three() in out.state.value
      && forall k | 0 <= k < out.Size() && out.state.value[k] == Three() :: out.amplitude[k] == Gates.MinusOne
  {
    PhaseFlipShape();
    ExampleProbs();
    BreakGate(reg);
    IntendedGives(reg, 0, PhaseFlip, Three(), Gates.MinusOne);
  }

  // ---------------------------------------------------------------------
  // `int tnot`

  /** States 0 and 1 are each other's partners under qubit 0. */
  lemma MutualPartners(reg: Qreg)
    requires Indexed(reg) && reg.state == Some([ZeroWord(), Bit(0)])
    ensures PartnerLookups(reg, 0) == [Index(1), Index(0)]
  {
    var st := reg.state.value;
    var ps := PartnerLookups(reg, 0);
    assert st[0] != st[1] by { assert st[0][0] != st[1][0]; }
    assert Flip(st[0], 0) == st[1];
    Gates.FlipTwice(st[0], 0);
    assert Flip(st[1], 0) == st[0];
    assert ps[0].Index? && ps[1].Index?;
  }

  /** The NOT gate on qubit 0 gives state 0 the amplitude 1/2 of state 1. */
  lemma TruncateGate(reg: Qreg)
    requires WellFormed(reg) && reg.state == Some([ZeroWord(), Bit(0)]) && reg.amplitude == [Half, Half]
    ensures |NotGate.t| == 4 && Apply1(NotGate, 0, reg.state.value, reg.amplitude, ZeroWord()) == Half
  {
    var st := reg.state.value;
    assert st[0] != st[1] by { assert st[0][0] != st[1][0]; }
    AmpOfAt(st, reg.amplitude, 0);
    AmpOfAt(st, reg.amplitude, 1);
    assert Flip(ZeroWord(), 0) == st[1];
    NotGateSwaps();
  }

  /** A sweep over two partner entries rewrites the first from both old
      amplitudes and then skips the second. */
  lemma PairRun(e: Env, s0: Sweep)
    requires EnvOk(e) && |e.st| == 2 && e.ps[0] == Index(1)
    requires !e.st[0][e.target]
    requires |s0.amps| == |s0.states| == |s0.done| && |e.st| <= |s0.amps|
    requires |e.st| <= s0.k && s0.k + AbsentCount(e.ps) <= |s0.amps|
    requires !s0.stopped && !s0.done[0]
    ensures Run(e, s0, 2).amps[0] == Row(e.m, false, s0.amps[0], PartnerAmp(e.variant, s0.amps[1]))
    ensures Run(e, s0, 2).states == s0.states
  {
    RunFirst(e, s0);
    AbsentStep(e.ps, 0);
    StepMixes(e, s0, 0);
    StepSkips(e, Run(e, s0, 1), 1);
  }

  /** As written, the sweep rewrites state 0 from its own amplitude and the
      partner's amplitude read through `tnot`, and then skips state 1. */
  lemma TruncateSweep(reg: Qreg)
    requires Indexed(reg) && reg.state == Some([ZeroWord(), Bit(0)]) && reg.amplitude == [Half, Half]
    ensures |NotGate.t| == 4
    ensures var s := SweepOf(AsWritten, reg, 0, NotGate);
      |s.amps| == |s.states| == 2 && s.states[0] == ZeroWord() && s.states[1] == Bit(0)
      && s.amps[0] == Row(NotGate, false, Half, PartnerAmp(AsWritten, Half))
  {
    var st := reg.state.value;
    NotGateShape();
    MutualPartners(reg);
    SweepIsRun(AsWritten, reg, 0, NotGate);
    var e := Env(AsWritten, NotGate, 0, st, [Index(1), Index(0)]);
    var s0 := Start(reg.amplitude, st, AbsentCount(e.ps));
    PairRun(e, s0);
  }

  /** As written, the sweep gives state 0 amplitude 0. */
  lemma TruncateLost(reg: Qreg)
    requires Indexed(reg) && reg.state == Some([ZeroWord(), Bit(0)]) && reg.amplitude == [Half, Half]
    ensures |NotGate.t| == 4
    ensures var s := SweepOf(AsWritten, reg, 0, NotGate);
      |s.states| == 2 && s.states[0] == ZeroWord() && s.states[1] != s.states[0] && s.amps[0] == Zero
  {
    TruncateSweep(reg);
    var s := SweepOf(AsWritten, reg, 0, NotGate);
    assert s.amps[0] == Zero by {
      HalfTruncated();
      NotGateTruncated();
    }
    assert s.states[1] != s.states[0] by {
      assert s.states[1][0] && !s.states[0][0];
    }
  }

  /** With `tnot` declared `int` (src/ql_qop.c:198-203), on the register of
      states 0 and 1, both with amplitude 1/2, the NOT gate on qubit 0 as
      written drops state 0 (the gate gives it 1/2: `TruncateGate`). */
  lemma TruncateAsWritten(reg: Qreg)
    requires Indexed(reg) && 0 <= reg.width < WordSize
    requires reg.state == Some([ZeroWord(), Bit(0)]) && reg.amplitude == [Half, Half]
    ensures |NotGate.t| == 4 && Matrix.Valid(NotGate) && NotGate.cols == 2 && NotGate.rows == 2
    ensures U1AsWritten(reg, 0, NotGate).Ok? && ZeroWord() !in U1AsWritten(reg, 0, NotGate).value.state.value
  {
    NotGateShape();
    TruncateLost(reg);
    AsWrittenDropsFirst(reg, 0, NotGate);
  }

  /** The intended `U1` on the same register keeps state 0 with amplitude 1/2. */
  lemma TruncateIntended(reg: Qreg)
    requires Indexed(reg) && 0 <= reg.width < WordSize
    requires reg.state == Some([ZeroWord(), Bit(0)]) && reg.amplitude == [Half, Half]
    ensures |NotGate.t| == 4 && Matrix.Valid(NotGate) && NotGate.cols == 2 && NotGate.rows == 2
    ensures U1(reg, 0, NotGate).Ok?
    ensures var out := U1(reg, 0, NotGate).value;
      ZeroWord() in out.state.value
      && forall k | 0 <= k < out.Size() && out.state.value[k] == ZeroWord() :: out.amplitude[k] == Half
  {
    NotGateShape();
    ExampleProbs();
    TruncateGate(reg);
    IntendedGives(reg, 0, NotGate, ZeroWord(), Half);
  }

  // ---------------------------------------------------------------------
  // `int iset`

  /** State 2^32 has no partner under qubit 32. */
  lemma HighAlone(reg: Qreg)
    requires Indexed(reg) && reg.state == Some([Bit(32)])
    ensures PartnerLookups(reg, 32) == [Absent]
  {
    var st := reg.state.value;
    assert Flip(st[0], 32)[32] != st[0][32];
    assert Flip(st[0], 32) !in st;
  }

  /** diag(1, -1) on qubit 32 gives state 2^32 amplitude -1. */
  lemma HighGate(reg: Qreg)
    requires WellFormed(reg) && reg.state == Some([Bit(32)]) && reg.amplitude == [One]
    ensures |PhaseFlip.t| == 4 && Apply1(PhaseFlip, 32, reg.state.value, reg.amplitude, Bit(32)) == Gates.MinusOne
  {
    var st := reg.state.value;
    AmpOfAt(st, reg.amplitude, 0);
    assert Flip(Bit(32), 32)[32] != st[0][32];
    assert Flip(Bit(32), 32) !in st;
    PhaseFlipSet();
  }

  /** A sweep over one entry without a partner, read with the bit clear,
      applies the first row of the matrix to it. */
  lemma LoneRun(e: Env, s0: Sweep)
    requires EnvOk(e) && |e.st| == 1 && e.ps[0].Absent? && !TargetBit(e.variant, e.st[0], e.target)
    requires |s0.amps| == |s0.states| == |s0.done| && |e.st| <= |s0.amps|
    requires |e.st| <= s0.k && s0.k + AbsentCount(e.ps) <= |s0.amps|
    requires !s0.stopped && !s0.done[0]
    ensures Run(e, s0, 1).amps[0] == Row(e.m, false, s0.amps[0], Zero)
    ensures Run(e, s0, 1).states[0] == s0.states[0]
  {
    RunFirst(e, s0);
    StepLone(e, s0, 0);
  }

  /** As written, bit 32 reads as clear, so the sweep applies the first row
      of the matrix to state 2^32. */
  lemma HighSweep(reg: Qreg)
    requires Indexed(reg) && reg.state == Some([Bit(32)]) && reg.amplitude == [One]
    ensures |PhaseFlip.t| == 4
    ensures var s := SweepOf(AsWritten, reg, 32, PhaseFlip);
      |s.amps| >= 1 && s.states[0] == Bit(32) && s.amps[0] == Row(PhaseFlip, false, One, Zero)
  {
    var st := reg.state.value;
    PhaseFlipShape();
    HighAlone(reg);
    SweepIsRun(AsWritten, reg, 32, PhaseFlip);
    var e := Env(AsWritten, PhaseFlip, 32, st, [Absent]);
    var s0 := Start(reg.amplitude, st, AbsentCount(e.ps));
    assert !TargetBit(AsWritten, st[0], 32);
    LoneRun(e, s0);
  }

  /** With `iset` declared `int` (src/ql_qop.c:197), on the register holding
      state 2^32 with amplitude 1, diag(1, -1) on qubit 32 as written reads
      the target bit as clear and keeps amplitude 1 (the gate gives -1:
      `HighGate`). */
  lemma HighAsWritten(reg: Qreg)
    requires Indexed(reg) && 0 <= reg.width < WordSize
    requires reg.state == Some([Bit(32)]) && reg.amplitude == [One]
    ensures |PhaseFlip.t| == 4 && Matrix.Valid(PhaseFlip) && PhaseFlip.cols == 2 && PhaseFlip.rows == 2
    ensures U1AsWritten(reg, 32, PhaseFlip).Ok?
    ensures var out := U1AsWritten(reg, 32, PhaseFlip).value;
      exists k | 0 <= k < out.Size() :: out.state.value[k] == Bit(32) && out.amplitude[k] == One
  {
    PhaseFlipShape();
    ExampleProbs();
    HighSweep(reg);
    PhaseFlipClear();
    AsWrittenKeeps(reg, 32, PhaseFlip, 0);
  }

  /** Amplitude -1 is at or above the limit of any width. */
  lemma HighKept(width: int)
    requires 0 <= width < WordSize
    ensures Prob(Gates.MinusOne) >= Limit(width)
  {
    ExampleProbs();
  }

  /** The amplitude the gate gives state 2^32 is at or above the limit. */
  lemma HighGateKept(st: seq<Word>, a: seq<Complex>, width: int)
    requires st == [Bit(32)] && a == [One] && 0 <= width < WordSize
    ensures |PhaseFlip.t| == 4
    ensures Prob(Apply1(PhaseFlip, 32, st, a, Bit(32))) >= Limit(width)
  {
    HighGate(Qreg(width, 0, a, Some(st), None));
    HighKept(width);
  }

  /** The intended `U1` on the same register keeps state 2^32 with the
      amplitude the gate gives it. */
  lemma HighIntendedKeeps(reg: Qreg)
    requires Indexed(reg) && 0 <= reg.width < WordSize
    requires reg.state == Some([Bit(32)]) && reg.amplitude == [One]
    ensures |PhaseFlip.t| == 4 && Matrix.Valid(PhaseFlip) && PhaseFlip.cols == 2 && PhaseFlip.rows == 2
    ensures U1(reg, 32, PhaseFlip).Ok?
    ensures var out := U1(reg, 32, PhaseFlip).value; var c := Apply1(PhaseFlip, 32, reg.state.value, reg.amplitude, Bit(32));
      Bit(32) in out.state.value
      && forall k | 0 <= k < out.Size() && out.state.value[k] == Bit(32) :: out.amplitude[k] == c
  {
    PhaseFlipShape();
    HighGateKept(reg.state.value, reg.amplitude, reg.width);
    IntendedGives(reg, 32, PhaseFlip, Bit(32), Apply1(PhaseFlip, 32, reg.state.value, reg.amplitude, Bit(32)));
  }

  /** The intended `U1` on the same register gives state 2^32 amplitude -1. */
  lemma HighIntended(reg: Qreg)
    requires Indexed(reg) && 0 <= reg.width < WordSize
    requires reg.state == Some([Bit(32)]) && reg.amplitude == [One]
    ensures |PhaseFlip.t| == 4 && Matrix.Valid(PhaseFlip) && PhaseFlip.cols == 2 && PhaseFlip.rows == 2
    ensures U1(reg, 32, PhaseFlip).Ok?
    ensures var out := U1(reg, 32, PhaseFlip).value;
      Bit(32) in out.state.value
      && forall k | 0 <= k < out.Size() && out.state.value[k] == Bit(32) :: out.amplitude[k] == Gates.MinusOne
  {
    HighIntendedKeeps(reg);
    HighGate(reg);
  }
}

=== FILE: vector_add.dfy ===
/** Superposition of two registers (`ql_vectoradd_inplace` and
    `ql_vectoradd`, src/ql_qreg.c).

    With a hash table the library rebuilds `reg1`'s index, counts the
    states of `reg2` that `reg1` lacks, then walks `reg2` once more: a state
    `reg1` has gets `reg2`'s amplitude added to its own, a state it lacks is
    appended with `reg2`'s amplitude.  Lookups during the walk use the table
    built before the walk, so appended states are never found again.  Without
    a state array in `reg2` and without tables the amplitudes are added
    position by position.
 */
module VectorAdd {
  import opened Wrappers
  import opened Bits
  import opened Complex
  import opened HashIndex
  import opened Register

  /** The positions of `st2` whose state does not occur in `st1`, in
      increasing order. */
  function Missing(st1: seq<Word>, st2: seq<Word>): (ms: seq<nat>)
    ensures forall t | 0 <= t < |ms| :: ms[t] < |st2| && st2[ms[t]] !in st1
    ensures forall t, u | 0 <= t < u < |ms| :: ms[t] < ms[u]
    ensures forall i | 0 <= i < |st2| && st2[i] !in st1 :: i in ms
    decreases |st2|
  {
    if |st2| == 0 then []
    else
      var n := |st2| - 1;
      Missing(st1, st2[..n]) + (if st2[n] in st1 then [] else [n])
  }

  lemma MissingStep(st1: seq<Word>, st2: seq<Word>, i: nat)
    requires i < |st2|
    ensures Missing(st1, st2[..i + 1]) == Missing(st1, st2[..i]) + (if st2[i] in st1 then [] else [i])
  {
    assert st2[..i + 1][..i] == st2[..i];
  }

  /** Reference sum: `amp` with the amplitudes of every entry of `reg2` whose
      state is `s` added one after another, in `reg2`'s order. */
  function AddMatching(amp: Complex, s: Word, st2: seq<Word>, a2: seq<Complex>): (sum: Complex)
    requires |st2| == |a2|
    ensures (forall i | 0 <= i < |st2| :: st2[i] != s) ==> sum == amp
    decreases |st2|
  {
    if |st2| == 0 then amp
    else
      var n := |st2| - 1;
      var prev := AddMatching(amp, s, st2[..n], a2[..n]);
      if st2[n] == s then Add(prev, a2[n]) else prev
  }

  lemma AddMatchingStep(amp: Complex, s: Word, st2: seq<Word>, a2: seq<Complex>, i: nat)
    requires |st2| == |a2| && i < |st2|
    ensures AddMatching(amp, s, st2[..i + 1], a2[..i + 1])
      == (var prev := AddMatching(amp, s, st2[..i], a2[..i]); if st2[i] == s then Add(prev, a2[i]) else prev)
  {
    assert st2[..i + 1][..i] == st2[..i];
    assert a2[..i + 1][..i] == a2[..i];
  }

  /** When `s` occurs once in `reg2`, at position `i`, the two amplitudes
      are simply summed. */
  lemma {:induction false} AddMatchingOnce(amp: Complex, s: Word, st2: seq<Word>, a2: seq<Complex>, i: nat)
    requires |st2| == |a2| && i < |st2| && st2[i] == s
    requires forall k | 0 <= k < |st2| && k != i :: st2[k] != s
    ensures AddMatching(amp, s, st2, a2) == Add(amp, a2[i])
    decreases |st2|
  {
    var n := |st2| - 1;
    if i < n {
      AddMatchingOnce(amp, s, st2[..n], a2[..n], i);
    } else {
      assert AddMatching(amp, s, st2[..n], a2[..n]) == amp;
    }
  }

  /** A register whose index can be rebuilt and looked up: it has a table,
      its states are all different and at least one slot stays free. */
  ghost predicate Indexed(reg: Qreg)
  {
    WellFormed(reg) && reg.hashw != 0 && reg.state.Some? && Distinct(reg.state.value)
    && reg.Size() < Pow2(reg.hashw)
  }

  /** After the rebuild a lookup finds every state of `reg1` at its own
      position and reports every other state absent. */
  lemma RebuiltLookup(reg: Qreg, a: Word)
    requires Indexed(reg)
    ensures ReconstructHash(reg.hash.value, reg.hashw, reg.state.value, reg.Size()).Ok?
    ensures var t := ReconstructHash(reg.hash.value, reg.hashw, reg.state.value, reg.Size()).value;
      EntriesIn(t, |reg.state.value|)
      && (a in reg.state.value ==>
            exists k | 0 <= k < reg.Size() :: reg.state.value[k] == a && GetState(reg.hashw, t, reg.state.value, a) == Index(k))
      && (a !in reg.state.value ==> GetState(reg.hashw, t, reg.state.value, a) == Absent)
  {
    var st := reg.state.value;
    ReconstructCorrect(reg.hash.value, reg.hashw, st, reg.Size());
    var t := ReconstructHash(reg.hash.value, reg.hashw, st, reg.Size()).value;
    if a in st {
      var k :| 0 <= k < |st| && st[k] == a;
      assert GetState(reg.hashw, t, st, st[k]) == Index(k);
    }
  }

  /** What a lookup in a rebuilt index reports, for every state. */
  ghost predicate Answers(hashw: nat, table: seq<nat>, st1: seq<Word>)
  {
    1 <= hashw <= 30 && |table| == Pow2(hashw) && EntriesIn(table, |st1|)
    && forall a: Word :: (a in st1 ==> GetState(hashw, table, st1, a).Index?) && (a !in st1 ==> GetState(hashw, table, st1, a) == Absent)
  }

  lemma RebuiltAnswers(reg: Qreg)
    requires Indexed(reg)
    ensures ReconstructHash(reg.hash.value, reg.hashw, reg.state.value, reg.Size()).Ok?
    ensures Answers(reg.hashw, ReconstructHash(reg.hash.value, reg.hashw, reg.state.value, reg.Size()).value, reg.state.value)
  {
    forall a: Word
      ensures ReconstructHash(reg.hash.value, reg.hashw, reg.state.value, reg.Size()).Ok?
      ensures var t := ReconstructHash(reg.hash.value, reg.hashw, reg.state.value, reg.Size()).value;
        EntriesIn(t, |reg.state.value|) && (a in reg.state.value ==> GetState(reg.hashw, t, reg.state.value, a).Index?)
        && (a !in reg.state.value ==> GetState(reg.hashw, t, reg.state.value, a) == Absent)
    {
      RebuiltLookup(reg, a);
    }
    RebuiltLookup(reg, ZeroWord());
  }

  /** The counting loop: `addsize` is the number of `reg2` entries the
      rebuilt index reports absent. */
  method CountMissing(hashw: nat, table: seq<nat>, st1: seq<Word>, st2: seq<Word>) returns (addsize: nat)
    requires Answers(hashw, table, st1)
    ensures addsize == |Missing(st1, st2)|
  {
    addsize := 0;
    var i := 0;
    while i < |st2|
      invariant i <= |st2| && addsize == |Missing(st1, st2[..i])|
    {
      MissingStep(st1, st2, i);
      if GetState(hashw, table, st1, st2[i]) == Absent {
        addsize := addsize + 1;
      }
      i := i + 1;
    }
    assert st2[..|st2|] == st2;
  }

  /** The arrays after the merge loop has handled the first `i` entries of `reg2`. */
  ghost predicate Merged(st1: seq<Word>, a1: seq<Complex>, st2: seq<Word>, a2: seq<Complex>, i: nat,
                         states: seq<Word>, amps: seq<Complex>)
    requires |st1| == |a1| && |st2| == |a2| && i <= |st2|
  {
    var ms := Missing(st1, st2[..i]);
    |states| == |amps| == |st1| + |ms|
    && states == st1 + Pick(st2, ms)
    && amps[|st1|..] == Pick(a2, ms)
    && forall j | 0 <= j < |st1| :: amps[j] == AddMatching(a1[j], st1[j], st2[..i], a2[..i])
  }

  /** The AddMatching sums of `reg1`'s entries after one more entry of `reg2`. */
  lemma AddMatchingAll(st1: seq<Word>, a1: seq<Complex>, st2: seq<Word>, a2: seq<Complex>, i: nat)
    requires |st1| == |a1| && |st2| == |a2| && i < |st2|
    ensures forall j | 0 <= j < |st1| ::
      AddMatching(a1[j], st1[j], st2[..i + 1], a2[..i + 1])
        == (var prev := AddMatching(a1[j], st1[j], st2[..i], a2[..i]); if st2[i] == st1[j] then Add(prev, a2[i]) else prev)
  {
    forall j | 0 <= j < |st1|
      ensures AddMatching(a1[j], st1[j], st2[..i + 1], a2[..i + 1])
        == (var prev := AddMatching(a1[j], st1[j], st2[..i], a2[..i]); if st2[i] == st1[j] then Add(prev, a2[i]) else prev)
    {
      AddMatchingStep(a1[j], st1[j], st2, a2, i);
    }
  }

  /** A state `reg1` holds at position `j`: its amplitude gains `reg2`'s. */
  lemma MergeFound(st1: seq<Word>, a1: seq<Complex>, st2: seq<Word>, a2: seq<Complex>, i: nat,
                   states: seq<Word>, amps: seq<Complex>, j: nat)
    requires Distinct(st1) && |st1| == |a1| && |st2| == |a2| && i < |st2|
    requires j < |st1| && st1[j] == st2[i]
    requires Merged(st1, a1, st2, a2, i, states, amps)
    ensures Merged(st1, a1, st2, a2, i + 1, states, amps[j := Add(amps[j], a2[i])])
  {
    MissingStep(st1, st2, i);
    AddMatchingAll(st1, a1, st2, a2, i);
    assert forall k | 0 <= k < |st1| && k != j :: st1[k] != st2[i];
  }

  /** A state `reg1` lacks: it is appended with `reg2`'s amplitude. */
  lemma MergeAppend(st1: seq<Word>, a1: seq<Complex>, st2: seq<Word>, a2: seq<Complex>, i: nat,
                    states: seq<Word>, amps: seq<Complex>)
    requires |st1| == |a1| && |st2| == |a2| && i < |st2|
    requires st2[i] !in st1
    requires Merged(st1, a1, st2, a2, i, states, amps)
    ensures Merged(st1, a1, st2, a2, i + 1, states + [st2[i]], amps + [a2[i]])
  {
    var ms := Missing(st1, st2[..i]);
    var ms' := ms + [i];
    var states', amps' := states + [st2[i]], amps + [a2[i]];
    assert Missing(st1, st2[..i + 1]) == ms' by {
      MissingStep(st1, st2, i);
    }
    assert states' == st1 + Pick(st2, ms') by {
      assert Pick(st2, ms') == Pick(st2, ms) + [st2[i]];
    }
    assert amps'[|st1|..] == Pick(a2, ms') by {
      assert Pick(a2, ms') == Pick(a2, ms) + [a2[i]];
      assert amps'[|st1|..] == amps[|st1|..] + [a2[i]];
    }
    assert forall j | 0 <= j < |st1| :: amps'[j] == AddMatching(a1[j], st1[j], st2[..i + 1], a2[..i + 1]) by {
      AddMatchingAll(st1, a1, st2, a2, i);
      assert forall j | 0 <= j < |st1| :: st1[j] != st2[i];
    }
  }

  /** One pass of the merge loop: add to the entry the index finds, or append. */
  method MergeOne(hashw: nat, table: seq<nat>, st1: seq<Word>, a1: seq<Complex>, st2: seq<Word>, a2: seq<Complex>,
                  i: nat, states: seq<Word>, amps: seq<Complex>) returns (states': seq<Word>, amps': seq<Complex>)
    requires Answers(hashw, table, st1) && Distinct(st1)
    requires |st1| == |a1| && |st2| == |a2| && i < |st2|
    requires Merged(st1, a1, st2, a2, i, states, amps)
    ensures Merged(st1, a1, st2, a2, i + 1, states', amps')
  {
    match GetState(hashw, table, st1, st2[i])
    case Index(j) =>
      MergeFound(st1, a1, st2, a2, i, states, amps, j);
      states', amps' := states, amps[j := Add(amps[j], a2[i])];
    case Absent =>
      MergeAppend(st1, a1, st2, a2, i, states, amps);
      states', amps' := states + [st2[i]], amps + [a2[i]];
    case Spins =>
      assert false;
      states', amps' := states, amps;
  }

  /** `ql_vectoradd_inplace(reg1, reg2)` for a register `reg1` with a
      table: the states of `reg1` keep their positions, each gains the
      amplitudes of the equal states of `reg2`, the states `reg1` lacks are
      appended in `reg2`'s order with `reg2`'s amplitudes, and `reg1`'s table
      is the rebuilt one. */
  method VectorAddInPlace(reg1: Qreg, reg2: Qreg) returns (r: Qreg)
    requires Indexed(reg1) && WellFormed(reg2) && reg2.state.Some?
    ensures var st1, st2 := reg1.state.value, reg2.state.value;
      var ms := Missing(st1, st2);
      WellFormed(r) && r.width == reg1.width && r.hashw == reg1.hashw
      && ReconstructHash(reg1.hash.value, reg1.hashw, st1, |st1|).Ok?
      && r.hash == Some(ReconstructHash(reg1.hash.value, reg1.hashw, st1, |st1|).value)
      && r.Size() == |st1| + |ms|
      && r.state == Some(st1 + Pick(st2, ms))
      && r.amplitude[|st1|..] == Pick(reg2.amplitude, ms)
      && forall j | 0 <= j < |st1| :: r.amplitude[j] == AddMatching(reg1.amplitude[j], st1[j], st2, reg2.amplitude)
  {
    var st1, st2, a2 := reg1.state.value, reg2.state.value, reg2.amplitude;
    RebuiltAnswers(reg1);
    var table := ReconstructHash(reg1.hash.value, reg1.hashw, st1, |st1|).value;
    var addsize := CountMissing(reg1.hashw, table, st1, st2);

    var states, amps := st1, reg1.amplitude;
    var i := 0;
    assert st1 + Pick(st2, []) == st1;
    while i < |st2|
      invariant i <= |st2|
      invariant Merged(st1, reg1.amplitude, st2, a2, i, states, amps)
    {
      states, amps := MergeOne(reg1.hashw, table, st1, reg1.amplitude, st2, a2, i, states, amps);
      i := i + 1;
    }
    assert st2[..|st2|] == st2 && a2[..|a2|] == a2;
    r := reg1.(amplitude := amps, state := Some(states), hash := Some(table));
    assert |states| == |st1| + addsize;
  }

  /** `ql_vectoradd_inplace` when `reg2` has no state array and neither
      register has a table: amplitude `i` of `reg2` is added to amplitude
      `i` of `reg1`; nothing else changes. */
  function VectorAddDense(reg1: Qreg, reg2: Qreg): (r: Qreg)
    requires reg1.hashw == 0 && reg2.hashw == 0 && reg2.state.None?
    requires reg2.Size() <= reg1.Size()
    ensures r.width == reg1.width && r.hashw == 0 && r.state == reg1.state && r.hash == reg1.hash
    ensures r.Size() == reg1.Size()
    ensures forall i | 0 <= i < reg2.Size() :: r.amplitude[i] == Add(reg1.amplitude[i], reg2.amplitude[i])
    ensures r.amplitude[reg2.Size()..] == reg1.amplitude[reg2.Size()..]
  {
    var n2 := reg2.Size();
    var sums := seq(n2, i requires 0 <= i < n2 => Add(reg1.amplitude[i], reg2.amplitude[i]));
    reg1.(amplitude := sums + reg1.amplitude[n2..])
  }

  /** Adding registers without repeated states gives a register without
      repeated states: the appended states are new to `reg1` and different
      from one another. */
  lemma VectorAddDistinct(st1: seq<Word>, st2: seq<Word>)
    requires Distinct(st1) && Distinct(st2)
    ensures Distinct(st1 + Pick(st2, Missing(st1, st2)))
  {
    var ms := Missing(st1, st2);
    var out := st1 + Pick(st2, ms);
    forall p, q | 0 <= p < q < |out|
      ensures out[p] != out[q]
    {
      if q >= |st1| && p >= |st1| {
        assert ms[p - |st1|] < ms[q - |st1|];
      }
    }
  }

  /** `ql_vectoradd(reg1, reg2)`: the same sum built in a copy of `reg1`.
      The copy gets a fresh, empty table (it is made after `reg1`'s index
      is rebuilt, and the table of the copy is never filled); `reg1` itself
      keeps its entries and ends with the rebuilt table. */
  method VectorAddCopy(reg1: Qreg, reg2: Qreg) returns (r: Qreg, reg1After: Qreg)
    requires Indexed(reg1) && WellFormed(reg2) && reg2.state.Some?
    ensures var st1, st2 := reg1.state.value, reg2.state.value;
      var ms := Missing(st1, st2);
      WellFormed(r) && r.width == reg1.width && r.hashw == reg1.hashw
      && r.hash == Some(EmptyTable(reg1.hashw))
      && r.state == Some(st1 + Pick(st2, ms))
      && r.amplitude[|st1|..] == Pick(reg2.amplitude, ms)
      && (forall j | 0 <= j < |st1| :: r.amplitude[j] == AddMatching(reg1.amplitude[j], st1[j], st2, reg2.amplitude))
      && reg1After.amplitude == reg1.amplitude && reg1After.state == reg1.state
      && ReconstructHash(reg1.hash.value, reg1.hashw, st1, |st1|).Ok?
      && reg1After.hash == Some(ReconstructHash(reg1.hash.value, reg1.hashw, st1, |st1|).value)
  {
    var sum := VectorAddInPlace(reg1, reg2);
    reg1After := reg1.(hash := sum.hash);
    r := sum.(hash := Some(EmptyTable(reg1.hashw)));
  }
}

=== FILE: wrappers.dfy ===
/** Failure-carrying results shared by every module.

    The library reports every fatal condition through `ql_error` with one of
    the integer codes of `ql_error.h`.  The model returns `Fail(code)` at the
    point where the library calls `ql_error`; what happens after an installed
    handler returns is not modelled.
 */
module Wrappers {

  datatype Option<+T> = None | Some(value: T)

  datatype Result<+T> = Ok(value: T) | Fail(code: int) {
    predicate IsFailure() {
      Fail?
    }

    function PropagateFailure<U>(): Result<U>
      requires Fail?
    {
      Fail(code)
    }

    function Extract(): T
      requires Ok?
    {
      value
    }
  }
}
